=== FILE: README.md ===
# BRICKbuilder scene editing and graph synchronisation, in Dafny

BRICKbuilder is a diagram editor for Brick building models. Entities of a fixed library
(valves, pumps, sensors and the like, and the `Point` types) are dropped on a canvas.
Entities are joined by connections from port to port. A connection carries a Brick
relationship (`feeds`, `hasPoint`, `isPointOf`, …), routing joints and one arrow marker per
segment. A design is saved as an RDF graph and loaded back from one.

This project models the editing logic once the graphics toolkit is taken away:

- the scene items (`src/app/items.py`): grid snapping, rotation, the connection lists of
  ports, and the life cycle of a connection;
- the canvas (`src/app/widgets.py`):
  - dropping entities;
  - drafting and completing connections;
  - rotating, deleting, copying and pasting the selection;
  - the Points toggle and the relabelling of entities;
  - the export of the scene to triples;
  - the three-pass import;
- the URI helpers and the entity library (`src/model.py`);
- the namespace utilities (`src/ontologies/namespaces/__init__.py`);
- the external-reference records of a Point and their list (`src/app/dialogs.py`).

## Layout

| file | module | what it holds |
|---|---|---|
| `wrappers.dfy` | `Wrappers` | `Option`, `Result` and the Python exceptions the core raises |
| `strings.dfy` | `Strings` | `str.find`/`rfind`/`split`/`join`/`replace`/`strip` and decimal digits, with their laws |
| `pymath.dfy` | `PyMath` | Python's `round` (half to even) on reals |
| `pynumbers.dfy` | `PyNumbers` | Python's `int(s)` and `float(s)` on a string, and what they read from plain decimal text |
| `numtext.dfy` | `NumberText` | the text `str()` writes for a number, and what `int()` and `float()` read back from it |
| `config.dfy` | `Config` | `AppConfig`: grid size 25, Point line 900 (`canvas_height * 0.9`), namespaces |
| `rdf.dfy` | `Rdf` | terms, triples and graphs; `str`, `float`, `int` and truth value of a term; the Brick relationship table |
| `model.dfy` | `Model` | `split_uri`, `get_name`, `get_namespace`, the library and its lookup |
| `namespaces.dfy` | `Namespaces` | the namespace utilities |
| `items.dfy` | `Items` | entities, connections and joints as values; the `Scene` class (an arena of records by id) |
| `canvas.dfy` | `Widgets` | the canvas operations over a `Scene`, and the `Canvas` class |
| `persistence.dfy` | `Persistence` | `save_to_turtle` as triple generation, and what the written graph holds |
| `importer.dfy` | `GraphImport` | `import_from_graph`: pass 1 (entities) and the properties pass |
| `connimport.dfy` | `ConnectionImport` | `import_from_graph`: pass 2 (connections from `Connection` records) |
| `relimport.dfy` | `RelationshipImport` | `import_from_graph`: pass 3 (straight connections) and the whole import |
| `dialogs.dfy` | `Dialogs` | the reference dialog's `accept`, the display text, add/edit/delete |

### How Qt objects become Dafny state

- **The scene is an arena.** `Items.Scene` keeps every entity, every port's connection
  list and every connection under a numeric id, plus the next unused id.
  - Qt's `removeItem` does not destroy a Python object, so records are never deleted. Each
    record carries the `inScene` and `visible` flags that Qt would hold.
  - A port has the id of its entity.
  - `Scene.Valid` holds the well-formedness that every operation keeps:
    - every entity has a port list;
    - ids are below the counter;
    - the joints of a connection have distinct ids;
    - a port lists a connection at most as often as the connection has an end on it.
- **A selection is a sequence of items** naming records by id, in Qt's order.
- **Mouse positions arrive in scene coordinates.** The port under the cursor arrives as the
  id of its entity.
- **Instance URIs and `uuid4` identifiers come from the id counter**, not from randomness.
- **An RDF graph is a finite set of triples.**
  - A blank node is named after the item it describes.
  - Where rdflib's answer depends on iteration order, any answer is allowed, and the
    contracts hold for every one. This covers iteration over a graph and `g.value`
    choosing among several objects.
- **Python exceptions are the `Err` side of a `Result`.** The model raises the ones the
  source raises: `ValueError`, `TypeError` and `AttributeError`.

### Where the model follows the code

- Points carry external references, but `save_to_turtle` (src/app/widgets.py:1225-1312)
  writes none of them, and neither does the model.
- An imported entity is added to the scene before its position is set
  (src/app/widgets.py:1352, 1372). Imported positions are therefore snapped, and the model
  snaps them.
- A pasted entity is placed before it joins the scene (src/app/widgets.py:1098, 1107), so
  its position is not snapped. A pasted joint goes through `add_joint_at_point`, which does
  snap it.
- A cancelled draft only leaves the scene (src/app/widgets.py:714). It stays on its source
  port's list, as in the source.
- Every redraw that `Items.Scene` and `Widgets.Canvas` perform, and so every operation
  built on them, uses the corrected `Items.Redraw` of the first Findings row: redrawn arrows
  are shown exactly when their connection is. `Widgets.Canvas.Paste` follows the correction
  of the second row: a pasted connection is redrawn once it is in the scene. The code as
  written is modelled beside them by `Items.RedrawAsWritten` and
  `Widgets.PastedConnectionAsWritten`.
- `float()` and `int()` of an rdflib term read its text, as Python does for a `str`. An
  integer literal reads back as itself under both, a float literal reads back under
  `float()` and raises `ValueError` under `int()`, and a text literal is parsed.

## Model

| member | source | states |
|---|---|---|
| Model.SplitUri | src/model.py:8-18 | `ValueError` exactly when the URI has neither '#' nor '/'; otherwise at least two pieces, none holding the separator, that join back to the URI on '#' when present, else on '/' |
| Model.GetName | src/model.py:21-22 | fails exactly when `split_uri` does; otherwise a suffix of the URI without the separator used |
| Model.GetNamespace | src/model.py:25-26 | fails exactly when `split_uri` does |
| Model.NamespaceSlashName | src/model.py:21-26 | for a URI with '/' and no '#': namespace + "/" + name is the URI |
| Model.NamespaceHashName | src/model.py:21-26 | for a URI with exactly one '#': namespace + "#" + name is the URI |
| Model.EntityType.Name | src/model.py:53-55 | `Entity.name` is a suffix of the type URI |
| Model.PointType | src/model.py:62-79 | every Point type is a 25 by 50 Point whose port sits at (12.5, 25), whatever its URI and category |
| Model.Lookup | src/model.py:670-675 | a found type has the URI asked for; otherwise `AttributeError` |
| Model.FirstWithUri | src/model.py:670-675 | the search from position `i` finds only the URI asked for, or raises `AttributeError` |
| Model.FirstWithUriSpec | src/model.py:670-675 | the search succeeds exactly when some entry at or after `i` has the URI, and then returns the first such entry |
| Model.FindEntityByUri | src/model.py:666-675 | the loop over `get_all_entities` finds a type exactly when the library has that URI, returns the first such entry, and otherwise raises `AttributeError` |
| Model.EntryNames | src/model.py:53-55 | every library entry has a name |
| Model.ValveName | src/model.py:85-95 | the first entry of the library is named "Valve" |
| Namespaces.ReplaceLastSlash | src/ontologies/namespaces/__init__.py:61-68 | same length; unchanged without '/'; otherwise only the last '/' becomes '#' |
| Namespaces.ToUri | src/ontologies/namespaces/__init__.py:101-110 | a URI reference or a string passes through; `None` gives `None`; anything else raises `TypeError` |
| Namespaces.SplitAtSeparator | src/ontologies/namespaces/__init__.py:78-85 | `ValueError` exactly when none of '#', '/', ':' occurs; otherwise namespace + term is the URI, the namespace ends with the first separator found in that order, and the term does not contain it |
| Namespaces.SplitUri | src/ontologies/namespaces/__init__.py:71-85 | `None` gives `None`, a non-URI raises `TypeError`, and a URI is split as by `SplitAtSeparator` |
| Namespaces.FirstPrefix | src/ontologies/namespaces/__init__.py:92-98 | none exactly when no binding from `i` on is a prefix of the URI; otherwise the abbreviation of the first one that is |
| Namespaces.FindAbbreviation | src/ontologies/namespaces/__init__.py:88-98 | `None` exactly when no namespace of the table is a prefix of the URI; otherwise the abbreviation of the first binding, in table order, that is |
| Namespaces.ToLabel | src/ontologies/namespaces/__init__.py:113-130 | `None` gives `None`; fails exactly when `split_uri` fails; otherwise the abbreviation, or failing that the namespace, then "." and the term |
| Namespaces.BrickLabel | src/ontologies/namespaces/__init__.py:113-130 | a Brick URI is labelled "brick." followed by its local name |
| Namespaces.BrickSplit | src/ontologies/namespaces/__init__.py:71-85 | a Brick URI splits into the Brick namespace and its local name |
| Namespaces.BrickAbbreviation | src/ontologies/namespaces/__init__.py:44-58 | every URI under the Brick namespace is abbreviated "brick", although earlier bindings are tried first |
| Namespaces.PrefixSkip | src/ontologies/namespaces/__init__.py:94-96 | bindings that are not prefixes of the URI can be skipped without changing the answer |
| Namespaces.ReplaceTerm | src/ontologies/namespaces/__init__.py:152-157 | a term that is not a URI reference starting with `oldns` is untouched; one that is starts with `newns` afterwards |
| Namespaces.ReplaceNamespace | src/ontologies/namespaces/__init__.py:147-161 | the new graph is the image of the old one under the per-term rewrite, and it has at most as many triples |
| Namespaces.ReplaceNamespaceSelf | src/ontologies/namespaces/__init__.py:147-161 | replacing a namespace by itself gives back the same graph |
| Namespaces.ReplaceTermSelf | src/ontologies/namespaces/__init__.py:152-157 | replacing a namespace by itself leaves every term as it is |
| Namespaces.FilterByNamespace | src/ontologies/namespaces/__init__.py:164-173 | exactly the triples of the input one of whose terms, as a string, starts with the namespace |
| Items.GridRound | src/app/items.py:209-217 | the result lies on a grid line, at most half a cell from the input |
| Items.GridRoundOnGrid | src/app/items.py:209-217 | a value on a grid line rounds to itself |
| Items.EntitySnap | src/app/items.py:56-81 | the centre's x lies on the grid within half a cell of the request; a Point's y puts its centre on the Point line; any other entity's y snaps like x |
| Items.EntitySnapIdempotent | src/app/items.py:56-81 | snapping a snapped position returns it unchanged |
| Items.JointSnap | src/app/items.py:466-468 | both coordinates land on grid lines, each within half a cell of the request |
| Items.JointSnapIdempotent | src/app/items.py:466-468 | snapping a joint twice is snapping it once |
| Items.NormalizeAngle | src/app/items.py:83-86 | the stored angle is in [0, 360), differs from the request by a multiple of 360, and is the request itself when that is already in range |
| Items.QuarterTurn | src/app/items.py:105-108 | the angle after a quarter turn is in [0, 360) |
| Items.FourQuarterTurns | src/app/items.py:105-108 | four quarter turns restore a stored angle |
| Items.Redraw | src/app/items.py:258-322 | the corrected half of the first Findings row: a connection without a source is left alone; otherwise only its arrows change, to one per complete segment, each with the connection's pen and colour and shown exactly when the connection is |
| Items.ArrowCount | src/app/items.py:258-322 | never more arrows than segments; one per segment exactly when there is a target; none without a target or a free end |
| Items.RedrawAsWritten | src/app/items.py:258-370 | as written, the fresh arrows are shown whatever the connection's own visibility |
| Items.HiddenConnectionShowsArrows | src/app/items.py:258-370 | a hidden complete connection redrawn as written has visible arrows and a hidden line |
| Items.RedrawArrows | src/app/items.py:283-322 | a complete path gets `len(joints) + 1` arrows; a draft with a free end gets `len(joints)`; neither gets none; every arrow is shown exactly when the connection is |
| Items.RedrawIdempotent | src/app/items.py:266-281 | clearing and redrawing the arrows twice is doing it once |
| Items.NewRecord | src/app/items.py:223-254 | a new connection has the given ends, type `feeds` unless one is given, and no joints or arrows |
| Items.WithRelationshipType | src/app/items.py:422-445 | the type is stored; the pen is dashed exactly for `hasPoint`/`isPointOf` and solid otherwise, with colour and width kept; every arrow takes the new pen and the old colour; nothing else changes |
| Items.RelationshipTypeLastWins | src/app/items.py:422-445 | setting a type twice is setting the second |
| Items.RelationshipTypeKeepsDrawn | src/app/items.py:422-445 | setting the type keeps the arrows in step with the pen |
| Items.Reversed | src/app/items.py:412-420 | the ports are swapped |
| Items.ReverseTwice | src/app/items.py:412-420 | reversing a drawn connection twice gives it back |
| Items.WithJoint | src/app/items.py:459-482 | one joint is appended, snapped to the grid in both coordinates; earlier joints are unchanged |
| Items.SnappedJoints | src/app/items.py:459-470 | the joints added at a sequence of points are those points snapped, with consecutive ids |
| Items.WithJointsSpec | src/app/items.py:459-482 | adding joints appends them and changes nothing but the joints and arrows, redrawn once any joint is added |
| Items.WithJointsSnoc | src/app/items.py:459-482 | joints added one at a time are the joints added all at once |
| Items.Removed | src/app/items.py:390-410 | joints and arrows cleared, out of the scene |
| Items.WithoutJoint | src/app/widgets.py:965-969 | `joints.remove(joint)`: no longer, keeps only joints it had, and changes nothing when the joint is absent |
| Items.KeepJoints | src/app/widgets.py:965-969 | the joints outside the dropped set, a subsequence of the original |
| Items.KeepJointsAbsent | src/app/widgets.py:965-969 | dropping an id no joint carries changes nothing |
| Items.WithoutJointKeep | src/app/widgets.py:965-972 | deleting selected joints one after the other leaves exactly the joints outside all of them, in order |
| Items.KeepJointsNone | src/app/widgets.py:965-969 | dropping nothing keeps every joint |
| Items.WithVisibility | src/app/widgets.py:1186-1192 | the line and every arrow take the new visibility, nothing else changes |
| Items.WithVisibilityLast | src/app/widgets.py:1186-1192 | the last visibility set wins, and a drawn connection stays drawn |
| Items.Count | src/app/items.py:168-175 | a list holds a connection exactly when it counts it at least once |
| Items.CountAppend | src/app/items.py:168-170 | appending adds one occurrence of the appended connection and none of any other |
| Items.RemoveFirst | src/app/items.py:172-175 | `remove_connection` of an absent connection changes nothing |
| Items.CountRemoveFirst | src/app/items.py:172-175 | removal takes away exactly one occurrence when there is one, and nothing else |
| Items.Register | src/app/items.py:168-170 | `add_connection` appends to the end's port list and keeps every other list |
| Items.Unregister | src/app/items.py:172-175 | `remove_connection` touches only the end's port list |
| Items.RegisterCount | src/app/items.py:168-170 | exactly one more registration on the port of the end, no other count changes |
| Items.UnregisterCount | src/app/items.py:172-175 | one registration fewer when present, a no-op otherwise |
| Items.UnregisterAbsent | src/app/items.py:172-175 | unregistering a connection no list holds changes nothing |
| Items.Listed | src/app/items.py:168-175 | in a well-formed scene a port lists only connections |
| Items.JointsOkWithJoint | src/app/items.py:459-482 | appending a joint under the next id keeps joint ids distinct |
| Items.JointsOkWithoutJoint | src/app/widgets.py:965-969 | removing a joint keeps the others distinct and leaves none with its id |
| Items.WfConnUpdate | src/app/items.py:258-274 | changing a connection other than in its ends keeps the scene well formed |
| Items.WfAddJoint | src/app/items.py:459-482 | adding a joint keeps the scene well formed |
| Items.WfEntityUpdate | src/app/items.py:83-108 | changing an entity keeps the scene well formed |
| Items.WfNewEntity | src/app/items.py:19-45 | a new entity with an empty port keeps the scene well formed |
| Items.CreateAt | src/app/items.py:241-245 | a new connection is on each port exactly as often as it has ends there; other counts unchanged |
| Items.WfCreateConnection | src/app/items.py:223-256 | constructing a connection keeps the scene well formed |
| Items.RetargetAt | src/app/items.py:377-388 | after retargeting, no port lists the connection more often than it has ends there |
| Items.WfRetarget | src/app/items.py:377-388 | `set_target_port` keeps the scene well formed |
| Items.RemoveAt | src/app/items.py:390-397 | after `remove`, no port lists the connection and every other count is unchanged |
| Items.WfRemove | src/app/items.py:390-410 | `remove` keeps the scene well formed and leaves the connection on no list |
| Items.Scene.NewEntity | src/app/items.py:19-45 | an unknown type raises `AttributeError` and changes nothing; otherwise a new entity of that type with a fresh URI, empty label, rotation 0, an empty port, out of the scene |
| Items.Scene.AddEntityToScene | src/app/widgets.py:641 | `scene.addItem` of an entity: it is in the scene; nothing else changes |
| Items.Scene.RemoveEntityFromScene | src/app/widgets.py:964 | `scene.removeItem` of an entity: it is out of the scene and its record stays; nothing else changes |
| Items.Scene.AddConnectionToScene | src/app/widgets.py:1150 | `scene.addItem` of a connection: the connection is in the scene, and its arrows are not added with it; nothing else changes |
| Items.Scene.RemoveConnectionFromScene | src/app/widgets.py:714 | `scene.removeItem` of a connection: it is out of the scene and its record stays; nothing else changes |
| Items.Scene.SetPen | src/app/widgets.py:1137 | `connection.setPen(pen)`: only the connection's pen changes, not its arrows' |
| Items.Scene.SetLabel | src/app/widgets.py:146 | `item.label = text`: only that entity's label changes |
| Items.Scene.SetEntityUri | src/app/widgets.py:1349 | `entity_item.instance_uri = subject`: only that entity's URI changes |
| Items.Scene.SetEntityVisible | src/app/widgets.py:1179 | `item.setVisible(flag)` on an entity: only its visibility changes |
| Items.Scene.SetConnectionUri | src/app/widgets.py:1408 | `connection.instance_uri = conn_uri`: only that connection's URI changes |
| Items.Scene.RedrawOn | src/app/items.py:177-180 | exactly the listed connections are redrawn |
| Items.Scene.UpdateConnections | src/app/items.py:177-180 | every connection on the port is redrawn; nothing else changes |
| Items.Scene.SetEntityPos | src/app/items.py:47-81 | an entity in a scene is snapped, and its port's connections redrawn when it moved; outside a scene it takes the position as given |
| Items.Scene.ApplyRotation | src/app/items.py:83-103 | the angle is stored modulo 360 and the port's connections redrawn |
| Items.Scene.Rotate90 | src/app/items.py:105-108 | a quarter turn clockwise, with the port's connections redrawn |
| Items.Scene.NewConnection | src/app/items.py:223-256 | a fresh id; registered on the source's port, then the target's; type `feeds` unless given; default pen; redrawn |
| Items.Scene.UpdatePosition | src/app/items.py:258-274 | the one connection is redrawn |
| Items.Scene.SetCurrentEndPos | src/app/items.py:372-375 | the free end moves and the path is redrawn |
| Items.Scene.SetTargetPort | src/app/items.py:377-388 | off the old target's list, onto the new one's, new target stored, redrawn |
| Items.Scene.Remove | src/app/items.py:390-410 | off both lists, no joints or arrows, out of the scene; a second `remove` changes nothing |
| Items.Scene.Reverse | src/app/items.py:412-420 | source and target swap, as the entity URIs at the ends show; port lists unchanged |
| Items.Scene.SetRelationshipType | src/app/items.py:422-445 | the connection becomes `WithRelationshipType` of itself; nothing else changes |
| Items.Scene.AddJointAtPoint | src/app/items.py:459-482 | a new snapped joint with a fresh id is appended and the path redrawn |
| Items.Scene.AddJointsAtPoints | src/app/widgets.py:1140-1147 | joints added at each point in turn, in order, with consecutive fresh ids |
| Items.Scene.DeleteJoint | src/app/widgets.py:965-972 | the joint leaves the connection, which is redrawn, and no joint with its id remains |
| Items.Scene.SetConnectionVisible | src/app/widgets.py:1186-1192 | the connection and each arrow take the visibility |
| Items.Scene.SourceEntityUri | src/app/items.py:447-451 | present exactly when the source port belongs to an entity, and then that entity's URI |
| Items.Scene.TargetEntityUri | src/app/items.py:453-457 | present exactly when the target port belongs to an entity, and then that entity's URI |
| Widgets.DropPos | src/app/widgets.py:626-638 | the drop point snaps to the grid and the drawing is centred on it; a Point's centre is on the Point line |
| Widgets.DropPosSnapped | src/app/widgets.py:626-641 | a dropped entity is already where snapping would put it |
| Widgets.DropPosExample | src/app/widgets.py:626-638 | a 50 by 50 shape dropped at (103, 207) lands at (75, 175) |
| Widgets.CompletedDraftRelation | src/app/widgets.py:681-704 | `isPointOf` from a Point, otherwise `hasPoint` to a Point, otherwise `feeds`; dashed exactly for a Point relationship; stays drawn |
| Widgets.CompletedDraft | src/app/widgets.py:681-704 | completing keeps the ends, joints, URI and number of arrows; with a Point at either end the type is a Point relationship, drawn dashed |
| Widgets.RegisterSourceOnly | src/app/widgets.py:662 | a draft is listed on its source port only |
| Widgets.DraftFrom | src/app/widgets.py:656-669 | a new draft from the port, in the scene, free end set, on the source's list only |
| Widgets.CompleteDraft | src/app/widgets.py:671-716 | on another port the draft takes it as target with the inferred relationship; otherwise it leaves the scene |
| Widgets.SelectedPortListsSpec | src/app/widgets.py:932-933 | the connections redrawn by a rotation are exactly those on a selected entity's port |
| Widgets.RotatedSpec | src/app/widgets.py:923-933 | exactly the selected entities turn, each by one quarter; nothing else changes |
| Widgets.EntityCascade | src/app/widgets.py:953-961 | the connections a selected entity's port lists when its turn comes are, with those already removed, the ones it listed before |
| Widgets.DeletedEntitiesSpec | src/app/widgets.py:953-964 | exactly the selected entities leave the scene |
| Widgets.RemoveEntityConnections | src/app/widgets.py:953-961 | every connection on the entity's port is removed, from a copy of the list |
| Widgets.DeleteItems | src/app/widgets.py:939-978 | removed connections are off every list, without joints, out of the scene with their arrows; every other connection lost exactly its selected joints; exactly the selected entities left the scene |
| Widgets.ToggledSpec | src/app/widgets.py:1175-1192 | exactly the Points and the `hasPoint`/`isPointOf` connections, with their arrows, take the flag; nothing else changes |
| Widgets.ToggleLastWins | src/app/widgets.py:1171-1192 | the last toggle alone decides the visibility of the Points |
| Widgets.ToggleTwiceRestores | src/app/widgets.py:1171-1192 | toggling twice restores every visibility when the Points were all at the flag before |
| Widgets.ToggleTwiceHidesNewPoint | src/app/widgets.py:1171-1192 | a Point dropped while the Points are hidden is hidden by the next two toggles |
| Widgets.SetPointsVisibility | src/app/widgets.py:1175-1192 | the loop sets exactly the Points and Point relationships of the scene, with their arrows, to the flag |
| Widgets.EntityCount | src/app/widgets.py:193 | positive exactly when the selection holds an entity |
| Widgets.ConnectionCount | src/app/widgets.py:194 | positive exactly when the selection holds a connection |
| Widgets.ClassifySelection | src/app/widgets.py:215-225 | entities only, connections only, or mixed, by what the selection holds |
| Widgets.Classify | src/app/widgets.py:215-225 | entities only exactly when some entity and no connection are counted; connections only exactly when the reverse; mixed exactly when both or neither are |
| Widgets.UpdateEntityLabel | src/app/widgets.py:141-146 | every selected entity takes the label text; nothing else changes |
| Widgets.LabelledSpec | src/app/widgets.py:141-146 | exactly the selected entities get that label |
| Widgets.CopiedOrigins | src/app/widgets.py:992-1002 | the first pass copies exactly the selected entities |
| Widgets.CopiedEntries | src/app/widgets.py:992-1002 | each selected entity is copied once, in selection order, with its type, position and rotation |
| Widgets.JointPositions | src/app/widgets.py:1035 | the joint positions in path order |
| Widgets.PastePos | src/app/widgets.py:1085-1098 | x + 50; y + 50, except a Point, whose centre goes on the Point line |
| Widgets.PastedEntitiesSpec | src/app/widgets.py:1077-1113 | every existing entity is kept, and the copy of the k-th copied entity is added under the k-th fresh id |
| Widgets.PastedPortsSpec | src/app/widgets.py:1080 | every copy gets an empty port list and the other lists are kept |
| Widgets.PasteMappingSpec | src/app/widgets.py:1113 | the mapping sends each copied original to the id of its last copy |
| Widgets.Offsets | src/app/widgets.py:1142-1143 | each copied joint position moved by (50, 50) |
| Widgets.PastedJoints | src/app/widgets.py:1140-1147 | the copied joint positions, moved by (50, 50), snapped, in order, with fresh ids |
| Widgets.PasteLeavesArrowsOut | src/app/widgets.py:1131-1150 | as written, a pasted connection is in the scene but none of its arrows is |
| Widgets.PastedConnectionAsWritten | src/app/widgets.py:1131-1150 | as written, the pasted connection joins the copies of its ends with the copied type and pen, is in the scene and has one arrow per segment |
| Widgets.PastedConnectionSpec | src/app/widgets.py:1131-1150 | a pasted connection joins the copies of its ends with the copied type and pen and the copied joints moved by (50, 50); it is drawn in the scene; copying it again gives back the same entry |
| Widgets.PastedConnection | src/app/widgets.py:1131-1150 | as intended, the same connection but for its arrows, which are redrawn in the scene so that it is drawn |
| Widgets.PasteAllFrame | src/app/widgets.py:1119-1156 | pasting connections keeps every existing connection and takes only fresh ids |
| Widgets.PasteAllNew | src/app/widgets.py:1119-1156 | every connection a paste adds is the copy of a copied connection whose ends were both pasted |
| Widgets.PasteAllComplete | src/app/widgets.py:1119-1156 | every copied connection whose ends were both pasted is pasted |
| Widgets.PasteEntity | src/app/widgets.py:1078-1110 | an unknown type raises `AttributeError` and changes nothing; otherwise the copy, placed by `PastePos`, rotated, in the scene |
| Widgets.NewPastedConnection | src/app/widgets.py:1131-1138 | a fresh connection between the copies of the ends, registered on both ports, with the copied type and pen |
| Widgets.BuildPastedConnection | src/app/widgets.py:1131-1147 | that connection with the copied joints moved by (50, 50) and added under consecutive fresh ids |
| Widgets.ShowPastedConnection | src/app/widgets.py:1150 | the connection joins the scene and is redrawn there, which is the correction listed under Findings |
| Widgets.PasteConnection | src/app/widgets.py:1131-1150 | one connection between the copies, pasted as `PastedConnection` |
| Widgets.PasteEntities | src/app/widgets.py:1074-1113 | each copied entity is pasted in order under the next id; the first unknown type raises `AttributeError` |
| Widgets.PasteConnections | src/app/widgets.py:1119-1156 | every copied connection whose ends were both pasted is pasted in clipboard order |
| Widgets.CopyEntities | src/app/widgets.py:992-1002 | the first pass of the copy |
| Widgets.CopyConnections | src/app/widgets.py:1009-1036 | the entry of every connection whose ends are both copied, each once |
| Widgets.CopiedConnectionsQualify | src/app/widgets.py:1019-1124 | every connection a copy takes has both ends copied, so it is pasted |
| Widgets.PasteClipboard | src/app/widgets.py:1053-1169 | entities then connections pasted; existing entities and connections stay |
| Widgets.Canvas.DropEntity | src/app/widgets.py:602-654 | an unknown type raises `AttributeError` and changes nothing; otherwise the new entity at `DropPos`, then in the scene |
| Widgets.Canvas.StartConnectionCreation | src/app/widgets.py:656-669 | a draft from the port is created and recorded with its source port |
| Widgets.Canvas.FinishConnectionCreation | src/app/widgets.py:671-722 | completed on another port with the inferred relationship, otherwise out of the scene; the draft state is reset either way |
| Widgets.Canvas.RotateSelected | src/app/widgets.py:923-937 | every selected entity turns a quarter and its port's connections are redrawn; nothing else changes |
| Widgets.Canvas.DeleteSelectedItems | src/app/widgets.py:939-981 | the deletion as `DeleteItems` states it |
| Widgets.Canvas.TogglePointsVisibility | src/app/widgets.py:1171-1196 | the flag flips and the Points and Point relationships, with their arrows, take it |
| Widgets.Canvas.CopySelectedItems | src/app/widgets.py:983-1042 | the clipboard holds the selected entities in order and every connection with both ends copied; empty with no entity selected; the scene is unchanged |
| Widgets.Canvas.CopyKey | src/app/widgets.py:878-885 | with nothing selected the clipboard is kept |
| Widgets.Canvas.Paste | src/app/widgets.py:1053-1169 | with no copied entity nothing happens; otherwise the clipboard is pasted |
| Persistence.ExportJoints | src/app/widgets.py:1299-1308 | one node per joint, `jointIndex` in list order, with its position |
| Persistence.JointTriplesStep | src/app/widgets.py:1300-1308 | the joint nodes of a longer list are those of the shorter one plus the next node |
| Persistence.ExportConnection | src/app/widgets.py:1271-1308 | the relationship triple, the record, the pen and the joints of one connection |
| Persistence.ExportEntities | src/app/widgets.py:1240-1260 | the triples of every entity in the scene |
| Persistence.ExportConnections | src/app/widgets.py:1262-1308 | the triples of every connection that is written |
| Persistence.SaveToTurtle | src/app/widgets.py:1225-1312 | the graph is the entities' triples and the written connections' triples |
| Persistence.ExportWritesBothRecords | src/app/widgets.py:1270-1308 | a written connection puts both the relationship triple and its `Connection` record in the graph, and a node for each joint with index `i` |
| Persistence.ExportedFrom | src/app/widgets.py:1240-1308 | every triple comes from an entity in the scene or a written connection |
| Persistence.EntityTriplePredicate | src/app/widgets.py:1243-1260 | an entity writes only type, position, rotation and label triples, and a label only when it is not empty |
| Persistence.JointTriplePredicate | src/app/widgets.py:1300-1308 | a joint node's `jointIndex` is its own position in the list |
| Persistence.ConnectionTriplePart | src/app/widgets.py:1270-1308 | each triple of a connection is its relationship, record, pen or joint triple |
| Persistence.RecordTripleObject | src/app/widgets.py:1275-1278 | the record's source, target and relationship type are the connection's |
| Persistence.RecordTripleFrom | src/app/widgets.py:1275-1278 | a record triple in the graph belongs to a written connection's record |
| Persistence.ConnectionRecordTriple | src/app/widgets.py:1275-1278 | a connection's triple with a record predicate is one of its record's |
| Persistence.ExportedRecordHasRelationship | src/app/widgets.py:1270-1278 | a `Connection` record in the graph comes with the relationship triple between the same ends |
| Persistence.ConnectionTripleFrom | src/app/widgets.py:1262-1308 | a triple with a predicate no entity uses comes from a written connection |
| Persistence.ConnectionJointIndex | src/app/widgets.py:1300-1304 | a connection's `jointIndex` triple indexes one of its joints |
| Persistence.JointIndexFrom | src/app/widgets.py:1300-1304 | every `jointIndex` in the graph indexes a joint of a written connection |
| Persistence.ExportedJointIndexes | src/app/widgets.py:1300-1304 | every `jointIndex` value is the position of its joint, and the connection links the node |
| Persistence.ConnectionTriplesUnlabelled | src/app/widgets.py:1270-1308 | a connection writes no label |
| Persistence.ExportedLabels | src/app/widgets.py:1258-1260 | a label triple is in the graph exactly for an entity in the scene with a non-empty label |
| Persistence.RecordTripleOfOwn | src/app/widgets.py:1275-1278 | with distinct connection URIs, a record triple about a connection's URI is its own |
| Persistence.RecordObjects | src/app/widgets.py:1275-1278 | the objects under a record predicate of a connection's URI are its own |
| Persistence.RecordPredicateReadsBack | src/app/widgets.py:1275-1278 | each record predicate of a written connection has exactly one object in the graph |
| Persistence.ExportedRecordReadsBack | src/app/widgets.py:1275-1278 | a written record reads back as written: typed `Connection`, one source, one target and one type, the connection's |
| GraphImport.Value | src/app/widgets.py:1391-1392 | `g.value`: one of the objects, or `None` when there is none |
| GraphImport.ValueWithDefault | src/app/widgets.py:1369-1375 | the default exactly when there is no object |
| GraphImport.LoadedEntity | src/app/widgets.py:1346-1352 | the library type of the triple's object, the subject as instance URI, in the scene |
| GraphImport.TypeTriples | src/app/widgets.py:1337 | exactly the `rdf:type` triples |
| GraphImport.LoadEntity | src/app/widgets.py:1337-1360 | a `Connection`-typed subject or a type outside the library changes nothing; otherwise a new entity keyed by the subject |
| GraphImport.Pass1Step | src/app/widgets.py:1337-1360 | one triple adds nothing, or one entity with an empty port under the next id |
| GraphImport.LoadEntities | src/app/widgets.py:1337-1360 | one new entity for each loadable type triple; the keys are exactly the loadable subjects; nothing already in the scene changes |
| GraphImport.LoadedKeysOf | src/app/widgets.py:1355 | once every type triple is seen, the keys are exactly the loadable subjects |
| GraphImport.PlaceAt | src/app/widgets.py:1368-1372 | `ValueError` only for a non-numeric coordinate; otherwise the entity lands at the coordinates read when it already stood there, and is snapped to them when it did not (`setPos`) |
| GraphImport.PlaceEntity | src/app/widgets.py:1367-1372 | placed at each position node in turn: without one it stays put, and otherwise it ends up placed by one of them, snapped to that node's coordinates or standing exactly at them; a non-numeric coordinate raises `ValueError` |
| GraphImport.RotateEntity | src/app/widgets.py:1374-1377 | a true rotation is applied modulo 360; `ValueError` exactly when it is not an integer |
| GraphImport.LabelEntity | src/app/widgets.py:1379-1382 | a true label becomes the entity's label |
| GraphImport.PlaceAndRotate | src/app/widgets.py:1367-1377 | placed as `PlaceEntity` places it, then rotated when the rotation read is true; `ValueError` only when a coordinate or the rotation does not convert, and the rotation is not read after a coordinate fails |
| GraphImport.SetEntityProperties | src/app/widgets.py:1363-1382 | position, rotation and label from the graph; `ValueError` only when a conversion fails |
| GraphImport.ReadyAfterLoad | src/app/widgets.py:1337-1363 | pass 1 leaves distinct entities in the scene with empty ports |
| GraphImport.SetProperties | src/app/widgets.py:1362-1382 | every loaded entity gets the properties its URI carries; no other entity changes |
| GraphImport.EntitiesImportedAfter | src/app/widgets.py:1333-1382 | after pass 1 and the properties pass the old entities are as they were, and on success every key holds the entity made from its subject's type triple, with that subject as URI, given the position, rotation and label the graph carries |
| ConnectionImport.FindRelationship | src/app/widgets.py:1411-1418 | the first relationship of the table with the same string, or none exactly when there is no such relationship |
| ConnectionImport.ReadInt | src/app/widgets.py:1422-1429 | `int` of the value read; `ValueError` only when one of the values `g.value` can pick is not the text of an integer |
| ConnectionImport.ReadPenAt | src/app/widgets.py:1421-1445 | the colour, style and width read for one colour node |
| ConnectionImport.ReadPen | src/app/widgets.py:1421-1445 | none exactly without a colour node; otherwise a pen read from one of them |
| ConnectionImport.ReadJointRow | src/app/widgets.py:1452-1461 | a row exactly when index, x and y are all there; `ValueError` only for a non-number |
| ConnectionImport.ReadJoints | src/app/widgets.py:1451-1461 | a row for each complete joint node, each node once |
| ConnectionImport.InsertByIndex | src/app/widgets.py:1464 | inserting adds one row |
| ConnectionImport.InsertByIndexCount | src/app/widgets.py:1464 | inserting adds the row and nothing else |
| ConnectionImport.InsertByIndexFrom | src/app/widgets.py:1464 | each row of the result is the inserted row or an old one |
| ConnectionImport.InsertByIndexSorted | src/app/widgets.py:1464 | inserting into sorted rows keeps them sorted |
| ConnectionImport.SortByIndex | src/app/widgets.py:1464 | a permutation of the rows, sorted by index |
| ConnectionImport.Points | src/app/widgets.py:1467-1468 | the points of the rows, in order |
| ConnectionImport.CreatedSteps | src/app/widgets.py:1405-1415 | the flat `Created` record is what construction, the URI and `set_relationship_type` make |
| ConnectionImport.ImportedConnectionSpec | src/app/widgets.py:1404-1471 | a connection from a record joins the two loaded entities, with the record's URI, the matched type (`feeds` if none), the pen read (the default pen otherwise), in the scene, with the joints at the sorted points, drawn |
| ConnectionImport.ReadEnds | src/app/widgets.py:1391-1402 | the ends are kept exactly when both name loaded entities |
| ConnectionImport.ReadRelationship | src/app/widgets.py:1411-1418 | the relationship type read and looked up in the table |
| ConnectionImport.CreateConnection | src/app/widgets.py:1404-1418 | a new connection between the loaded entities' ports, with the record's URI and the matched type |
| ConnectionImport.ShowConnection | src/app/widgets.py:1420-1448 | the pen read, if any, then into the scene |
| ConnectionImport.JoinConnection | src/app/widgets.py:1466-1471 | the joints at the points in order, then redrawn |
| ConnectionImport.ReadRecord | src/app/widgets.py:1411-1461 | everything read from a record; `ValueError` only for a non-number |
| ConnectionImport.AddImportedConnection | src/app/widgets.py:1404-1471 | the scene side of one record: one new connection as `ImportedConnection` |
| ConnectionImport.ImportConnection | src/app/widgets.py:1388-1471 | skipped with nothing changed unless both ends are loaded; otherwise one new connection, and its key processed when the type matched |
| ConnectionImport.ImportConnections | src/app/widgets.py:1384-1471 | every record with loaded ends becomes a connection made from it, with an id of its own; the rest are skipped; earlier connections stay; the keys processed are those whose type matched |
| RelationshipImport.WithPredicate | src/app/widgets.py:1475 | exactly the triples with that predicate |
| RelationshipImport.StraightConnectionSteps | src/app/widgets.py:1489-1506 | the flat straight connection is what construction, the type, the URI, the default pen, `addItem` and the redraw make |
| RelationshipImport.StraightConnectionSpec | src/app/widgets.py:1489-1506 | a straight connection joins the two entities with the relationship's type and the URI given; black solid pen of width 2; no joints; in the scene and drawn |
| RelationshipImport.StraightConnection | src/app/widgets.py:1489-1506 | the connection pass 3 draws has a solid pen, whatever its type, is in the scene, shown and drawn |
| RelationshipImport.DrawStraight | src/app/widgets.py:1489-1506 | one new straight connection registered on both ports |
| RelationshipImport.StraightUrisDistinct | src/app/widgets.py:1496-1509 | the straight connections of pass 3 have different URIs |
| RelationshipImport.StraightUriInjective | src/app/widgets.py:1496 | different counts give different URIs |
| RelationshipImport.DrawRelationshipStep | src/app/widgets.py:1475-1509 | skipped unless both ends are loaded and the key is new; otherwise drawn, and its key processed |
| RelationshipImport.DrawRelationshipsOf | src/app/widgets.py:1475-1509 | every candidate triple of the relationship has its key processed |
| RelationshipImport.DrawRelationships | src/app/widgets.py:1473-1509 | every relationship between loaded entities has its key processed; no key of pass 2 is drawn again and no key twice |
| RelationshipImport.DrawnFromKept | src/app/widgets.py:1473-1509 | pass 3 keeps the connections of pass 2 as their records made them |
| RelationshipImport.LoadGraphEntities | src/app/widgets.py:1333-1382 | one entity per library-typed subject, keyed by it, distinct keys holding distinct entities; each keyed entity was made from a type triple of its subject, has the subject as URI and its library type, and is placed, rotated and labelled from the graph; entities made but not kept stay as made; old entities are unchanged |
| RelationshipImport.DrawGraphConnections | src/app/widgets.py:1384-1509 | the recorded connections, then a straight one for each relationship no record drew; every relationship's key processed once; the connections afterwards are exactly the old ones, unchanged, plus those two passes drew |
| RelationshipImport.ImportFromGraph | src/app/widgets.py:1328-1511 | the whole import: a graph whose numbers convert imports; the entities are as `LoadGraphEntities` states and old ones unchanged; the key of every relationship between loaded entities is processed; pass 3 draws no key that pass 2 processed, and no key twice; no connection is added beyond those of passes 2 and 3 |
| PyNumbers.ParseIntDigits | src/app/widgets.py:1377 | `int()` of an optional '-' and decimal digits is their value, negated after '-' |
| PyNumbers.ParseIntRejectsPoint | src/app/widgets.py:1377 | `int()` of any text holding a '.' raises `ValueError` |
| PyNumbers.UnsignedDecimal | src/app/widgets.py:1369-1370 | `float()` reads digits, '.', digits as the whole part plus the fraction |
| NumberText.ParseIntOfString | src/app/widgets.py:1377 | `int(str(i)) == i` for every integer |
| NumberText.ParseFloatOfString | src/app/widgets.py:1369-1370 | `float(str(i)) == i` for every integer |
| NumberText.NegativeFloatText | src/app/widgets.py:1251-1252 | a negative float is written as '-' and then the text of its magnitude: -2.5 is written "-2.5" |
| NumberText.RealToStringHasPoint | src/app/widgets.py:1458 | `int()` of the text of a float raises `ValueError` |
| NumberText.FractionDigitsValue | src/app/widgets.py:1251-1252 | the `n` or fewer fraction digits written for a fraction are at or below it, by less than one unit of the last digit, and equal to it when fewer than `n` are written |
| NumberText.FractionDigitsExact | src/app/widgets.py:1251-1252 | a fraction of at most `n` digits is written as digits of exactly its value |
| NumberText.FloatTextReadsBack | src/app/widgets.py:1369-1370 | `float(str(x))` succeeds for every float and is `x` truncated toward zero, less than 10^-17 away |
| NumberText.FloatTextExact | src/app/widgets.py:1369-1370 | `float(str(x)) == x` when the fraction of `x` has at most 17 digits |
| Rdf.ToFloat | src/app/widgets.py:1369-1370 | `float` of a term: `ValueError` on failure; an integer literal gives its value and a float literal always converts |
| Rdf.ToInt | src/app/widgets.py:1427-1429 | `int` of a term: `ValueError` on failure; an integer literal gives its value and a float literal raises `ValueError` |
| Dialogs.RecordId | src/app/dialogs.py:160 | the edited record's `id` when editing, otherwise a fresh one |
| Dialogs.AcceptBacnetFields | src/app/dialogs.py:163-177 | rejected exactly when the object identifier is blank; identifier, name, type and description always stored; read property and owner only when not blank |
| Dialogs.AcceptBacnetUri | src/app/dialogs.py:179-188 | rejected exactly when the URI does not start with "bacnet://"; owner only when not blank |
| Dialogs.AcceptTimeseries | src/app/dialogs.py:190-198 | rejected exactly when the identifier is blank; store only when not blank |
| Dialogs.Accept | src/app/dialogs.py:155-201 | no data exactly when the form is rejected; otherwise a non-empty record with type, `id` and the fields of the chosen kind, shown as its kind says: BACnet without an option as "BACnet (Unknown Option)", any other type as its name and `id` |
| Dialogs.FieldsDisplay | src/app/dialogs.py:254-261 | an option 1 record shows its object identifier and keeps type and `id` |
| Dialogs.UriDisplay | src/app/dialogs.py:254-263 | an option 2 record shows its URI |
| Dialogs.TimeseriesDisplay | src/app/dialogs.py:254-267 | a time series record shows its identifier |
| Dialogs.DisplayText | src/app/dialogs.py:254-270 | a BACnet record shows "BACnet (…", a time series record "Timeseries: ID=…", a record without a type "Unknown: ID=…", and an empty record "Unknown: ID=N/A" |
| Dialogs.AddReference | src/app/dialogs.py:272-281 | no data, or an empty record, leaves the list; otherwise the list grows by exactly one record, the new one with a fresh `id` |
| Dialogs.EditReference | src/app/dialogs.py:283-302 | no data, or an empty record, changes nothing; otherwise same length, only the first record with the edited `id` is replaced, and with no match nothing changes |
| Dialogs.DeleteReference | src/app/dialogs.py:304-323 | exactly the records with another `id`, in order |
| Dialogs.DeleteAppend | src/app/dialogs.py:319-323 | deletion distributes over concatenation, so order is kept |
| Dialogs.DeleteAddedReference | src/app/dialogs.py:272-323 | deleting a just-added record with a fresh `id` gives back the list |

## Left out

- Writing and parsing Turtle text, and rdflib's namespace bindings in a written graph. The
  export ends at the set of triples, and the import starts from one.
- `bind_namespaces` (src/ontologies/namespaces/__init__.py:138-144): it only binds prefixes
  for serialisation, which the triple-set graph does not carry. `filter_by_namespace` is
  modelled up to that call.
- `short_uuid` and `uuid4`: random identifiers are replaced by the id counter.
- Blank node identifiers: rdflib's are random; here they are derived from the item.
- The order in which rdflib walks a graph and which object `g.value` picks among several:
  left open, and every contract holds for any choice.
- GraphImport.PlaceEntity: with several position nodes the contract says the entity is placed
  by one of them; that it is the last one `g.objects` yields is not stated, since that order is left open.
- Floating-point arithmetic: coordinates are reals, and `float()` reads its text as an
  exact decimal, without rounding to the nearest double.
- Rdf.Str: `str` of a float literal is written as the sign, the integer digits, '.' and up
  to 17 fraction digits, truncated. Python writes the shortest digits that read back as the
  same double, and uses exponent form from 1e16 and below 1e-4; the model does not.
- PyNumbers.ParseFloat and PyNumbers.ParseInt: `inf`, `nan`, '_' between digits and
  non-ASCII digits are refused here, while Python accepts them.
- Arrow polygon geometry (`atan2`, `cos`, `sin`), painter paths, SVG rendering and the grid
  drawing: only the number of arrows, their pen, brush and visibility are modelled.
- Pen caps and joins: `Items.Pen` holds colour, style and width only. Paste builds
  `QPen(color, width, style)` (src/app/widgets.py:1136), while new and imported connections
  use round caps and joins (src/app/items.py:237); the difference is not modelled.
- Dragging a joint: `JointItem` asks only for scene position changes (src/app/items.py:192),
  so Qt never calls its `_snap_to_grid` (src/app/items.py:209-217) and a dragged joint is
  not snapped. Mouse dragging is not modelled; joints are placed only by
  `add_joint_at_point`, which snaps them.
- RelationshipImport.ImportFromGraph: does not promise distinct connection URIs across
  passes 2 and 3. Pass 3 names its connections `Connection_<n>` (src/app/widgets.py:1496),
  which can equal the URI of a record that pass 2 loaded.
- `Qt.PenStyle(int(...))` and `QColor(r, g, b)` on imported values: any integer is taken as
  it is, without Qt's range checks.
- Qt event dispatch, zoom, panning, MIME data, the entity browser, `QMessageBox`, status
  messages, the property panel's widgets and `src/app/windows.py`: these are interface glue.
- GraphImport.SetProperties: after a `ValueError` the model states only which error was
  raised and that the scene is well formed, not the half-updated scene the source leaves.
- ConnectionImport.ImportConnection: the model reads a whole record before changing the
  scene. The source leaves a half-built connection behind when a conversion fails, and the
  model does not.
- ConnectionImport.SortByIndex: stated as a sorted permutation of the rows. Stability of the
  sort is not stated; rows with equal indexes put their joints in either order.
- ConnectionImport.ImportConnections: ports are kept well formed but their lists are not
  stated beyond that.
- RelationshipImport.DrawRelationships: same as above for the port lists.
- Model.EntityType.Name: the suffix property is stated. That the name is the last piece of
  `split_uri` follows from `Model.GetName`.
- The SVG text of each library entry: only its width and height are kept.

## Findings

| source | as written | input that shows it | evidently intended | confidence | as-written member | corrected member |
|---|---|---|---|---|---|---|
| src/app/items.py:258-370 | `update_position` clears the arrows and adds fresh `QGraphicsPolygonItem`s, which Qt shows, whatever the connection's own visibility | hide the Points (P), then move an entity at either end of a `hasPoint` connection: its line stays hidden but its arrows appear | redrawn arrows are shown exactly when their connection is | not executed | Items.RedrawAsWritten, Items.HiddenConnectionShowsArrows | Items.Redraw, Items.RedrawArrows |
| src/app/widgets.py:1131-1150 | a pasted connection is built, and its arrows drawn, while it is outside the scene; `addItem` then adds the connection but not the arrows, and nothing redraws it | copy two connected entities and paste: the copy's line is there but shows no arrow until an end moves | the pasted connection is redrawn once in the scene, with its arrows in it | not executed | Widgets.PastedConnectionAsWritten, Widgets.PasteLeavesArrowsOut | Widgets.PastedConnection, Widgets.PastedConnectionSpec |

=== FILE: canvas.dfy ===
/**
 * The editing canvas and the property panel: dropping a library entity on the canvas,
 * drafting a connection from a port and completing it on another, rotating, deleting,
 * copying and pasting the selected items, hiding the Points, and relabelling the
 * selected entities.
 *
 * A selection is a sequence of `Item`s naming scene records by id, in the order Qt
 * reports them. Mouse positions arrive already mapped to scene coordinates, and the
 * port under the cursor arrives as the id of its entity.
 */
module Widgets {
  import opened Wrappers
  import opened Rdf
  import opened Items
  import Model
  import PyMath
  import Config

  /** A selectable item of the scene: an entity, a connection, or joint `j` of connection `c`. */
  datatype Item = EntityItem(e: nat) | ConnectionItem(c: nat) | JointItem(c: nat, j: nat)

  /** No item occurs twice in a selection. */
  predicate Distinct(sel: seq<Item>)
  {
    forall k, l :: 0 <= k < l < |sel| ==> sel[k] != sel[l]
  }

  // ---------------------------------------------------------------------------
  // Dropping an entity

  /**
   * `dropEvent`'s placement of an entity of type `t` dropped at `p`: the drop point snapped
   * to the grid and the drawing centred on it; a Point's top edge instead sits half its
   * height above the point line.
   */
  function DropPos(p: Pos, t: Model.EntityType): (r: Pos)
    ensures OnGrid(r.x + t.width / 2.0)
    ensures -Config.GRID_SIZE / 2.0 <= r.x + t.width / 2.0 - p.x <= Config.GRID_SIZE / 2.0
    ensures t.isPoint ==> r.y == Config.POINT_LINE - t.height / 2.0
    ensures !t.isPoint ==> OnGrid(r.y + t.height / 2.0)
    ensures !t.isPoint ==> -Config.GRID_SIZE / 2.0 <= r.y + t.height / 2.0 - p.y <= Config.GRID_SIZE / 2.0
  {
    var x := GridRound(p.x) - t.width / 2.0;
    var y := if t.isPoint then Config.POINT_LINE - t.height / 2.0 else GridRound(p.y) - t.height / 2.0;
    Pos(x, y)
  }

  /** A dropped entity is already where snapping would put it: moving it there changes nothing. */
  lemma DropPosSnapped(p: Pos, t: Model.EntityType)
    ensures EntitySnap(DropPos(p, t), t) == DropPos(p, t)
  {
    var q := DropPos(p, t);
    GridRoundOnGrid(q.x + t.width / 2.0);
    if !t.isPoint {
      GridRoundOnGrid(q.y + t.height / 2.0);
    }
  }

  /** A 50 by 50 shape dropped at (103, 207) is placed at (75, 175). */
  lemma DropPosExample(t: Model.EntityType)
    requires t.width == 50.0 && t.height == 50.0 && !t.isPoint
    ensures DropPos(Pos(103.0, 207.0), t) == Pos(75.0, 175.0)
  {
    PyMath.RoundUnique(103.0 / Config.GRID_SIZE, 4);
    PyMath.RoundUnique(207.0 / Config.GRID_SIZE, 8);
  }

  // ---------------------------------------------------------------------------
  // Completing a draft

  /**
   * The relationship `_finish_connection_creation` gives a completed draft: `isPointOf`
   * from a Point, otherwise `hasPoint` to a Point, otherwise the type it already has.
   */
  function CompletedDraft(c: Connection, sourceIsPoint: bool, targetIsPoint: bool): (r: Connection)
    ensures r.source == c.source && r.target == c.target && r.joints == c.joints && r.uri == c.uri
    ensures |r.arrows| == |c.arrows|
    ensures sourceIsPoint || targetIsPoint ==> IsPointRelation(r.relType) && r.pen.style == DASH_LINE
  {
    if sourceIsPoint then WithRelationshipType(c, IS_POINT_OF)
    else if targetIsPoint then WithRelationshipType(c, HAS_POINT)
    else c
  }

  /**
   * A draft typed `feeds` is completed with a Point relationship, drawn dashed, exactly
   * when one of its ends is a Point; its direction decides which one; it stays drawn.
   */
  lemma CompletedDraftRelation(c: Connection, sourceIsPoint: bool, targetIsPoint: bool)
    requires c.relType == FEEDS && c.pen.style == SOLID_LINE
    ensures var r := CompletedDraft(c, sourceIsPoint, targetIsPoint);
      && (IsPointRelation(r.relType) <==> sourceIsPoint || targetIsPoint)
      && (r.pen.style == DASH_LINE <==> sourceIsPoint || targetIsPoint)
      && (sourceIsPoint ==> r.relType == IS_POINT_OF)
      && (!sourceIsPoint && targetIsPoint ==> r.relType == HAS_POINT)
      && (!sourceIsPoint && !targetIsPoint ==> r == c)
      && r.source == c.source && r.target == c.target && r.joints == c.joints
      && (Drawn(c) ==> Drawn(r))
  {
    if Drawn(c) {
      if sourceIsPoint {
        RelationshipTypeKeepsDrawn(c, IS_POINT_OF);
      } else if targetIsPoint {
        RelationshipTypeKeepsDrawn(c, HAS_POINT);
      }
    }
  }

  /** The draft right after it is started from `port` with its free end at `p`. */
  lemma DraftRecord(port: nat, p: Pos, c: nat)
    ensures Redraw(Redraw(NewRecord(Some(port), None, None, c)).(inScene := true).(endPos := Some(p)))
      == NewRecord(Some(port), None, None, c).(endPos := Some(p), inScene := true)
  {
    assert Copies(0, Arrow(DEFAULT_PEN, BLACK, true, true)) == [];
  }

  /** Registering a connection on a source port and on no target appends it to that port's list. */
  lemma RegisterSourceOnly(ps: map<nat, seq<nat>>, port: nat, c: nat)
    requires port in ps
    ensures Register(Register(ps, Some(port), c), None, c) == ps[port := ps[port] + [c]]
  {
  }

  /**
   * The scene side of `_start_connection_creation`: a draft from the port of `port`, added
   * to the scene, its free end at `p`, listed on its source port only.
   */
  method DraftFrom(scene: Scene, port: nat, p: Pos) returns (c: nat)
    requires scene.Valid() && port in scene.entities
    modifies scene
    ensures scene.Valid()
    ensures c == old(scene.nextId) && c !in old(scene.conns) && scene.nextId == c + 1
    ensures scene.conns == old(scene.conns)[c := NewRecord(Some(port), None, None, c).(endPos := Some(p), inScene := true)]
    ensures scene.ports == old(scene.ports)[port := old(scene.ports[port]) + [c]]
    ensures scene.entities == old(scene.entities)
  {
    c := scene.NewConnection(Some(port), None, None);
    scene.AddConnectionToScene(c);
    scene.SetCurrentEndPos(c, p);
    DraftRecord(port, p, c);
    RegisterSourceOnly(old(scene.ports), port, c);
  }

  /**
   * The scene side of `_finish_connection_creation` for draft `c` from the port of `src`:
   * completed on `hit` when that is a port other than the source, taken out of the scene
   * (and left on its source's list) otherwise.
   */
  method CompleteDraft(scene: Scene, c: nat, src: nat, hit: Option<nat>)
    requires scene.Valid() && c in scene.conns && src in scene.entities
    requires hit.Some? ==> hit.value in scene.entities
    modifies scene
    ensures scene.Valid()
    ensures if hit.Some? && hit.value != src then
        scene.conns == old(scene.conns)[c := CompletedDraft(Redraw(old(scene.conns[c]).(target := hit)),
          old(scene.entities[src]).etype.isPoint, old(scene.entities[hit.value]).etype.isPoint)]
        && scene.ports == RetargetLists(old(scene.ports), old(scene.conns), c, hit)
      else
        scene.conns == old(scene.conns)[c := old(scene.conns[c]).(inScene := false)]
        && scene.ports == old(scene.ports)
    ensures scene.entities == old(scene.entities) && scene.nextId == old(scene.nextId)
  {
    if hit.Some? && hit.value != src {
      var srcPoint := scene.entities[src].etype.isPoint;
      var tgtPoint := scene.entities[hit.value].etype.isPoint;
      ghost var cs0 := scene.conns;
      ghost var x := Redraw(cs0[c].(target := hit));
      scene.SetTargetPort(c, hit);
      assert scene.conns == cs0[c := x];
      if srcPoint {
        scene.SetRelationshipType(c, IS_POINT_OF);
        UpdateTwice(cs0, c, x, WithRelationshipType(x, IS_POINT_OF));
      } else if tgtPoint {
        scene.SetRelationshipType(c, HAS_POINT);
        UpdateTwice(cs0, c, x, WithRelationshipType(x, HAS_POINT));
      }
    } else {
      scene.RemoveConnectionFromScene(c);
    }
  }

  // ---------------------------------------------------------------------------
  // Rotation of the selected entities

  /** The port lists of the selected entities, one after the other, in selection order. */
  function SelectedPortLists(sel: seq<Item>, ps: map<nat, seq<nat>>): seq<nat>
  {
    if |sel| == 0 then []
    else
      var last := sel[|sel| - 1];
      SelectedPortLists(sel[..|sel| - 1], ps) + (if last.EntityItem? && last.e in ps then ps[last.e] else [])
  }

  /** The joined lists hold exactly the connections on the port of some selected entity. */
  lemma {:induction false} SelectedPortListsSpec(sel: seq<Item>, ps: map<nat, seq<nat>>, c: nat)
    ensures c in SelectedPortLists(sel, ps) <==>
      exists k :: 0 <= k < |sel| && sel[k].EntityItem? && sel[k].e in ps && c in ps[sel[k].e]
  {
    if |sel| > 0 {
      var n := |sel| - 1;
      var init := sel[..n];
      var tail := if sel[n].EntityItem? && sel[n].e in ps then ps[sel[n].e] else [];
      SelectedPortListsSpec(init, ps, c);
      assert SelectedPortLists(sel, ps) == SelectedPortLists(init, ps) + tail;
      if c in SelectedPortLists(init, ps) {
        var k :| 0 <= k < |init| && init[k].EntityItem? && init[k].e in ps && c in ps[init[k].e];
        assert sel[k] == init[k];
      } else if c in tail {
        assert sel[n].EntityItem? && sel[n].e in ps && c in ps[sel[n].e];
      } else {
        forall k | 0 <= k < |sel| && sel[k].EntityItem? && sel[k].e in ps
          ensures c !in ps[sel[k].e]
        {
          if k < n {
            assert init[k] == sel[k];
          }
        }
      }
    }
  }

  /** The entities after every selected one has turned a quarter clockwise. */
  function RotatedEntities(es: map<nat, Entity>, sel: seq<Item>): map<nat, Entity>
  {
    map e | e in es :: if EntityItem(e) in sel then es[e].(rotation := QuarterTurn(es[e].rotation)) else es[e]
  }

  /** Handling the next selected item in `_rotate_selected_entities`'s loop. */
  lemma RotateStep(es: map<nat, Entity>, ps: map<nat, seq<nat>>, sel: seq<Item>, i: nat)
    requires i < |sel| && Distinct(sel)
    ensures sel[i].EntityItem? && sel[i].e in ps ==>
      SelectedPortLists(sel[..i + 1], ps) == SelectedPortLists(sel[..i], ps) + ps[sel[i].e]
    ensures !sel[i].EntityItem? ==> SelectedPortLists(sel[..i + 1], ps) == SelectedPortLists(sel[..i], ps)
    ensures var r := RotatedEntities(es, sel[..i]);
      RotatedEntities(es, sel[..i + 1])
        == if sel[i].EntityItem? && sel[i].e in es then r[sel[i].e := r[sel[i].e].(rotation := QuarterTurn(r[sel[i].e].rotation))]
           else r
  {
    assert sel[..i + 1][..i] == sel[..i];
    assert sel[..i + 1] == sel[..i] + [sel[i]];
    if sel[i].EntityItem? {
      assert EntityItem(sel[i].e) !in sel[..i];
    } else {
      assert SelectedPortLists(sel[..i], ps) + [] == SelectedPortLists(sel[..i], ps);
    }
  }

  /** Rotation turns exactly the selected entities, each by one quarter, and changes nothing else. */
  lemma RotatedSpec(es: map<nat, Entity>, sel: seq<Item>)
    ensures RotatedEntities(es, sel).Keys == es.Keys
    ensures forall e :: e in es ==>
      var r := RotatedEntities(es, sel)[e];
      r == es[e].(rotation := r.rotation)
      && r.rotation == if EntityItem(e) in sel then QuarterTurn(es[e].rotation) else es[e].rotation
  {
  }

  // ---------------------------------------------------------------------------
  // Deleting the selected items

  /**
   * The connections `_delete_selected_items` removes: every selected connection, and every
   * connection on the port of a selected entity, as the port lists stood before the deletion.
   */
  function DeletedConnections(sel: seq<Item>, ps: map<nat, seq<nat>>): set<nat>
  {
    if |sel| == 0 then {} else DeletedConnections(sel[..|sel| - 1], ps) + ItemConnections(sel[|sel| - 1], ps)
  }

  /** The connections deleting one selected item removes. */
  function ItemConnections(item: Item, ps: map<nat, seq<nat>>): set<nat>
  {
    if item.ConnectionItem? then {item.c}
    else if item.EntityItem? && item.e in ps then PortSet(ps[item.e])
    else {}
  }

  /** The connections a port list holds. */
  function PortSet(list: seq<nat>): set<nat>
  {
    set c | c in list
  }

  lemma PortSetNext(list: seq<nat>, k: nat)
    requires k < |list|
    ensures PortSet(list[..k + 1]) == PortSet(list[..k]) + {list[k]}
  {
    assert list[..k + 1] == list[..k] + [list[k]];
  }

  /** The identities of the selected joints of connection `c`. */
  function DeletedJoints(sel: seq<Item>, c: nat): set<nat>
  {
    if |sel| == 0 then {}
    else
      var last := sel[|sel| - 1];
      DeletedJoints(sel[..|sel| - 1], c) + if last.JointItem? && last.c == c then {last.j} else {}
  }

  /**
   * Connection `x` after its joints in `drop` have been deleted one after the other: the
   * remaining joints in their order, and the path redrawn if anything was deleted.
   */
  function WithoutJoints(x: Connection, drop: set<nat>): Connection
  {
    if drop == {} then x else Redraw(x.(joints := KeepJoints(x.joints, drop)))
  }

  /** A removed connection: no joints, out of the scene, and so is every arrow it still holds. */
  predicate Discarded(x: Connection)
  {
    x.joints == [] && !x.inScene && forall k :: 0 <= k < |x.arrows| ==> !x.arrows[k].inScene
  }

  /**
   * The port lists in the deletion loop, from `ps0`: the connections in `gone` are on no
   * list, every other registration is as before.
   */
  ghost predicate ListsSoFar(ps0: map<nat, seq<nat>>, ps: map<nat, seq<nat>>, gone: set<nat>)
  {
    ps.Keys == ps0.Keys
    && forall p, d {:trigger Count(ps[p], d)} :: p in ps ==> Count(ps[p], d) == if d in gone then 0 else Count(ps0[p], d)
  }

  /**
   * The connections in the deletion loop, from `cs0`: those in `gone` are discarded, every
   * other one has lost exactly its joints selected in `sel`.
   */
  ghost predicate ConnsSoFar(cs0: map<nat, Connection>, cs: map<nat, Connection>, gone: set<nat>, sel: seq<Item>)
  {
    cs.Keys == cs0.Keys
    && (forall c :: c in gone ==> c in cs && Discarded(cs[c]))
    && (forall c :: c in cs && c !in gone ==> cs[c] == WithoutJoints(cs0[c], DeletedJoints(sel, c)))
  }

  /** Selecting an entity or a connection adds no joint to delete. */
  lemma SelectOther(cs0: map<nat, Connection>, cs: map<nat, Connection>, gone: set<nat>, sel: seq<Item>, item: Item)
    requires ConnsSoFar(cs0, cs, gone, sel) && !item.JointItem?
    ensures ConnsSoFar(cs0, cs, gone, sel + [item])
  {
    assert (sel + [item])[..|sel|] == sel;
    forall c | c in cs && c !in gone
      ensures cs[c] == WithoutJoints(cs0[c], DeletedJoints(sel + [item], c))
    {
      assert DeletedJoints(sel + [item], c) == DeletedJoints(sel, c);
    }
  }

  /** Removing connection `c` in the deletion loop puts it off every list. */
  lemma DeleteListsStep(ps0: map<nat, seq<nat>>, ps: map<nat, seq<nat>>, cs: map<nat, Connection>, gone: set<nat>, c: nat)
    requires ListsSoFar(ps0, ps, gone) && Registered(ps, cs) && c in cs
    ensures ListsSoFar(ps0, RemoveLists(ps, cs, c), gone + {c})
  {
    var ps' := RemoveLists(ps, cs, c);
    forall p, d | p in ps'
      ensures Count(ps'[p], d) == if d in gone + {c} then 0 else Count(ps0[p], d)
    {
      RemoveAt(ps, cs, c, p, d);
    }
  }

  /** Removing connection `c` in the deletion loop discards it. */
  lemma DeleteConnStep(cs0: map<nat, Connection>, cs: map<nat, Connection>, gone: set<nat>, sel: seq<Item>, c: nat)
    requires ConnsSoFar(cs0, cs, gone, sel) && c in cs
    ensures ConnsSoFar(cs0, cs[c := Removed(cs[c])], gone + {c}, sel)
  {
  }

  /** A discarded connection stays discarded when one of its (no) joints is deleted. */
  lemma DiscardedJoint(x: Connection, j: nat)
    requires Discarded(x)
    ensures Discarded(Redraw(x.(joints := WithoutJoint(x.joints, j))))
  {
  }

  /**
   * Deleting joint `j` from a connection that has already lost the joints `drop` is
   * losing `drop` and `j`.
   */
  lemma WithoutJointsStep(x: Connection, drop: set<nat>, j: nat, next: nat)
    requires JointsOk(x.joints, next)
    ensures var y := WithoutJoints(x, drop);
      Redraw(y.(joints := WithoutJoint(y.joints, j))) == WithoutJoints(x, drop + {j})
  {
    var y := WithoutJoints(x, drop);
    if drop == {} {
      KeepJointsNone(x.joints);
    }
    assert y.joints == KeepJoints(x.joints, drop);
    WithoutJointKeep(x.joints, drop, j);
    assert y.(joints := WithoutJoint(y.joints, j)).(arrows := x.arrows) == x.(joints := KeepJoints(x.joints, drop + {j}));
  }

  /** The selected joints of `d` after one more selected item. */
  lemma DeletedJointsNext(sel: seq<Item>, c: nat, j: nat, d: nat)
    ensures DeletedJoints(sel + [JointItem(c, j)], d) == DeletedJoints(sel, d) + if d == c then {j} else {}
  {
    assert (sel + [JointItem(c, j)])[..|sel|] == sel;
  }

  /** Deleting selected joint `j` of connection `c` in the deletion loop. */
  lemma DeleteJointStep(cs0: map<nat, Connection>, cs: map<nat, Connection>, gone: set<nat>, sel: seq<Item>,
                        c: nat, j: nat, next: nat)
    requires ConnsSoFar(cs0, cs, gone, sel) && c in cs && JointsOk(cs0[c].joints, next)
    ensures ConnsSoFar(cs0, cs[c := Redraw(cs[c].(joints := WithoutJoint(cs[c].joints, j)))], gone, sel + [JointItem(c, j)])
  {
    var sel' := sel + [JointItem(c, j)];
    var x' := Redraw(cs[c].(joints := WithoutJoint(cs[c].joints, j)));
    var cs' := cs[c := x'];
    if c in gone {
      DiscardedJoint(cs[c], j);
    } else {
      DeletedJointsNext(sel, c, j, c);
      WithoutJointsStep(cs0[c], DeletedJoints(sel, c), j, next);
    }
    forall d | d in cs' && d !in gone && d != c
      ensures cs'[d] == WithoutJoints(cs0[d], DeletedJoints(sel', d))
    {
      DeletedJointsNext(sel, c, j, d);
      assert cs'[d] == cs[d] == WithoutJoints(cs0[d], DeletedJoints(sel, d));
      assert DeletedJoints(sel', d) == DeletedJoints(sel, d);
    }
  }

  /**
   * When the deletion reaches a selected entity, removing the connections its port lists
   * now removes the same ones as those it listed before the deletion.
   */
  lemma EntityCascade(ps0: map<nat, seq<nat>>, ps: map<nat, seq<nat>>, gone: set<nat>, e: nat)
    requires ListsSoFar(ps0, ps, gone) && e in ps
    ensures gone + PortSet(ps[e]) == gone + PortSet(ps0[e])
  {
    forall d | d !in gone
      ensures d in ps[e] <==> d in ps0[e]
    {
      assert Count(ps[e], d) == Count(ps0[e], d);
    }
  }

  /** The entities after every selected one has left the scene. */
  function DeletedEntities(es: map<nat, Entity>, sel: seq<Item>): map<nat, Entity>
  {
    if |sel| == 0 then es
    else
      var r := DeletedEntities(es, sel[..|sel| - 1]);
      var last := sel[|sel| - 1];
      if last.EntityItem? && last.e in r then r[last.e := r[last.e].(inScene := false)] else r
  }

  /** Exactly the selected entities leave the scene; nothing else about any entity changes. */
  lemma {:induction false} DeletedEntitiesSpec(es: map<nat, Entity>, sel: seq<Item>)
    ensures DeletedEntities(es, sel).Keys == es.Keys
    ensures forall e :: e in es ==>
      DeletedEntities(es, sel)[e] == if EntityItem(e) in sel then es[e].(inScene := false) else es[e]
  {
    if |sel| > 0 {
      var init := sel[..|sel| - 1];
      DeletedEntitiesSpec(es, init);
      assert sel == init + [sel[|sel| - 1]];
      forall e | e in es
        ensures DeletedEntities(es, sel)[e] == if EntityItem(e) in sel then es[e].(inScene := false) else es[e]
      {
        assert EntityItem(e) in sel <==> EntityItem(e) in init || sel[|sel| - 1] == EntityItem(e);
      }
    }
  }

  /** Handling the next selected item in the deletion loop: the removed sets and entities grow. */
  lemma DeleteStep(es: map<nat, Entity>, ps: map<nat, seq<nat>>, sel: seq<Item>, i: nat)
    requires i < |sel|
    ensures sel[..i + 1] == sel[..i] + [sel[i]]
    ensures DeletedConnections(sel[..i + 1], ps) == DeletedConnections(sel[..i], ps) + ItemConnections(sel[i], ps)
    ensures var r := DeletedEntities(es, sel[..i]);
      && (sel[i].EntityItem? && sel[i].e in r ==>
            DeletedEntities(es, sel[..i + 1]) == r[sel[i].e := r[sel[i].e].(inScene := false)])
      && (!sel[i].EntityItem? ==> DeletedEntities(es, sel[..i + 1]) == r)
  {
    assert sel[..i + 1][..i] == sel[..i];
    assert sel[..i + 1] == sel[..i] + [sel[i]];
  }

  /**
   * For a selected entity: every connection on its port, from a copy of the list taken
   * first, is removed in turn; a self-loop is listed twice and removed twice.
   */
  method RemoveEntityConnections(scene: Scene, e: nat, ghost ps0: map<nat, seq<nat>>, ghost cs0: map<nat, Connection>,
                                 ghost gone: set<nat>, ghost sel: seq<Item>)
    requires scene.Valid() && e in ps0
    requires ListsSoFar(ps0, scene.ports, gone) && ConnsSoFar(cs0, scene.conns, gone, sel)
    modifies scene
    ensures scene.Valid()
    ensures ListsSoFar(ps0, scene.ports, gone + PortSet(ps0[e])) && ConnsSoFar(cs0, scene.conns, gone + PortSet(ps0[e]), sel)
    ensures scene.entities == old(scene.entities) && scene.nextId == old(scene.nextId)
  {
    var list := scene.ports[e];
    EntityCascade(ps0, scene.ports, gone, e);
    forall c | c in list
      ensures c in scene.conns
    {
      Listed(scene.ports, scene.conns, e, c);
    }
    ghost var g := gone;
    var k := 0;
    while k < |list|
      invariant 0 <= k <= |list|
      invariant scene.Valid()
      invariant g == gone + PortSet(list[..k])
      invariant ListsSoFar(ps0, scene.ports, g) && ConnsSoFar(cs0, scene.conns, g, sel)
      invariant scene.entities == old(scene.entities) && scene.nextId == old(scene.nextId)
    {
      DeleteListsStep(ps0, scene.ports, scene.conns, g, list[k]);
      DeleteConnStep(cs0, scene.conns, g, sel, list[k]);
      scene.Remove(list[k]);
      PortSetNext(list, k);
      g := g + {list[k]};
      k := k + 1;
    }
    assert list[..k] == list;
  }

  /**
   * The scene after deleting the items `sel` from port lists `ps0`, connections `cs0` and
   * entities `es0`: the removed connections are on no port list, without joints and out of
   * the scene with their arrows; every other registration is as before; every other
   * connection has lost exactly its selected joints; exactly the selected entities have
   * left the scene.
   */
  ghost predicate AfterDeletion(ps0: map<nat, seq<nat>>, cs0: map<nat, Connection>, es0: map<nat, Entity>, sel: seq<Item>,
                                ps: map<nat, seq<nat>>, cs: map<nat, Connection>, es: map<nat, Entity>)
  {
    var gone := DeletedConnections(sel, ps0);
    && ps.Keys == ps0.Keys && cs.Keys == cs0.Keys
    && (forall c :: c in gone ==> c in cs && Discarded(cs[c]))
    && (forall p, c :: p in ps && c in gone ==> c !in ps[p])
    && (forall p, d :: p in ps && d !in gone ==> Count(ps[p], d) == Count(ps0[p], d))
    && (forall c :: c in cs && c !in gone ==> cs[c] == WithoutJoints(cs0[c], DeletedJoints(sel, c)))
    && es == DeletedEntities(es0, sel)
  }

  /**
   * The deletion loop has handled the first `i` selected items, from port lists `ps0`,
   * connections `cs0` and entities `es0`, and removed the connections in `gone`.
   */
  ghost predicate Progress(ps0: map<nat, seq<nat>>, cs0: map<nat, Connection>, es0: map<nat, Entity>, sel: seq<Item>,
                           i: nat, gone: set<nat>, scene: Scene)
    reads scene
  {
    i <= |sel| && gone == DeletedConnections(sel[..i], ps0)
    && ListsSoFar(ps0, scene.ports, gone) && ConnsSoFar(cs0, scene.conns, gone, sel[..i])
    && scene.entities == DeletedEntities(es0, sel[..i])
  }

  /** A selected connection: `remove`. */
  method DeleteConnectionItem(scene: Scene, c: nat, ghost ps0: map<nat, seq<nat>>, ghost cs0: map<nat, Connection>,
                              ghost es0: map<nat, Entity>, ghost sel: seq<Item>, ghost i: nat, ghost gone: set<nat>)
      returns (ghost gone': set<nat>)
    requires scene.Valid() && i < |sel| && sel[i] == ConnectionItem(c) && c in scene.conns
    requires Progress(ps0, cs0, es0, sel, i, gone, scene)
    modifies scene
    ensures scene.Valid() && Progress(ps0, cs0, es0, sel, i + 1, gone', scene)
    ensures scene.entities.Keys == old(scene.entities).Keys && scene.nextId == old(scene.nextId)
  {
    DeleteStep(es0, ps0, sel, i);
    DeleteListsStep(ps0, scene.ports, scene.conns, gone, c);
    DeleteConnStep(cs0, scene.conns, gone, sel[..i], c);
    scene.Remove(c);
    gone' := gone + {c};
    SelectOther(cs0, scene.conns, gone', sel[..i], sel[i]);
  }

  /** A selected entity: every connection on its port is removed, then the entity leaves the scene. */
  method DeleteEntityItem(scene: Scene, e: nat, ghost ps0: map<nat, seq<nat>>, ghost cs0: map<nat, Connection>,
                          ghost es0: map<nat, Entity>, ghost sel: seq<Item>, ghost i: nat, ghost gone: set<nat>)
      returns (ghost gone': set<nat>)
    requires scene.Valid() && i < |sel| && sel[i] == EntityItem(e) && e in scene.entities && e in ps0
    requires Progress(ps0, cs0, es0, sel, i, gone, scene)
    modifies scene
    ensures scene.Valid() && Progress(ps0, cs0, es0, sel, i + 1, gone', scene)
    ensures scene.entities.Keys == old(scene.entities).Keys && scene.nextId == old(scene.nextId)
  {
    DeleteStep(es0, ps0, sel, i);
    RemoveEntityConnections(scene, e, ps0, cs0, gone, sel[..i]);
    gone' := gone + PortSet(ps0[e]);
    scene.RemoveEntityFromScene(e);
    SelectOther(cs0, scene.conns, gone', sel[..i], sel[i]);
  }

  /**
   * A selected joint: it leaves its connection's joints if it is there, and the
   * connection is redrawn either way.
   */
  method DeleteJointItem(scene: Scene, c: nat, j: nat, ghost ps0: map<nat, seq<nat>>, ghost cs0: map<nat, Connection>,
                         ghost es0: map<nat, Entity>, ghost sel: seq<Item>, ghost i: nat, ghost gone: set<nat>)
    requires scene.Valid() && i < |sel| && sel[i] == JointItem(c, j) && c in scene.conns
    requires c in cs0 && JointsOk(cs0[c].joints, scene.nextId)
    requires Progress(ps0, cs0, es0, sel, i, gone, scene)
    modifies scene
    ensures scene.Valid() && Progress(ps0, cs0, es0, sel, i + 1, gone, scene)
    ensures scene.entities.Keys == old(scene.entities).Keys && scene.nextId == old(scene.nextId)
  {
    DeleteStep(es0, ps0, sel, i);
    DeleteJointStep(cs0, scene.conns, gone, sel[..i], c, j, scene.nextId);
    scene.DeleteJoint(c, j);
  }

  /** The deletion loop of `_delete_selected_items`, item by item in selection order. */
  method DeleteItems(scene: Scene, sel: seq<Item>)
    requires scene.Valid()
    requires forall k :: 0 <= k < |sel| ==> match sel[k]
      case EntityItem(e) => e in scene.entities
      case ConnectionItem(c) => c in scene.conns
      case JointItem(c, _) => c in scene.conns
    modifies scene
    ensures scene.Valid()
    ensures AfterDeletion(old(scene.ports), old(scene.conns), old(scene.entities), sel, scene.ports, scene.conns, scene.entities)
    ensures scene.nextId == old(scene.nextId)
  {
    ghost var ps0 := scene.ports;
    ghost var cs0 := scene.conns;
    ghost var es0 := scene.entities;
    ghost var gone: set<nat> := {};
    assert forall c :: c in cs0 ==> JointsOk(cs0[c].joints, scene.nextId);
    assert ConnsSoFar(cs0, cs0, {}, []);
    var i := 0;
    while i < |sel|
      invariant scene.Valid() && Progress(ps0, cs0, es0, sel, i, gone, scene)
      invariant scene.entities.Keys == es0.Keys && scene.nextId == old(scene.nextId)
    {
      match sel[i] {
      case ConnectionItem(c) =>
        gone := DeleteConnectionItem(scene, c, ps0, cs0, es0, sel, i, gone);
      case EntityItem(e) =>
        gone := DeleteEntityItem(scene, e, ps0, cs0, es0, sel, i, gone);
      case JointItem(c, j) =>
        DeleteJointItem(scene, c, j, ps0, cs0, es0, sel, i, gone);
      }
      i := i + 1;
    }
    assert sel[..i] == sel;
    forall p, c | p in scene.ports && c in gone
      ensures c !in scene.ports[p]
    {
      assert Count(scene.ports[p], c) == 0;
    }
  }

  // ---------------------------------------------------------------------------
  // The Points toggle

  /** The items of the scene: every entity and every connection in it. */
  function SceneItems(es: map<nat, Entity>, cs: map<nat, Connection>): set<Item>
  {
    (set e | e in es && es[e].inScene :: EntityItem(e)) + (set c | c in cs && cs[c].inScene :: ConnectionItem(c))
  }

  /** The entities after the Points among `items` have been set to visibility `v`. */
  function ToggledEntities(es: map<nat, Entity>, items: set<Item>, v: bool): map<nat, Entity>
  {
    map e | e in es :: if EntityItem(e) in items && es[e].etype.isPoint then es[e].(visible := v) else es[e]
  }

  /** The connections after the Point relationships among `items` have been set to visibility `v`. */
  function ToggledConns(cs: map<nat, Connection>, items: set<Item>, v: bool): map<nat, Connection>
  {
    map c | c in cs :: if ConnectionItem(c) in items && IsPointRelation(cs[c].relType) then WithVisibility(cs[c], v) else cs[c]
  }

  /**
   * The toggle changes the visibility of exactly the Points and the Point relationships
   * among the items, to `v`, with every arrow of such a relationship, and nothing else.
   */
  lemma ToggledSpec(es: map<nat, Entity>, cs: map<nat, Connection>, items: set<Item>, v: bool)
    ensures ToggledEntities(es, items, v).Keys == es.Keys && ToggledConns(cs, items, v).Keys == cs.Keys
    ensures forall e :: e in es ==>
      var r := ToggledEntities(es, items, v)[e];
      r == es[e].(visible := r.visible)
      && r.visible == if EntityItem(e) in items && es[e].etype.isPoint then v else es[e].visible
    ensures forall c :: c in cs ==>
      var r := ToggledConns(cs, items, v)[c];
      r == cs[c].(visible := r.visible, arrows := r.arrows) && |r.arrows| == |cs[c].arrows|
      && if ConnectionItem(c) in items && IsPointRelation(cs[c].relType) then
           r.visible == v && forall i :: 0 <= i < |r.arrows| ==> r.arrows[i].visible == v
         else r == cs[c]
  {
  }

  /** Whatever the earlier toggles did, the last one alone decides the visibility of the Points. */
  lemma ToggleLastWins(es: map<nat, Entity>, cs: map<nat, Connection>, items: set<Item>, v: bool, w: bool)
    ensures ToggledEntities(ToggledEntities(es, items, v), items, w) == ToggledEntities(es, items, w)
    ensures ToggledConns(ToggledConns(cs, items, v), items, w) == ToggledConns(cs, items, w)
  {
    var once := ToggledConns(cs, items, v);
    forall c | c in cs
      ensures ToggledConns(once, items, w)[c] == ToggledConns(cs, items, w)[c]
    {
      WithVisibilityLast(cs[c], v, w);
    }
  }

  /**
   * Toggling twice restores every visibility when the Points and Point relationships of
   * the scene, with their arrows, were all at the canvas's flag `v` before.
   */
  lemma ToggleTwiceRestores(es: map<nat, Entity>, cs: map<nat, Connection>, items: set<Item>, v: bool)
    requires forall e :: e in es && EntityItem(e) in items && es[e].etype.isPoint ==> es[e].visible == v
    requires forall c :: c in cs && ConnectionItem(c) in items && IsPointRelation(cs[c].relType) ==>
      cs[c].visible == v && forall i :: 0 <= i < |cs[c].arrows| ==> cs[c].arrows[i].visible == v
    ensures ToggledEntities(ToggledEntities(es, items, !v), items, v) == es
    ensures ToggledConns(ToggledConns(cs, items, !v), items, v) == cs
  {
    ToggleLastWins(es, cs, items, !v, v);
    forall c | c in cs && ConnectionItem(c) in items && IsPointRelation(cs[c].relType)
      ensures WithVisibility(cs[c], v) == cs[c]
    {
      assert WithVisibility(cs[c], v).arrows == cs[c].arrows;
    }
  }

  /** Handling one more entity of the scene in the toggle's loop. */
  lemma ToggleEntityStep(es0: map<nat, Entity>, cs0: map<nat, Connection>, done: set<Item>, e: nat, v: bool)
    requires e in es0
    ensures var es := ToggledEntities(es0, done, v);
      ToggledEntities(es0, done + {EntityItem(e)}, v) == (if es0[e].etype.isPoint then es[e := es0[e].(visible := v)] else es)
    ensures ToggledConns(cs0, done + {EntityItem(e)}, v) == ToggledConns(cs0, done, v)
  {
  }

  /** Handling one more connection of the scene in the toggle's loop. */
  lemma ToggleConnStep(es0: map<nat, Entity>, cs0: map<nat, Connection>, done: set<Item>, c: nat, v: bool)
    requires c in cs0
    ensures var cs := ToggledConns(cs0, done, v);
      ToggledConns(cs0, done + {ConnectionItem(c)}, v)
        == (if IsPointRelation(cs0[c].relType) then cs[c := WithVisibility(cs0[c], v)] else cs)
    ensures ToggledEntities(es0, done + {ConnectionItem(c)}, v) == ToggledEntities(es0, done, v)
  {
  }

  /**
   * Toggling twice does not restore a Point that was added while the Points were hidden:
   * it was shown when dropped, and the second toggle leaves it hidden like the others.
   */
  lemma ToggleTwiceHidesNewPoint(es: map<nat, Entity>, items: set<Item>, e: nat)
    requires e in es && EntityItem(e) in items && es[e].etype.isPoint && es[e].visible
    ensures !ToggledEntities(ToggledEntities(es, items, true), items, false)[e].visible
  {
  }

  /**
   * The loop of `toggle_points_visibility` over the items of the scene: each Point entity
   * and each Point relationship, with its arrows, is set to visibility `v`.
   */
  method SetPointsVisibility(scene: Scene, v: bool)
    requires scene.Valid()
    modifies scene
    ensures scene.Valid()
    ensures var items := SceneItems(old(scene.entities), old(scene.conns));
      scene.entities == ToggledEntities(old(scene.entities), items, v)
      && scene.conns == ToggledConns(old(scene.conns), items, v)
    ensures scene.entities.Keys == old(scene.entities).Keys && scene.conns.Keys == old(scene.conns).Keys
    ensures scene.ports == old(scene.ports) && scene.nextId == old(scene.nextId)
  {
    var items := SceneItems(scene.entities, scene.conns);
    var todo := items;
    while todo != {}
      invariant todo <= items
      invariant scene.Valid()
      invariant scene.entities == ToggledEntities(old(scene.entities), items - todo, v)
      invariant scene.conns == ToggledConns(old(scene.conns), items - todo, v)
      invariant scene.entities.Keys == old(scene.entities).Keys && scene.conns.Keys == old(scene.conns).Keys
      invariant scene.ports == old(scene.ports) && scene.nextId == old(scene.nextId)
      decreases todo
    {
      var item :| item in todo;
      assert item in items;
      assert (items - todo) + {item} == items - (todo - {item});
      if item.EntityItem? {
        ToggleEntityStep(old(scene.entities), old(scene.conns), items - todo, item.e, v);
        if scene.entities[item.e].etype.isPoint {
          scene.SetEntityVisible(item.e, v);
        }
      } else {
        assert item.ConnectionItem?;
        ToggleConnStep(old(scene.entities), old(scene.conns), items - todo, item.c, v);
        if IsPointRelation(scene.conns[item.c].relType) {
          scene.SetConnectionVisible(item.c, v);
        }
      }
      todo := todo - {item};
    }
    assert items - todo == items;
  }

  // ---------------------------------------------------------------------------
  // The property panel

  /** What the property panel shows for a selection of more than one item. */
  datatype SelectionKind = MultipleEntities | MultipleConnections | Mixed

  /** How many entities a selection holds. */
  function EntityCount(sel: seq<Item>): (n: nat)
    ensures n <= |sel|
    ensures n > 0 <==> exists k :: 0 <= k < |sel| && sel[k].EntityItem?
  {
    if |sel| == 0 then 0
    else
      var init := sel[..|sel| - 1];
      assert forall k :: 0 <= k < |init| ==> init[k] == sel[k];
      EntityCount(init) + (if sel[|sel| - 1].EntityItem? then 1 else 0)
  }

  /** How many connections a selection holds. */
  function ConnectionCount(sel: seq<Item>): (n: nat)
    ensures n <= |sel|
    ensures n > 0 <==> exists k :: 0 <= k < |sel| && sel[k].ConnectionItem?
  {
    if |sel| == 0 then 0
    else
      var init := sel[..|sel| - 1];
      assert forall k :: 0 <= k < |init| ==> init[k] == sel[k];
      ConnectionCount(init) + (if sel[|sel| - 1].ConnectionItem? then 1 else 0)
  }

  /**
   * `_handle_multiple_selection`: entities only, connections only, or anything else
   * (both kinds, or only joints).
   */
  function Classify(entityCount: nat, connectionCount: nat): (kind: SelectionKind)
    ensures kind == MultipleEntities <==> entityCount > 0 && connectionCount == 0
    ensures kind == MultipleConnections <==> entityCount == 0 && connectionCount > 0
    ensures kind == Mixed <==> (entityCount > 0 <==> connectionCount > 0)
  {
    if entityCount > 0 && connectionCount == 0 then MultipleEntities
    else if entityCount == 0 && connectionCount > 0 then MultipleConnections
    else Mixed
  }

  /**
   * A selection is shown as entities exactly when it holds an entity and no connection,
   * as connections exactly when it holds a connection and no entity, and as mixed otherwise.
   */
  lemma ClassifySelection(sel: seq<Item>)
    ensures var kind := Classify(EntityCount(sel), ConnectionCount(sel));
      && (kind == MultipleEntities <==>
           (exists k :: 0 <= k < |sel| && sel[k].EntityItem?) && forall k :: 0 <= k < |sel| ==> !sel[k].ConnectionItem?)
      && (kind == MultipleConnections <==>
           (exists k :: 0 <= k < |sel| && sel[k].ConnectionItem?) && forall k :: 0 <= k < |sel| ==> !sel[k].EntityItem?)
  {
  }

  /** The entities after every selected one has taken the label `text`. */
  function LabelledEntities(es: map<nat, Entity>, sel: seq<Item>, text: string): map<nat, Entity>
  {
    map e | e in es :: if EntityItem(e) in sel then es[e].(labelText := text) else es[e]
  }

  /** Handling the next selected item in `_update_entity_label`'s loop. */
  lemma LabelStep(es: map<nat, Entity>, sel: seq<Item>, text: string, i: nat)
    requires i < |sel|
    ensures var r := LabelledEntities(es, sel[..i], text);
      && (sel[i].EntityItem? && sel[i].e in es ==>
            LabelledEntities(es, sel[..i + 1], text) == r[sel[i].e := r[sel[i].e].(labelText := text)])
      && (!sel[i].EntityItem? ==> LabelledEntities(es, sel[..i + 1], text) == r)
  {
    assert sel[..i + 1] == sel[..i] + [sel[i]];
  }

  /**
   * `PropertyPanel._update_entity_label`: every selected entity takes the text of the
   * label field; nothing else changes.
   */
  method UpdateEntityLabel(scene: Scene, sel: seq<Item>, text: string)
    requires scene.Valid()
    requires forall k :: 0 <= k < |sel| && sel[k].EntityItem? ==> sel[k].e in scene.entities
    modifies scene
    ensures scene.Valid()
    ensures scene.entities == LabelledEntities(old(scene.entities), sel, text)
    ensures scene.ports == old(scene.ports) && scene.conns == old(scene.conns) && scene.nextId == old(scene.nextId)
  {
    var i := 0;
    while i < |sel|
      invariant 0 <= i <= |sel|
      invariant scene.Valid()
      invariant scene.entities == LabelledEntities(old(scene.entities), sel[..i], text)
      invariant scene.entities.Keys == old(scene.entities).Keys
      invariant scene.ports == old(scene.ports) && scene.conns == old(scene.conns) && scene.nextId == old(scene.nextId)
    {
      LabelStep(old(scene.entities), sel, text, i);
      if sel[i].EntityItem? {
        scene.SetLabel(sel[i].e, text);
      }
      i := i + 1;
    }
    assert sel[..i] == sel;
  }

  /** Relabelling changes the label of exactly the selected entities, to the same text. */
  lemma LabelledSpec(es: map<nat, Entity>, sel: seq<Item>, text: string)
    ensures LabelledEntities(es, sel, text).Keys == es.Keys
    ensures forall e :: e in es ==>
      var r := LabelledEntities(es, sel, text)[e];
      r == es[e].(labelText := r.labelText)
      && r.labelText == if EntityItem(e) in sel then text else es[e].labelText
  {
  }

  // ---------------------------------------------------------------------------
  // The canvas

  /** Where a paste puts copies: 50 to the right of and 50 below the originals. */
  const PASTE_OFFSET: real := 50.0

  /** An entity on the clipboard: the original's id, its type, position and rotation. */
  datatype CopiedEntity = CopiedEntity(orig: nat, etype: Model.EntityType, pos: Pos, rotation: int)

  /**
   * A connection on the clipboard: the ids of the original entities at its ends, its
   * relationship type, its pen and the positions of its joints in path order.
   */
  datatype CopiedConnection = CopiedConnection(source: nat, target: nat, relType: Term, pen: Pen, joints: seq<Pos>)

  /** The internal clipboard: the copied entities in selection order and the copied connections. */
  datatype Clipboard = Clipboard(entities: seq<CopiedEntity>, connections: seq<CopiedConnection>)

  const EMPTY_CLIPBOARD: Clipboard := Clipboard([], [])

  // ---------------------------------------------------------------------------
  // Copying

  /** The clipboard entry of entity `e`. */
  function EntityEntry(es: map<nat, Entity>, e: nat): CopiedEntity
    requires e in es
  {
    CopiedEntity(e, es[e].etype, es[e].pos, es[e].rotation)
  }

  /** `_copy_selected_items`, first pass: the entry of every selected entity, in selection order. */
  function CopiedEntities(es: map<nat, Entity>, sel: seq<Item>): seq<CopiedEntity>
  {
    if |sel| == 0 then []
    else
      var last := sel[|sel| - 1];
      CopiedEntities(es, sel[..|sel| - 1]) + if last.EntityItem? && last.e in es then [EntityEntry(es, last.e)] else []
  }

  /** The ids of the originals of the copied entities. */
  function Origins(ents: seq<CopiedEntity>): set<nat>
  {
    set k | 0 <= k < |ents| :: ents[k].orig
  }

  /** The first pass copies exactly the selected entities of the scene. */
  lemma {:induction false} CopiedOrigins(es: map<nat, Entity>, sel: seq<Item>)
    ensures forall e :: e in Origins(CopiedEntities(es, sel)) <==> e in es && EntityItem(e) in sel
  {
    if |sel| > 0 {
      var init := sel[..|sel| - 1];
      var last := sel[|sel| - 1];
      assert sel == init + [last];
      CopiedOrigins(es, init);
      var ents := CopiedEntities(es, sel);
      var front := CopiedEntities(es, init);
      if last.EntityItem? && last.e in es {
        assert ents == front + [EntityEntry(es, last.e)];
        forall e
          ensures e in Origins(ents) <==> e in es && EntityItem(e) in sel
        {
          if e in Origins(ents) {
            var k :| 0 <= k < |ents| && ents[k].orig == e;
            if k < |front| {
              assert front[k].orig == e;
            }
          }
          if e in es && EntityItem(e) in sel && e != last.e {
            assert e in Origins(front);
            var k :| 0 <= k < |front| && front[k].orig == e;
            assert ents[k].orig == e;
          }
          if e == last.e {
            assert ents[|front|].orig == e;
          }
        }
      } else {
        assert ents == front;
      }
    }
  }

  /**
   * The first pass copies each selected entity once, in selection order, with its type,
   * position and rotation.
   */
  lemma {:induction false} CopiedEntries(es: map<nat, Entity>, sel: seq<Item>)
    requires Distinct(sel)
    ensures forall k :: 0 <= k < |CopiedEntities(es, sel)| ==>
      CopiedEntities(es, sel)[k].orig in es && CopiedEntities(es, sel)[k] == EntityEntry(es, CopiedEntities(es, sel)[k].orig)
    ensures forall k, l :: 0 <= k < l < |CopiedEntities(es, sel)| ==> CopiedEntities(es, sel)[k].orig != CopiedEntities(es, sel)[l].orig
  {
    if |sel| > 0 {
      var init := sel[..|sel| - 1];
      var last := sel[|sel| - 1];
      assert sel == init + [last];
      assert Distinct(init);
      CopiedEntries(es, init);
      var ents := CopiedEntities(es, sel);
      var front := CopiedEntities(es, init);
      if last.EntityItem? && last.e in es {
        assert ents == front + [EntityEntry(es, last.e)];
        assert EntityItem(last.e) !in init;
        CopiedOrigins(es, init);
        forall k | 0 <= k < |front|
          ensures front[k].orig != last.e
        {
          assert front[k].orig in Origins(front);
        }
        forall k | 0 <= k < |ents|
          ensures ents[k].orig in es && ents[k] == EntityEntry(es, ents[k].orig)
        {
          if k < |front| {
            assert ents[k] == front[k];
          }
        }
        forall k, l | 0 <= k < l < |ents|
          ensures ents[k].orig != ents[l].orig
        {
          assert ents[k] == front[k];
          if l < |front| {
            assert ents[l] == front[l];
          }
        }
      } else {
        assert ents == front;
      }
    }
  }

  /** A connection of the scene `_copy_selected_items` copies: in the scene, with both ends among `origs`. */
  predicate Copyable(x: Connection, origs: set<nat>)
  {
    x.inScene && x.source.Some? && x.target.Some? && x.source.value in origs && x.target.value in origs
  }

  /** The connections the second pass copies. */
  function CopyableConnections(cs: map<nat, Connection>, origs: set<nat>): set<nat>
  {
    set c | c in cs && Copyable(cs[c], origs)
  }

  /** The scene positions of a connection's joints, in path order. */
  function JointPositions(js: seq<Joint>): (r: seq<Pos>)
    ensures |r| == |js| && forall k :: 0 <= k < |js| ==> r[k] == js[k].pos
  {
    seq(|js|, k requires 0 <= k < |js| => js[k].pos)
  }

  /** The clipboard entry of a complete connection. */
  function ConnectionEntry(x: Connection): CopiedConnection
    requires x.source.Some? && x.target.Some?
  {
    CopiedConnection(x.source.value, x.target.value, x.relType, x.pen, JointPositions(x.joints))
  }

  // ---------------------------------------------------------------------------
  // Pasting

  /**
   * Where a paste puts the copy of `ce`, whose new item has type `t`: 50 to the right, and
   * 50 below the original unless it is a Point, which goes on the Point line. The item is
   * not yet in the scene, so no snapping applies.
   */
  function PastePos(ce: CopiedEntity, t: Model.EntityType): (r: Pos)
    ensures r.x == ce.pos.x + PASTE_OFFSET
    ensures !ce.etype.isPoint ==> r.y == ce.pos.y + PASTE_OFFSET
    ensures ce.etype.isPoint ==> r.y + t.height / 2.0 == Config.POINT_LINE
  {
    Pos(ce.pos.x + PASTE_OFFSET, if ce.etype.isPoint then Config.POINT_LINE - t.height / 2.0 else ce.pos.y + PASTE_OFFSET)
  }

  /** The copy of `ce` under id `e`: the type found again by URI, placed by `PastePos`, rotated, in the scene. */
  function PastedEntity(ce: CopiedEntity, t: Model.EntityType, e: nat): Entity
  {
    Entity(t, EntityUri(e), "", PastePos(ce, t), NormalizeAngle(ce.rotation), true, true)
  }

  /** Every copied entity's type is still in the library. */
  predicate AllKnown(ents: seq<CopiedEntity>)
  {
    forall k :: 0 <= k < |ents| ==> Model.Lookup(ents[k].etype.uri).Ok?
  }

  /** The entities after pasting `ents`, the k-th under id `n0 + k`. */
  function PastedEntities(es: map<nat, Entity>, ents: seq<CopiedEntity>, n0: nat): map<nat, Entity>
    requires AllKnown(ents)
  {
    if |ents| == 0 then es
    else
      var k := |ents| - 1;
      PastedEntities(es, ents[..k], n0)[n0 + k := PastedEntity(ents[k], Model.Lookup(ents[k].etype.uri).value, n0 + k)]
  }

  /** The port lists after pasting `ents`: an empty one for each new entity. */
  function PastedPorts(ps: map<nat, seq<nat>>, ents: seq<CopiedEntity>, n0: nat): map<nat, seq<nat>>
  {
    if |ents| == 0 then ps else PastedPorts(ps, ents[..|ents| - 1], n0)[n0 + |ents| - 1 := []]
  }

  /** `new_entity_mapping`: each original's id to the id of its copy (the last one, for a repeated original). */
  function PasteMapping(ents: seq<CopiedEntity>, n0: nat): map<nat, nat>
  {
    if |ents| == 0 then map[] else PasteMapping(ents[..|ents| - 1], n0)[ents[|ents| - 1].orig := n0 + |ents| - 1]
  }

  /**
   * Pasting entities under fresh ids `n0`, `n0 + 1`, … keeps every existing entity and
   * adds the copy of the k-th entry under `n0 + k`.
   */
  lemma {:induction false} PastedEntitiesSpec(es: map<nat, Entity>, ents: seq<CopiedEntity>, n0: nat)
    requires AllKnown(ents)
    requires forall e :: e in es ==> e < n0
    ensures var r := PastedEntities(es, ents, n0);
      && (forall e :: e in r <==> e in es || n0 <= e < n0 + |ents|)
      && (forall e :: e in es ==> r[e] == es[e])
      && (forall k :: 0 <= k < |ents| ==>
            n0 + k in r && r[n0 + k] == PastedEntity(ents[k], Model.Lookup(ents[k].etype.uri).value, n0 + k))
  {
    if |ents| > 0 {
      var last := |ents| - 1;
      var init := ents[..last];
      assert AllKnown(init);
      PastedEntitiesSpec(es, init, n0);
      var r0 := PastedEntities(es, init, n0);
      var r := PastedEntities(es, ents, n0);
      forall k | 0 <= k < last
        ensures n0 + k in r && r[n0 + k] == PastedEntity(ents[k], Model.Lookup(ents[k].etype.uri).value, n0 + k)
      {
        assert init[k] == ents[k];
        assert r[n0 + k] == r0[n0 + k];
      }
    }
  }

  /** Pasting entities gives each new one an empty port list and keeps the others. */
  lemma {:induction false} PastedPortsSpec(ps: map<nat, seq<nat>>, ents: seq<CopiedEntity>, n0: nat)
    requires forall p :: p in ps ==> p < n0
    ensures var r := PastedPorts(ps, ents, n0);
      && (forall p :: p in r <==> p in ps || n0 <= p < n0 + |ents|)
      && (forall p :: p in ps ==> r[p] == ps[p])
      && (forall p :: n0 <= p < n0 + |ents| ==> p in r && r[p] == [])
  {
    if |ents| > 0 {
      PastedPortsSpec(ps, ents[..|ents| - 1], n0);
    }
  }

  /**
   * The mapping sends every original to the id of a copy of it, and of its last copy:
   * no later entry has the same original.
   */
  lemma {:induction false} PasteMappingSpec(ents: seq<CopiedEntity>, n0: nat)
    ensures var m := PasteMapping(ents, n0);
      && (forall o :: o in m ==> exists k :: 0 <= k < |ents| && ents[k].orig == o && m[o] == n0 + k)
      && (forall k :: 0 <= k < |ents| ==> ents[k].orig in m && n0 + k <= m[ents[k].orig])
  {
    if |ents| > 0 {
      var last := |ents| - 1;
      var init := ents[..last];
      PasteMappingSpec(init, n0);
      var m := PasteMapping(ents, n0);
      var m0 := PasteMapping(init, n0);
      assert m == m0[ents[last].orig := n0 + last];
      forall o | o in m
        ensures exists k :: 0 <= k < |ents| && ents[k].orig == o && m[o] == n0 + k
      {
        if o != ents[last].orig {
          var k :| 0 <= k < |init| && init[k].orig == o && m0[o] == n0 + k;
          assert ents[k] == init[k];
        } else {
          assert ents[last].orig == o && m[o] == n0 + last;
        }
      }
      forall k | 0 <= k < last
        ensures ents[k].orig in m && n0 + k <= m[ents[k].orig]
      {
        assert ents[k] == init[k];
      }
    }
  }

  /** `p` moved by the paste offset. */
  function Offset(p: Pos): Pos
  {
    Pos(p.x + PASTE_OFFSET, p.y + PASTE_OFFSET)
  }

  /** The copied joint positions moved by the paste offset. */
  function Offsets(ps: seq<Pos>): (r: seq<Pos>)
    ensures |r| == |ps| && forall k :: 0 <= k < |ps| ==> r[k] == Offset(ps[k])
  {
    seq(|ps|, k requires 0 <= k < |ps| => Offset(ps[k]))
  }

  /** The joints a paste gives a connection: one per copied position, moved by the offset and snapped. */
  function PastedJoints(ps: seq<Pos>, first: nat): (r: seq<Joint>)
    ensures |r| == |ps| && forall k :: 0 <= k < |ps| ==> r[k] == Joint(first + k, JointSnap(Offset(ps[k])))
  {
    SnappedJoints(Offsets(ps), first)
  }

  /**
   * A pasted connection as `_paste_copied_items` builds it, before `addItem`: created
   * between the copies `s` and `t` under id `c`, typed, given the copied pen, then its
   * joints added one by one, all while it is outside the scene.
   */
  function PasteBuilt(cc: CopiedConnection, s: nat, t: nat, c: nat): Connection
  {
    WithJoints(PasteStart(cc, s, t, c), Offsets(cc.joints), c + 1)
  }

  /** A pasted connection before its joints: created between `s` and `t` under id `c`, typed, given the copied pen. */
  function PasteStart(cc: CopiedConnection, s: nat, t: nat, c: nat): Connection
  {
    WithRelationshipType(Redraw(NewRecord(Some(s), Some(t), None, c)), cc.relType).(pen := cc.pen)
  }

  /**
   * The pasted connection as written: the built connection is added to the scene and
   * nothing redraws it, so its arrows, drawn while it was outside, stay outside.
   */
  function PastedConnectionAsWritten(cc: CopiedConnection, s: nat, t: nat, c: nat): (x: Connection)
    ensures x.source == Some(s) && x.target == Some(t) && x.relType == cc.relType && x.pen == cc.pen
    ensures x.inScene && |x.arrows| == |cc.joints| + 1
  {
    WithJointsSpec(PasteStart(cc, s, t, c), Offsets(cc.joints), c + 1);
    PasteBuilt(cc, s, t, c).(inScene := true)
  }

  /** The pasted connection as intended: added to the scene, then redrawn there. */
  function PastedConnection(cc: CopiedConnection, s: nat, t: nat, c: nat): (x: Connection)
    ensures x == PastedConnectionAsWritten(cc, s, t, c).(arrows := x.arrows)
    ensures x.inScene && Drawn(x)
  {
    RedrawIdempotent(PasteBuilt(cc, s, t, c).(inScene := true));
    Redraw(PasteBuilt(cc, s, t, c).(inScene := true))
  }

  /**
   * As written, a pasted connection is in the scene with one arrow per segment, and not
   * one of them is in the scene: the copy shows no direction until one of its entities moves.
   */
  lemma PasteLeavesArrowsOut(cc: CopiedConnection, s: nat, t: nat, c: nat)
    ensures var x := PastedConnectionAsWritten(cc, s, t, c);
      && x.inScene && |x.arrows| == |cc.joints| + 1
      && forall k :: 0 <= k < |x.arrows| ==> !x.arrows[k].inScene
  {
    WithJointsSpec(PasteStart(cc, s, t, c), Offsets(cc.joints), c + 1);
  }

  /**
   * As intended, a pasted connection joins the copies of the ends with the copied type
   * and pen, its joints are the copied ones moved by the offset and snapped, under fresh
   * ids, and it is drawn in the scene: one arrow per segment, each in the scene, with the
   * copied pen. The copy of a copied connection copies back to the same entry, ends mapped.
   */
  lemma PastedConnectionSpec(cc: CopiedConnection, s: nat, t: nat, c: nat)
    ensures var x := PastedConnection(cc, s, t, c);
      && x.source == Some(s) && x.target == Some(t) && x.relType == cc.relType && x.pen == cc.pen
      && x.joints == PastedJoints(cc.joints, c + 1) && x.uri == ConnectionUri(c)
      && x.inScene && x.visible && Drawn(x) && |x.arrows| == |cc.joints| + 1
      && (forall k :: 0 <= k < |x.arrows| ==> x.arrows[k] == Arrow(cc.pen, cc.pen.color, true, true))
      && ConnectionEntry(x) == CopiedConnection(s, t, cc.relType, cc.pen, JointPositions(PastedJoints(cc.joints, c + 1)))
  {
    WithJointsSpec(PasteStart(cc, s, t, c), Offsets(cc.joints), c + 1);
    RedrawIdempotent(PasteBuilt(cc, s, t, c).(inScene := true));
  }

  /** The scene's connections, port lists and next id, the part of it connection pasting changes. */
  datatype Wiring = Wiring(conns: map<nat, Connection>, ports: map<nat, seq<nat>>, next: nat)

  /** Pasting one copied connection: skipped unless both its ends were pasted. */
  function PasteOne(w: Wiring, cc: CopiedConnection, m: map<nat, nat>): Wiring
  {
    if Qualifies(cc, m) then
      var c := w.next;
      Wiring(w.conns[c := PastedConnection(cc, m[cc.source], m[cc.target], c)],
             Register(Register(w.ports, Some(m[cc.source]), c), Some(m[cc.target]), c),
             c + 1 + |cc.joints|)
    else w
  }

  /** Pasting the copied connections in clipboard order. */
  function PasteAll(w: Wiring, ccs: seq<CopiedConnection>, m: map<nat, nat>): Wiring
    decreases |ccs|
  {
    if |ccs| == 0 then w else PasteAll(PasteOne(w, ccs[0], m), ccs[1..], m)
  }

  /** A copied connection is pasted when both its ends were pasted. */
  predicate Qualifies(cc: CopiedConnection, m: map<nat, nat>)
  {
    cc.source in m && cc.target in m
  }

  /** `x` is the pasted copy, under id `c`, of an entry of `ccs` whose ends were both pasted. */
  ghost predicate PastedFrom(x: Connection, c: nat, ccs: seq<CopiedConnection>, m: map<nat, nat>)
  {
    exists k :: 0 <= k < |ccs| && Qualifies(ccs[k], m) && x == PastedConnection(ccs[k], m[ccs[k].source], m[ccs[k].target], c)
  }

  /** Some connection of `r` that is not in `w` is the pasted copy of `cc`. */
  ghost predicate PastedIn(cc: CopiedConnection, m: map<nat, nat>, w: map<nat, Connection>, r: map<nat, Connection>)
    requires Qualifies(cc, m)
  {
    exists c :: c in r && c !in w && r[c] == PastedConnection(cc, m[cc.source], m[cc.target], c)
  }

  /** A copy pasted from the later entries is pasted from the whole list. */
  lemma PastedFromTail(x: Connection, c: nat, ccs: seq<CopiedConnection>, m: map<nat, nat>)
    requires |ccs| > 0 && PastedFrom(x, c, ccs[1..], m)
    ensures PastedFrom(x, c, ccs, m)
  {
    var k :| 0 <= k < |ccs[1..]| && Qualifies(ccs[1..][k], m)
      && x == PastedConnection(ccs[1..][k], m[ccs[1..][k].source], m[ccs[1..][k].target], c);
    assert ccs[k + 1] == ccs[1..][k];
  }

  /** Pasting the copied connections keeps every existing connection and takes only fresh ids. */
  lemma {:induction false} PasteAllFrame(w: Wiring, ccs: seq<CopiedConnection>, m: map<nat, nat>)
    requires forall c :: c in w.conns ==> c < w.next
    ensures var r := PasteAll(w, ccs, m);
      && r.next >= w.next && w.conns.Keys <= r.conns.Keys
      && (forall c :: c in r.conns ==> c < r.next)
      && (forall c :: c in w.conns ==> r.conns[c] == w.conns[c])
    decreases |ccs|
  {
    if |ccs| > 0 {
      PasteAllFrame(PasteOne(w, ccs[0], m), ccs[1..], m);
    }
  }

  /** Every connection a paste adds is the pasted copy of a copied connection whose ends were both pasted. */
  lemma {:induction false} PasteAllNew(w: Wiring, ccs: seq<CopiedConnection>, m: map<nat, nat>)
    requires forall c :: c in w.conns ==> c < w.next
    ensures var r := PasteAll(w, ccs, m);
      forall c :: c in r.conns && c !in w.conns ==> w.next <= c && PastedFrom(r.conns[c], c, ccs, m)
    decreases |ccs|
  {
    if |ccs| > 0 {
      var w1 := PasteOne(w, ccs[0], m);
      var rest := ccs[1..];
      PasteAllNew(w1, rest, m);
      PasteAllFrame(w1, rest, m);
      var r := PasteAll(w1, rest, m);
      forall c | c in r.conns && c !in w.conns
        ensures w.next <= c && PastedFrom(r.conns[c], c, ccs, m)
      {
        if c in w1.conns {
          assert c == w.next && Qualifies(ccs[0], m);
          assert r.conns[c] == w1.conns[c] == PastedConnection(ccs[0], m[ccs[0].source], m[ccs[0].target], c);
        } else {
          PastedFromTail(r.conns[c], c, ccs, m);
        }
      }
    }
  }

  /** Every copied connection whose ends were both pasted is pasted. */
  lemma {:induction false} PasteAllComplete(w: Wiring, ccs: seq<CopiedConnection>, m: map<nat, nat>)
    requires forall c :: c in w.conns ==> c < w.next
    ensures var r := PasteAll(w, ccs, m);
      forall k :: 0 <= k < |ccs| && Qualifies(ccs[k], m) ==> PastedIn(ccs[k], m, w.conns, r.conns)
    decreases |ccs|
  {
    if |ccs| > 0 {
      var w1 := PasteOne(w, ccs[0], m);
      var rest := ccs[1..];
      PasteAllComplete(w1, rest, m);
      PasteAllFrame(w1, rest, m);
      var r := PasteAll(w1, rest, m);
      forall k | 0 <= k < |ccs| && Qualifies(ccs[k], m)
        ensures PastedIn(ccs[k], m, w.conns, r.conns)
      {
        if k == 0 {
          assert r.conns[w.next] == w1.conns[w.next];
        } else {
          assert rest[k - 1] == ccs[k];
          var c :| c in r.conns && c !in w1.conns
            && r.conns[c] == PastedConnection(ccs[k], m[ccs[k].source], m[ccs[k].target], c);
          assert c !in w.conns;
        }
      }
    }
  }

  /**
   * Pasting one copied entity: a new entity of the type found again by URI, placed while
   * still outside the scene, rotated, then added to it. An unknown type raises
   * `AttributeError` and nothing is created.
   */
  method PasteEntity(scene: Scene, ce: CopiedEntity) returns (r: Result<nat>)
    requires scene.Valid()
    modifies scene
    ensures scene.Valid()
    ensures Model.Lookup(ce.etype.uri).Err? ==> r == Err(AttributeError) && unchanged(scene)
    ensures Model.Lookup(ce.etype.uri).Ok? ==>
      var e := old(scene.nextId);
      r == Ok(e) && scene.nextId == e + 1
      && scene.entities == old(scene.entities)[e := PastedEntity(ce, Model.Lookup(ce.etype.uri).value, e)]
      && scene.ports == old(scene.ports)[e := []] && scene.conns == old(scene.conns)
  {
    r := scene.NewEntity(ce.etype.uri);
    if r.Err? {
      return;
    }
    var e := r.value;
    var ent := scene.entities[e];
    var q := PastePos(ce, ent.etype);
    scene.SetEntityPos(e, q);
    assert scene.entities == old(scene.entities)[e := ent][e := ent.(pos := q)];
    UpdateTwice(old(scene.entities), e, ent, ent.(pos := q));
    scene.ApplyRotation(e, ce.rotation);
    UpdateTwice(old(scene.entities), e, ent.(pos := q), ent.(pos := q, rotation := NormalizeAngle(ce.rotation)));
    scene.AddEntityToScene(e);
    UpdateTwice(old(scene.entities), e, ent.(pos := q, rotation := NormalizeAngle(ce.rotation)),
      ent.(pos := q, rotation := NormalizeAngle(ce.rotation), inScene := true));
  }

  /** The first steps of pasting a copied connection: created between `s` and `t`, typed, given the copied pen. */
  method NewPastedConnection(scene: Scene, cc: CopiedConnection, s: nat, t: nat) returns (c: nat)
    requires scene.Valid() && s in scene.ports && t in scene.ports
    modifies scene
    ensures scene.Valid()
    ensures c == old(scene.nextId) && scene.nextId == c + 1
    ensures scene.conns == old(scene.conns)[c := PasteStart(cc, s, t, c)]
    ensures scene.ports == Register(Register(old(scene.ports), Some(s), c), Some(t), c)
    ensures scene.entities == old(scene.entities)
  {
    c := scene.NewConnection(Some(s), Some(t), None);
    ghost var x := Redraw(NewRecord(Some(s), Some(t), None, c));
    scene.SetRelationshipType(c, cc.relType);
    UpdateTwice(old(scene.conns), c, x, WithRelationshipType(x, cc.relType));
    scene.SetPen(c, cc.pen);
    UpdateTwice(old(scene.conns), c, WithRelationshipType(x, cc.relType), PasteStart(cc, s, t, c));
  }

  /** Pasting a connection up to `addItem`: created, typed, given the copied pen and the copied joints. */
  method BuildPastedConnection(scene: Scene, cc: CopiedConnection, s: nat, t: nat) returns (c: nat)
    requires scene.Valid() && s in scene.ports && t in scene.ports
    modifies scene
    ensures scene.Valid()
    ensures c == old(scene.nextId) && scene.nextId == c + 1 + |cc.joints|
    ensures scene.conns == old(scene.conns)[c := PasteBuilt(cc, s, t, c)]
    ensures scene.ports == Register(Register(old(scene.ports), Some(s), c), Some(t), c)
    ensures scene.entities == old(scene.entities)
  {
    c := NewPastedConnection(scene, cc, s, t);
    ghost var x0 := PasteStart(cc, s, t, c);
    PasteBuiltFromStart(cc, s, t, c);
    scene.AddJointsAtPoints(c, Offsets(cc.joints));
    UpdateTwice(old(scene.conns), c, x0, PasteBuilt(cc, s, t, c));
  }

  /** The built connection is the started one with the copied joints added. */
  lemma PasteBuiltFromStart(cc: CopiedConnection, s: nat, t: nat, c: nat)
    ensures PasteBuilt(cc, s, t, c) == WithJoints(PasteStart(cc, s, t, c), Offsets(cc.joints), c + 1)
  {
  }

  /** The last steps of pasting a connection: `addItem`, then the redraw that draws its arrows in the scene. */
  method ShowPastedConnection(scene: Scene, c: nat)
    requires scene.Valid() && c in scene.conns
    modifies scene
    ensures scene.Valid()
    ensures scene.conns == old(scene.conns)[c := Redraw(old(scene.conns[c]).(inScene := true))]
    ensures scene.ports == old(scene.ports) && scene.entities == old(scene.entities) && scene.nextId == old(scene.nextId)
  {
    ghost var built := scene.conns[c];
    scene.AddConnectionToScene(c);
    scene.UpdatePosition(c);
    UpdateTwice(old(scene.conns), c, built.(inScene := true), Redraw(built.(inScene := true)));
  }

  /**
   * Pasting one copied connection between the copies `s` and `t`: created, typed, given
   * the copied pen and the copied joints moved by the offset, added to the scene and redrawn.
   */
  method PasteConnection(scene: Scene, cc: CopiedConnection, s: nat, t: nat) returns (c: nat)
    requires scene.Valid() && s in scene.ports && t in scene.ports
    modifies scene
    ensures scene.Valid()
    ensures c == old(scene.nextId) && scene.nextId == c + 1 + |cc.joints|
    ensures scene.conns == old(scene.conns)[c := PastedConnection(cc, s, t, c)]
    ensures scene.ports == Register(Register(old(scene.ports), Some(s), c), Some(t), c)
    ensures scene.entities == old(scene.entities)
  {
    c := BuildPastedConnection(scene, cc, s, t);
    ShowPastedConnection(scene, c);
    UpdateTwice(old(scene.conns), c, PasteBuilt(cc, s, t, c), PastedConnection(cc, s, t, c));
  }

  /** Pasting one more copied entity after the others. */
  lemma PasteEntitiesStep(es: map<nat, Entity>, ps: map<nat, seq<nat>>, ents: seq<CopiedEntity>, n0: nat, i: nat)
    requires i < |ents| && AllKnown(ents[..i]) && Model.Lookup(ents[i].etype.uri).Ok?
    ensures AllKnown(ents[..i + 1])
    ensures PastedEntities(es, ents[..i + 1], n0)
      == PastedEntities(es, ents[..i], n0)[n0 + i := PastedEntity(ents[i], Model.Lookup(ents[i].etype.uri).value, n0 + i)]
    ensures PastedPorts(ps, ents[..i + 1], n0) == PastedPorts(ps, ents[..i], n0)[n0 + i := []]
    ensures PasteMapping(ents[..i + 1], n0) == PasteMapping(ents[..i], n0)[ents[i].orig := n0 + i]
  {
    assert ents[..i + 1][..i] == ents[..i] && ents[..i + 1][i] == ents[i];
  }

  /**
   * Pasting `ents` stopped at entry `k`, whose type is unknown, after pasting the entries
   * before it: the state from `es0`, `ps0`, `n0` is that of pasting those.
   */
  ghost predicate FailedAt(ents: seq<CopiedEntity>, k: nat, es0: map<nat, Entity>, ps0: map<nat, seq<nat>>, n0: nat,
                           es: map<nat, Entity>, ps: map<nat, seq<nat>>, n: nat)
    requires k < |ents|
  {
    Model.Lookup(ents[k].etype.uri).Err? && AllKnown(ents[..k])
    && es == PastedEntities(es0, ents[..k], n0) && ps == PastedPorts(ps0, ents[..k], n0) && n == n0 + k
  }

  /**
   * The first loop of `_paste_copied_items`: each copied entity is pasted in clipboard
   * order under the next id, and the mapping from originals to copies is built. The first
   * unknown type raises `AttributeError`, and the copies made before it stay.
   */
  method PasteEntities(scene: Scene, ents: seq<CopiedEntity>) returns (r: Result<map<nat, nat>>)
    requires scene.Valid()
    modifies scene
    ensures scene.Valid() && scene.conns == old(scene.conns)
    ensures old(scene.entities).Keys <= scene.entities.Keys
    ensures r.Ok? <==> AllKnown(ents)
    ensures r.Ok? ==>
      var n0 := old(scene.nextId);
      && r.value == PasteMapping(ents, n0)
      && scene.entities == PastedEntities(old(scene.entities), ents, n0)
      && scene.ports == PastedPorts(old(scene.ports), ents, n0)
      && scene.nextId == n0 + |ents|
    ensures r.Err? ==> r.error == AttributeError
    ensures r.Err? ==> exists k :: 0 <= k < |ents| && FailedAt(ents, k, old(scene.entities), old(scene.ports),
      old(scene.nextId), scene.entities, scene.ports, scene.nextId)
  {
    ghost var es0 := scene.entities;
    ghost var ps0 := scene.ports;
    var n0 := scene.nextId;
    var m: map<nat, nat> := map[];
    var i := 0;
    while i < |ents|
      invariant 0 <= i <= |ents| && scene.Valid()
      invariant AllKnown(ents[..i])
      invariant scene.entities == PastedEntities(es0, ents[..i], n0)
      invariant scene.ports == PastedPorts(ps0, ents[..i], n0)
      invariant scene.conns == old(scene.conns) && scene.nextId == n0 + i
      invariant es0.Keys <= scene.entities.Keys
      invariant m == PasteMapping(ents[..i], n0)
    {
      var res := PasteEntity(scene, ents[i]);
      if res.Err? {
        assert FailedAt(ents, i, es0, ps0, n0, scene.entities, scene.ports, scene.nextId);
        return Err(AttributeError);
      }
      PasteEntitiesStep(es0, ps0, ents, n0, i);
      m := m[ents[i].orig := res.value];
      i := i + 1;
    }
    assert ents[..i] == ents;
    r := Ok(m);
  }

  /** Pasting one more copied connection after the others. */
  lemma {:induction false} PasteAllSnoc(w: Wiring, ccs: seq<CopiedConnection>, cc: CopiedConnection, m: map<nat, nat>)
    ensures PasteAll(w, ccs + [cc], m) == PasteOne(PasteAll(w, ccs, m), cc, m)
    decreases |ccs|
  {
    if |ccs| == 0 {
      assert ([] + [cc])[1..] == [];
    } else {
      assert (ccs + [cc])[0] == ccs[0] && (ccs + [cc])[1..] == ccs[1..] + [cc];
      PasteAllSnoc(PasteOne(w, ccs[0], m), ccs[1..], cc, m);
    }
  }

  /** One turn of the second loop of `_paste_copied_items`: `cc` is pasted when both its ends were. */
  method PasteConnectionStep(scene: Scene, cc: CopiedConnection, m: map<nat, nat>)
    requires scene.Valid()
    requires forall o :: o in m ==> m[o] in scene.ports
    modifies scene
    ensures scene.Valid() && scene.entities == old(scene.entities) && scene.ports.Keys == old(scene.ports).Keys
    ensures Wiring(scene.conns, scene.ports, scene.nextId) == PasteOne(Wiring(old(scene.conns), old(scene.ports), old(scene.nextId)), cc, m)
  {
    if cc.source in m && cc.target in m {
      var c := PasteConnection(scene, cc, m[cc.source], m[cc.target]);
    }
  }

  /** Pasting the `k`-th copied connection after those before it. */
  method PasteNextConnection(scene: Scene, ghost w0: Wiring, ccs: seq<CopiedConnection>, k: nat, m: map<nat, nat>)
    requires scene.Valid() && k < |ccs|
    requires forall o :: o in m ==> m[o] in scene.ports
    requires Wiring(scene.conns, scene.ports, scene.nextId) == PasteAll(w0, ccs[..k], m)
    modifies scene
    ensures scene.Valid() && scene.entities == old(scene.entities) && scene.ports.Keys == old(scene.ports).Keys
    ensures Wiring(scene.conns, scene.ports, scene.nextId) == PasteAll(w0, ccs[..k + 1], m)
  {
    PasteAllSnoc(w0, ccs[..k], ccs[k], m);
    assert ccs[..k + 1] == ccs[..k] + [ccs[k]];
    PasteConnectionStep(scene, ccs[k], m);
  }

  /**
   * The second loop of `_paste_copied_items`: every copied connection whose ends were both
   * pasted is pasted between their copies, in clipboard order.
   */
  method PasteConnections(scene: Scene, ccs: seq<CopiedConnection>, m: map<nat, nat>)
    requires scene.Valid()
    requires forall o :: o in m ==> m[o] in scene.ports
    modifies scene
    ensures scene.Valid() && scene.entities == old(scene.entities)
    ensures Wiring(scene.conns, scene.ports, scene.nextId)
      == PasteAll(Wiring(old(scene.conns), old(scene.ports), old(scene.nextId)), ccs, m)
    ensures old(scene.conns).Keys <= scene.conns.Keys
  {
    ghost var w0 := Wiring(scene.conns, scene.ports, scene.nextId);
    PasteAllFrame(w0, ccs, m);
    var k := 0;
    while k < |ccs|
      invariant 0 <= k <= |ccs| && scene.Valid()
      invariant Wiring(scene.conns, scene.ports, scene.nextId) == PasteAll(w0, ccs[..k], m)
      invariant scene.entities == old(scene.entities) && scene.ports.Keys == old(scene.ports).Keys
    {
      PasteNextConnection(scene, w0, ccs, k, m);
      k := k + 1;
    }
    assert ccs[..k] == ccs;
  }

  /** The first pass of `_copy_selected_items`: the entry of every selected entity, in selection order. */
  method CopyEntities(scene: Scene, sel: seq<Item>) returns (ents: seq<CopiedEntity>)
    ensures ents == CopiedEntities(scene.entities, sel)
  {
    ents := [];
    var i := 0;
    while i < |sel|
      invariant 0 <= i <= |sel|
      invariant ents == CopiedEntities(scene.entities, sel[..i])
    {
      assert sel[..i + 1][..i] == sel[..i];
      var item := sel[i];
      if item.EntityItem? && item.e in scene.entities {
        ents := ents + [EntityEntry(scene.entities, item.e)];
      }
      i := i + 1;
    }
    assert sel[..i] == sel;
  }

  /**
   * `ccs` holds the entry of every connection of `cs` that a copy of the entities `origs`
   * takes, each once; `ids` names the connection behind each entry.
   */
  ghost predicate CopiedConnections(cs: map<nat, Connection>, origs: set<nat>, ccs: seq<CopiedConnection>, ids: seq<nat>)
  {
    |ids| == |ccs|
    && (forall k :: 0 <= k < |ids| ==> ids[k] in cs && Copyable(cs[ids[k]], origs) && ccs[k] == ConnectionEntry(cs[ids[k]]))
    && (forall k, l :: 0 <= k < l < |ids| ==> ids[k] != ids[l])
    && (forall c :: c in cs && Copyable(cs[c], origs) ==> c in ids)
  }

  /**
   * The second pass of `_copy_selected_items`: the entry of every connection of the scene
   * whose ends are both among `origs`, each once, in the order the scene lists its items
   * (`ids` names the connection behind each entry).
   */
  method CopyConnections(scene: Scene, origs: set<nat>) returns (ccs: seq<CopiedConnection>, ghost ids: seq<nat>)
    ensures CopiedConnections(scene.conns, origs, ccs, ids)
  {
    var todo := CopyableConnections(scene.conns, origs);
    ccs := [];
    ids := [];
    while todo != {}
      invariant todo <= CopyableConnections(scene.conns, origs)
      invariant |ids| == |ccs|
      invariant forall k :: 0 <= k < |ids| ==>
        ids[k] in scene.conns && Copyable(scene.conns[ids[k]], origs) && ccs[k] == ConnectionEntry(scene.conns[ids[k]])
      invariant forall k :: 0 <= k < |ids| ==> ids[k] !in todo
      invariant forall k, l :: 0 <= k < l < |ids| ==> ids[k] != ids[l]
      invariant forall c :: c in CopyableConnections(scene.conns, origs) ==> c in todo || c in ids
      decreases |todo|
    {
      var c :| c in todo;
      ccs := ccs + [ConnectionEntry(scene.conns[c])];
      ids := ids + [c];
      todo := todo - {c};
    }
  }

  /**
   * A clipboard filled by a copy, pasted: every copied connection has both ends among the
   * copied entities, so every one of them is pasted.
   */
  lemma CopiedConnectionsQualify(ents: seq<CopiedEntity>, ccs: seq<CopiedConnection>, n0: nat)
    requires forall k :: 0 <= k < |ccs| ==> ccs[k].source in Origins(ents) && ccs[k].target in Origins(ents)
    ensures forall k :: 0 <= k < |ccs| ==> Qualifies(ccs[k], PasteMapping(ents, n0))
  {
    PasteMappingSpec(ents, n0);
    forall k | 0 <= k < |ccs|
      ensures Qualifies(ccs[k], PasteMapping(ents, n0))
    {
      var i :| 0 <= i < |ents| && ents[i].orig == ccs[k].source;
      var j :| 0 <= j < |ents| && ents[j].orig == ccs[k].target;
    }
  }

  /**
   * The outcome of pasting the clipboard `cb` into the scene `es0`, `ps0`, `cs0`, `n0`: when a
   * copied type is unknown, `AttributeError` and no new connection; otherwise the mapping
   * from originals to copies, the pasted entities, and the copied connections whose ends
   * were both pasted, pasted between the copies after them.
   */
  ghost predicate PasteOutcome(cb: Clipboard, es0: map<nat, Entity>, ps0: map<nat, seq<nat>>, cs0: map<nat, Connection>, n0: nat,
                               r: Result<map<nat, nat>>, es: map<nat, Entity>, ps: map<nat, seq<nat>>, cs: map<nat, Connection>, n: nat)
  {
    var ents := cb.entities;
    if !AllKnown(ents) then r == Err(AttributeError) && cs == cs0
    else
      var m := PasteMapping(ents, n0);
      && r == Ok(m)
      && es == PastedEntities(es0, ents, n0)
      && Wiring(cs, ps, n) == PasteAll(Wiring(cs0, PastedPorts(ps0, ents, n0), n0 + |ents|), cb.connections, m)
  }

  /** Every copy the mapping names has a port to connect to. */
  lemma MappingInPorts(ps: map<nat, seq<nat>>, ents: seq<CopiedEntity>, n0: nat)
    requires forall p :: p in ps ==> p < n0
    ensures var m := PasteMapping(ents, n0);
      forall o :: o in m ==> m[o] in PastedPorts(ps, ents, n0)
  {
    var m := PasteMapping(ents, n0);
    PasteMappingSpec(ents, n0);
    PastedPortsSpec(ps, ents, n0);
    forall o | o in m
      ensures m[o] in PastedPorts(ps, ents, n0)
    {
      var k :| 0 <= k < |ents| && ents[k].orig == o && m[o] == n0 + k;
    }
  }

  /**
   * `_paste_copied_items` on a clipboard with at least one entity: the entities are pasted
   * in clipboard order, then the connections; existing entities and connections stay.
   */
  method PasteClipboard(scene: Scene, cb: Clipboard) returns (r: Result<map<nat, nat>>)
    requires scene.Valid()
    modifies scene
    ensures scene.Valid()
    ensures old(scene.entities).Keys <= scene.entities.Keys && old(scene.conns).Keys <= scene.conns.Keys
    ensures PasteOutcome(cb, old(scene.entities), old(scene.ports), old(scene.conns), old(scene.nextId),
      r, scene.entities, scene.ports, scene.conns, scene.nextId)
  {
    ghost var ps0 := scene.ports;
    ghost var n0 := scene.nextId;
    r := PasteEntities(scene, cb.entities);
    if r.Err? {
      return;
    }
    assert forall p :: p in ps0 ==> p < n0;
    MappingInPorts(ps0, cb.entities, n0);
    PasteConnections(scene, cb.connections, r.value);
  }

  /**
   * The diagram canvas: its scene, the state of a connection being drafted (the draft and
   * the port it started from), whether the Points are shown, and the clipboard.
   */
  class Canvas {
    const scene: Scene
    var connectionInProgress: bool
    var tempConnection: Option<nat>
    var sourcePort: Option<nat>
    var pointsVisible: bool
    var clipboard: Clipboard

    /**
     * The scene is well formed, and a draft is in progress exactly when there is a draft
     * connection and a source port, both records of the scene.
     */
    ghost predicate Valid()
      reads this, scene
    {
      scene.Valid()
      && (connectionInProgress <==> tempConnection.Some?)
      && (connectionInProgress <==> sourcePort.Some?)
      && (tempConnection.Some? ==> tempConnection.value in scene.conns)
      && (sourcePort.Some? ==> sourcePort.value in scene.entities)
    }

    /** A canvas over an empty scene, with no draft, the Points shown and an empty clipboard. */
    constructor ()
      ensures Valid() && fresh(scene)
      ensures scene.entities == map[] && scene.conns == map[] && scene.nextId == 0
      ensures !connectionInProgress && pointsVisible && clipboard == EMPTY_CLIPBOARD
    {
      scene := new Scene();
      connectionInProgress := false;
      tempConnection := None;
      sourcePort := None;
      pointsVisible := true;
      clipboard := EMPTY_CLIPBOARD;
    }

    /**
     * `dropEvent`: an entity of the library type `uri` is created, placed by `DropPos` while
     * still outside the scene, then added to it. An unknown type raises `AttributeError`
     * (reported in the status bar) and nothing is created.
     */
    method DropEntity(uri: string, p: Pos) returns (r: Result<nat>)
      requires Valid()
      modifies scene
      ensures Valid()
      ensures Model.Lookup(uri).Err? ==> r == Err(AttributeError) && unchanged(scene)
      ensures Model.Lookup(uri).Ok? ==>
        var e := old(scene.nextId);
        var t := Model.Lookup(uri).value;
        r == Ok(e) && e !in old(scene.entities) && scene.nextId == e + 1
        && scene.entities == old(scene.entities)[e := Entity(t, EntityUri(e), "", DropPos(p, t), 0, true, true)]
        && scene.ports == old(scene.ports)[e := []] && scene.conns == old(scene.conns)
    {
      r := scene.NewEntity(uri);
      if r.Err? {
        return;
      }
      var e := r.value;
      var ent := scene.entities[e];
      var q := DropPos(p, ent.etype);
      scene.SetEntityPos(e, q);
      assert scene.entities == old(scene.entities)[e := ent][e := ent.(pos := q)];
      UpdateTwice(old(scene.entities), e, ent, ent.(pos := q));
      scene.AddEntityToScene(e);
      UpdateTwice(old(scene.entities), e, ent.(pos := q), ent.(pos := q, inScene := true));
    }

    /**
     * `_start_connection_creation`: a draft from the port of `port` is created, added to the
     * scene and its free end put at `p`; the canvas records the draft and its source port.
     */
    method StartConnectionCreation(port: nat, p: Pos)
      requires Valid() && port in scene.entities
      modifies this, scene
      ensures Valid()
      ensures connectionInProgress && sourcePort == Some(port)
      ensures var c := old(scene.nextId);
        tempConnection == Some(c) && c !in old(scene.conns) && scene.nextId == c + 1
        && scene.conns == old(scene.conns)[c := NewRecord(Some(port), None, None, c).(endPos := Some(p), inScene := true)]
        && scene.ports == old(scene.ports)[port := old(scene.ports[port]) + [c]]
      ensures scene.entities == old(scene.entities)
      ensures pointsVisible == old(pointsVisible) && clipboard == old(clipboard)
    {
      var c := DraftFrom(scene, port, p);
      connectionInProgress := true;
      sourcePort := Some(port);
      tempConnection := Some(c);
    }

    /**
     * `_finish_connection_creation`, with `hit` the port under the cursor if any. On a port
     * other than the source the draft takes it as target and gets the relationship
     * `CompletedDraft` infers; otherwise the draft leaves the scene (it stays on its source's
     * list). Either way no draft is in progress afterwards.
     */
    method FinishConnectionCreation(hit: Option<nat>)
      requires Valid() && connectionInProgress
      requires hit.Some? ==> hit.value in scene.entities
      modifies this, scene
      ensures Valid()
      ensures !connectionInProgress && tempConnection == None && sourcePort == None
      ensures var c := old(tempConnection).value;
        var src := old(sourcePort).value;
        if hit.Some? && hit.value != src then
          scene.conns == old(scene.conns)[c := CompletedDraft(Redraw(old(scene.conns[c]).(target := hit)),
            old(scene.entities[src]).etype.isPoint, old(scene.entities[hit.value]).etype.isPoint)]
          && scene.ports == RetargetLists(old(scene.ports), old(scene.conns), c, hit)
        else
          scene.conns == old(scene.conns)[c := old(scene.conns[c]).(inScene := false)]
          && scene.ports == old(scene.ports)
      ensures scene.entities == old(scene.entities) && scene.nextId == old(scene.nextId)
      ensures pointsVisible == old(pointsVisible) && clipboard == old(clipboard)
    {
      CompleteDraft(scene, tempConnection.value, sourcePort.value, hit);
      connectionInProgress := false;
      tempConnection := None;
      sourcePort := None;
    }

    /**
     * `_rotate_selected_entities`: every selected entity turns a quarter clockwise and the
     * connections on their ports are redrawn; nothing else changes.
     */
    method RotateSelected(sel: seq<Item>)
      requires Valid() && Distinct(sel)
      requires forall k :: 0 <= k < |sel| && sel[k].EntityItem? ==> sel[k].e in scene.entities
      modifies scene
      ensures Valid()
      ensures scene.entities == RotatedEntities(old(scene.entities), sel)
      ensures scene.conns == Scene.RedrawOn(old(scene.conns), SelectedPortLists(sel, old(scene.ports)))
      ensures scene.ports == old(scene.ports) && scene.nextId == old(scene.nextId)
    {
      ghost var e0, p0, c0 := scene.entities, scene.ports, scene.conns;
      var i := 0;
      while i < |sel|
        invariant 0 <= i <= |sel|
        invariant scene.Valid()
        invariant scene.entities == RotatedEntities(e0, sel[..i])
        invariant scene.conns == Scene.RedrawOn(c0, SelectedPortLists(sel[..i], p0))
        invariant scene.entities.Keys == e0.Keys && scene.conns.Keys == c0.Keys
        invariant scene.ports == p0 && scene.nextId == old(scene.nextId)
      {
        RotateOne(sel, i, e0, p0, c0);
        i := i + 1;
      }
      assert sel[..i] == sel;
    }

    /** One turn of `_rotate_selected_entities`'s loop: the `i`-th selected item, when it is an entity. */
    method RotateOne(sel: seq<Item>, i: nat, ghost e0: map<nat, Entity>, ghost p0: map<nat, seq<nat>>, ghost c0: map<nat, Connection>)
      requires Valid() && Distinct(sel) && i < |sel|
      requires forall k :: 0 <= k < |sel| && sel[k].EntityItem? ==> sel[k].e in e0
      requires scene.entities == RotatedEntities(e0, sel[..i]) && scene.entities.Keys == e0.Keys
      requires scene.conns == Scene.RedrawOn(c0, SelectedPortLists(sel[..i], p0)) && scene.conns.Keys == c0.Keys
      requires scene.ports == p0
      modifies scene
      ensures Valid()
      ensures scene.entities == RotatedEntities(e0, sel[..i + 1]) && scene.entities.Keys == e0.Keys
      ensures scene.conns == Scene.RedrawOn(c0, SelectedPortLists(sel[..i + 1], p0)) && scene.conns.Keys == c0.Keys
      ensures scene.ports == p0 && scene.nextId == old(scene.nextId)
    {
      var item := sel[i];
      ghost var done := SelectedPortLists(sel[..i], p0);
      RotateStep(e0, p0, sel, i);
      if item.EntityItem? {
        Scene.RedrawOnAppend(c0, done, p0[item.e]);
        scene.Rotate90(item.e);
        assert scene.conns == Scene.RedrawOn(c0, done + p0[item.e]);
      }
    }

    /**
     * `_delete_selected_items`. In selection order: a connection is removed; an entity first
     * has every connection its port lists removed, then leaves the scene; a joint leaves its
     * connection's joints and the path is redrawn. Afterwards the removed connections are
     * on no port list, without joints and out of the scene with their arrows; every other
     * registration is as before; every other connection has lost exactly its selected
     * joints; exactly the selected entities have left the scene.
     */
    method DeleteSelectedItems(sel: seq<Item>)
      requires Valid()
      requires forall k :: 0 <= k < |sel| ==> match sel[k]
        case EntityItem(e) => e in scene.entities
        case ConnectionItem(c) => c in scene.conns
        case JointItem(c, _) => c in scene.conns
      modifies scene
      ensures Valid()
      ensures AfterDeletion(old(scene.ports), old(scene.conns), old(scene.entities), sel, scene.ports, scene.conns, scene.entities)
      ensures scene.nextId == old(scene.nextId)
    {
      DeleteItems(scene, sel);
    }

    /**
     * `toggle_points_visibility`: the flag flips, then every Point entity of the scene and
     * every `hasPoint`/`isPointOf` connection of the scene, with its arrows, takes the new flag.
     */
    method TogglePointsVisibility()
      requires Valid()
      modifies this, scene
      ensures Valid()
      ensures pointsVisible == !old(pointsVisible)
      ensures var items := SceneItems(old(scene.entities), old(scene.conns));
        scene.entities == ToggledEntities(old(scene.entities), items, pointsVisible)
        && scene.conns == ToggledConns(old(scene.conns), items, pointsVisible)
      ensures scene.ports == old(scene.ports) && scene.nextId == old(scene.nextId)
      ensures connectionInProgress == old(connectionInProgress) && tempConnection == old(tempConnection)
      ensures sourcePort == old(sourcePort) && clipboard == old(clipboard)
    {
      pointsVisible := !pointsVisible;
      SetPointsVisibility(scene, pointsVisible);
    }

    /**
     * `_copy_selected_items`: the clipboard is cleared, then takes the entries of the
     * selected entities in selection order and of every connection of the scene whose ends
     * are both copied; with no entity selected it stays empty. The scene is not changed.
     */
    method CopySelectedItems(sel: seq<Item>) returns (ghost ids: seq<nat>)
      requires Valid()
      modifies this
      ensures Valid() && unchanged(scene)
      ensures var ents := CopiedEntities(scene.entities, sel);
        if ents == [] then clipboard == EMPTY_CLIPBOARD
        else clipboard.entities == ents && CopiedConnections(scene.conns, Origins(ents), clipboard.connections, ids)
      ensures connectionInProgress == old(connectionInProgress) && tempConnection == old(tempConnection)
      ensures sourcePort == old(sourcePort) && pointsVisible == old(pointsVisible)
    {
      ids := [];
      var ents := CopyEntities(scene, sel);
      if ents == [] {
        clipboard := EMPTY_CLIPBOARD;
        return;
      }
      var ccs;
      ccs, ids := CopyConnections(scene, Origins(ents));
      clipboard := Clipboard(ents, ccs);
    }

    /**
     * Ctrl+C in `keyPressEvent`: a copy only when something is selected, so with nothing
     * selected the clipboard keeps what it held.
     */
    method CopyKey(sel: seq<Item>)
      requires Valid()
      modifies this
      ensures Valid() && unchanged(scene)
      ensures |sel| == 0 ==> clipboard == old(clipboard)
      ensures |sel| > 0 && CopiedEntities(scene.entities, sel) == [] ==> clipboard == EMPTY_CLIPBOARD
      ensures |sel| > 0 && CopiedEntities(scene.entities, sel) != [] ==> clipboard.entities == CopiedEntities(scene.entities, sel)
      ensures connectionInProgress == old(connectionInProgress) && tempConnection == old(tempConnection)
      ensures sourcePort == old(sourcePort) && pointsVisible == old(pointsVisible)
    {
      if |sel| > 0 {
        ghost var ids := CopySelectedItems(sel);
      }
    }

    /**
     * `_paste_copied_items`. With no copied entity nothing happens; otherwise the clipboard
     * is pasted as `PasteClipboard` describes.
     */
    method Paste() returns (r: Result<map<nat, nat>>)
      requires Valid()
      modifies scene
      ensures Valid()
      ensures if clipboard.entities == [] then r == Ok(map[]) && unchanged(scene)
        else PasteOutcome(clipboard, old(scene.entities), old(scene.ports), old(scene.conns), old(scene.nextId),
          r, scene.entities, scene.ports, scene.conns, scene.nextId)
    {
      if clipboard.entities == [] {
        return Ok(map[]);
      }
      r := PasteClipboard(scene, clipboard);
    }
  }
}

=== FILE: config.dfy ===
/** The application constants the editor's core reads from `AppConfig`. */
module Config {

  /** Side of one grid cell, in scene units. */
  const GRID_SIZE: real := 25.0

  const CANVAS_HEIGHT: real := 1000.0

  /** The horizontal line on which Point entities sit: nine tenths of the canvas height. */
  const POINT_LINE: real := CANVAS_HEIGHT * 0.9

  /** Namespace of connection instance URIs. */
  const BUILDING_NS: string := "http://example.org/building/#"

  /** Namespace of the layout vocabulary used when saving a diagram. */
  const DESIGN_NS: string := "http://example.org/design#"

  /** Prefix of entity instance URIs. */
  const INSTANCES_NS: string := "http://example.org/building/instances/"
}

=== FILE: connimport.dfy ===
/**
 * Passes 2 and 3 of `BuildingCanvas.import_from_graph` (src/app/widgets.py): the connections
 * drawn from `design:Connection` records, then straight connections for the Brick
 * relationships that no record drew, and the import as a whole.
 */
module ConnectionImport {
  import opened Wrappers
  import opened Strings
  import opened Rdf
  import opened Items
  import opened Persistence
  import opened GraphImport

  // ---------------------------------------------------------------------------
  // Relationship type

  /**
   * The relationship-table lookup of pass 2: the first relationship of the table whose `str`
   * is the `str` of `t`, or none.
   */
  method FindRelationship(t: Term) returns (r: Option<Term>)
    ensures r.Some? ==> r.value in RELATIONSHIPS && Str(r.value) == Str(t)
    ensures r.None? <==> forall rel :: rel in RELATIONSHIPS ==> Str(rel) != Str(t)
  {
    for i := 0 to |RELATIONSHIPS|
      invariant forall j :: 0 <= j < i ==> Str(RELATIONSHIPS[j]) != Str(t)
    {
      if Str(RELATIONSHIPS[i]) == Str(t) {
        return Some(RELATIONSHIPS[i]);
      }
    }
    r := None;
  }

  // ---------------------------------------------------------------------------
  // Pen

  /** `v` can be what `int(g.value(n, p, default=0))` gives. */
  ghost predicate ReadsInt(g: Graph, n: Term, p: Term, v: int)
  {
    exists t :: ValueOr(g, n, p, IntLit(0), t) && ToInt(t) == Ok(v)
  }

  /** `col` can be the colour read from the colour node `n`. */
  ghost predicate ColorAt(g: Graph, n: Term, col: Color)
  {
    ReadsInt(g, n, RED, col.red) && ReadsInt(g, n, GREEN, col.green) && ReadsInt(g, n, BLUE, col.blue)
  }

  /** `style` can be the line style read for the connection `u`: solid unless its `lineStyle` is true. */
  ghost predicate StyleOf(g: Graph, u: Term, style: int)
  {
    exists v :: ValueOf(g, u, LINE_STYLE, v) && if v.Some? && Truthy(v.value) then ToInt(v.value) == Ok(style) else style == SOLID_LINE
  }

  /** `width` can be the line width read for the connection `u`: 2 unless its `lineWidth` is true. */
  ghost predicate WidthOf(g: Graph, u: Term, width: int)
  {
    exists v :: ValueOr(g, u, LINE_WIDTH, IntLit(2), v) && if Truthy(v) then ToInt(v) == Ok(width) else width == 2
  }

  /** `pen` can be the pen pass 2 builds for the connection `u` from its colour node `n`. */
  ghost predicate PenAt(g: Graph, u: Term, n: Term, pen: Pen)
  {
    Triple(u, COLOR, n) in g && ColorAt(g, n, pen.color) && StyleOf(g, u, pen.style) && WidthOf(g, u, pen.width)
  }

  /** Every `int` conversion of the pen of `u` succeeds, whatever `g.value` picks. */
  ghost predicate NumericPen(g: Graph, u: Term)
  {
    && (forall n, v :: Triple(u, COLOR, n) in g && (Triple(n, RED, v) in g || Triple(n, GREEN, v) in g || Triple(n, BLUE, v) in g)
          ==> ToInt(v).Ok?)
    && (forall v :: (Triple(u, LINE_STYLE, v) in g || Triple(u, LINE_WIDTH, v) in g) && Truthy(v) ==> ToInt(v).Ok?)
  }

  /** `int(g.value(n, p, default=0))`. */
  method ReadInt(g: Graph, n: Term, p: Term) returns (r: Result<int>)
    ensures r.Ok? ==> ReadsInt(g, n, p, r.value)
    ensures r.Err? ==> r.error == ValueError
    ensures (forall v :: Triple(n, p, v) in g ==> ToInt(v).Ok?) ==> r.Ok?
  {
    var v := ValueWithDefault(g, n, p, IntLit(0));
    r := ToInt(v);
  }

  /**
   * The pen of one colour node: red, green and blue with `int`, the style and width of the
   * connection, each a `ValueError` when it is not a number.
   */
  method ReadPenAt(g: Graph, u: Term, n: Term) returns (r: Result<Pen>)
    requires Triple(u, COLOR, n) in g
    ensures r.Ok? ==> PenAt(g, u, n, r.value)
    ensures r.Err? ==> r.error == ValueError
    ensures NumericPen(g, u) ==> r.Ok?
  {
    var red := ReadInt(g, n, RED);
    var green := ReadInt(g, n, GREEN);
    var blue := ReadInt(g, n, BLUE);
    if red.Err? || green.Err? || blue.Err? {
      return Err(ValueError);
    }
    var style := SOLID_LINE;
    var styleVal := Value(g, u, LINE_STYLE);
    if styleVal.Some? && Truthy(styleVal.value) {
      var s := ToInt(styleVal.value);
      if s.Err? {
        return Err(ValueError);
      }
      style := s.value;
    }
    var widthVal := ValueWithDefault(g, u, LINE_WIDTH, IntLit(2));
    var width := 2;
    if Truthy(widthVal) {
      var w := ToInt(widthVal);
      if w.Err? {
        assert widthVal != IntLit(2);
        return Err(ValueError);
      }
      width := w.value;
    }
    r := Ok(Pen(Color(red.value, green.value, blue.value), width, style));
    assert StyleOf(g, u, style) by {
      assert ValueOf(g, u, LINE_STYLE, styleVal);
    }
    assert WidthOf(g, u, width) by {
      assert ValueOr(g, u, LINE_WIDTH, IntLit(2), widthVal);
    }
  }

  /**
   * The colour loop of pass 2: `setPen` with the pen of each colour node of `u` in turn, so
   * the last one read is the one that stays; none when `u` has no colour node.
   */
  method ReadPen(g: Graph, u: Term) returns (r: Result<Option<Pen>>, ghost n: Term)
    ensures r.Ok? ==> (r.value.None? <==> Objects(g, u, COLOR) == {})
    ensures r.Ok? && r.value.Some? ==> PenAt(g, u, n, r.value.value)
    ensures r.Err? ==> r.error == ValueError
    ensures NumericPen(g, u) ==> r.Ok?
  {
    var pen: Option<Pen> := None;
    n := u;
    var todo := Objects(g, u, COLOR);
    while todo != {}
      invariant forall m :: m in todo ==> Triple(u, COLOR, m) in g
      invariant pen.None? ==> todo == Objects(g, u, COLOR)
      invariant pen.Some? ==> PenAt(g, u, n, pen.value)
      decreases |todo|
    {
      var m :| m in todo;
      var p := ReadPenAt(g, u, m);
      if p.Err? {
        return Err(ValueError), n;
      }
      pen, n := Some(p.value), m;
      todo := todo - {m};
    }
    r := Ok(pen);
  }

  // ---------------------------------------------------------------------------
  // Joints

  /** A joint read back: its index and its point. */
  datatype JointRow = JointRow(index: int, pos: Pos)

  /** The joint node `n` has an index, an `x` and a `y`: the only joint nodes pass 2 keeps. */
  ghost predicate Complete(g: Graph, n: Term)
  {
    Objects(g, n, JOINT_INDEX) != {} && Objects(g, n, X) != {} && Objects(g, n, Y) != {}
  }

  /** `v` is `float` of some object of `n` under `p`. */
  ghost predicate CoordAt(g: Graph, n: Term, p: Term, v: real)
  {
    exists t :: Triple(n, p, t) in g && ToFloat(t) == Ok(v)
  }

  /** `i` is `int` of some index of `n`. */
  ghost predicate IndexAt(g: Graph, n: Term, i: int)
  {
    exists t :: Triple(n, JOINT_INDEX, t) in g && ToInt(t) == Ok(i)
  }

  /** `row` can be what pass 2 reads from the joint node `n`. */
  ghost predicate RowAt(g: Graph, n: Term, row: JointRow)
  {
    IndexAt(g, n, row.index) && CoordAt(g, n, X, row.pos.x) && CoordAt(g, n, Y, row.pos.y)
  }

  /** Every index and coordinate of the joint node `n` is a number. */
  ghost predicate NumericJoint(g: Graph, n: Term)
  {
    && (forall v :: Triple(n, JOINT_INDEX, v) in g ==> ToInt(v).Ok?)
    && (forall v :: (Triple(n, X, v) in g || Triple(n, Y, v) in g) ==> ToFloat(v).Ok?)
  }

  /**
   * One joint node: `jointIndex`, `x` and `y`, each `g.value` without a default; skipped
   * unless all three are there, and then `int` and `float` of them, a `ValueError` when one
   * is not a number.
   */
  method ReadJointRow(g: Graph, n: Term) returns (r: Result<Option<JointRow>>)
    ensures r.Ok? ==> (r.value.Some? <==> Complete(g, n))
    ensures r.Ok? && r.value.Some? ==> RowAt(g, n, r.value.value)
    ensures r.Err? ==> r.error == ValueError && Complete(g, n)
    ensures NumericJoint(g, n) ==> r.Ok?
  {
    var idxVal := Value(g, n, JOINT_INDEX);
    var xVal := Value(g, n, X);
    var yVal := Value(g, n, Y);
    if idxVal.None? || xVal.None? || yVal.None? {
      return Ok(None);
    }
    var idx := ToInt(idxVal.value);
    var x := ToFloat(xVal.value);
    var y := ToFloat(yVal.value);
    if idx.Err? || x.Err? || y.Err? {
      return Err(ValueError);
    }
    r := Ok(Some(JointRow(idx.value, Pos(x.value, y.value))));
    assert Triple(n, JOINT_INDEX, idxVal.value) in g && Triple(n, X, xVal.value) in g && Triple(n, Y, yVal.value) in g;
  }

  /**
   * `rows` can be `joint_data` for the connection `u`, read from `nodes` in that order: one
   * row for each of its complete joint nodes, each node once.
   */
  ghost predicate JointsRead(g: Graph, u: Term, nodes: seq<Term>, rows: seq<JointRow>)
  {
    && |rows| == |nodes|
    && (forall i :: 0 <= i < |nodes| ==> Triple(u, HAS_JOINT, nodes[i]) in g && RowAt(g, nodes[i], rows[i]))
    && (forall i, j :: 0 <= i < j < |nodes| ==> nodes[i] != nodes[j])
    && (forall n :: Triple(u, HAS_JOINT, n) in g && Complete(g, n) <==> n in nodes)
  }

  /**
   * `joint_data` of pass 2: a row for each complete joint node of the connection `u`, in
   * the order the nodes come; `nodes` are those nodes.
   */
  method ReadJoints(g: Graph, u: Term) returns (r: Result<seq<JointRow>>, ghost nodes: seq<Term>)
    ensures r.Ok? ==> JointsRead(g, u, nodes, r.value)
    ensures r.Err? ==> r.error == ValueError
    ensures (forall n :: Triple(u, HAS_JOINT, n) in g ==> NumericJoint(g, n)) ==> r.Ok?
  {
    var rows: seq<JointRow> := [];
    nodes := [];
    var todo := Objects(g, u, HAS_JOINT);
    ghost var done: set<Term> := {};
    while todo != {}
      invariant forall m :: m in todo ==> Triple(u, HAS_JOINT, m) in g && m !in done
      invariant forall m :: Triple(u, HAS_JOINT, m) in g ==> m in todo || m in done
      invariant |rows| == |nodes|
      invariant forall i :: 0 <= i < |nodes| ==> Triple(u, HAS_JOINT, nodes[i]) in g && RowAt(g, nodes[i], rows[i])
      invariant forall i, j :: 0 <= i < j < |nodes| ==> nodes[i] != nodes[j]
      invariant forall m :: m in done && Complete(g, m) <==> m in nodes
      decreases |todo|
    {
      var m :| m in todo;
      var row := ReadJointRow(g, m);
      if row.Err? {
        return Err(ValueError), nodes;
      }
      if row.value.Some? {
        rows, nodes := rows + [row.value.value], nodes + [m];
      }
      todo := todo - {m};
      done := done + {m};
    }
    r := Ok(rows);
  }

  /** The rows are in order of index. */
  predicate SortedByIndex(rows: seq<JointRow>)
  {
    forall i, j :: 0 <= i < j < |rows| ==> rows[i].index <= rows[j].index
  }

  /** `x` placed before the first row of `rows` whose index is not below its own. */
  function InsertByIndex(x: JointRow, rows: seq<JointRow>): (r: seq<JointRow>)
    ensures |r| == |rows| + 1
  {
    if rows == [] || x.index <= rows[0].index then [x] + rows
    else [rows[0]] + InsertByIndex(x, rows[1..])
  }

  /** Inserting adds `x` to the rows and nothing else. */
  lemma {:induction false} InsertByIndexCount(x: JointRow, rows: seq<JointRow>)
    ensures multiset(InsertByIndex(x, rows)) == multiset(rows) + multiset{x}
  {
    if rows != [] && x.index > rows[0].index {
      assert rows == [rows[0]] + rows[1..];
      InsertByIndexCount(x, rows[1..]);
    }
  }

  /** Every inserted row is `x` or one of the rows, and the first is `x` or the old head. */
  lemma {:induction false} InsertByIndexFrom(x: JointRow, rows: seq<JointRow>)
    ensures var r := InsertByIndex(x, rows);
      && (r[0] == x || (rows != [] && r[0] == rows[0]))
      && (forall k :: 0 <= k < |r| ==> r[k] == x || r[k] in rows)
  {
    if rows != [] && x.index > rows[0].index {
      var rest := InsertByIndex(x, rows[1..]);
      InsertByIndexFrom(x, rows[1..]);
      var r := [rows[0]] + rest;
      assert InsertByIndex(x, rows) == r;
      forall k | 0 <= k < |r|
        ensures r[k] == x || r[k] in rows
      {
        if k > 0 {
          assert r[k] == rest[k - 1];
          if r[k] != x {
            assert r[k] in rows[1..];
          }
        }
      }
    }
  }

  /** Inserting into sorted rows keeps them sorted. */
  lemma {:induction false} InsertByIndexSorted(x: JointRow, rows: seq<JointRow>)
    requires SortedByIndex(rows)
    ensures SortedByIndex(InsertByIndex(x, rows))
  {
    if rows == [] || x.index <= rows[0].index {
      var r := [x] + rows;
      forall i, j | 0 <= i < j < |r|
        ensures r[i].index <= r[j].index
      {
        assert r[j] == rows[j - 1];
        if i > 0 {
          assert r[i] == rows[i - 1];
        }
      }
    } else {
      var rest := InsertByIndex(x, rows[1..]);
      assert SortedByIndex(rows[1..]);
      InsertByIndexSorted(x, rows[1..]);
      InsertByIndexFrom(x, rows[1..]);
      SortedAfterHead(x, rows, rest);
    }
  }

  /** Rows that are `x` or rows after the head of `rows`, with `x` above that head, stay sorted behind it. */
  lemma SortedAfterHead(x: JointRow, rows: seq<JointRow>, rest: seq<JointRow>)
    requires rows != [] && rows[0].index < x.index
    requires forall k :: 0 <= k < |rest| ==> rest[k] == x || rest[k] in rows[1..]
    ensures SortedByIndex(rows) && SortedByIndex(rest) ==> SortedByIndex([rows[0]] + rest)
  {
    if SortedByIndex(rows) && SortedByIndex(rest) {
      var r := [rows[0]] + rest;
      forall i, j | 0 <= i < j < |r|
        ensures r[i].index <= r[j].index
      {
        assert r[j] == rest[j - 1];
        if i > 0 {
          assert r[i] == rest[i - 1];
        } else if rest[j - 1] != x {
          var m :| 0 <= m < |rows[1..]| && rows[1..][m] == rest[j - 1];
          assert rows[m + 1] == rest[j - 1];
        }
      }
    }
  }

  /** `joint_data.sort(key=lambda d: d[0])`: the rows in order of index, as a stable sort leaves them. */
  function SortByIndex(rows: seq<JointRow>): (r: seq<JointRow>)
    ensures |r| == |rows| && multiset(r) == multiset(rows)
    ensures SortedByIndex(r)
  {
    if rows == [] then []
    else
      assert rows == [rows[0]] + rows[1..];
      InsertByIndexCount(rows[0], SortByIndex(rows[1..]));
      InsertByIndexSorted(rows[0], SortByIndex(rows[1..]));
      InsertByIndex(rows[0], SortByIndex(rows[1..]))
  }

  /** The points of the rows, in order: what `add_joint_at_point` is called with. */
  function Points(rows: seq<JointRow>): (r: seq<Pos>)
    ensures |r| == |rows| && forall i :: 0 <= i < |rows| ==> r[i] == rows[i].pos
  {
    seq(|rows|, i requires 0 <= i < |rows| => rows[i].pos)
  }

  // ---------------------------------------------------------------------------
  // Pass 2: connections from their records

  /**
   * A connection of pass 2 before its pen, scene and joints: created between the ports of
   * `src` and `tgt` with id `c`, given the record's URI `cu`, and typed when a relationship
   * of the table matched.
   */
  function Created(src: nat, tgt: nat, cu: Term, rel: Option<Term>, c: nat): Connection
  {
    var pen := if rel.Some? && IsPointRelation(rel.value) then DEFAULT_PEN.(style := DASH_LINE) else DEFAULT_PEN;
    Connection(Some(src), Some(tgt), if rel.Some? then rel.value else FEEDS, pen, [], [Arrow(pen, BLACK, true, false)], cu, None, false, true)
  }

  /**
   * A created connection is what the first steps of pass 2 make of a new connection with
   * id `c`: the record's URI, then `set_relationship_type` when a relationship matched.
   */
  lemma CreatedSteps(src: nat, tgt: nat, cu: Term, rel: Option<Term>, c: nat)
    ensures var x := Redraw(NewRecord(Some(src), Some(tgt), None, c)).(uri := cu);
      Created(src, tgt, cu, rel, c) == if rel.Some? then WithRelationshipType(x, rel.value) else x
  {
    var x := Redraw(NewRecord(Some(src), Some(tgt), None, c)).(uri := cu);
    assert x.arrows == [Arrow(DEFAULT_PEN, BLACK, true, false)];
    if rel.Some? {
      assert WithRelationshipType(x, rel.value).arrows == Created(src, tgt, cu, rel, c).arrows;
    }
  }

  /** A connection of pass 2 after the colour loop and `addItem`: the pen read, if any, and in the scene. */
  function Shown(x: Connection, pen: Option<Pen>): Connection
  {
    (if pen.Some? then x.(pen := pen.value) else x).(inScene := true)
  }

  /** The connection pass 2 makes from a record. */
  function ImportedConnection(src: nat, tgt: nat, cu: Term, rel: Option<Term>, pen: Option<Pen>, ps: seq<Pos>, c: nat, first: nat): Connection
  {
    Redraw(WithJoints(Shown(Created(src, tgt, cu, rel, c), pen), ps, first))
  }

  /**
   * A connection read from a record joins the two loaded entities, carries the record's URI,
   * the matched relationship type (`feeds` when none matched) and the pen read (the default
   * pen, dashed for the point relationships, when none was), is in the scene and shown, has
   * the joints at `ps` in that order, snapped, and is drawn.
   */
  lemma ImportedConnectionSpec(src: nat, tgt: nat, cu: Term, rel: Option<Term>, pen: Option<Pen>, ps: seq<Pos>, c: nat, first: nat)
    ensures var r := ImportedConnection(src, tgt, cu, rel, pen, ps, c, first);
      && r.source == Some(src) && r.target == Some(tgt) && r.uri == cu
      && r.relType == (if rel.Some? then rel.value else FEEDS)
      && r.pen == (if pen.Some? then pen.value
                   else if rel.Some? && IsPointRelation(rel.value) then DEFAULT_PEN.(style := DASH_LINE)
                   else DEFAULT_PEN)
      && r.joints == SnappedJoints(ps, first)
      && r.inScene && r.visible && r.endPos.None?
      && Drawn(r)
  {
    var y := Shown(Created(src, tgt, cu, rel, c), pen);
    WithJointsSpec(y, ps, first);
    RedrawIdempotent(WithJoints(y, ps, first));
  }

  /** `v`, an answer of `g.value`, names a loaded entity: it is there, it is true, and its `str` is a key of `loaded`. */
  predicate Attaches(loaded: map<string, nat>, v: Option<Term>)
  {
    v.Some? && Truthy(v.value) && Str(v.value) in loaded
  }

  /**
   * The ends of a record: `g.value` of `sourceEntity` and of `targetEntity`, kept when both
   * name a loaded entity; otherwise the record is skipped.
   */
  method ReadEnds(g: Graph, cu: Term, loaded: map<string, nat>) returns (ends: Option<(Term, Term)>, ghost su: Option<Term>, ghost tu: Option<Term>)
    ensures ValueOf(g, cu, SOURCE_ENTITY, su) && ValueOf(g, cu, TARGET_ENTITY, tu)
    ensures ends.Some? <==> Attaches(loaded, su) && Attaches(loaded, tu)
    ensures ends.Some? ==> ends.value == (su.value, tu.value)
  {
    var s := Value(g, cu, SOURCE_ENTITY);
    var t := Value(g, cu, TARGET_ENTITY);
    su, tu := s, t;
    if s.None? || t.None? || !Truthy(s.value) || !Truthy(t.value) {
      return None, su, tu;
    }
    if Str(s.value) !in loaded || Str(t.value) !in loaded {
      return None, su, tu;
    }
    ends := Some((s.value, t.value));
  }

  /** `rel` is what the table lookup makes of `relVal`, the `relationshipType` read from `cu`. */
  ghost predicate RelRead(g: Graph, cu: Term, relVal: Option<Term>, rel: Option<Term>)
  {
    && ValueOf(g, cu, RELATIONSHIP_TYPE, relVal)
    && (rel.Some? <==> relVal.Some? && Truthy(relVal.value) && exists r :: r in RELATIONSHIPS && Str(r) == Str(relVal.value))
    && (rel.Some? ==> rel.value in RELATIONSHIPS && Str(rel.value) == Str(relVal.value))
  }

  /** The key of `processed_relationships` for a relationship: `str` of its source, type and target. */
  function RelationshipKey(su: Term, rel: Term, tu: Term): (string, string, string)
  {
    (Str(su), Str(rel), Str(tu))
  }

  /** `relationshipType` of the record `cu` when it is true, looked up in the table. */
  method ReadRelationship(g: Graph, cu: Term) returns (rel: Option<Term>, ghost relVal: Option<Term>)
    ensures RelRead(g, cu, relVal, rel)
  {
    var found := Value(g, cu, RELATIONSHIP_TYPE);
    relVal, rel := found, None;
    if found.Some? && Truthy(found.value) {
      rel := FindRelationship(found.value);
    }
  }

  /**
   * The start of pass 2 for a record with loaded ends: the connection is created between
   * the ports of `src` and `tgt`, takes the record's URI and the relationship type matched.
   */
  method CreateConnection(scene: Scene, cu: Term, src: nat, tgt: nat, rel: Option<Term>) returns (c: nat)
    requires scene.Valid()
    modifies scene
    ensures scene.Valid()
    ensures c == old(scene.nextId) && c !in old(scene.conns) && scene.nextId == c + 1
    ensures scene.conns == old(scene.conns)[c := Created(src, tgt, cu, rel, c)]
    ensures scene.ports == Register(Register(old(scene.ports), Some(src), c), Some(tgt), c)
    ensures scene.entities == old(scene.entities)
  {
    c := scene.NewConnection(Some(src), Some(tgt), None);
    ghost var x0 := Redraw(NewRecord(Some(src), Some(tgt), None, c));
    scene.SetConnectionUri(c, cu);
    UpdateTwice(old(scene.conns), c, x0, x0.(uri := cu));
    if rel.Some? {
      scene.SetRelationshipType(c, rel.value);
      UpdateTwice(old(scene.conns), c, x0.(uri := cu), WithRelationshipType(x0.(uri := cu), rel.value));
    }
    CreatedSteps(src, tgt, cu, rel, c);
  }

  /** The pen, when one was read, and the scene: the colour loop and `addItem`. */
  method ShowConnection(scene: Scene, c: nat, pen: Option<Pen>)
    requires scene.Valid() && c in scene.conns
    modifies scene
    ensures scene.Valid()
    ensures scene.conns == old(scene.conns)[c := Shown(old(scene.conns[c]), pen)]
    ensures scene.nextId == old(scene.nextId) && scene.entities == old(scene.entities) && scene.ports == old(scene.ports)
  {
    ghost var x := old(scene.conns[c]);
    ghost var y := if pen.Some? then x.(pen := pen.value) else x;
    if pen.Some? {
      scene.SetPen(c, pen.value);
      UpdateTwice(old(scene.conns), c, x, y);
    }
    scene.AddConnectionToScene(c);
    UpdateTwice(old(scene.conns), c, y, y.(inScene := true));
  }

  /** The joints at `ps`, in that order, then `update_position`. */
  method JoinConnection(scene: Scene, c: nat, ps: seq<Pos>)
    requires scene.Valid() && c in scene.conns
    modifies scene
    ensures scene.Valid()
    ensures scene.conns == old(scene.conns)[c := Redraw(WithJoints(old(scene.conns[c]), ps, old(scene.nextId)))]
    ensures scene.nextId == old(scene.nextId) + |ps|
    ensures scene.entities == old(scene.entities) && scene.ports == old(scene.ports)
  {
    ghost var z := WithJoints(old(scene.conns[c]), ps, old(scene.nextId));
    scene.AddJointsAtPoints(c, ps);
    scene.UpdatePosition(c);
    UpdateTwice(old(scene.conns), c, z, Redraw(z));
  }

  /** What pass 2 read for one record: the ends, the relationship type, the pen and the joints, with the nodes they came from. */
  datatype Reading = Reading(su: Option<Term>, tu: Option<Term>, relVal: Option<Term>, rel: Option<Term>,
                             penNode: Term, pen: Option<Pen>, nodes: seq<Term>, rows: seq<JointRow>)

  /** `x` can be what pass 2 reads from the record `cu` once its ends are loaded. */
  ghost predicate RecordRead(g: Graph, cu: Term, x: Reading)
  {
    && RelRead(g, cu, x.relVal, x.rel)
    && (x.pen.None? <==> Objects(g, cu, COLOR) == {})
    && (x.pen.Some? ==> PenAt(g, cu, x.penNode, x.pen.value))
    && JointsRead(g, cu, x.nodes, x.rows)
  }

  /** Every conversion pass 2 makes for the record `cu` succeeds, whatever `g.value` picks. */
  ghost predicate ReadableRecord(g: Graph, cu: Term)
  {
    NumericPen(g, cu) && forall n :: Triple(cu, HAS_JOINT, n) in g ==> NumericJoint(g, n)
  }

  /** The connection pass 2 makes with id `c` from the record `cu` read as `x`: its joints at the rows sorted by index. */
  function ConnectionOf(loaded: map<string, nat>, cu: Term, x: Reading, c: nat): Connection
    requires Attaches(loaded, x.su) && Attaches(loaded, x.tu)
  {
    ImportedConnection(loaded[Str(x.su.value)], loaded[Str(x.tu.value)], cu, x.rel, x.pen, Points(SortByIndex(x.rows)), c, c + 1)
  }

  /**
   * Everything pass 2 reads from the record `cu` with the ends `s` and `t`: the relationship
   * type, the pen and the joints, a `ValueError` when a number does not convert.
   */
  method ReadRecord(g: Graph, cu: Term, s: Term, t: Term)
    returns (r: Result<()>, rel: Option<Term>, pen: Option<Pen>, rows: seq<JointRow>, ghost x: Reading)
    ensures x.su == Some(s) && x.tu == Some(t) && x.rel == rel && x.pen == pen && x.rows == rows
    ensures r.Err? ==> r.error == ValueError
    ensures ReadableRecord(g, cu) ==> r.Ok?
    ensures r.Ok? ==> RecordRead(g, cu, x)
  {
    ghost var relVal;
    rel, relVal := ReadRelationship(g, cu);
    var readPen;
    ghost var penNode;
    readPen, penNode := ReadPen(g, cu);
    pen, rows := None, [];
    x := Reading(Some(s), Some(t), relVal, rel, penNode, None, [], []);
    if readPen.Err? {
      return Err(ValueError), rel, pen, rows, x;
    }
    pen := readPen.value;
    var readRows;
    ghost var nodes;
    readRows, nodes := ReadJoints(g, cu);
    x := Reading(Some(s), Some(t), relVal, rel, penNode, pen, nodes, []);
    if readRows.Err? {
      return Err(ValueError), rel, pen, rows, x;
    }
    rows := readRows.value;
    x := Reading(Some(s), Some(t), relVal, rel, penNode, pen, nodes, rows);
    r := Ok(());
  }

  /**
   * The scene side of pass 2 for one record: the connection `c` is created between `src`
   * and `tgt`, typed, given its pen, put in the scene, given the joints at `ps` in that
   * order and redrawn.
   */
  method AddImportedConnection(scene: Scene, cu: Term, src: nat, tgt: nat, rel: Option<Term>, pen: Option<Pen>, ps: seq<Pos>)
    returns (c: nat)
    requires scene.Valid()
    modifies scene
    ensures scene.Valid()
    ensures c == old(scene.nextId) && c !in old(scene.conns) && scene.nextId == c + 1 + |ps|
    ensures scene.conns == old(scene.conns)[c := ImportedConnection(src, tgt, cu, rel, pen, ps, c, c + 1)]
    ensures scene.ports == Register(Register(old(scene.ports), Some(src), c), Some(tgt), c)
    ensures scene.entities == old(scene.entities)
  {
    c := CreateConnection(scene, cu, src, tgt, rel);
    ghost var created := scene.conns[c];
    ShowConnection(scene, c, pen);
    UpdateTwice(old(scene.conns), c, created, Shown(created, pen));
    ghost var shown := scene.conns[c];
    assert scene.nextId == c + 1;
    JoinConnection(scene, c, ps);
    UpdateTwice(old(scene.conns), c, shown, Redraw(WithJoints(shown, ps, c + 1)));
  }

  /**
   * Pass 2 for the record `cu`: skipped, with nothing changed, unless both ends name loaded
   * entities; otherwise one new connection, read from the record, and the key of its
   * relationship in `processed` when the type matched the table. A conversion that fails
   * raises `ValueError`, which ends the import.
   */
  method ImportConnection(scene: Scene, g: Graph, cu: Term, loaded: map<string, nat>, processed: set<(string, string, string)>)
    returns (r: Result<bool>, done: set<(string, string, string)>, ghost x: Reading)
    requires scene.Valid()
    modifies scene
    ensures scene.Valid() && old(scene.nextId) <= scene.nextId && scene.entities == old(scene.entities)
    ensures ValueOf(g, cu, SOURCE_ENTITY, x.su) && ValueOf(g, cu, TARGET_ENTITY, x.tu)
    ensures r.Ok? ==> (r.value <==> Attaches(loaded, x.su) && Attaches(loaded, x.tu))
    ensures r == Ok(false) ==> unchanged(scene) && done == processed
    ensures r.Err? ==> r.error == ValueError && Attaches(loaded, x.su) && Attaches(loaded, x.tu)
    ensures Attaches(loaded, x.su) && Attaches(loaded, x.tu) && ReadableRecord(g, cu) ==> r.Ok?
    ensures r == Ok(true) ==>
      var c := old(scene.nextId);
      && RecordRead(g, cu, x) && c !in old(scene.conns)
      && scene.conns == old(scene.conns)[c := ConnectionOf(loaded, cu, x, c)]
      && scene.ports == Register(Register(old(scene.ports), Some(loaded[Str(x.su.value)]), c), Some(loaded[Str(x.tu.value)]), c)
      && scene.nextId == c + 1 + |x.rows|
      && done == if x.rel.Some? then processed + {RelationshipKey(x.su.value, x.rel.value, x.tu.value)} else processed
  {
    var ends;
    ghost var su, tu;
    ends, su, tu := ReadEnds(g, cu, loaded);
    if ends.None? {
      return Ok(false), processed, Reading(su, tu, None, None, cu, None, [], []);
    }
    var (s, t) := ends.value;
    var read, rel, pen, rows;
    read, rel, pen, rows, x := ReadRecord(g, cu, s, t);
    done := processed;
    if read.Err? {
      return Err(ValueError), done, x;
    }
    var c := AddImportedConnection(scene, cu, loaded[Str(s)], loaded[Str(t)], rel, pen, Points(SortByIndex(rows)));
    assert ConnectionOf(loaded, cu, x, c) == ImportedConnection(loaded[Str(s)], loaded[Str(t)], cu, rel, pen, Points(SortByIndex(rows)), c, c + 1);
    if rel.Some? {
      done := processed + {RelationshipKey(s, rel.value, t)};
    }
    r := Ok(true);
  }

  /** The keys pass 2 adds to `processed_relationships`: one for each connection drawn whose type matched the table. */
  ghost function ProcessedKeys(records: map<Term, Reading>, made: map<Term, nat>): set<(string, string, string)>
  {
    set cu | cu in made && cu in records && records[cu].su.Some? && records[cu].rel.Some? && records[cu].tu.Some?
      :: RelationshipKey(records[cu].su.value, records[cu].rel.value, records[cu].tu.value)
  }

  /** Every record read has its ends read, and it has a connection exactly when both name loaded entities. */
  ghost predicate SeenEnds(g: Graph, loaded: map<string, nat>, records: map<Term, Reading>, made: map<Term, nat>)
  {
    forall cu :: cu in records ==>
      && ValueOf(g, cu, SOURCE_ENTITY, records[cu].su) && ValueOf(g, cu, TARGET_ENTITY, records[cu].tu)
      && (cu in made <==> Attaches(loaded, records[cu].su) && Attaches(loaded, records[cu].tu))
  }

  /** Every record with a connection was read in full. */
  ghost predicate SeenRead(g: Graph, records: map<Term, Reading>, made: map<Term, nat>)
  {
    forall cu :: cu in made ==> cu in records && RecordRead(g, cu, records[cu])
  }

  /**
   * The records of `done` have been read as `records`; exactly those whose ends both name
   * loaded entities have a connection, in `made`, and were read in full.
   */
  ghost predicate RecordsSeen(g: Graph, loaded: map<string, nat>, records: map<Term, Reading>, made: map<Term, nat>, done: set<Term>)
  {
    records.Keys == done && made.Keys <= done && SeenEnds(g, loaded, records, made) && SeenRead(g, records, made)
  }

  /**
   * The ids of `conns` are those of `c0`, whose entries are unchanged, and one id of its own
   * for each record of `made`, from `n0` up to `next`.
   */
  ghost predicate FreshIds<V>(conns: map<nat, V>, c0: map<nat, V>, n0: nat, next: nat, made: map<Term, nat>)
  {
    && (forall cu :: cu in made ==> n0 <= made[cu] < next)
    && (forall cu, cv :: cu in made && cv in made && cu != cv ==> made[cu] != made[cv])
    && conns.Keys == c0.Keys + made.Values
    && (forall c :: c in c0 ==> c in conns && conns[c] == c0[c])
  }

  /** The connection of each record of `made` is the one its reading gives. */
  ghost predicate DrawnFrom(conns: map<nat, Connection>, loaded: map<string, nat>, records: map<Term, Reading>, made: map<Term, nat>)
  {
    forall cu :: cu in made ==>
      && cu in records && Attaches(loaded, records[cu].su) && Attaches(loaded, records[cu].tu)
      && made[cu] in conns && conns[made[cu]] == ConnectionOf(loaded, cu, records[cu], made[cu])
  }

  /**
   * The connections of `conns` are those of `c0`, unchanged, and one new connection for
   * each record of `made`, with an id of its own from `n0` on, made from its reading.
   */
  ghost predicate RecordsDrawn(conns: map<nat, Connection>, c0: map<nat, Connection>, n0: nat, next: nat,
                               loaded: map<string, nat>, records: map<Term, Reading>, made: map<Term, nat>)
  {
    FreshIds(conns, c0, n0, next, made) && DrawnFrom(conns, loaded, records, made)
  }

  lemma SeenEndsStep(g: Graph, loaded: map<string, nat>, records: map<Term, Reading>, made: map<Term, nat>,
                     cu: Term, x: Reading, c: nat, drawn: bool)
    requires SeenEnds(g, loaded, records, made) && cu !in records && made.Keys <= records.Keys
    requires ValueOf(g, cu, SOURCE_ENTITY, x.su) && ValueOf(g, cu, TARGET_ENTITY, x.tu)
    requires drawn <==> Attaches(loaded, x.su) && Attaches(loaded, x.tu)
    ensures SeenEnds(g, loaded, records[cu := x], if drawn then made[cu := c] else made)
  {
    var records', made' := records[cu := x], if drawn then made[cu := c] else made;
    forall cv | cv in records'
      ensures ValueOf(g, cv, SOURCE_ENTITY, records'[cv].su) && ValueOf(g, cv, TARGET_ENTITY, records'[cv].tu)
      ensures cv in made' <==> Attaches(loaded, records'[cv].su) && Attaches(loaded, records'[cv].tu)
    {
      if cv != cu {
        assert records'[cv] == records[cv] && (cv in made' <==> cv in made);
      }
    }
  }

  lemma SeenReadStep(g: Graph, records: map<Term, Reading>, made: map<Term, nat>, cu: Term, x: Reading, c: nat, drawn: bool)
    requires SeenRead(g, records, made) && cu !in records
    requires drawn ==> RecordRead(g, cu, x)
    ensures SeenRead(g, records[cu := x], if drawn then made[cu := c] else made)
  {
    var records', made' := records[cu := x], if drawn then made[cu := c] else made;
    forall cv | cv in made'
      ensures cv in records' && RecordRead(g, cv, records'[cv])
    {
      if cv != cu {
        assert records'[cv] == records[cv] && cv in made;
      }
    }
  }

  lemma FreshIdsStep<V>(conns: map<nat, V>, c0: map<nat, V>, n0: nat, next: nat, next': nat, made: map<Term, nat>, cu: Term, v: V)
    requires FreshIds(conns, c0, n0, next, made) && (forall c :: c in c0 ==> c < n0)
    requires cu !in made && n0 <= next < next'
    ensures next !in conns
    ensures FreshIds(conns[next := v], c0, n0, next', made[cu := next])
  {
    assert next !in c0.Keys + made.Values by {
      assert forall cv :: cv in made ==> made[cv] != next;
    }
    var made' := made[cu := next];
    forall w | w in made'.Values
      ensures w in made.Values + {next}
    {
      var k :| k in made' && made'[k] == w;
      if k != cu {
        assert k in made && made[k] == w;
      }
    }
    forall w | w in made.Values
      ensures w in made'.Values
    {
      var k :| k in made && made[k] == w;
      assert k != cu && made'[k] == w;
    }
    assert made'[cu] == next;
  }

  lemma DrawnFromStep(conns: map<nat, Connection>, loaded: map<string, nat>, records: map<Term, Reading>, made: map<Term, nat>,
                      cu: Term, x: Reading, next: nat)
    requires DrawnFrom(conns, loaded, records, made) && cu !in records
    requires forall cv :: cv in made ==> made[cv] < next
    requires Attaches(loaded, x.su) && Attaches(loaded, x.tu)
    ensures DrawnFrom(conns[next := ConnectionOf(loaded, cu, x, next)], loaded, records[cu := x], made[cu := next])
  {
    var conns', records', made' := conns[next := ConnectionOf(loaded, cu, x, next)], records[cu := x], made[cu := next];
    forall cv | cv in made'
      ensures cv in records' && Attaches(loaded, records'[cv].su) && Attaches(loaded, records'[cv].tu)
      ensures made'[cv] in conns' && conns'[made'[cv]] == ConnectionOf(loaded, cv, records'[cv], made'[cv])
    {
      if cv != cu {
        assert records'[cv] == records[cv] && made'[cv] == made[cv] && made[cv] != next;
      }
    }
  }

  lemma DrawnFromSkip(conns: map<nat, Connection>, loaded: map<string, nat>, records: map<Term, Reading>, made: map<Term, nat>,
                      cu: Term, x: Reading)
    requires DrawnFrom(conns, loaded, records, made) && cu !in records
    ensures DrawnFrom(conns, loaded, records[cu := x], made)
  {
    forall cv | cv in made
      ensures records[cu := x][cv] == records[cv]
    {
    }
  }

  lemma SeenStep(g: Graph, loaded: map<string, nat>, records: map<Term, Reading>, made: map<Term, nat>, done: set<Term>,
                 cu: Term, x: Reading, c: nat, drawn: bool)
    requires RecordsSeen(g, loaded, records, made, done) && cu !in done
    requires ValueOf(g, cu, SOURCE_ENTITY, x.su) && ValueOf(g, cu, TARGET_ENTITY, x.tu)
    requires drawn <==> Attaches(loaded, x.su) && Attaches(loaded, x.tu)
    requires drawn ==> RecordRead(g, cu, x)
    ensures RecordsSeen(g, loaded, records[cu := x], if drawn then made[cu := c] else made, done + {cu})
  {
    SeenEndsStep(g, loaded, records, made, cu, x, c, drawn);
    SeenReadStep(g, records, made, cu, x, c, drawn);
  }

  lemma KeysStep(records: map<Term, Reading>, made: map<Term, nat>, cu: Term, x: Reading, c: nat, drawn: bool)
    requires made.Keys <= records.Keys && cu !in records
    requires drawn ==> x.su.Some? && x.tu.Some?
    ensures ProcessedKeys(records[cu := x], if drawn then made[cu := c] else made)
      == ProcessedKeys(records, made) + (if drawn && x.rel.Some? then {RelationshipKey(x.su.value, x.rel.value, x.tu.value)} else {})
  {
    var records', made' := records[cu := x], if drawn then made[cu := c] else made;
    forall cv | cv in made
      ensures cv in made' && records'[cv] == records[cv]
    {
    }
  }

  /** Pass 2 for one record, with the loop's bookkeeping. */
  method ImportConnectionsStep(scene: Scene, g: Graph, cu: Term, loaded: map<string, nat>, processed: set<(string, string, string)>,
                               ghost records: map<Term, Reading>, ghost made: map<Term, nat>, ghost done: set<Term>,
                               ghost c0: map<nat, Connection>, ghost n0: nat)
    returns (r: Result<set<(string, string, string)>>, ghost records': map<Term, Reading>, ghost made': map<Term, nat>)
    requires scene.Valid() && cu !in done && n0 <= scene.nextId && (forall c :: c in c0 ==> c < n0)
    requires RecordsSeen(g, loaded, records, made, done)
    requires RecordsDrawn(scene.conns, c0, n0, scene.nextId, loaded, records, made)
    requires processed == ProcessedKeys(records, made)
    modifies scene
    ensures scene.Valid() && n0 <= scene.nextId && scene.entities == old(scene.entities)
    ensures r.Err? ==> r.error == ValueError && !ReadableRecord(g, cu)
    ensures r.Ok? ==>
      && RecordsSeen(g, loaded, records', made', done + {cu})
      && RecordsDrawn(scene.conns, c0, n0, scene.nextId, loaded, records', made')
      && r.value == ProcessedKeys(records', made')
  {
    ghost var conns, next := scene.conns, scene.nextId;
    var ok, keys, x := ImportConnection(scene, g, cu, loaded, processed);
    records' := records[cu := x];
    if ok.Err? {
      return Err(ValueError), records', made;
    }
    made' := if ok.value then made[cu := next] else made;
    Pass2Step(g, loaded, records, made, done, c0, n0, conns, next, cu, x, ok.value, scene.conns, scene.nextId, processed, keys);
    r := Ok(keys);
  }

  /** What one record read without error does to the state pass 2 keeps. */
  lemma Pass2Step(g: Graph, loaded: map<string, nat>, records: map<Term, Reading>, made: map<Term, nat>, done: set<Term>,
                  c0: map<nat, Connection>, n0: nat, conns: map<nat, Connection>, next: nat, cu: Term, x: Reading, drawn: bool,
                  conns': map<nat, Connection>, next': nat, processed: set<(string, string, string)>, keys: set<(string, string, string)>)
    requires cu !in done && n0 <= next && (forall c :: c in c0 ==> c < n0)
    requires RecordsSeen(g, loaded, records, made, done)
    requires RecordsDrawn(conns, c0, n0, next, loaded, records, made)
    requires processed == ProcessedKeys(records, made)
    requires ValueOf(g, cu, SOURCE_ENTITY, x.su) && ValueOf(g, cu, TARGET_ENTITY, x.tu)
    requires drawn <==> Attaches(loaded, x.su) && Attaches(loaded, x.tu)
    requires !drawn ==> conns' == conns && next' == next && keys == processed
    requires drawn ==> (&& RecordRead(g, cu, x) && next < next'
                        && conns' == conns[next := ConnectionOf(loaded, cu, x, next)]
                        && keys == if x.rel.Some? then processed + {RelationshipKey(x.su.value, x.rel.value, x.tu.value)} else processed)
    ensures var made' := if drawn then made[cu := next] else made;
      && RecordsSeen(g, loaded, records[cu := x], made', done + {cu})
      && RecordsDrawn(conns', c0, n0, next', loaded, records[cu := x], made')
      && keys == ProcessedKeys(records[cu := x], made')
  {
    SeenStep(g, loaded, records, made, done, cu, x, next, drawn);
    KeysStep(records, made, cu, x, next, drawn);
    if drawn {
      FreshIdsStep(conns, c0, n0, next, next', made, cu, ConnectionOf(loaded, cu, x, next));
      DrawnFromStep(conns, loaded, records, made, cu, x, next);
    } else {
      DrawnFromSkip(conns, loaded, records, made, cu, x);
    }
  }

  /**
   * Pass 2 of `import_from_graph`: every `design:Connection` record whose ends both name
   * loaded entities becomes a connection of the scene made from what the record says, with
   * an id of its own; the other records are skipped; the connections already in the scene
   * stay as they are; the result is `processed_relationships`, a key for each connection
   * whose type matched the table. A record whose numbers do not convert raises `ValueError`.
   */
  method ImportConnections(scene: Scene, g: Graph, loaded: map<string, nat>)
    returns (r: Result<set<(string, string, string)>>, ghost records: map<Term, Reading>, ghost made: map<Term, nat>)
    requires scene.Valid()
    modifies scene
    ensures scene.Valid() && scene.entities == old(scene.entities)
    ensures r.Err? ==> r.error == ValueError
    ensures (forall cu :: cu in Subjects(g, RDF_TYPE, CONNECTION) ==> ReadableRecord(g, cu)) ==> r.Ok?
    ensures r.Ok? ==>
      && RecordsSeen(g, loaded, records, made, Subjects(g, RDF_TYPE, CONNECTION))
      && RecordsDrawn(scene.conns, old(scene.conns), old(scene.nextId), scene.nextId, loaded, records, made)
      && r.value == ProcessedKeys(records, made)
  {
    var processed: set<(string, string, string)> := {};
    records, made := map[], map[];
    var todo := Subjects(g, RDF_TYPE, CONNECTION);
    ghost var done: set<Term> := {};
    ghost var c0, n0, all := scene.conns, scene.nextId, todo;
    while todo != {}
      invariant scene.Valid() && n0 <= scene.nextId && scene.entities == old(scene.entities)
      invariant forall cu :: cu in todo ==> cu in all && cu !in done
      invariant forall cu :: cu in all ==> cu in done || cu in todo
      invariant done <= all
      invariant RecordsSeen(g, loaded, records, made, done)
      invariant RecordsDrawn(scene.conns, c0, n0, scene.nextId, loaded, records, made)
      invariant processed == ProcessedKeys(records, made)
      decreases |todo|
    {
      var cu :| cu in todo;
      var step;
      step, records, made := ImportConnectionsStep(scene, g, cu, loaded, processed, records, made, done, c0, n0);
      if step.Err? {
        return Err(ValueError), records, made;
      }
      processed := step.value;
      todo := todo - {cu};
      done := done + {cu};
    }
    assert done == all;
    r := Ok(processed);
  }
}

=== FILE: dialogs.dfy ===
/**
 * External references of a Point: the record the add/edit dialog builds from its form
 * after validation, the one-line text the list shows for a record, and adding,
 * editing and deleting records in the Point's list by their `id`.
 */
module Dialogs {
  import opened Wrappers
  import opened Strings

  /** A value stored in a reference record: text, an integer, or Python `None`. */
  datatype Val = VStr(s: string) | VInt(i: int) | VNone

  /**
   * The field names a reference record can carry. Records are only ever built by the
   * dialog, so their keys come from this fixed vocabulary; `Key` gives the dictionary key.
   */
  datatype Field =
    | TypeField | IdField | OptionField | ObjectIdentifier | ObjectName | ObjectType
    | Description | ReadProperty | ObjectOf | BacnetUri | TimeseriesId | StoredAt

  /** The dictionary key of a field, as the records store it. */
  function Key(f: Field): string
  {
    match f
    case TypeField => "type"
    case IdField => "id"
    case OptionField => "option"
    case ObjectIdentifier => "object-identifier"
    case ObjectName => "object-name"
    case ObjectType => "object-type"
    case Description => "description"
    case ReadProperty => "read-property"
    case ObjectOf => "objectOf"
    case BacnetUri => "BACnetURI"
    case TimeseriesId => "timeseriesId"
    case StoredAt => "storedAt"
  }

  /** Distinct fields have distinct keys, so a record over `Field` is a dictionary over their keys. */
  lemma KeysDistinct(a: Field, b: Field)
    requires a != b
    ensures Key(a) != Key(b)
  {
    if |Key(a)| == |Key(b)| {
      assert Key(a)[0] != Key(b)[0] || Key(a)[7] != Key(b)[7];
    }
  }

  /** A reference record: a dictionary from field names to values. */
  type Reference = map<Field, Val>

  /** Python `d.get(key, default)`. */
  function Get(r: Reference, key: Field, default: Val): (v: Val)
    ensures key in r ==> v == r[key]
    ensures key !in r ==> v == default
  {
    if key in r then r[key] else default
  }

  /** Python `str(v)` of a stored value. */
  function ValStr(v: Val): string
  {
    match v
    case VStr(s) => s
    case VInt(i) => IntToString(i)
    case VNone => "None"
  }

  /** Which BACnet format radio button is checked, if any. */
  datatype BacnetChoice = FieldsOption | UriOption | NoOption

  /** The text of every input of the dialog, as typed. */
  datatype Form = Form(
    refType: string,
    bacnet: BacnetChoice,
    objectId: string,
    objectName: string,
    objectType: string,
    description: string,
    readProperty: string,
    objectOf: string,
    bacnetUri: string,
    objectOfUri: string,
    timeseriesId: string,
    storedAt: string)

  const BACNET_SCHEME: string := "bacnet://"

  /** The reasons `accept` refuses a form: a required field missing or a malformed BACnet URI. */
  predicate Rejected(f: Form)
  {
    (f.refType == "BACnet" && f.bacnet == FieldsOption && Strip(f.objectId) == "")
    || (f.refType == "BACnet" && f.bacnet == UriOption && !(BACNET_SCHEME <= Strip(f.bacnetUri)))
    || (f.refType == "Timeseries" && Strip(f.timeseriesId) == "")
  }

  /**
   * The `id` of the record: the edited record's own `id` (or `None` when it has none)
   * when a non-empty record is being edited, otherwise a freshly generated one.
   */
  function RecordId(existing: Reference, freshId: string): (v: Val)
    ensures existing == map[] ==> v == VStr(freshId)
    ensures existing != map[] ==> v == Get(existing, IdField, VNone)
  {
    if existing != map[] then Get(existing, IdField, VNone) else VStr(freshId)
  }

  /** The fields of BACnet option 1, added to `data`; `None` when the object identifier is blank. */
  method AcceptBacnetFields(data: Reference, f: Form) returns (r: Option<Reference>)
    ensures r.None? <==> Strip(f.objectId) == ""
    ensures r.Some? ==> BacnetFieldsRecord(r.value, data, f)
  {
    var d := data[OptionField := VInt(1)];
    var objId := Strip(f.objectId);
    if objId == "" {
      return None;
    }
    d := d[ObjectIdentifier := VStr(objId)];
    d := d[ObjectName := VStr(Strip(f.objectName))];
    d := d[ObjectType := VStr(Strip(f.objectType))];
    d := d[Description := VStr(Strip(f.description))];
    assert forall k :: k in data && k !in BACNET_FIELDS ==> d[k] == data[k];
    var readProp := Strip(f.readProperty);
    if readProp != "" {
      d := d[ReadProperty := VStr(readProp)];
    }
    var objOf := Strip(f.objectOf);
    if objOf != "" {
      d := d[ObjectOf := VStr(objOf)];
    }
    return Some(d);
  }

  /** The fields BACnet option 1 may set. */
  const BACNET_FIELDS: set<Field> :=
    {OptionField, ObjectIdentifier, ObjectName, ObjectType, Description, ReadProperty, ObjectOf}

  /**
   * A BACnet option 1 record built on `data`: identifier, name, type and description always
   * present (stripped, possibly empty), read property and owner only when not blank.
   */
  predicate BacnetFieldsRecord(d: Reference, data: Reference, f: Form)
  {
    d.Keys == data.Keys + {OptionField, ObjectIdentifier, ObjectName, ObjectType, Description}
              + (if Strip(f.readProperty) != "" then {ReadProperty} else {})
              + (if Strip(f.objectOf) != "" then {ObjectOf} else {})
    && d[OptionField] == VInt(1)
    && d[ObjectIdentifier] == VStr(Strip(f.objectId))
    && d[ObjectName] == VStr(Strip(f.objectName))
    && d[ObjectType] == VStr(Strip(f.objectType))
    && d[Description] == VStr(Strip(f.description))
    && (Strip(f.readProperty) != "" ==> d[ReadProperty] == VStr(Strip(f.readProperty)))
    && (Strip(f.objectOf) != "" ==> d[ObjectOf] == VStr(Strip(f.objectOf)))
    && forall k :: k in data && k !in BACNET_FIELDS ==> d[k] == data[k]
  }

  /** A BACnet option 2 record built on `data`: the URI always, the owner only when not blank. */
  predicate BacnetUriRecord(d: Reference, data: Reference, f: Form)
  {
    d.Keys == data.Keys + {OptionField, BacnetUri} + (if Strip(f.objectOfUri) != "" then {ObjectOf} else {})
    && d[OptionField] == VInt(2)
    && d[BacnetUri] == VStr(Strip(f.bacnetUri))
    && (Strip(f.objectOfUri) != "" ==> d[ObjectOf] == VStr(Strip(f.objectOfUri)))
    && forall k :: k in data && k !in {OptionField, BacnetUri, ObjectOf} ==> d[k] == data[k]
  }

  /** A time series record built on `data`: the identifier always, the store only when not blank. */
  predicate TimeseriesRecord(d: Reference, data: Reference, f: Form)
  {
    d.Keys == data.Keys + {TimeseriesId} + (if Strip(f.storedAt) != "" then {StoredAt} else {})
    && d[TimeseriesId] == VStr(Strip(f.timeseriesId))
    && (Strip(f.storedAt) != "" ==> d[StoredAt] == VStr(Strip(f.storedAt)))
    && forall k :: k in data && k !in {TimeseriesId, StoredAt} ==> d[k] == data[k]
  }

  /** The fields of BACnet option 2, added to `data`; `None` unless the URI starts with "bacnet://". */
  method AcceptBacnetUri(data: Reference, f: Form) returns (r: Option<Reference>)
    ensures r.None? <==> !(BACNET_SCHEME <= Strip(f.bacnetUri))
    ensures r.Some? ==> BacnetUriRecord(r.value, data, f)
  {
    var d := data[OptionField := VInt(2)];
    var uri := Strip(f.bacnetUri);
    if uri == "" || !(BACNET_SCHEME <= uri) {
      return None;
    }
    d := d[BacnetUri := VStr(uri)];
    var objOf := Strip(f.objectOfUri);
    if objOf != "" {
      d := d[ObjectOf := VStr(objOf)];
    }
    return Some(d);
  }

  /** The time series fields, added to `data`; `None` when the identifier is blank. */
  method AcceptTimeseries(data: Reference, f: Form) returns (r: Option<Reference>)
    ensures r.None? <==> Strip(f.timeseriesId) == ""
    ensures r.Some? ==> TimeseriesRecord(r.value, data, f)
  {
    var tsId := Strip(f.timeseriesId);
    if tsId == "" {
      return None;
    }
    var d := data[TimeseriesId := VStr(tsId)];
    var storedAt := Strip(f.storedAt);
    if storedAt != "" {
      d := d[StoredAt := VStr(storedAt)];
    }
    return Some(d);
  }

  /**
   * `AddEditReferenceDialog.accept`: builds the record field by field. A rejected form
   * leaves the dialog without data (`None`). `existing` is the record being edited
   * (empty when adding) and `freshId` the identifier generated for a new record.
   */
  method Accept(f: Form, existing: Reference, freshId: string) returns (refData: Option<Reference>)
    ensures refData.None? <==> Rejected(f)
    ensures refData.Some? ==> HasData(refData)
    ensures refData.Some? ==>
      TypeField in refData.value && refData.value[TypeField] == VStr(f.refType)
      && IdField in refData.value && refData.value[IdField] == RecordId(existing, freshId)
    ensures refData.Some? && f.refType == "BACnet" && f.bacnet == FieldsOption ==>
      BacnetFieldsRecord(refData.value, map[TypeField := VStr(f.refType), IdField := RecordId(existing, freshId)], f)
      && DisplayText(refData.value) == "BACnet (Fields): ID=" + Strip(f.objectId)
    ensures refData.Some? && f.refType == "BACnet" && f.bacnet == UriOption ==>
      BacnetUriRecord(refData.value, map[TypeField := VStr(f.refType), IdField := RecordId(existing, freshId)], f)
      && DisplayText(refData.value) == "BACnet (URI): " + Strip(f.bacnetUri)
    ensures refData.Some? && f.refType == "Timeseries" ==>
      TimeseriesRecord(refData.value, map[TypeField := VStr(f.refType), IdField := RecordId(existing, freshId)], f)
      && DisplayText(refData.value) == "Timeseries: ID=" + Strip(f.timeseriesId)
    ensures refData.Some? && ((f.refType == "BACnet" && f.bacnet == NoOption)
                              || (f.refType != "BACnet" && f.refType != "Timeseries")) ==>
      refData.value.Keys == {TypeField, IdField}
    ensures refData.Some? && f.refType == "BACnet" && f.bacnet == NoOption ==>
      DisplayText(refData.value) == "BACnet (Unknown Option)"
    ensures refData.Some? && f.refType != "BACnet" && f.refType != "Timeseries" ==>
      DisplayText(refData.value) == f.refType + ": ID=" + ValStr(RecordId(existing, freshId))
  {
    var data: Reference := map[];
    data := data[TypeField := VStr(f.refType)];
    data := data[IdField := RecordId(existing, freshId)];

    if f.refType == "BACnet" {
      if f.bacnet == FieldsOption {
        refData := AcceptBacnetFields(data, f);
        if refData.Some? {
          FieldsDisplay(refData.value, data, f);
        }
      } else if f.bacnet == UriOption {
        refData := AcceptBacnetUri(data, f);
        if refData.Some? {
          UriDisplay(refData.value, data, f);
        }
      } else {
        refData := Some(data);
      }
    } else if f.refType == "Timeseries" {
      refData := AcceptTimeseries(data, f);
      if refData.Some? {
        TimeseriesDisplay(refData.value, data, f);
      }
    } else {
      refData := Some(data);
    }
  }

  /** A BACnet option 1 record shows its object identifier and keeps its type and `id`. */
  lemma FieldsDisplay(d: Reference, data: Reference, f: Form)
    requires BacnetFieldsRecord(d, data, f)
    requires TypeField in data && data[TypeField] == VStr("BACnet") && IdField in data
    ensures d[TypeField] == data[TypeField] && d[IdField] == data[IdField]
    ensures DisplayText(d) == "BACnet (Fields): ID=" + Strip(f.objectId)
  {
    assert d[TypeField] == data[TypeField];
  }

  /** A BACnet option 2 record shows its URI and keeps its type and `id`. */
  lemma UriDisplay(d: Reference, data: Reference, f: Form)
    requires BacnetUriRecord(d, data, f)
    requires TypeField in data && data[TypeField] == VStr("BACnet") && IdField in data
    ensures d[TypeField] == data[TypeField] && d[IdField] == data[IdField]
    ensures DisplayText(d) == "BACnet (URI): " + Strip(f.bacnetUri)
  {
    assert d[TypeField] == data[TypeField];
  }

  /** A time series record shows its identifier and keeps its type and `id`. */
  lemma TimeseriesDisplay(d: Reference, data: Reference, f: Form)
    requires TimeseriesRecord(d, data, f)
    requires TypeField in data && data[TypeField] == VStr("Timeseries") && IdField in data
    ensures d[TypeField] == data[TypeField] && d[IdField] == data[IdField]
    ensures DisplayText(d) == "Timeseries: ID=" + Strip(f.timeseriesId)
  {
    assert d[TypeField] == data[TypeField];
  }

  /**
   * `_get_ref_display_text`: BACnet records show their object identifier or URI by option,
   * time series their identifier, and any other type its name and `id`; missing fields
   * read "N/A".
   */
  function DisplayText(r: Reference): (text: string)
    ensures Get(r, TypeField, VStr("Unknown")) == VStr("BACnet") ==> "BACnet (" <= text
    ensures Get(r, TypeField, VStr("Unknown")) == VStr("Timeseries") ==> "Timeseries: ID=" <= text
    ensures TypeField !in r ==> "Unknown: ID=" <= text
    ensures r == map[] ==> text == "Unknown: ID=N/A"
  {
    var refType := Get(r, TypeField, VStr("Unknown"));
    if refType == VStr("BACnet") then
      var option := Get(r, OptionField, VInt(0));
      if option == VInt(1) then "BACnet (Fields): ID=" + ValStr(Get(r, ObjectIdentifier, VStr("N/A")))
      else if option == VInt(2) then "BACnet (URI): " + ValStr(Get(r, BacnetUri, VStr("N/A")))
      else "BACnet (Unknown Option)"
    else if refType == VStr("Timeseries") then "Timeseries: ID=" + ValStr(Get(r, TimeseriesId, VStr("N/A")))
    else ValStr(refType) + ": ID=" + ValStr(Get(r, IdField, VStr("N/A")))
  }

  /** The `id` a record is matched by; `None` when it has none. */
  function IdOf(r: Reference): Val
  {
    Get(r, IdField, VNone)
  }

  /**
   * The dialog's data taken as a condition: present and not empty. `Accept` never gives
   * an empty record, since it always sets the type and the `id`.
   */
  predicate HasData(data: Option<Reference>)
  {
    data.Some? && data.value != map[]
  }

  /**
   * `_add_reference`: an accepted record gets a newly generated `id` and is appended;
   * a dialog without data, or with an empty record, leaves the list as it is.
   */
  function AddReference(refs: seq<Reference>, data: Option<Reference>, freshId: string): (r: seq<Reference>)
    ensures !HasData(data) ==> r == refs
    ensures HasData(data) ==>
      |r| == |refs| + 1 && r[..|refs|] == refs &&
        IdOf(r[|refs|]) == VStr(freshId) &&
        r[|refs|].Keys == data.value.Keys + {IdField} &&
        forall k :: k in data.value && k != IdField ==> r[|refs|][k] == data.value[k]
  {
    if HasData(data) then refs + [data.value[IdField := VStr(freshId)]] else refs
  }

  /**
   * `_edit_reference`: an accepted record replaces the first record whose `id` equals the
   * edited record's; the length and every other record stay the same. A dialog without
   * data, or with an empty record, changes nothing.
   */
  method EditReference(refs: seq<Reference>, existing: Reference, updated: Option<Reference>)
    returns (r: seq<Reference>)
    ensures |r| == |refs|
    ensures !HasData(updated) ==> r == refs
    ensures HasData(updated) && (forall j :: 0 <= j < |refs| ==> IdOf(refs[j]) != IdOf(existing)) ==> r == refs
    ensures HasData(updated) && (exists j :: 0 <= j < |refs| && IdOf(refs[j]) == IdOf(existing)) ==>
      exists i :: 0 <= i < |refs| && IdOf(refs[i]) == IdOf(existing)
        && (forall j :: 0 <= j < i ==> IdOf(refs[j]) != IdOf(existing))
        && r == refs[i := updated.value]
  {
    r := refs;
    if !HasData(updated) {
      return;
    }
    var target := IdOf(existing);
    var i := 0;
    while i < |r|
      invariant 0 <= i <= |r|
      invariant r == refs
      invariant forall j :: 0 <= j < i ==> IdOf(refs[j]) != target
    {
      if IdOf(r[i]) == target {
        r := r[i := updated.value];
        return;
      }
      i := i + 1;
    }
  }

  /** `_delete_reference`: the records whose `id` differs from `id`, in their order. */
  function DeleteReference(refs: seq<Reference>, id: Val): (r: seq<Reference>)
    ensures |r| <= |refs|
    ensures forall x :: x in r <==> x in refs && IdOf(x) != id
    ensures (forall j :: 0 <= j < |refs| ==> IdOf(refs[j]) != id) ==> r == refs
  {
    if |refs| == 0 then []
    else if IdOf(refs[0]) == id then DeleteReference(refs[1..], id)
    else [refs[0]] + DeleteReference(refs[1..], id)
  }

  /** Deleting keeps the other records in their order: it distributes over concatenation. */
  lemma {:induction false} DeleteAppend(a: seq<Reference>, b: seq<Reference>, id: Val)
    ensures DeleteReference(a + b, id) == DeleteReference(a, id) + DeleteReference(b, id)
    decreases |a|
  {
    if |a| > 0 {
      assert (a + b)[1..] == a[1..] + b;
      DeleteAppend(a[1..], b, id);
    } else {
      assert a + b == b;
    }
  }

  /**
   * Deleting a record just added under an `id` no other record carries gives back the
   * list as it was.
   */
  lemma DeleteAddedReference(refs: seq<Reference>, data: Reference, freshId: string)
    requires forall j :: 0 <= j < |refs| ==> IdOf(refs[j]) != VStr(freshId)
    ensures DeleteReference(AddReference(refs, Some(data), freshId), VStr(freshId)) == refs
  {
    var added := data[IdField := VStr(freshId)];
    DeleteAppend(refs, [added], VStr(freshId));
    assert DeleteReference([added], VStr(freshId)) == [];
  }
}

=== FILE: importer.dfy ===
/**
 * Loading a design back from an RDF graph (`import_from_graph`): entities first, then their
 * position, rotation and label, then the connections that have a `Connection` record, and
 * last a straight connection for every Brick relationship no record accounted for.
 *
 * Where rdflib's answer depends on the order in which it walks the graph (`g.value` with
 * several candidates, the order of a loop over matching triples), any choice is allowed:
 * the contracts hold whichever candidate is taken.
 */
module GraphImport {
  import opened Wrappers
  import opened Strings
  import opened Rdf
  import opened Items
  import opened Persistence
  import Model
  import Config

  // ---------------------------------------------------------------------------
  // Reading single values

  /**
   * `r` is a possible answer of `g.value(s, p)`: `None` when `s` has no object under `p`,
   * otherwise one of those objects.
   */
  predicate ValueOf(g: Graph, s: Term, p: Term, r: Option<Term>)
  {
    if Objects(g, s, p) == {} then r == None else r.Some? && Triple(s, p, r.value) in g
  }

  /** `v` is a possible answer of `g.value(s, p, default=d)`. */
  predicate ValueOr(g: Graph, s: Term, p: Term, d: Term, v: Term)
  {
    if Objects(g, s, p) == {} then v == d else Triple(s, p, v) in g
  }

  /** `g.value(s, p)`: one of the objects of `s` under `p`, or `None`. */
  method Value(g: Graph, s: Term, p: Term) returns (r: Option<Term>)
    ensures ValueOf(g, s, p, r)
    ensures r.Some? ==> r.value in Objects(g, s, p)
  {
    var os := Objects(g, s, p);
    if os == {} {
      return None;
    }
    var o :| o in os;
    r := Some(o);
  }

  /** `g.value(s, p, default=d)`. */
  method ValueWithDefault(g: Graph, s: Term, p: Term, d: Term) returns (v: Term)
    ensures ValueOr(g, s, p, d, v)
    ensures Objects(g, s, p) == {} <==> v == d && Triple(s, p, d) !in g
  {
    var r := Value(g, s, p);
    v := if r.Some? then r.value else d;
  }

  // ---------------------------------------------------------------------------
  // Pass 1: entities

  /**
   * An `rdf:type` triple that pass 1 turns into an entity: its object is not
   * `design:Connection` and is the URI of a library type.
   */
  predicate Loadable(t: Triple)
  {
    t.p == RDF_TYPE && t.o != CONNECTION && Model.Lookup(Str(t.o)).Ok?
  }

  /** The entity pass 1 makes of a loadable triple: the library type, the subject as instance URI, in the scene. */
  function LoadedEntity(t: Triple): (x: Entity)
    requires Loadable(t)
    ensures x.etype.uri == Str(t.o) && x.uri == t.s && x.inScene
  {
    Entity(Model.Lookup(Str(t.o)).value, t.s, "", Pos(0.0, 0.0), 0, true, true)
  }

  /** The entities pass 1 made, under their ids, each from its triple. */
  function LoadedEntities(made: map<nat, Triple>): map<nat, Entity>
    requires forall e :: e in made ==> Loadable(made[e])
  {
    map e | e in made :: LoadedEntity(made[e])
  }

  /** The ports of the entities pass 1 made, each listing no connection. */
  function EmptyPorts(made: map<nat, Triple>): (r: map<nat, seq<nat>>)
    ensures r.Keys == made.Keys && forall e :: e in r ==> r[e] == []
  {
    map e | e in made :: []
  }

  /** The triples pass 1 walks: `g.triples((None, RDF.type, None))`. */
  function TypeTriples(g: Graph): (r: set<Triple>)
    ensures forall t :: t in r <==> t in g && t.p == RDF_TYPE
  {
    set t | t in g && t.p == RDF_TYPE
  }

  /** The keys of `loaded_entities` after pass 1: `str` of the subject of each loadable triple. */
  function LoadedKeys(g: Graph): set<string>
  {
    set t | t in g && Loadable(t) :: Str(t.s)
  }

  /**
   * One triple of pass 1: unless its object is `design:Connection` or not a library type
   * (then nothing happens), a new entity takes the subject as its instance URI, enters the
   * scene and is recorded under `str(subject)`, replacing any earlier entity of that key.
   */
  method LoadEntity(scene: Scene, t: Triple, loaded: map<string, nat>) returns (r: map<string, nat>, ghost e: Option<nat>)
    requires scene.Valid() && t.p == RDF_TYPE
    modifies scene
    ensures scene.Valid()
    ensures e.Some? <==> Loadable(t)
    ensures e.None? ==> r == loaded && unchanged(scene)
    ensures e.Some? ==>
      && e.value == old(scene.nextId) && scene.nextId == e.value + 1
      && scene.entities == old(scene.entities)[e.value := LoadedEntity(t)]
      && scene.ports == old(scene.ports)[e.value := []]
      && scene.conns == old(scene.conns)
      && r == loaded[Str(t.s) := e.value]
  {
    if t.o == CONNECTION {
      return loaded, None;
    }
    var made := scene.NewEntity(Str(t.o));
    if made.Err? {
      return loaded, None;
    }
    var id := made.value;
    scene.SetEntityUri(id, t.s);
    scene.AddEntityToScene(id);
    r := loaded[Str(t.s) := id];
    e := Some(id);
  }

  /** Every entity pass 1 made comes from its own loadable triple among those seen. */
  ghost predicate MadeFrom(made: map<nat, Triple>, done: set<Triple>)
  {
    && (forall e :: e in made ==> made[e] in done && Loadable(made[e]))
    && (forall e, d :: e in made && d in made && made[e] == made[d] ==> e == d)
  }

  /** Every loadable triple among those seen made an entity. */
  ghost predicate Covers(made: map<nat, Triple>, done: set<Triple>)
  {
    forall t :: t in done && Loadable(t) ==> exists e :: e in made && made[e] == t
  }

  /** Each key holds an entity made from a triple whose subject has that `str`, and every made entity's key is present. */
  ghost predicate KeysMatch(made: map<nat, Triple>, loaded: map<string, nat>)
  {
    && (forall k :: k in loaded ==> loaded[k] in made && Str(made[loaded[k]].s) == k)
    && (forall e :: e in made ==> Str(made[e].s) in loaded)
  }

  /** What pass 1 leaves once it has seen the triples `done`. */
  ghost predicate LoadedFrom(g: Graph, made: map<nat, Triple>, loaded: map<string, nat>, done: set<Triple>)
  {
    MadeFrom(made, done) && Covers(made, done) && KeysMatch(made, loaded)
  }

  lemma CoversStep(made: map<nat, Triple>, done: set<Triple>, t: Triple, e: nat)
    requires Covers(made, done) && e !in made
    ensures Covers(made[e := t], done + {t})
  {
    var m := made[e := t];
    forall d | d in done + {t} && Loadable(d)
      ensures exists x :: x in m && m[x] == d
    {
      if d == t {
        assert m[e] == d;
      } else {
        var x :| x in made && made[x] == d;
        assert m[x] == d;
      }
    }
  }

  lemma KeysMatchStep(made: map<nat, Triple>, loaded: map<string, nat>, t: Triple, e: nat)
    requires KeysMatch(made, loaded) && e !in made
    ensures KeysMatch(made[e := t], loaded[Str(t.s) := e])
  {
  }

  /** Pass 1 after one more triple. */
  lemma LoadedFromStep(g: Graph, made: map<nat, Triple>, loaded: map<string, nat>, done: set<Triple>, t: Triple, e: Option<nat>)
    requires LoadedFrom(g, made, loaded, done) && t !in done
    requires e.Some? <==> Loadable(t)
    requires e.Some? ==> e.value !in made
    ensures e.None? ==> LoadedFrom(g, made, loaded, done + {t})
    ensures e.Some? ==> LoadedFrom(g, made[e.value := t], loaded[Str(t.s) := e.value], done + {t})
  {
    if e.Some? {
      CoversStep(made, done, t, e.value);
      KeysMatchStep(made, loaded, t, e.value);
    }
  }

  /** The entities pass 1 made, under their ids, after one more. */
  lemma LoadedEntitiesStep(e0: map<nat, Entity>, made: map<nat, Triple>, e: nat, t: Triple)
    requires forall d :: d in made ==> Loadable(made[d])
    requires Loadable(t) && e !in made
    ensures (e0 + LoadedEntities(made))[e := LoadedEntity(t)] == e0 + LoadedEntities(made[e := t])
  {
  }

  /** The empty port lists pass 1 made, after one more. */
  lemma LoadedPortsStep(p0: map<nat, seq<nat>>, made: map<nat, Triple>, e: nat, t: Triple)
    ensures (p0 + EmptyPorts(made))[e := []] == p0 + EmptyPorts(made[e := t])
  {
  }

  /**
   * What the loop of pass 1 keeps once it has seen the triples `done`: the entities and ports
   * are those before the loop plus the ones made so far, all with ids from `n0` on.
   */
  ghost predicate Pass1(es: map<nat, Entity>, ps: map<nat, seq<nat>>, next: nat, g: Graph, made: map<nat, Triple>,
                        loaded: map<string, nat>, done: set<Triple>, e0: map<nat, Entity>, p0: map<nat, seq<nat>>, n0: nat)
  {
    && LoadedFrom(g, made, loaded, done)
    && n0 <= next && (forall e :: e in made ==> n0 <= e < next)
    && es == e0 + LoadedEntities(made)
    && ps == p0 + EmptyPorts(made)
  }

  /** What one triple does to the state pass 1 keeps: nothing, or one more entity with empty ports under the next id. */
  lemma Pass1Step(es: map<nat, Entity>, ps: map<nat, seq<nat>>, next: nat, g: Graph, made: map<nat, Triple>,
                  loaded: map<string, nat>, done: set<Triple>, e0: map<nat, Entity>, p0: map<nat, seq<nat>>, n0: nat,
                  t: Triple, id: Option<nat>, es': map<nat, Entity>, ps': map<nat, seq<nat>>, next': nat, r: map<string, nat>)
    requires Pass1(es, ps, next, g, made, loaded, done, e0, p0, n0) && t !in done
    requires id.Some? <==> Loadable(t)
    requires id.None? ==> r == loaded && es' == es && ps' == ps && next' == next
    requires id.Some? ==> (id.value == next && next' == next + 1 && es' == es[next := LoadedEntity(t)]
                           && ps' == ps[next := []] && r == loaded[Str(t.s) := next])
    ensures Pass1(es', ps', next', g, if id.Some? then made[id.value := t] else made, r, done + {t}, e0, p0, n0)
  {
    LoadedFromStep(g, made, loaded, done, t, id);
    if id.Some? {
      LoadedEntitiesStep(e0, made, next, t);
      LoadedPortsStep(p0, made, next, t);
      var m := made[next := t];
      forall e | e in m
        ensures n0 <= e < next'
      {
        if e != next {
          assert e in made;
        }
      }
    }
  }

  /** One iteration of pass 1. */
  method LoadEntitiesStep(scene: Scene, g: Graph, t: Triple, loaded: map<string, nat>, ghost made: map<nat, Triple>,
                          ghost done: set<Triple>, ghost e0: map<nat, Entity>, ghost p0: map<nat, seq<nat>>, ghost n0: nat)
    returns (r: map<string, nat>, ghost m: map<nat, Triple>)
    requires scene.Valid() && t.p == RDF_TYPE && t !in done
    requires Pass1(scene.entities, scene.ports, scene.nextId, g, made, loaded, done, e0, p0, n0)
    modifies scene
    ensures scene.Valid()
    ensures Pass1(scene.entities, scene.ports, scene.nextId, g, m, r, done + {t}, e0, p0, n0)
    ensures scene.conns == old(scene.conns)
  {
    ghost var es, ps, next := scene.entities, scene.ports, scene.nextId;
    ghost var id;
    r, id := LoadEntity(scene, t, loaded);
    Pass1Step(es, ps, next, g, made, loaded, done, e0, p0, n0, t, id, scene.entities, scene.ports, scene.nextId, r);
    m := if id.Some? then made[id.value := t] else made;
  }

  /**
   * Pass 1 of `import_from_graph`: one new entity in the scene for every `rdf:type` triple
   * whose object is a library type other than `design:Connection`, and `loaded_entities`
   * keyed by `str` of exactly the subjects of those triples, each key holding an entity made
   * from one of its triples. Nothing already in the scene changes.
   */
  method LoadEntities(scene: Scene, g: Graph) returns (loaded: map<string, nat>, ghost made: map<nat, Triple>)
    requires scene.Valid()
    modifies scene
    ensures scene.Valid()
    ensures LoadedFrom(g, made, loaded, TypeTriples(g))
    ensures loaded.Keys == LoadedKeys(g)
    ensures forall e :: e in made ==> e !in old(scene.entities)
    ensures scene.entities == old(scene.entities) + LoadedEntities(made)
    ensures scene.ports == old(scene.ports) + EmptyPorts(made)
    ensures scene.conns == old(scene.conns)
  {
    loaded := map[];
    made := map[];
    var todo := TypeTriples(g);
    ghost var done: set<Triple> := {};
    ghost var e0, p0, n0 := scene.entities, scene.ports, scene.nextId;
    assert forall e :: e in e0 ==> e < n0;
    while todo != {}
      invariant scene.Valid()
      invariant forall u :: u in done ==> u in TypeTriples(g)
      invariant forall u :: u in todo ==> u in TypeTriples(g) && u !in done
      invariant forall u :: u in TypeTriples(g) ==> u in done || u in todo
      invariant Pass1(scene.entities, scene.ports, scene.nextId, g, made, loaded, done, e0, p0, n0)
      invariant scene.conns == old(scene.conns)
      decreases |todo|
    {
      var t :| t in todo;
      loaded, made := LoadEntitiesStep(scene, g, t, loaded, made, done, e0, p0, n0);
      todo := todo - {t};
      done := done + {t};
    }
    assert done == TypeTriples(g);
    LoadedKeysOf(g, made, loaded);
  }

  /** Once every `rdf:type` triple is seen, the keys are exactly `str` of the loadable subjects. */
  lemma LoadedKeysOf(g: Graph, made: map<nat, Triple>, loaded: map<string, nat>)
    requires LoadedFrom(g, made, loaded, TypeTriples(g))
    ensures loaded.Keys == LoadedKeys(g)
  {
    forall k | k in loaded
      ensures k in LoadedKeys(g)
    {
      var t := made[loaded[k]];
      assert t in g && Loadable(t);
    }
    forall k | k in LoadedKeys(g)
      ensures k in loaded
    {
      var t :| t in g && Loadable(t) && Str(t.s) == k;
      var e :| e in made && made[e] == t;
    }
  }

  // ---------------------------------------------------------------------------
  // Entity properties

  /** `v` can be what `float(g.value(n, p, default=0))` gives. */
  ghost predicate ReadsAs(g: Graph, n: Term, p: Term, v: real)
  {
    exists t :: ValueOr(g, n, p, IntLit(0), t) && ToFloat(t) == Ok(v)
  }

  /** `q` can be the coordinates read from the position node `n`. */
  ghost predicate PositionAt(g: Graph, n: Term, q: Pos)
  {
    ReadsAs(g, n, X, q.x) && ReadsAs(g, n, Y, q.y)
  }

  /** Every coordinate of every position node of `u` is a number, so that `float` succeeds whatever `g.value` picks. */
  ghost predicate NumericCoordinates(g: Graph, u: Term)
  {
    forall n, v :: Triple(u, HAS_POSITION, n) in g && (Triple(n, X, v) in g || Triple(n, Y, v) in g) ==> ToFloat(v).Ok?
  }

  /**
   * One position node: `x` and `y` read with default `0` and converted with `float`, a
   * `ValueError` when either is not a number, and otherwise `setPos`, which snaps the entity
   * since it is in the scene and leaves it where it is when nothing would change.
   */
  method PlaceAt(scene: Scene, g: Graph, e: nat, n: Term) returns (r: Result<()>, ghost q: Pos)
    requires scene.Valid() && e in scene.entities && scene.entities[e].inScene && scene.ports[e] == []
    modifies scene
    ensures scene.Valid()
    ensures (forall v :: (Triple(n, X, v) in g || Triple(n, Y, v) in g) ==> ToFloat(v).Ok?) ==> r.Ok?
    ensures r.Err? ==> r.error == ValueError && unchanged(scene)
    ensures r.Ok? ==> PositionAt(g, n, q)
    ensures e in scene.entities
    ensures scene.entities == old(scene.entities)[e := old(scene.entities[e]).(pos := scene.entities[e].pos)]
    ensures r.Ok? ==>
      scene.entities[e].pos == (if q == old(scene.entities[e].pos) then q else EntitySnap(q, scene.entities[e].etype))
    ensures scene.ports == old(scene.ports) && scene.conns == old(scene.conns) && scene.nextId == old(scene.nextId)
  {
    var xv := ValueWithDefault(g, n, X, IntLit(0));
    var yv := ValueWithDefault(g, n, Y, IntLit(0));
    var x := ToFloat(xv);
    var y := ToFloat(yv);
    if x.Err? || y.Err? {
      return Err(ValueError), Pos(0.0, 0.0);
    }
    var p := Pos(x.value, y.value);
    scene.SetEntityPos(e, p);
    r, q := Ok(()), p;
  }

  /**
   * `p` can be where one of the position nodes of `u` leaves an entity of type `t` that was
   * at `p0`: snapped to the node's coordinates, or exactly at them when it already stood there.
   */
  ghost predicate PlacedAtSome(g: Graph, u: Term, t: Model.EntityType, p0: Pos, p: Pos)
  {
    exists n, q :: Triple(u, HAS_POSITION, n) in g && PositionAt(g, n, q) && (p == EntitySnap(q, t) || p == q == p0)
  }

  /**
   * `p` can be where the position nodes of `u` leave an entity of type `t` that was at `p0`:
   * where it was when there are none, and otherwise placed by one of them.
   */
  ghost predicate PlacedFrom(g: Graph, u: Term, t: Model.EntityType, p0: Pos, p: Pos)
  {
    (Objects(g, u, HAS_POSITION) == {} && p == p0) || PlacedAtSome(g, u, t, p0, p)
  }

  /**
   * While the position loop runs: only the position of `e` has changed, and it is where it
   * was until a node has been `seen`, and placed by one of the nodes after that.
   */
  ghost predicate Placing(es: map<nat, Entity>, e0: map<nat, Entity>, e: nat, g: Graph, u: Term, seen: bool)
    requires e in e0
  {
    && e in es && es == e0[e := e0[e].(pos := es[e].pos)]
    && if seen then PlacedAtSome(g, u, e0[e].etype, e0[e].pos, es[e].pos) else es[e].pos == e0[e].pos
  }

  /** One position node `n` of `u`. */
  method PlaceStep(scene: Scene, g: Graph, e: nat, u: Term, n: Term, ghost e0: map<nat, Entity>, ghost seen: bool)
    returns (r: Result<()>)
    requires scene.Valid() && e in e0 && Placing(scene.entities, e0, e, g, u, seen)
    requires scene.entities[e].inScene && scene.ports[e] == [] && Triple(u, HAS_POSITION, n) in g
    modifies scene
    ensures scene.Valid()
    ensures r.Ok? ==> Placing(scene.entities, e0, e, g, u, true)
    ensures r.Err? ==> scene.entities == old(scene.entities)
    ensures (forall v :: (Triple(n, X, v) in g || Triple(n, Y, v) in g) ==> ToFloat(v).Ok?) ==> r.Ok?
    ensures r.Err? ==> r.error == ValueError
    ensures scene.ports == old(scene.ports) && scene.conns == old(scene.conns) && scene.nextId == old(scene.nextId)
  {
    ghost var es0 := scene.entities;
    ghost var q;
    r, q := PlaceAt(scene, g, e, n);
    if r.Ok? {
      PlacingStep(es0, scene.entities, e0, e, g, u, seen, n, q);
    }
  }

  /** Placing the entity at one more position node of `u` keeps `Placing`, with a node now seen. */
  lemma PlacingStep(es0: map<nat, Entity>, es: map<nat, Entity>, e0: map<nat, Entity>, e: nat, g: Graph, u: Term,
                    seen: bool, n: Term, q: Pos)
    requires e in e0 && Placing(es0, e0, e, g, u, seen) && Triple(u, HAS_POSITION, n) in g && PositionAt(g, n, q)
    requires e in es && es == es0[e := es0[e].(pos := es[e].pos)]
    requires es[e].pos == if q == es0[e].pos then q else EntitySnap(q, es[e].etype)
    ensures Placing(es, e0, e, g, u, true)
  {
    MovedOnce(es0, es, e0, e);
    PlacedOnceMore(g, u, e0[e].etype, e0[e].pos, seen, es0[e].pos, es[e].pos, n, q);
  }

  /** Moving an entity that has only moved keeps it an entity that has only moved. */
  lemma MovedOnce(es0: map<nat, Entity>, es: map<nat, Entity>, e0: map<nat, Entity>, e: nat)
    requires e in e0 && e in es0 && es0 == e0[e := e0[e].(pos := es0[e].pos)]
    requires e in es && es == es0[e := es0[e].(pos := es[e].pos)]
    ensures es == e0[e := e0[e].(pos := es[e].pos)] && es[e].etype == e0[e].etype
  {
  }

  /**
   * After one more position node `n` with coordinates `q`, the entity is placed by a node:
   * snapped to `q`, or left where it was when it already stood at `q`.
   */
  lemma PlacedOnceMore(g: Graph, u: Term, t: Model.EntityType, p0: Pos, seen: bool, p1: Pos, p: Pos, n: Term, q: Pos)
    requires if seen then PlacedAtSome(g, u, t, p0, p1) else p1 == p0
    requires Triple(u, HAS_POSITION, n) in g && PositionAt(g, n, q)
    requires p == if q == p1 then q else EntitySnap(q, t)
    ensures PlacedAtSome(g, u, t, p0, p)
  {
    if q != p1 || !seen {
      PlacedAtNode(g, u, t, p0, p, n, q);
    }
  }

  /** Snapped to the coordinates of one position node of `u`, or standing at them already, is placed by that node. */
  lemma PlacedAtNode(g: Graph, u: Term, t: Model.EntityType, p0: Pos, p: Pos, n: Term, q: Pos)
    requires Triple(u, HAS_POSITION, n) in g && PositionAt(g, n, q) && (p == EntitySnap(q, t) || p == q == p0)
    ensures PlacedAtSome(g, u, t, p0, p)
  {
  }

  /**
   * The position loop of the properties pass: the entity is placed at each position node of
   * `u` in turn. Without position nodes it stays where it is; a coordinate that is not a
   * number raises `ValueError`, which ends the import.
   */
  method PlaceEntity(scene: Scene, g: Graph, e: nat, u: Term) returns (r: Result<()>)
    requires scene.Valid() && e in scene.entities && scene.entities[e].inScene && scene.ports[e] == []
    modifies scene
    ensures scene.Valid()
    ensures NumericCoordinates(g, u) ==> r.Ok?
    ensures r.Err? ==> r.error == ValueError
    ensures e in scene.entities
    ensures scene.entities == old(scene.entities)[e := old(scene.entities[e]).(pos := scene.entities[e].pos)]
    ensures Objects(g, u, HAS_POSITION) == {} ==> scene.entities == old(scene.entities)
    ensures r.Ok? ==> PlacedFrom(g, u, old(scene.entities[e]).etype, old(scene.entities[e]).pos, scene.entities[e].pos)
    ensures scene.ports == old(scene.ports) && scene.conns == old(scene.conns) && scene.nextId == old(scene.nextId)
  {
    ghost var e0 := scene.entities;
    var todo := Objects(g, u, HAS_POSITION);
    ghost var all, seen := todo, false;
    while todo != {}
      invariant scene.Valid() && Placing(scene.entities, e0, e, g, u, seen)
      invariant scene.entities[e].inScene && scene.ports[e] == []
      invariant (!seen ==> todo == all) && forall n :: n in todo ==> Triple(u, HAS_POSITION, n) in g
      invariant scene.ports == old(scene.ports) && scene.conns == old(scene.conns) && scene.nextId == old(scene.nextId)
      decreases |todo|
    {
      var n :| n in todo;
      var placed := PlaceStep(scene, g, e, u, n, e0, seen);
      if placed.Err? {
        return placed;
      }
      todo, seen := todo - {n}, true;
    }
    r := Ok(());
  }

  /**
   * `rotation` of `u` read with default `0`; when true, converted with `int` (a `ValueError`
   * when it is not a number) and applied, stored modulo 360; the entity's port has no
   * connections yet, so none is redrawn.
   */
  method RotateEntity(scene: Scene, g: Graph, e: nat, u: Term) returns (r: Result<()>, ghost v: Term)
    requires scene.Valid() && e in scene.entities && scene.ports[e] == []
    modifies scene
    ensures scene.Valid()
    ensures ValueOr(g, u, ROTATION, IntLit(0), v)
    ensures r.Err? <==> Truthy(v) && ToInt(v).Err?
    ensures r.Err? ==> r.error == ValueError && unchanged(scene)
    ensures e in scene.entities
    ensures r.Ok? ==> scene.entities == old(scene.entities)[e := old(scene.entities[e]).(rotation :=
      if Truthy(v) then NormalizeAngle(ToInt(v).value) else old(scene.entities[e]).rotation)]
    ensures scene.ports == old(scene.ports) && scene.conns == old(scene.conns) && scene.nextId == old(scene.nextId)
  {
    var found := ValueWithDefault(g, u, ROTATION, IntLit(0));
    v := found;
    if Truthy(found) {
      var angle := ToInt(found);
      if angle.Err? {
        return Err(ValueError), v;
      }
      scene.ApplyRotation(e, angle.value);
    }
    r := Ok(());
  }

  /** `label` of `u`, when there is one and it is true, becomes the entity's label as its `str`. */
  method LabelEntity(scene: Scene, g: Graph, e: nat, u: Term) returns (ghost v: Option<Term>)
    requires scene.Valid() && e in scene.entities
    modifies scene
    ensures scene.Valid()
    ensures ValueOf(g, u, RDFS_LABEL, v)
    ensures scene.entities == old(scene.entities)[e := old(scene.entities[e]).(labelText :=
      if v.Some? && Truthy(v.value) then Str(v.value) else old(scene.entities[e]).labelText)]
    ensures scene.ports == old(scene.ports) && scene.conns == old(scene.conns) && scene.nextId == old(scene.nextId)
  {
    var found := Value(g, u, RDFS_LABEL);
    if found.Some? && Truthy(found.value) {
      scene.SetLabel(e, Str(found.value));
    }
    v := found;
  }

  /**
   * `x` can be what the properties pass makes of the entity `x0` whose URI is `u`, given the
   * rotation `rot` and the label `lab` that `g.value` picked: placed as `PlacedFrom` allows,
   * rotated when the rotation is true, relabelled when the label is true, nothing else changed.
   */
  ghost predicate PropertiesFrom(g: Graph, u: Term, x0: Entity, rot: Term, lab: Option<Term>, x: Entity)
  {
    ValueOr(g, u, ROTATION, IntLit(0), rot) && ValueOf(g, u, RDFS_LABEL, lab)
    && (Truthy(rot) ==> ToInt(rot).Ok?)
    && x == x0.(pos := x.pos,
                rotation := if Truthy(rot) then NormalizeAngle(ToInt(rot).value) else x0.rotation,
                labelText := if lab.Some? && Truthy(lab.value) then Str(lab.value) else x0.labelText)
    && PlacedFrom(g, u, x0.etype, x0.pos, x.pos)
  }

  /** Every `float` and `int` conversion the properties pass makes for `u` succeeds, whatever `g.value` picks. */
  ghost predicate ReadableProperties(g: Graph, u: Term)
  {
    NumericCoordinates(g, u) && forall v :: Triple(u, ROTATION, v) in g && Truthy(v) ==> ToInt(v).Ok?
  }

  /**
   * The position and then the rotation of the entity `e` read from the graph for `u`; a
   * `ValueError` from a conversion ends the step, and the rotation is not read after one.
   */
  method PlaceAndRotate(scene: Scene, g: Graph, e: nat, u: Term) returns (r: Result<()>, ghost rot: Term)
    requires scene.Valid() && e in scene.entities && scene.entities[e].inScene && scene.ports[e] == []
    modifies scene
    ensures scene.Valid() && e in scene.entities
    ensures ReadableProperties(g, u) ==> r.Ok?
    ensures r.Err? ==> r.error == ValueError
    ensures scene.entities == old(scene.entities)[e := scene.entities[e]]
    ensures r.Ok? ==> ValueOr(g, u, ROTATION, IntLit(0), rot) && (Truthy(rot) ==> ToInt(rot).Ok?)
    ensures r.Ok? ==> scene.entities[e] == old(scene.entities[e]).(pos := scene.entities[e].pos,
      rotation := if Truthy(rot) then NormalizeAngle(ToInt(rot).value) else old(scene.entities[e]).rotation)
    ensures r.Ok? ==> PlacedFrom(g, u, old(scene.entities[e]).etype, old(scene.entities[e]).pos, scene.entities[e].pos)
    ensures scene.ports == old(scene.ports) && scene.conns == old(scene.conns) && scene.nextId == old(scene.nextId)
  {
    ghost var es0 := scene.entities;
    rot := IntLit(0);
    r := PlaceEntity(scene, g, e, u);
    ghost var es1 := scene.entities;
    MovedOnly(es0, es1, e);
    if r.Ok? {
      r, rot := RotateEntity(scene, g, e, u);
      if r.Err? {
        RotationReadable(g, u, rot);
      } else {
        PlacedThenRotated(es0, es1, scene.entities, e, g, u, rot);
      }
    }
  }

  /** An entity of which only the position changed is the only entity that changed. */
  lemma MovedOnly(es0: map<nat, Entity>, es1: map<nat, Entity>, e: nat)
    requires e in es0 && e in es1 && es1 == es0[e := es0[e].(pos := es1[e].pos)]
    ensures es1 == es0[e := es1[e]]
  {
  }

  /** When the properties of `u` are readable, the rotation `g.value` picks converts with `int`. */
  lemma RotationReadable(g: Graph, u: Term, rot: Term)
    requires ValueOr(g, u, ROTATION, IntLit(0), rot)
    ensures ReadableProperties(g, u) && Truthy(rot) ==> ToInt(rot).Ok?
  {
    if Truthy(rot) {
      assert !Truthy(IntLit(0));
      assert Triple(u, ROTATION, rot) in g;
    }
  }

  /** Placing the entity and then rotating it changes its position and rotation only. */
  lemma PlacedThenRotated(es0: map<nat, Entity>, es1: map<nat, Entity>, es2: map<nat, Entity>, e: nat, g: Graph, u: Term, rot: Term)
    requires e in es0 && e in es1 && es1 == es0[e := es0[e].(pos := es1[e].pos)]
    requires PlacedFrom(g, u, es0[e].etype, es0[e].pos, es1[e].pos)
    requires Truthy(rot) ==> ToInt(rot).Ok?
    requires es2 == es1[e := es1[e].(rotation := if Truthy(rot) then NormalizeAngle(ToInt(rot).value) else es1[e].rotation)]
    ensures e in es2 && es2 == es0[e := es2[e]]
    ensures es2[e] == es0[e].(pos := es2[e].pos, rotation := if Truthy(rot) then NormalizeAngle(ToInt(rot).value) else es0[e].rotation)
    ensures PlacedFrom(g, u, es0[e].etype, es0[e].pos, es2[e].pos)
  {
  }

  /**
   * The properties of one loaded entity, under `URIRef(k)`: position, then rotation, then
   * label; a `ValueError` from a conversion ends the import before the later properties.
   */
  method SetEntityProperties(scene: Scene, g: Graph, e: nat, k: string) returns (r: Result<()>, ghost rot: Term, ghost lab: Option<Term>)
    requires scene.Valid() && e in scene.entities && scene.entities[e].inScene && scene.ports[e] == []
    modifies scene
    ensures scene.Valid() && e in scene.entities
    ensures ReadableProperties(g, Iri(k)) ==> r.Ok?
    ensures r.Err? ==> r.error == ValueError
    ensures scene.entities == old(scene.entities)[e := scene.entities[e]]
    ensures r.Ok? ==> PropertiesFrom(g, Iri(k), old(scene.entities[e]), rot, lab, scene.entities[e])
    ensures scene.ports == old(scene.ports) && scene.conns == old(scene.conns) && scene.nextId == old(scene.nextId)
  {
    lab := None;
    r, rot := PlaceAndRotate(scene, g, e, Iri(k));
    if r.Ok? {
      lab := LabelEntity(scene, g, e, Iri(k));
    }
  }

  /** The entities under `loaded` are distinct, in the scene, and on no connection. */
  ghost predicate Ready(es: map<nat, Entity>, ps: map<nat, seq<nat>>, loaded: map<string, nat>)
  {
    && (forall k :: k in loaded ==> loaded[k] in es && es[loaded[k]].inScene && loaded[k] in ps && ps[loaded[k]] == [])
    && Distinct(loaded)
  }

  /** No two keys hold the same entity. */
  ghost predicate Distinct(loaded: map<string, nat>)
  {
    forall k, j :: k in loaded && j in loaded && loaded[k] == loaded[j] ==> k == j
  }

  /** Pass 1 leaves its entities ready for the properties pass. */
  lemma ReadyAfterLoad(e0: map<nat, Entity>, p0: map<nat, seq<nat>>, made: map<nat, Triple>, loaded: map<string, nat>)
    requires forall e :: e in made ==> Loadable(made[e])
    requires KeysMatch(made, loaded)
    ensures Ready(e0 + LoadedEntities(made), p0 + EmptyPorts(made), loaded)
  {
    forall k, j | k in loaded && j in loaded && loaded[k] == loaded[j]
      ensures k == j
    {
      assert Str(made[loaded[k]].s) == k && Str(made[loaded[j]].s) == j;
    }
  }

  /** The entities of the keys `todo` are as they were before the properties pass. */
  ghost predicate Untouched(es: map<nat, Entity>, e0: map<nat, Entity>, loaded: map<string, nat>, todo: set<string>)
  {
    forall k :: k in todo ==> k in loaded && loaded[k] in es && loaded[k] in e0 && es[loaded[k]] == e0[loaded[k]]
  }

  /** The entities no key holds are as they were before the properties pass. */
  ghost predicate OthersKept(es: map<nat, Entity>, e0: map<nat, Entity>, loaded: map<string, nat>)
  {
    es.Keys == e0.Keys && forall e :: e in e0 && e !in loaded.Values ==> es[e] == e0[e]
  }

  /** The entities of the keys `done` have their properties from the graph. */
  ghost predicate PropertiesSet(g: Graph, es: map<nat, Entity>, e0: map<nat, Entity>, loaded: map<string, nat>, done: set<string>,
                                rots: map<string, Term>, labs: map<string, Option<Term>>)
  {
    forall k :: k in done ==>
      && k in loaded && k in rots && k in labs && loaded[k] in es && loaded[k] in e0
      && PropertiesFrom(g, Iri(k), e0[loaded[k]], rots[k], labs[k], es[loaded[k]])
  }

  /** Changing one entity keeps the others. */
  lemma OthersKeptStep(es: map<nat, Entity>, e0: map<nat, Entity>, loaded: map<string, nat>, k: string, x: Entity)
    requires OthersKept(es, e0, loaded) && k in loaded && loaded[k] in es
    ensures OthersKept(es[loaded[k] := x], e0, loaded)
  {
  }

  /** The properties pass after the entity of key `k`. */
  lemma PropertiesStep(g: Graph, es: map<nat, Entity>, ps: map<nat, seq<nat>>, e0: map<nat, Entity>, loaded: map<string, nat>,
                       todo: set<string>, done: set<string>, rots: map<string, Term>, labs: map<string, Option<Term>>,
                       k: string, x: Entity, rot: Term, lab: Option<Term>)
    requires Ready(es, ps, loaded)
    requires k in todo && forall j :: j in todo ==> j !in done
    requires Untouched(es, e0, loaded, todo) && PropertiesSet(g, es, e0, loaded, done, rots, labs)
    requires PropertiesFrom(g, Iri(k), es[loaded[k]], rot, lab, x)
    ensures var es' := es[loaded[k] := x];
      && Ready(es', ps, loaded) && Untouched(es', e0, loaded, todo - {k})
      && PropertiesSet(g, es', e0, loaded, done + {k}, rots[k := rot], labs[k := lab])
  {
  }

  /**
   * The properties pass of `import_from_graph`: every entity in `loaded_entities` gets the
   * position, rotation and label its URI carries in the graph; no other entity changes. A
   * conversion that fails raises `ValueError`, which ends the import; it cannot happen when
   * every loaded entity's properties are readable.
   */
  method SetProperties(scene: Scene, g: Graph, loaded: map<string, nat>)
    returns (r: Result<()>, ghost rots: map<string, Term>, ghost labs: map<string, Option<Term>>)
    requires scene.Valid() && Ready(scene.entities, scene.ports, loaded)
    modifies scene
    ensures scene.Valid()
    ensures (forall k :: k in loaded ==> ReadableProperties(g, Iri(k))) ==> r.Ok?
    ensures r.Err? ==> r.error == ValueError
    ensures OthersKept(scene.entities, old(scene.entities), loaded)
    ensures r.Ok? ==> forall k :: k in loaded ==>
      && k in rots && k in labs
      && PropertiesFrom(g, Iri(k), old(scene.entities)[loaded[k]], rots[k], labs[k], scene.entities[loaded[k]])
    ensures scene.ports == old(scene.ports) && scene.conns == old(scene.conns) && scene.nextId == old(scene.nextId)
  {
    ghost var e0 := scene.entities;
    rots, labs := map[], map[];
    var todo := loaded.Keys;
    ghost var done: set<string> := {};
    while todo != {}
      invariant scene.Valid() && Ready(scene.entities, scene.ports, loaded)
      invariant forall k :: k in todo ==> k in loaded && k !in done
      invariant forall k :: k in loaded ==> k in done || k in todo
      invariant Untouched(scene.entities, e0, loaded, todo) && OthersKept(scene.entities, e0, loaded)
      invariant PropertiesSet(g, scene.entities, e0, loaded, done, rots, labs)
      invariant scene.ports == old(scene.ports) && scene.conns == old(scene.conns) && scene.nextId == old(scene.nextId)
      decreases |todo|
    {
      var k :| k in todo;
      ghost var es := scene.entities;
      var set_, rot, lab := SetEntityProperties(scene, g, loaded[k], k);
      OthersKeptStep(es, e0, loaded, k, scene.entities[loaded[k]]);
      if set_.Err? {
        return set_, rots, labs;
      }
      PropertiesStep(g, es, scene.ports, e0, loaded, todo, done, rots, labs, k, scene.entities[loaded[k]], rot, lab);
      rots, labs := rots[k := rot], labs[k := lab];
      todo := todo - {k};
      done := done + {k};
    }
    r := Ok(());
  }

  /**
   * The entities after pass 1 and the properties pass, from those `e0` before: the old ones
   * as they were; the ones pass 1 made and no key kept, as it made them; and under each key
   * `k` of `loaded` an entity made from a type triple of the subject `k`, with that subject as
   * its URI, placed, rotated and labelled from the graph.
   */
  ghost predicate EntitiesImported(g: Graph, e0: map<nat, Entity>, es: map<nat, Entity>, made: map<nat, Triple>,
                                   loaded: map<string, nat>, rots: map<string, Term>, labs: map<string, Option<Term>>)
  {
    && (forall e :: e in made ==> Loadable(made[e]) && e !in e0)
    && es.Keys == e0.Keys + made.Keys
    && (forall e :: e in e0 ==> es[e] == e0[e])
    && (forall e :: e in made && e !in loaded.Values ==> es[e] == LoadedEntity(made[e]))
    && (forall k :: k in loaded ==>
          && loaded[k] in made && Str(made[loaded[k]].s) == k && es[loaded[k]].uri == made[loaded[k]].s
          && k in rots && k in labs
          && PropertiesFrom(g, Iri(k), LoadedEntity(made[loaded[k]]), rots[k], labs[k], es[loaded[k]]))
  }

  /**
   * Pass 1 followed by the properties pass: the old entities stay as they were whatever
   * happens, and when the properties pass completes the entities are as `EntitiesImported` says.
   */
  lemma EntitiesImportedAfter(g: Graph, e0: map<nat, Entity>, es1: map<nat, Entity>, es2: map<nat, Entity>,
                              made: map<nat, Triple>, loaded: map<string, nat>,
                              rots: map<string, Term>, labs: map<string, Option<Term>>, ok: bool)
    requires forall e :: e in made ==> Loadable(made[e]) && e !in e0
    requires KeysMatch(made, loaded) && es1 == e0 + LoadedEntities(made) && OthersKept(es2, es1, loaded)
    requires ok ==> forall k :: k in loaded ==>
      && k in rots && k in labs
      && PropertiesFrom(g, Iri(k), es1[loaded[k]], rots[k], labs[k], es2[loaded[k]])
    ensures forall e :: e in e0 ==> e in es2 && es2[e] == e0[e]
    ensures ok ==> EntitiesImported(g, e0, es2, made, loaded, rots, labs)
  {
    OldEntitiesKept(e0, es1, es2, made, loaded);
    UnkeptAsMade(e0, es1, es2, made, loaded);
    if ok {
      KeyedAsImported(g, e0, es1, es2, made, loaded, rots, labs);
    }
  }

  /** Pass 1 adds entities under new ids only, and the properties pass changes only the keyed ones. */
  lemma OldEntitiesKept(e0: map<nat, Entity>, es1: map<nat, Entity>, es2: map<nat, Entity>, made: map<nat, Triple>, loaded: map<string, nat>)
    requires forall e :: e in made ==> Loadable(made[e]) && e !in e0
    requires forall k :: k in loaded ==> loaded[k] in made
    requires es1 == e0 + LoadedEntities(made) && OthersKept(es2, es1, loaded)
    ensures forall e :: e in e0 ==> e in es2 && es2[e] == e0[e]
  {
    forall e | e in e0
      ensures e in es2 && es2[e] == e0[e]
    {
      assert e !in loaded.Values;
    }
  }

  /** An entity pass 1 made that no key holds is left as pass 1 made it. */
  lemma UnkeptAsMade(e0: map<nat, Entity>, es1: map<nat, Entity>, es2: map<nat, Entity>, made: map<nat, Triple>, loaded: map<string, nat>)
    requires forall e :: e in made ==> Loadable(made[e]) && e !in e0
    requires es1 == e0 + LoadedEntities(made) && OthersKept(es2, es1, loaded)
    ensures es2.Keys == e0.Keys + made.Keys
    ensures forall e :: e in made && e !in loaded.Values ==> es2[e] == LoadedEntity(made[e])
  {
  }

  /** Each keyed entity is the one pass 1 made for its subject, with its properties from the graph. */
  lemma KeyedAsImported(g: Graph, e0: map<nat, Entity>, es1: map<nat, Entity>, es2: map<nat, Entity>,
                        made: map<nat, Triple>, loaded: map<string, nat>,
                        rots: map<string, Term>, labs: map<string, Option<Term>>)
    requires forall e :: e in made ==> Loadable(made[e]) && e !in e0
    requires KeysMatch(made, loaded) && es1 == e0 + LoadedEntities(made) && OthersKept(es2, es1, loaded)
    requires forall k :: k in loaded ==>
      && k in rots && k in labs
      && PropertiesFrom(g, Iri(k), es1[loaded[k]], rots[k], labs[k], es2[loaded[k]])
    ensures forall k :: k in loaded ==>
      && loaded[k] in made && Str(made[loaded[k]].s) == k && es2[loaded[k]].uri == made[loaded[k]].s
      && k in rots && k in labs
      && PropertiesFrom(g, Iri(k), LoadedEntity(made[loaded[k]]), rots[k], labs[k], es2[loaded[k]])
  {
    forall k | k in loaded
      ensures es1[loaded[k]] == LoadedEntity(made[loaded[k]])
    {
    }
  }
}

=== FILE: items.dfy ===
/**
 * The items of the diagram scene: entities with their single connection port, the
 * connections between ports with their routing joints and arrow markers, and the
 * grid snapping, rotation and connection life cycle the items implement.
 *
 * Qt objects are replaced by an arena: `Scene` holds every entity, port list and
 * connection ever created under a numeric id, and each record carries the `inScene`
 * and `visible` flags Qt would keep. Removing an item from the Qt scene does not
 * destroy the Python object, so records are never deleted, only taken out of the scene.
 * A port has the id of the entity it belongs to.
 */
module Items {
  import opened Wrappers
  import opened Strings
  import opened Rdf
  import Model
  import PyMath
  import Config

  /** A position in scene coordinates. */
  datatype Pos = Pos(x: real, y: real)

  /** Qt pen styles, by their enumeration values (`Qt.SolidLine`, `Qt.DashLine`). */
  const SOLID_LINE: int := 1
  const DASH_LINE: int := 2

  datatype Color = Color(red: int, green: int, blue: int)

  const BLACK: Color := Color(0, 0, 0)

  /** The parts of a `QPen` the editor reads or writes. */
  datatype Pen = Pen(color: Color, width: int, style: int)

  /** The pen every new connection starts with: black, two wide, solid. */
  const DEFAULT_PEN: Pen := Pen(BLACK, 2, SOLID_LINE)

  /** An arrow marker drawn in the middle of one segment of a connection. */
  datatype Arrow = Arrow(pen: Pen, brush: Color, visible: bool, inScene: bool)

  /** A routing joint of a connection; `id` stands for the joint object's identity. */
  datatype Joint = Joint(id: nat, pos: Pos)

  /** An `EntityItem`: its library type, instance URI, label, position and rotation. */
  datatype Entity = Entity(
    etype: Model.EntityType,
    uri: Term,
    labelText: string,
    pos: Pos,
    rotation: int,
    inScene: bool,
    visible: bool)

  /**
   * A `ConnectionItem`: source and target ports (entity ids), relationship type, pen,
   * joints in path order, arrows, instance URI, and the free end of a connection being
   * drafted (`current_end_pos`, absent until first set).
   */
  datatype Connection = Connection(
    source: Option<nat>,
    target: Option<nat>,
    relType: Term,
    pen: Pen,
    joints: seq<Joint>,
    arrows: seq<Arrow>,
    uri: Term,
    endPos: Option<Pos>,
    inScene: bool,
    visible: bool)

  // ---------------------------------------------------------------------------
  // Snapping

  /** `v` is a whole number of grid cells. */
  predicate OnGrid(v: real)
  {
    (v / Config.GRID_SIZE).Floor as real == v / Config.GRID_SIZE
  }

  /** `round(v / grid) * grid`: the grid line nearest to `v`. */
  function GridRound(v: real): (r: real)
    ensures OnGrid(r)
    ensures -Config.GRID_SIZE / 2.0 <= r - v <= Config.GRID_SIZE / 2.0
  {
    (PyMath.Round(v / Config.GRID_SIZE) as real) * Config.GRID_SIZE
  }

  /** A value already on a grid line rounds to itself. */
  lemma GridRoundOnGrid(v: real)
    requires OnGrid(v)
    ensures GridRound(v) == v
  {
    var k := (v / Config.GRID_SIZE).Floor;
    PyMath.RoundOfInt(k);
  }

  /**
   * `EntityItem._handle_position_change`: the position an entity in a scene is moved to
   * when asked to move to `p`. The centre snaps to the nearest grid point; a Point's
   * top edge instead sits half its height above the point line.
   */
  function EntitySnap(p: Pos, t: Model.EntityType): (r: Pos)
    ensures OnGrid(r.x + t.width / 2.0)
    ensures -Config.GRID_SIZE / 2.0 <= r.x - p.x <= Config.GRID_SIZE / 2.0
    ensures t.isPoint ==> r.y == Config.POINT_LINE - t.height / 2.0
    ensures !t.isPoint ==> OnGrid(r.y + t.height / 2.0)
    ensures !t.isPoint ==> -Config.GRID_SIZE / 2.0 <= r.y - p.y <= Config.GRID_SIZE / 2.0
  {
    var cx := t.width / 2.0;
    var cy := t.height / 2.0;
    var x := GridRound(p.x + cx) - cx;
    var y := if t.isPoint then Config.POINT_LINE - cy else GridRound(p.y + cy) - cy;
    Pos(x, y)
  }

  /** Snapping a snapped position leaves it where it is. */
  lemma EntitySnapIdempotent(p: Pos, t: Model.EntityType)
    ensures EntitySnap(EntitySnap(p, t), t) == EntitySnap(p, t)
  {
    var q := EntitySnap(p, t);
    GridRoundOnGrid(q.x + t.width / 2.0);
    if !t.isPoint {
      GridRoundOnGrid(q.y + t.height / 2.0);
    }
  }

  /** `JointItem._snap_to_grid`: both coordinates to the nearest grid line. */
  function JointSnap(p: Pos): (r: Pos)
    ensures OnGrid(r.x) && OnGrid(r.y)
    ensures -Config.GRID_SIZE / 2.0 <= r.x - p.x <= Config.GRID_SIZE / 2.0
    ensures -Config.GRID_SIZE / 2.0 <= r.y - p.y <= Config.GRID_SIZE / 2.0
  {
    Pos(GridRound(p.x), GridRound(p.y))
  }

  /** Snapping a joint twice is snapping it once. */
  lemma JointSnapIdempotent(p: Pos)
    ensures JointSnap(JointSnap(p)) == JointSnap(p)
  {
    GridRoundOnGrid(JointSnap(p).x);
    GridRoundOnGrid(JointSnap(p).y);
  }

  // ---------------------------------------------------------------------------
  // Rotation

  /** The angle `apply_rotation` stores: `angle % 360`, Python's modulo with a positive divisor. */
  function NormalizeAngle(angle: int): (r: int)
    ensures 0 <= r < 360
    ensures (angle - r) % 360 == 0
    ensures 0 <= angle < 360 ==> r == angle
  {
    angle % 360
  }

  /** The angle `rotate_90_degrees` stores: a quarter turn further, normalised. */
  function QuarterTurn(angle: int): (r: int)
    ensures 0 <= r < 360
  {
    NormalizeAngle(NormalizeAngle(angle + 90))
  }

  /** Four quarter turns bring a stored angle back to itself. */
  lemma FourQuarterTurns(angle: int)
    requires 0 <= angle < 360
    ensures QuarterTurn(QuarterTurn(QuarterTurn(QuarterTurn(angle)))) == angle
  {
  }

  // ---------------------------------------------------------------------------
  // Connections as values

  /** `brick:hasPoint` and `brick:isPointOf`, the relationships drawn dashed and hidden with Points. */
  predicate IsPointRelation(t: Term)
  {
    t == HAS_POINT || t == IS_POINT_OF
  }

  /** `n` copies of the same arrow. */
  function Copies(n: nat, a: Arrow): (r: seq<Arrow>)
    ensures |r| == n && forall i :: 0 <= i < n ==> r[i] == a
  {
    seq(n, _ => a)
  }

  /**
   * The number of arrows `update_position` draws: one per segment of a complete path
   * (the joints plus one), one per segment but the live last one of a draft with a free
   * end, none when there is neither a target nor a free end.
   */
  function ArrowCount(c: Connection): (n: nat)
    ensures n <= |c.joints| + 1
    ensures n == |c.joints| + 1 <==> c.target.Some?
    ensures c.target.None? && c.endPos.None? ==> n == 0
  {
    if c.target.Some? then |c.joints| + 1
    else if c.endPos.Some? then |c.joints|
    else 0
  }

  /**
   * `ConnectionItem.update_position`, as the editor should behave: a connection without a
   * source is left alone; otherwise its arrows are cleared and redrawn, each with the
   * connection's pen, brushed in its colour, in the scene exactly when the connection is,
   * and shown exactly when the connection is.
   */
  function Redraw(c: Connection): (r: Connection)
    ensures c.source.None? ==> r == c
    ensures r == c.(arrows := r.arrows)
    ensures c.source.Some? ==> r.arrows == Copies(ArrowCount(c), Arrow(c.pen, c.pen.color, c.visible, c.inScene))
  {
    if c.source.None? then c
    else c.(arrows := Copies(ArrowCount(c), Arrow(c.pen, c.pen.color, c.visible, c.inScene)))
  }

  /**
   * `ConnectionItem.update_position` as written: every new arrow is a fresh item, and
   * Qt shows a fresh item, whatever the connection's own visibility.
   */
  function RedrawAsWritten(c: Connection): (r: Connection)
    ensures c.source.None? ==> r == c
    ensures r == c.(arrows := r.arrows)
    ensures c.source.Some? ==> r.arrows == Copies(ArrowCount(c), Arrow(c.pen, c.pen.color, true, c.inScene))
  {
    if c.source.None? then c
    else c.(arrows := Copies(ArrowCount(c), Arrow(c.pen, c.pen.color, true, c.inScene)))
  }

  /**
   * A hidden complete connection redrawn as written gets visible arrows: once the Points
   * are hidden, moving an entity at either end of a `hasPoint` connection shows its arrows
   * again while its line stays hidden.
   */
  lemma HiddenConnectionShowsArrows(c: Connection)
    requires c.source.Some? && c.target.Some? && !c.visible
    ensures |RedrawAsWritten(c).arrows| >= 1
    ensures forall i :: 0 <= i < |RedrawAsWritten(c).arrows| ==> RedrawAsWritten(c).arrows[i].visible
    ensures !RedrawAsWritten(c).visible
  {
  }

  /** Redrawn arrows are shown exactly when their connection is, and there is one per drawn segment. */
  lemma RedrawArrows(c: Connection)
    requires c.source.Some?
    ensures forall i :: 0 <= i < |Redraw(c).arrows| ==> Redraw(c).arrows[i].visible == c.visible
    ensures c.target.Some? ==> |Redraw(c).arrows| == |c.joints| + 1
    ensures c.target.None? && c.endPos.Some? ==> |Redraw(c).arrows| == |c.joints|
    ensures c.target.None? && c.endPos.None? ==> Redraw(c).arrows == []
  {
  }

  /** Redrawing twice is redrawing once: the arrows depend only on the rest of the connection. */
  lemma RedrawIdempotent(c: Connection)
    ensures Redraw(Redraw(c)) == Redraw(c)
  {
  }

  /**
   * A new connection `c` before its first redraw: typed `feeds` unless a type is given,
   * drawn with the default pen, without joints, arrows or free end, out of the scene, shown.
   */
  function NewRecord(source: Option<nat>, target: Option<nat>, relType: Option<Term>, c: nat): (r: Connection)
    ensures r.source == source && r.target == target && r.joints == [] && r.arrows == []
    ensures r.relType == (if relType.Some? then relType.value else FEEDS)
  {
    Connection(source, target, if relType.Some? then relType.value else FEEDS,
      DEFAULT_PEN, [], [], ConnectionUri(c), None, false, true)
  }

  /** A connection whose arrows match the rest of its state. */
  predicate Drawn(c: Connection)
  {
    Redraw(c) == c
  }

  /**
   * `set_relationship_type`: the type is stored, the pen becomes dashed for `hasPoint` and
   * `isPointOf` and solid otherwise, colour and width kept, and every arrow takes the new
   * pen and a brush of the pen's colour.
   */
  function WithRelationshipType(c: Connection, relType: Term): (r: Connection)
    ensures r.relType == relType
    ensures r.pen.style == (if IsPointRelation(relType) then DASH_LINE else SOLID_LINE)
    ensures r.pen.color == c.pen.color && r.pen.width == c.pen.width
    ensures |r.arrows| == |c.arrows|
    ensures forall i :: 0 <= i < |r.arrows| ==>
      r.arrows[i] == c.arrows[i].(pen := r.pen, brush := c.pen.color)
    ensures r == c.(relType := r.relType, pen := r.pen, arrows := r.arrows)
  {
    var style := if IsPointRelation(relType) then DASH_LINE else SOLID_LINE;
    var pen := c.pen.(style := style);
    var arrows := seq(|c.arrows|, i requires 0 <= i < |c.arrows| => c.arrows[i].(pen := pen, brush := c.pen.color));
    c.(relType := relType, pen := pen, arrows := arrows)
  }

  /** Setting a type twice is setting the second: the earlier choice leaves no trace. */
  lemma RelationshipTypeLastWins(c: Connection, a: Term, b: Term)
    ensures WithRelationshipType(WithRelationshipType(c, a), b) == WithRelationshipType(c, b)
  {
    var r1 := WithRelationshipType(WithRelationshipType(c, a), b);
    var r2 := WithRelationshipType(c, b);
    assert r1.arrows == r2.arrows;
  }

  /** Setting a type keeps the arrows in step with the pen of a drawn connection. */
  lemma RelationshipTypeKeepsDrawn(c: Connection, relType: Term)
    requires Drawn(c)
    ensures Drawn(WithRelationshipType(c, relType))
  {
    var r := WithRelationshipType(c, relType);
    if c.source.Some? {
      assert r.arrows == Redraw(r).arrows;
    }
  }

  /** `reverse`: the ports are swapped and the path redrawn; nothing else changes. */
  function Reversed(c: Connection): (r: Connection)
    ensures r.source == c.target && r.target == c.source
    ensures r == Redraw(c.(source := c.target, target := c.source))
  {
    Redraw(c.(source := c.target, target := c.source))
  }

  /** Reversing a drawn connection with a source twice gives it back. */
  lemma ReverseTwice(c: Connection)
    requires Drawn(c) && c.source.Some?
    ensures Reversed(Reversed(c)) == c
  {
    var once := Reversed(c);
    assert once.(source := once.target, target := once.source) == c.(arrows := once.arrows);
  }

  /** `add_joint_at_point` on the value: a joint snapped to the grid is appended and the path redrawn. */
  function WithJoint(c: Connection, id: nat, p: Pos): (r: Connection)
    ensures |r.joints| == |c.joints| + 1 && r.joints[..|c.joints|] == c.joints
    ensures r.joints[|c.joints|] == Joint(id, JointSnap(p))
    ensures OnGrid(r.joints[|c.joints|].pos.x) && OnGrid(r.joints[|c.joints|].pos.y)
    ensures r == Redraw(c.(joints := r.joints))
  {
    Redraw(c.(joints := c.joints + [Joint(id, JointSnap(p))]))
  }

  /** The joints `add_joint_at_point` appends at each of `ps` in turn: snapped, with ids `first`, `first + 1`, …. */
  function SnappedJoints(ps: seq<Pos>, first: nat): (r: seq<Joint>)
    ensures |r| == |ps| && forall k :: 0 <= k < |ps| ==> r[k] == Joint(first + k, JointSnap(ps[k]))
  {
    seq(|ps|, k requires 0 <= k < |ps| => Joint(first + k, JointSnap(ps[k])))
  }

  /**
   * A connection after `add_joint_at_point` at each of `ps` in turn, the joints taking ids
   * `first`, `first + 1`, …: the snapped joints appended and, once at least one was added,
   * the path redrawn.
   */
  function WithJoints(x: Connection, ps: seq<Pos>, first: nat): Connection
  {
    if |ps| == 0 then x else Redraw(x.(joints := x.joints + SnappedJoints(ps, first)))
  }

  /**
   * Adding the joints appends them and changes nothing but the joints and the arrows; once
   * at least one joint is added, the arrows are those of a redraw.
   */
  lemma WithJointsSpec(x: Connection, ps: seq<Pos>, first: nat)
    ensures var r := WithJoints(x, ps, first);
      && r.joints == x.joints + SnappedJoints(ps, first)
      && r == x.(joints := r.joints, arrows := r.arrows)
      && (|ps| > 0 ==> r == Redraw(r))
  {
    if |ps| == 0 {
      assert SnappedJoints(ps, first) == [];
    } else {
      RedrawIdempotent(x.(joints := x.joints + SnappedJoints(ps, first)));
    }
  }

  /** One more `add_joint_at_point` after the others: joints added one at a time are the joints added all at once. */
  lemma WithJointsSnoc(x: Connection, ps: seq<Pos>, first: nat, p: Pos)
    ensures WithJoints(x, ps + [p], first) == WithJoint(WithJoints(x, ps, first), first + |ps|, p)
  {
    var y := WithJoints(x, ps, first);
    var j := Joint(first + |ps|, JointSnap(p));
    assert SnappedJoints(ps + [p], first) == SnappedJoints(ps, first) + [j];
    WithJointsSpec(x, ps, first);
    assert y.(joints := y.joints + [j]) == x.(joints := x.joints + SnappedJoints(ps + [p], first), arrows := y.arrows);
  }

  /** Updating a key twice keeps the second value. */
  lemma UpdateTwice<K, V>(m: map<K, V>, k: K, a: V, b: V)
    ensures m[k := a][k := b] == m[k := b]
  {
  }

  /** `remove` on the value: joints and arrows cleared and the connection out of the scene. */
  function Removed(c: Connection): (r: Connection)
    ensures r.joints == [] && r.arrows == [] && !r.inScene
    ensures r == c.(joints := [], arrows := [], inScene := false)
  {
    c.(joints := [], arrows := [], inScene := false)
  }

  /** `connection.joints.remove(joint)` when the joint is present: the first match goes. */
  function WithoutJoint(joints: seq<Joint>, id: nat): (r: seq<Joint>)
    ensures |r| <= |joints|
    ensures forall k :: 0 <= k < |r| ==> r[k] in joints
    ensures (forall k :: 0 <= k < |joints| ==> joints[k].id != id) ==> r == joints
  {
    if |joints| == 0 then joints
    else if joints[0].id == id then joints[1..]
    else
      assert joints == [joints[0]] + joints[1..];
      [joints[0]] + WithoutJoint(joints[1..], id)
  }

  /** The joints whose identities are not in `drop`, in their order. */
  function KeepJoints(joints: seq<Joint>, drop: set<nat>): (r: seq<Joint>)
    ensures |r| <= |joints|
    ensures forall k :: 0 <= k < |r| ==> r[k].id !in drop && r[k] in joints
  {
    if |joints| == 0 then []
    else (if joints[0].id in drop then [] else [joints[0]]) + KeepJoints(joints[1..], drop)
  }

  /** Dropping an identity no joint carries keeps the same joints. */
  lemma {:induction false} KeepJointsAbsent(joints: seq<Joint>, drop: set<nat>, id: nat)
    requires forall k :: 0 <= k < |joints| ==> joints[k].id != id
    ensures KeepJoints(joints, drop + {id}) == KeepJoints(joints, drop)
  {
    if |joints| > 0 {
      KeepJointsAbsent(joints[1..], drop, id);
    }
  }

  /**
   * Deleting the selected joints one after the other: removing joint `id` from the joints
   * that survived the earlier deletions leaves the joints outside all of them.
   */
  lemma {:induction false} WithoutJointKeep(joints: seq<Joint>, drop: set<nat>, id: nat)
    requires forall k, l :: 0 <= k < l < |joints| ==> joints[k].id != joints[l].id
    ensures WithoutJoint(KeepJoints(joints, drop), id) == KeepJoints(joints, drop + {id})
  {
    if |joints| > 0 {
      var h := joints[0];
      var t := joints[1..];
      var d2 := drop + {id};
      var kt := KeepJoints(t, drop);
      assert forall k, l :: 0 <= k < l < |t| ==> t[k].id != t[l].id by {
        forall k, l | 0 <= k < l < |t| ensures t[k].id != t[l].id {
          assert t[k] == joints[k + 1] && t[l] == joints[l + 1];
        }
      }
      if h.id in drop {
        assert KeepJoints(joints, drop) == kt;
        assert KeepJoints(joints, d2) == KeepJoints(t, d2);
        WithoutJointKeep(t, drop, id);
      } else if h.id == id {
        assert KeepJoints(joints, drop) == [h] + kt;
        assert WithoutJoint([h] + kt, id) == ([h] + kt)[1..] == kt;
        assert KeepJoints(joints, d2) == KeepJoints(t, d2);
        assert forall k :: 0 <= k < |t| ==> t[k].id != id by {
          forall k | 0 <= k < |t| ensures t[k].id != id {
            assert t[k] == joints[k + 1];
          }
        }
        KeepJointsAbsent(t, drop, id);
      } else {
        assert KeepJoints(joints, drop) == [h] + kt;
        assert ([h] + kt)[1..] == kt;
        assert WithoutJoint([h] + kt, id) == [h] + WithoutJoint(kt, id);
        assert KeepJoints(joints, d2) == [h] + KeepJoints(t, d2);
        WithoutJointKeep(t, drop, id);
      }
    }
  }

  /** Every joint is kept when nothing is dropped. */
  lemma {:induction false} KeepJointsNone(joints: seq<Joint>)
    ensures KeepJoints(joints, {}) == joints
  {
    if |joints| > 0 {
      KeepJointsNone(joints[1..]);
      assert joints == [joints[0]] + joints[1..];
    }
  }

  /**
   * `setVisible(v)` on a connection and on each of its arrows, as the Points toggle does:
   * the line and every arrow take `v`, nothing else changes.
   */
  function WithVisibility(c: Connection, v: bool): (r: Connection)
    ensures r.visible == v && |r.arrows| == |c.arrows|
    ensures forall i :: 0 <= i < |r.arrows| ==> r.arrows[i] == c.arrows[i].(visible := v)
    ensures r == c.(visible := v, arrows := r.arrows)
  {
    c.(visible := v, arrows := seq(|c.arrows|, i requires 0 <= i < |c.arrows| => c.arrows[i].(visible := v)))
  }

  /** The last visibility set wins, and a drawn connection stays drawn. */
  lemma WithVisibilityLast(c: Connection, v: bool, w: bool)
    ensures WithVisibility(WithVisibility(c, v), w) == WithVisibility(c, w)
    ensures Drawn(c) && c.source.Some? ==> Drawn(WithVisibility(c, v))
  {
    assert WithVisibility(WithVisibility(c, v), w).arrows == WithVisibility(c, w).arrows;
  }

  // ---------------------------------------------------------------------------
  // Port connection lists

  /** How many times `x` occurs in `s`. */
  function Count(s: seq<nat>, x: nat): (n: nat)
    ensures n > 0 <==> x in s
  {
    if |s| == 0 then 0
    else
      assert x in s <==> s[0] == x || x in s[1..];
      (if s[0] == x then 1 else 0) + Count(s[1..], x)
  }

  /** Appending `x` adds one occurrence of `x` and none of anything else. */
  lemma {:induction false} CountAppend(s: seq<nat>, x: nat, y: nat)
    ensures Count(s + [x], y) == Count(s, y) + (if x == y then 1 else 0)
  {
    if |s| > 0 {
      assert (s + [x])[1..] == s[1..] + [x];
      CountAppend(s[1..], x, y);
    } else {
      assert (s + [x])[1..] == [];
    }
  }

  /** Python `list.remove(x)` guarded by `x in list`: the first occurrence goes, if any. */
  function RemoveFirst(s: seq<nat>, x: nat): (r: seq<nat>)
    ensures x !in s ==> r == s
  {
    if |s| == 0 then s
    else
      assert s == [s[0]] + s[1..];
      if s[0] == x then s[1..]
      else [s[0]] + RemoveFirst(s[1..], x)
  }

  /** Removing the first `x` takes away one occurrence of `x`, when there is one, and nothing else. */
  lemma {:induction false} CountRemoveFirst(s: seq<nat>, x: nat, y: nat)
    ensures Count(RemoveFirst(s, x), y) == if x == y && x in s then Count(s, y) - 1 else Count(s, y)
  {
    if |s| > 0 && s[0] != x {
      assert x in s <==> x in s[1..];
      CountRemoveFirst(s[1..], x, y);
      assert ([s[0]] + RemoveFirst(s[1..], x))[1..] == RemoveFirst(s[1..], x);
    }
  }

  /**
   * `PortItem.add_connection(c)` on the port of `end`, when there is one: `c` is appended to
   * that port's list, which keeps its earlier entries; every other list is unchanged.
   */
  function Register(ps: map<nat, seq<nat>>, end: Option<nat>, c: nat): (r: map<nat, seq<nat>>)
    ensures r.Keys == ps.Keys
    ensures forall p :: p in ps ==> r[p] == if end == Some(p) then ps[p] + [c] else ps[p]
  {
    if end.Some? && end.value in ps then ps[end.value := ps[end.value] + [c]] else ps
  }

  /**
   * `PortItem.remove_connection(c)` on the port of `end`, when there is one: the first
   * occurrence of `c` leaves that port's list; every other list is unchanged.
   */
  function Unregister(ps: map<nat, seq<nat>>, end: Option<nat>, c: nat): (r: map<nat, seq<nat>>)
    ensures r.Keys == ps.Keys
    ensures forall p :: p in ps ==> r[p] == if end == Some(p) then RemoveFirst(ps[p], c) else ps[p]
  {
    if end.Some? && end.value in ps then ps[end.value := RemoveFirst(ps[end.value], c)] else ps
  }

  /** `add_connection` puts exactly one more `c` on the port of `end` and changes no other count. */
  lemma RegisterCount(ps: map<nat, seq<nat>>, end: Option<nat>, c: nat, p: nat, d: nat)
    requires p in ps
    ensures Count(Register(ps, end, c)[p], d) == Count(ps[p], d) + (if end == Some(p) && d == c then 1 else 0)
  {
    if end == Some(p) {
      CountAppend(ps[p], c, d);
    }
  }

  /**
   * `remove_connection` takes one `c` off the port of `end` when the port lists it, and
   * changes nothing else; in particular it is a no-op when `c` is absent.
   */
  lemma UnregisterCount(ps: map<nat, seq<nat>>, end: Option<nat>, c: nat, p: nat, d: nat)
    requires p in ps
    ensures Count(Unregister(ps, end, c)[p], d) ==
      if end == Some(p) && d == c && c in ps[p] then Count(ps[p], d) - 1 else Count(ps[p], d)
  {
    if end == Some(p) {
      CountRemoveFirst(ps[p], c, d);
    }
  }

  /** Unregistering a connection that no list holds changes nothing. */
  lemma UnregisterAbsent(ps: map<nat, seq<nat>>, end: Option<nat>, c: nat)
    requires forall p :: p in ps ==> c !in ps[p]
    ensures Unregister(ps, end, c) == ps
  {
  }

  /** How many ends of `c` are on the port of entity `p`. */
  function Ends(c: Connection, p: nat): nat
  {
    (if c.source == Some(p) then 1 else 0) + (if c.target == Some(p) then 1 else 0)
  }

  /** How many ends connection `c` of `cs` has on port `p`; none when there is no such connection. */
  function EndsOf(cs: map<nat, Connection>, c: nat, p: nat): nat
  {
    if c in cs then Ends(cs[c], p) else 0
  }

  /** The instance URI given to the entity with id `e`; a counter stands in for the UUID. */
  function EntityUri(e: nat): Term
  {
    Iri(Config.INSTANCES_NS + NatToString(e))
  }

  /** The instance URI given to the connection with id `c`; a counter stands in for the UUID. */
  function ConnectionUri(c: nat): Term
  {
    Iri(Config.BUILDING_NS + NatToString(c))
  }

  // ---------------------------------------------------------------------------
  // Well-formed scenes

  /**
   * The well-formedness of a scene: every entity has a port; ids are below `next`; the
   * joints of a connection have distinct identities below `next`; and a port lists a
   * connection at most as often as that connection has an end on it (so it lists only
   * connections).
   */
  ghost predicate Wf(es: map<nat, Entity>, ps: map<nat, seq<nat>>, cs: map<nat, Connection>, next: nat)
  {
    ps.Keys == es.Keys
    && (forall e :: e in es ==> e < next)
    && (forall c :: c in cs ==> c < next && JointsOk(cs[c].joints, next))
    && Registered(ps, cs)
  }

  /** A port lists a connection at most as often as the connection has an end on it. */
  ghost predicate Registered(ps: map<nat, seq<nat>>, cs: map<nat, Connection>)
  {
    forall p, c {:trigger Count(ps[p], c)} :: p in ps ==> Count(ps[p], c) <= EndsOf(cs, c, p)
  }

  /** Joint identities are below `next` and no two joints of one connection share one. */
  predicate JointsOk(js: seq<Joint>, next: nat)
  {
    (forall k :: 0 <= k < |js| ==> js[k].id < next)
    && (forall k, l :: 0 <= k < l < |js| ==> js[k].id != js[l].id)
  }

  /** Whatever a port lists in a well-formed scene is a connection. */
  lemma Listed(ps: map<nat, seq<nat>>, cs: map<nat, Connection>, p: nat, c: nat)
    requires Registered(ps, cs) && p in ps && c in ps[p]
    ensures c in cs
  {
    assert Count(ps[p], c) <= EndsOf(cs, c, p);
  }

  lemma JointsOkLater(js: seq<Joint>, next: nat, later: nat)
    requires JointsOk(js, next) && next <= later
    ensures JointsOk(js, later)
  {
  }

  /** Appending a joint with the next identity keeps the joints distinct, below the identity after it. */
  lemma JointsOkWithJoint(c: Connection, next: nat, p: Pos)
    requires JointsOk(c.joints, next)
    ensures JointsOk(WithJoint(c, next, p).joints, next + 1)
  {
    var js := WithJoint(c, next, p).joints;
    assert js == c.joints + [Joint(next, JointSnap(p))];
  }

  /** Removing a joint keeps the others distinct, and leaves none with the removed identity. */
  lemma {:induction false} JointsOkWithoutJoint(js: seq<Joint>, id: nat, next: nat)
    requires JointsOk(js, next)
    ensures JointsOk(WithoutJoint(js, id), next)
    ensures forall k :: 0 <= k < |WithoutJoint(js, id)| ==> WithoutJoint(js, id)[k].id != id
  {
    if |js| > 0 {
      var t := js[1..];
      assert JointsOk(t, next);
      if js[0].id == id {
        forall k | 0 <= k < |t|
          ensures t[k].id != id
        {
          assert t[k] == js[k + 1];
        }
      } else {
        JointsOkWithoutJoint(t, id, next);
        var r := WithoutJoint(js, id);
        var rt := WithoutJoint(t, id);
        assert r == [js[0]] + rt;
        forall k | 0 <= k < |rt|
          ensures rt[k].id != js[0].id
        {
          var m :| 0 <= m < |t| && t[m] == rt[k];
          assert t[m] == js[m + 1];
        }
        JointsOkCons(js[0], rt, id, next);
      }
    }
  }

  /** A joint put in front of well-formed joints that do not share its identity keeps them well formed. */
  lemma JointsOkCons(j: Joint, js: seq<Joint>, id: nat, next: nat)
    requires JointsOk(js, next) && j.id < next && j.id != id
    requires forall k :: 0 <= k < |js| ==> js[k].id != j.id && js[k].id != id
    ensures JointsOk([j] + js, next)
    ensures forall k :: 0 <= k < |[j] + js| ==> ([j] + js)[k].id != id
  {
    var r := [j] + js;
    forall k, l | 0 <= k < l < |r|
      ensures r[k].id != r[l].id
    {
      assert r[l] == js[l - 1];
      if k > 0 {
        assert r[k] == js[k - 1];
      }
    }
  }

  /** Changing a connection other than in its ends keeps the port-list bound. */
  lemma RegisteredConnUpdate(ps: map<nat, seq<nat>>, cs: map<nat, Connection>, c: nat, x: Connection)
    requires Registered(ps, cs) && c in cs
    requires x.source == cs[c].source && x.target == cs[c].target
    ensures Registered(ps, cs[c := x])
  {
    forall p, d | p in ps
      ensures Count(ps[p], d) <= EndsOf(cs[c := x], d, p)
    {
      assert EndsOf(cs[c := x], d, p) == EndsOf(cs, d, p);
    }
  }

  /** Changing a connection other than in its ends, with valid joints, keeps a scene well formed. */
  lemma WfConnUpdate(es: map<nat, Entity>, ps: map<nat, seq<nat>>, cs: map<nat, Connection>, next: nat,
                     c: nat, x: Connection)
    requires Wf(es, ps, cs, next) && c in cs
    requires x.source == cs[c].source && x.target == cs[c].target && JointsOk(x.joints, next)
    ensures Wf(es, ps, cs[c := x], next)
  {
    RegisteredConnUpdate(ps, cs, c, x);
  }

  /** Appending a joint with the next identity to a connection keeps a scene well formed. */
  lemma WfAddJoint(es: map<nat, Entity>, ps: map<nat, seq<nat>>, cs: map<nat, Connection>, next: nat, c: nat, p: Pos)
    requires Wf(es, ps, cs, next) && c in cs
    ensures Wf(es, ps, cs[c := WithJoint(cs[c], next, p)], next + 1)
  {
    var cs' := cs[c := WithJoint(cs[c], next, p)];
    RegisteredConnUpdate(ps, cs, c, WithJoint(cs[c], next, p));
    forall d | d in cs'
      ensures d < next + 1 && JointsOk(cs'[d].joints, next + 1)
    {
      if d == c {
        JointsOkWithJoint(cs[c], next, p);
      } else {
        JointsOkLater(cs[d].joints, next, next + 1);
      }
    }
  }

  /** Changing an entity's record keeps a scene well formed. */
  lemma WfEntityUpdate(es: map<nat, Entity>, ps: map<nat, seq<nat>>, cs: map<nat, Connection>, next: nat,
                       e: nat, x: Entity)
    requires Wf(es, ps, cs, next) && e in es
    ensures Wf(es[e := x], ps, cs, next)
  {
    assert es[e := x].Keys == es.Keys;
  }

  /** A new entity with an empty port, under the next id, keeps a scene well formed. */
  lemma WfNewEntity(es: map<nat, Entity>, ps: map<nat, seq<nat>>, cs: map<nat, Connection>, next: nat, x: Entity)
    requires Wf(es, ps, cs, next)
    ensures Wf(es[next := x], ps[next := []], cs, next + 1)
  {
    var ps' := ps[next := []];
    forall c | c in cs
      ensures JointsOk(cs[c].joints, next + 1)
    {
      JointsOkLater(cs[c].joints, next, next + 1);
    }
    forall p, d | p in ps'
      ensures Count(ps'[p], d) <= EndsOf(cs, d, p)
    {
      if p != next {
        assert ps'[p] == ps[p];
      }
    }
  }

  /**
   * Registering the new connection `x` under id `next` on its source and then its target
   * puts it on each port exactly as often as it has ends there, and keeps every other
   * count and the port-list bound.
   */
  lemma CreateAt(ps: map<nat, seq<nat>>, cs: map<nat, Connection>, next: nat, x: Connection, p: nat, d: nat)
    requires Registered(ps, cs) && next !in cs && p in ps
    ensures var r := Register(Register(ps, x.source, next), x.target, next);
      Count(r[p], d) == Count(ps[p], d) + (if d == next then Ends(x, p) else 0)
      && Count(r[p], d) <= EndsOf(cs[next := Redraw(x)], d, p)
  {
    var r1 := Register(ps, x.source, next);
    RegisterCount(ps, x.source, next, p, d);
    RegisterCount(r1, x.target, next, p, d);
    assert Count(ps[p], d) <= EndsOf(cs, d, p);
  }

  /**
   * A new connection under the next id, registered on its source and then its target and
   * redrawn, keeps a scene well formed.
   */
  lemma WfCreateConnection(es: map<nat, Entity>, ps: map<nat, seq<nat>>, cs: map<nat, Connection>, next: nat, x: Connection)
    requires Wf(es, ps, cs, next) && JointsOk(x.joints, next + 1)
    ensures Wf(es, Register(Register(ps, x.source, next), x.target, next), cs[next := Redraw(x)], next + 1)
  {
    var ps' := Register(Register(ps, x.source, next), x.target, next);
    var cs' := cs[next := Redraw(x)];
    assert next !in cs;
    forall p, d | p in ps'
      ensures Count(ps'[p], d) <= EndsOf(cs', d, p)
    {
      CreateAt(ps, cs, next, x, p, d);
    }
    forall d | d in cs'
      ensures d < next + 1 && JointsOk(cs'[d].joints, next + 1)
    {
      if d != next {
        JointsOkLater(cs[d].joints, next, next + 1);
      }
    }
  }

  /** The port lists after `set_target_port(t)` on connection `c`. */
  function RetargetLists(ps: map<nat, seq<nat>>, cs: map<nat, Connection>, c: nat, t: Option<nat>): map<nat, seq<nat>>
    requires c in cs
  {
    Register(Unregister(ps, cs[c].target, c), t, c)
  }

  /** The port-list bound after retargeting, at one port and one connection. */
  lemma RetargetAt(ps: map<nat, seq<nat>>, cs: map<nat, Connection>, c: nat, t: Option<nat>, q: nat, d: nat)
    requires Registered(ps, cs) && c in cs && q in ps
    ensures Count(RetargetLists(ps, cs, c, t)[q], d) <= EndsOf(cs[c := Redraw(cs[c].(target := t))], d, q)
  {
    var ps1 := Unregister(ps, cs[c].target, c);
    UnregisterCount(ps, cs[c].target, c, q, d);
    RegisterCount(ps1, t, c, q, d);
    assert Count(ps[q], d) <= EndsOf(cs, d, q);
  }

  /**
   * `set_target_port` keeps a scene well formed: the connection leaves its old target's
   * list, takes the new target, joins its list and is redrawn.
   */
  lemma WfRetarget(es: map<nat, Entity>, ps: map<nat, seq<nat>>, cs: map<nat, Connection>, next: nat,
                   c: nat, t: Option<nat>)
    requires Wf(es, ps, cs, next) && c in cs
    ensures Wf(es, RetargetLists(ps, cs, c, t), cs[c := Redraw(cs[c].(target := t))], next)
  {
    var ps' := RetargetLists(ps, cs, c, t);
    var cs' := cs[c := Redraw(cs[c].(target := t))];
    forall q, d | q in ps'
      ensures Count(ps'[q], d) <= EndsOf(cs', d, q)
    {
      RetargetAt(ps, cs, c, t, q, d);
    }
    forall d | d in cs'
      ensures d < next && JointsOk(cs'[d].joints, next)
    {
    }
  }

  /** The port lists after `remove` on connection `c`: off its source's list, then its target's. */
  function RemoveLists(ps: map<nat, seq<nat>>, cs: map<nat, Connection>, c: nat): map<nat, seq<nat>>
    requires c in cs
  {
    Unregister(Unregister(ps, cs[c].source, c), cs[c].target, c)
  }

  /** After `remove`, a port no longer lists the connection and keeps every other count. */
  lemma RemoveAt(ps: map<nat, seq<nat>>, cs: map<nat, Connection>, c: nat, q: nat, d: nat)
    requires Registered(ps, cs) && c in cs && q in ps
    ensures Count(RemoveLists(ps, cs, c)[q], d) == if d == c then 0 else Count(ps[q], d)
  {
    var ps1 := Unregister(ps, cs[c].source, c);
    UnregisterCount(ps, cs[c].source, c, q, d);
    UnregisterCount(ps1, cs[c].target, c, q, d);
    assert Count(ps[q], d) <= EndsOf(cs, d, q);
  }

  /**
   * `remove` keeps a scene well formed, and leaves the connection on no list.
   */
  lemma WfRemove(es: map<nat, Entity>, ps: map<nat, seq<nat>>, cs: map<nat, Connection>, next: nat, c: nat)
    requires Wf(es, ps, cs, next) && c in cs
    ensures Wf(es, RemoveLists(ps, cs, c), cs[c := Removed(cs[c])], next)
    ensures forall p :: p in ps ==> c !in RemoveLists(ps, cs, c)[p]
  {
    var ps' := RemoveLists(ps, cs, c);
    var cs' := cs[c := Removed(cs[c])];
    forall q, d | q in ps'
      ensures Count(ps'[q], d) <= EndsOf(cs', d, q)
    {
      RemoveAt(ps, cs, c, q, d);
      assert Count(ps[q], d) <= EndsOf(cs, d, q);
    }
    forall p | p in ps
      ensures c !in ps'[p]
    {
      RemoveAt(ps, cs, c, p, c);
    }
    forall d | d in cs'
      ensures d < next && JointsOk(cs'[d].joints, next)
    {
    }
  }

  /**
   * The scene: every entity, the connection list of every entity's port, and every
   * connection, each under its id, and the next unused id.
   */
  class Scene {
    var entities: map<nat, Entity>
    var ports: map<nat, seq<nat>>
    var conns: map<nat, Connection>
    var nextId: nat

    /** The scene is well formed. */
    ghost predicate Valid()
      reads this
    {
      Wf(entities, ports, conns, nextId)
    }

    /** An empty scene. */
    constructor ()
      ensures Valid()
      ensures entities == map[] && ports == map[] && conns == map[] && nextId == 0
    {
      entities := map[];
      ports := map[];
      conns := map[];
      nextId := 0;
    }

    /** `c` is registered on no port, has no joints or arrows and is out of the scene. */
    ghost predicate Detached(c: nat)
      reads this
      requires c in conns
    {
      (forall p :: p in ports ==> c !in ports[p])
      && conns[c].joints == [] && conns[c].arrows == [] && !conns[c].inScene
    }

    /**
     * `EntityItem(uri)`: the library type with that URI, a fresh instance URI, an empty label,
     * no rotation, an empty port, out of the scene; `AttributeError` when the library has no
     * such type, and then nothing is created.
     */
    method NewEntity(uri: string) returns (r: Result<nat>)
      requires Valid()
      modifies this
      ensures Valid()
      ensures Model.Lookup(uri).Err? ==> r == Err(AttributeError) && unchanged(this)
      ensures Model.Lookup(uri).Ok? ==>
        var e := old(nextId);
        r == Ok(e) && e !in old(entities) && nextId == e + 1
        && entities == old(entities)[e := Entity(Model.Lookup(uri).value, EntityUri(e), "", Pos(0.0, 0.0), 0, false, true)]
        && ports == old(ports)[e := []] && conns == old(conns)
    {
      var t := Model.Lookup(uri);
      if t.Err? {
        return Err(AttributeError);
      }
      var e := nextId;
      var x := Entity(t.value, EntityUri(e), "", Pos(0.0, 0.0), 0, false, true);
      WfNewEntity(entities, ports, conns, nextId, x);
      entities := entities[e := x];
      ports := ports[e := []];
      nextId := nextId + 1;
      r := Ok(e);
    }

    /** `scene.addItem(entity_item)`. */
    method AddEntityToScene(e: nat)
      requires Valid() && e in entities
      modifies this
      ensures Valid()
      ensures entities == old(entities)[e := old(entities[e]).(inScene := true)]
      ensures ports == old(ports) && conns == old(conns) && nextId == old(nextId)
    {
      WfEntityUpdate(entities, ports, conns, nextId, e, entities[e].(inScene := true));
      entities := entities[e := entities[e].(inScene := true)];
    }

    /** `scene.removeItem(entity_item)`: the entity leaves the scene and its record stays. */
    method RemoveEntityFromScene(e: nat)
      requires Valid() && e in entities
      modifies this
      ensures Valid()
      ensures entities == old(entities)[e := old(entities[e]).(inScene := false)]
      ensures ports == old(ports) && conns == old(conns) && nextId == old(nextId)
    {
      WfEntityUpdate(entities, ports, conns, nextId, e, entities[e].(inScene := false));
      entities := entities[e := entities[e].(inScene := false)];
    }

    /** The connections redrawn for the ids in `cs`, the others as they are. */
    static function RedrawOn(cm: map<nat, Connection>, cs: seq<nat>): (r: map<nat, Connection>)
      ensures r.Keys == cm.Keys
      ensures forall c :: c in cm ==> r[c] == (if c in cs then Redraw(cm[c]) else cm[c])
      ensures cs == [] ==> r == cm
    {
      map c | c in cm :: if c in cs then Redraw(cm[c]) else cm[c]
    }

    /** Redrawing the connections of one list and then of another redraws those of both. */
    static lemma RedrawOnAppend(cm: map<nat, Connection>, a: seq<nat>, b: seq<nat>)
      ensures RedrawOn(RedrawOn(cm, a), b) == RedrawOn(cm, a + b)
    {
      forall c | c in cm
        ensures RedrawOn(RedrawOn(cm, a), b)[c] == RedrawOn(cm, a + b)[c]
      {
        RedrawIdempotent(cm[c]);
      }
    }

    /** Redrawing the next connection of a list extends the redrawn prefix by one. */
    static lemma RedrawOnStep(cm: map<nat, Connection>, list: seq<nat>, i: nat)
      requires i < |list| && list[i] in cm
      ensures RedrawOn(cm, list[..i + 1]) == RedrawOn(cm, list[..i])[list[i] := Redraw(RedrawOn(cm, list[..i])[list[i]])]
    {
      var c := list[i];
      assert list[..i + 1] == list[..i] + [c];
      forall d | d in cm
        ensures RedrawOn(cm, list[..i + 1])[d] == RedrawOn(cm, list[..i])[c := Redraw(RedrawOn(cm, list[..i])[c])][d]
      {
        if d == c {
          RedrawIdempotent(cm[c]);
        }
      }
    }

    /** `PortItem.update_connections`: every connection on the port of `e` is redrawn. */
    method UpdateConnections(e: nat)
      requires Valid() && e in ports
      modifies this
      ensures Valid()
      ensures conns == RedrawOn(old(conns), old(ports[e]))
      ensures entities == old(entities) && ports == old(ports) && nextId == old(nextId)
    {
      var list := ports[e];
      var i := 0;
      while i < |list|
        invariant 0 <= i <= |list|
        invariant entities == old(entities) && ports == old(ports) && nextId == old(nextId)
        invariant conns == RedrawOn(old(conns), list[..i])
        invariant Valid()
      {
        var c := list[i];
        Listed(ports, conns, e, c);
        RedrawOnStep(old(conns), list, i);
        WfConnUpdate(entities, ports, conns, nextId, c, Redraw(conns[c]));
        conns := conns[c := Redraw(conns[c])];
        i := i + 1;
      }
      assert list[..i] == list;
    }

    /**
     * `setPos(p)` on an entity: an entity in a scene is snapped (`_handle_position_change`)
     * and, when it has moved, the connections on its port are redrawn; an entity outside
     * any scene takes `p` as it is. Qt does nothing when the position does not change.
     */
    method SetEntityPos(e: nat, p: Pos)
      requires Valid() && e in entities
      modifies this
      ensures Valid()
      ensures var ent := old(entities[e]);
        var q := if ent.inScene then EntitySnap(p, ent.etype) else p;
        if p == ent.pos || q == ent.pos then entities == old(entities) && conns == old(conns)
        else
          entities == old(entities)[e := ent.(pos := q)]
          && conns == (if ent.inScene then RedrawOn(old(conns), old(ports[e])) else old(conns))
      ensures ports == old(ports) && nextId == old(nextId)
    {
      var ent := entities[e];
      if p == ent.pos {
        return;
      }
      var q := if ent.inScene then EntitySnap(p, ent.etype) else p;
      if q == ent.pos {
        return;
      }
      WfEntityUpdate(entities, ports, conns, nextId, e, ent.(pos := q));
      entities := entities[e := ent.(pos := q)];
      if ent.inScene {
        UpdateConnections(e);
      }
    }

    /** `apply_rotation(angle)`: the angle is stored modulo 360 and the port's connections redrawn. */
    method ApplyRotation(e: nat, angle: int)
      requires Valid() && e in entities
      modifies this
      ensures Valid()
      ensures entities == old(entities)[e := old(entities[e]).(rotation := NormalizeAngle(angle))]
      ensures conns == RedrawOn(old(conns), old(ports[e]))
      ensures ports == old(ports) && nextId == old(nextId)
    {
      WfEntityUpdate(entities, ports, conns, nextId, e, entities[e].(rotation := NormalizeAngle(angle)));
      entities := entities[e := entities[e].(rotation := NormalizeAngle(angle))];
      UpdateConnections(e);
    }

    /** `rotate_90_degrees`: a quarter turn clockwise. */
    method Rotate90(e: nat)
      requires Valid() && e in entities
      modifies this
      ensures Valid()
      ensures entities == old(entities)[e := old(entities[e]).(rotation := QuarterTurn(old(entities[e]).rotation))]
      ensures conns == RedrawOn(old(conns), old(ports[e]))
      ensures ports == old(ports) && nextId == old(nextId)
    {
      ApplyRotation(e, NormalizeAngle(entities[e].rotation + 90));
    }

    /**
     * `ConnectionItem(source_port, target_port, relationship_type)`: a new connection out of
     * the scene, registered on its source port and then on its target port, typed `feeds`
     * unless a type is given, drawn with the default pen, then redrawn.
     */
    method NewConnection(source: Option<nat>, target: Option<nat>, relType: Option<Term>) returns (c: nat)
      requires Valid()
      modifies this
      ensures Valid()
      ensures c == old(nextId) && nextId == old(nextId) + 1 && c !in old(conns)
      ensures conns == old(conns)[c := Redraw(NewRecord(source, target, relType, c))]
      ensures ports == Register(Register(old(ports), source, c), target, c)
      ensures entities == old(entities)
    {
      c := nextId;
      var conn := NewRecord(source, target, relType, c);
      WfCreateConnection(entities, ports, conns, nextId, conn);
      ports := Register(Register(ports, source, c), target, c);
      conns := conns[c := Redraw(conn)];
      nextId := nextId + 1;
    }

    /** `scene.addItem(connection)`. */
    method AddConnectionToScene(c: nat)
      requires Valid() && c in conns
      modifies this
      ensures Valid()
      ensures conns == old(conns)[c := old(conns[c]).(inScene := true)]
      ensures entities == old(entities) && ports == old(ports) && nextId == old(nextId)
    {
      WfConnUpdate(entities, ports, conns, nextId, c, conns[c].(inScene := true));
      conns := conns[c := conns[c].(inScene := true)];
    }

    /** `scene.removeItem(connection)` alone: the connection leaves the scene and stays registered. */
    method RemoveConnectionFromScene(c: nat)
      requires Valid() && c in conns
      modifies this
      ensures Valid()
      ensures conns == old(conns)[c := old(conns[c]).(inScene := false)]
      ensures entities == old(entities) && ports == old(ports) && nextId == old(nextId)
    {
      WfConnUpdate(entities, ports, conns, nextId, c, conns[c].(inScene := false));
      conns := conns[c := conns[c].(inScene := false)];
    }

    /** `update_position` of one connection. */
    method UpdatePosition(c: nat)
      requires Valid() && c in conns
      modifies this
      ensures Valid()
      ensures conns == old(conns)[c := Redraw(old(conns[c]))]
      ensures entities == old(entities) && ports == old(ports) && nextId == old(nextId)
    {
      WfConnUpdate(entities, ports, conns, nextId, c, Redraw(conns[c]));
      conns := conns[c := Redraw(conns[c])];
    }

    /** `set_current_end_pos`: the free end of a draft moves to `p` and the path is redrawn. */
    method SetCurrentEndPos(c: nat, p: Pos)
      requires Valid() && c in conns
      modifies this
      ensures Valid()
      ensures conns == old(conns)[c := Redraw(old(conns[c]).(endPos := Some(p)))]
      ensures entities == old(entities) && ports == old(ports) && nextId == old(nextId)
    {
      WfConnUpdate(entities, ports, conns, nextId, c, Redraw(conns[c].(endPos := Some(p))));
      conns := conns[c := Redraw(conns[c].(endPos := Some(p)))];
    }

    /**
     * `set_target_port`: the connection leaves its old target's list, takes the new target,
     * joins the new target's list and is redrawn.
     */
    method SetTargetPort(c: nat, target: Option<nat>)
      requires Valid() && c in conns
      modifies this
      ensures Valid()
      ensures conns == old(conns)[c := Redraw(old(conns[c]).(target := target))]
      ensures ports == RetargetLists(old(ports), old(conns), c, target)
      ensures entities == old(entities) && nextId == old(nextId)
    {
      WfRetarget(entities, ports, conns, nextId, c, target);
      ports := RetargetLists(ports, conns, c, target);
      conns := conns[c := Redraw(conns[c].(target := target))];
    }

    /**
     * `ConnectionItem.remove`: the connection leaves its source's and then its target's list,
     * loses its joints and arrows and leaves the scene. Afterwards it is detached, and
     * removing a detached connection changes nothing.
     */
    method Remove(c: nat)
      requires Valid() && c in conns
      modifies this
      ensures Valid()
      ensures conns == old(conns)[c := Removed(old(conns[c]))]
      ensures ports == RemoveLists(old(ports), old(conns), c)
      ensures Detached(c)
      ensures old(Detached(c)) ==> conns == old(conns) && ports == old(ports)
      ensures entities == old(entities) && nextId == old(nextId)
    {
      if Detached(c) {
        UnregisterAbsent(ports, conns[c].source, c);
        UnregisterAbsent(Unregister(ports, conns[c].source, c), conns[c].target, c);
      }
      WfRemove(entities, ports, conns, nextId, c);
      ports := RemoveLists(ports, conns, c);
      conns := conns[c := Removed(conns[c])];
    }

    /** `reverse`: source and target swap and the path is redrawn; the port lists stay. */
    method Reverse(c: nat)
      requires Valid() && c in conns
      modifies this
      ensures Valid()
      ensures conns == old(conns)[c := Reversed(old(conns[c]))]
      ensures SourceEntityUri(c) == old(TargetEntityUri(c)) && TargetEntityUri(c) == old(SourceEntityUri(c))
      ensures entities == old(entities) && ports == old(ports) && nextId == old(nextId)
    {
      WfConnUpdate(entities, ports, conns, nextId, c, Reversed(conns[c]).(source := conns[c].source, target := conns[c].target));
      conns := conns[c := Reversed(conns[c])];
    }

    /** `set_relationship_type`. */
    method SetRelationshipType(c: nat, relType: Term)
      requires Valid() && c in conns
      modifies this
      ensures Valid()
      ensures conns == old(conns)[c := WithRelationshipType(old(conns[c]), relType)]
      ensures entities == old(entities) && ports == old(ports) && nextId == old(nextId)
    {
      WfConnUpdate(entities, ports, conns, nextId, c, WithRelationshipType(conns[c], relType));
      conns := conns[c := WithRelationshipType(conns[c], relType)];
    }

    /** `setPen`: the connection takes `pen`; its arrows keep theirs. */
    method SetPen(c: nat, pen: Pen)
      requires Valid() && c in conns
      modifies this
      ensures Valid()
      ensures conns == old(conns)[c := old(conns[c]).(pen := pen)]
      ensures entities == old(entities) && ports == old(ports) && nextId == old(nextId)
    {
      WfConnUpdate(entities, ports, conns, nextId, c, conns[c].(pen := pen));
      conns := conns[c := conns[c].(pen := pen)];
    }

    /** `add_joint_at_point`: a new joint snapped to the grid is appended and the path redrawn. */
    method AddJointAtPoint(c: nat, p: Pos) returns (j: nat)
      requires Valid() && c in conns
      modifies this
      ensures Valid()
      ensures j == old(nextId) && nextId == old(nextId) + 1
      ensures conns == old(conns)[c := WithJoint(old(conns[c]), j, p)]
      ensures entities == old(entities) && ports == old(ports)
    {
      j := nextId;
      WfAddJoint(entities, ports, conns, nextId, c, p);
      conns := conns[c := WithJoint(conns[c], j, p)];
      nextId := nextId + 1;
    }

    /** `add_joint_at_point` at each of `ps` in turn. */
    method AddJointsAtPoints(c: nat, ps: seq<Pos>)
      requires Valid() && c in conns
      modifies this
      ensures Valid()
      ensures nextId == old(nextId) + |ps|
      ensures conns == old(conns)[c := WithJoints(old(conns[c]), ps, old(nextId))]
      ensures entities == old(entities) && ports == old(ports)
    {
      ghost var c0, x0, n0 := conns, conns[c], nextId;
      var k := 0;
      while k < |ps|
        invariant 0 <= k <= |ps| && Valid()
        invariant nextId == n0 + k
        invariant conns == c0[c := WithJoints(x0, ps[..k], n0)]
        invariant entities == old(entities) && ports == old(ports)
      {
        AddNextJoint(c, ps, k, c0, x0, n0);
        k := k + 1;
      }
      assert ps[..k] == ps;
    }

    /** The `k`-th turn of `AddJointsAtPoints`, on the connection that was `x0` in `c0`. */
    method AddNextJoint(c: nat, ps: seq<Pos>, k: nat, ghost c0: map<nat, Connection>, ghost x0: Connection, ghost n0: nat)
      requires Valid() && k < |ps| && c in c0 && c in conns
      requires nextId == n0 + k && conns == c0[c := WithJoints(x0, ps[..k], n0)]
      modifies this
      ensures Valid()
      ensures nextId == n0 + k + 1 && conns == c0[c := WithJoints(x0, ps[..k + 1], n0)]
      ensures entities == old(entities) && ports == old(ports)
    {
      ghost var cur := WithJoints(x0, ps[..k], n0);
      WithJointsSnoc(x0, ps[..k], n0, ps[k]);
      assert ps[..k + 1] == ps[..k] + [ps[k]];
      var j := AddJointAtPoint(c, ps[k]);
      UpdateTwice(c0, c, cur, WithJoint(cur, j, ps[k]));
    }

    /** Deleting a selected joint: it leaves its connection's joints, which is then redrawn. */
    method DeleteJoint(c: nat, j: nat)
      requires Valid() && c in conns
      modifies this
      ensures Valid()
      ensures conns == old(conns)[c := Redraw(old(conns[c]).(joints := WithoutJoint(old(conns[c]).joints, j)))]
      ensures forall k :: 0 <= k < |conns[c].joints| ==> conns[c].joints[k].id != j
      ensures entities == old(entities) && ports == old(ports) && nextId == old(nextId)
    {
      JointsOkWithoutJoint(conns[c].joints, j, nextId);
      WfConnUpdate(entities, ports, conns, nextId, c, Redraw(conns[c].(joints := WithoutJoint(conns[c].joints, j))));
      conns := conns[c := Redraw(conns[c].(joints := WithoutJoint(conns[c].joints, j)))];
    }

    /** Assigning `label` of an entity. */
    method SetLabel(e: nat, text: string)
      requires Valid() && e in entities
      modifies this
      ensures Valid()
      ensures entities == old(entities)[e := old(entities[e]).(labelText := text)]
      ensures ports == old(ports) && conns == old(conns) && nextId == old(nextId)
    {
      WfEntityUpdate(entities, ports, conns, nextId, e, entities[e].(labelText := text));
      entities := entities[e := entities[e].(labelText := text)];
    }

    /** Assigning `instance_uri` of an entity. */
    method SetEntityUri(e: nat, uri: Term)
      requires Valid() && e in entities
      modifies this
      ensures Valid()
      ensures entities == old(entities)[e := old(entities[e]).(uri := uri)]
      ensures ports == old(ports) && conns == old(conns) && nextId == old(nextId)
    {
      WfEntityUpdate(entities, ports, conns, nextId, e, entities[e].(uri := uri));
      entities := entities[e := entities[e].(uri := uri)];
    }

    /** `setVisible(v)` on an entity. */
    method SetEntityVisible(e: nat, v: bool)
      requires Valid() && e in entities
      modifies this
      ensures Valid()
      ensures entities == old(entities)[e := old(entities[e]).(visible := v)]
      ensures ports == old(ports) && conns == old(conns) && nextId == old(nextId)
    {
      WfEntityUpdate(entities, ports, conns, nextId, e, entities[e].(visible := v));
      entities := entities[e := entities[e].(visible := v)];
    }

    /** Assigning `instance_uri` of a connection. */
    method SetConnectionUri(c: nat, uri: Term)
      requires Valid() && c in conns
      modifies this
      ensures Valid()
      ensures conns == old(conns)[c := old(conns[c]).(uri := uri)]
      ensures entities == old(entities) && ports == old(ports) && nextId == old(nextId)
    {
      WfConnUpdate(entities, ports, conns, nextId, c, conns[c].(uri := uri));
      conns := conns[c := conns[c].(uri := uri)];
    }

    /** `setVisible(v)` on a connection and on each of its arrows. */
    method SetConnectionVisible(c: nat, v: bool)
      requires Valid() && c in conns
      modifies this
      ensures Valid()
      ensures conns == old(conns)[c := WithVisibility(old(conns[c]), v)]
      ensures entities == old(entities) && ports == old(ports) && nextId == old(nextId)
    {
      WfConnUpdate(entities, ports, conns, nextId, c, WithVisibility(conns[c], v));
      conns := conns[c := WithVisibility(conns[c], v)];
    }

    /** `get_source_entity_uri`: the instance URI of the entity at the source, if any. */
    function SourceEntityUri(c: nat): (r: Option<Term>)
      reads this
      requires c in conns
      ensures r.Some? <==> conns[c].source.Some? && conns[c].source.value in entities
      ensures r.Some? ==> r.value == entities[conns[c].source.value].uri
    {
      match conns[c].source
      case Some(s) => if s in entities then Some(entities[s].uri) else None
      case None => None
    }

    /** `get_target_entity_uri`: the instance URI of the entity at the target, if any. */
    function TargetEntityUri(c: nat): (r: Option<Term>)
      reads this
      requires c in conns
      ensures r.Some? <==> conns[c].target.Some? && conns[c].target.value in entities
      ensures r.Some? ==> r.value == entities[conns[c].target.value].uri
    {
      match conns[c].target
      case Some(t) => if t in entities then Some(entities[t].uri) else None
      case None => None
    }
  }
}

=== FILE: model.dfy ===
/**
 * The entity vocabulary of the editor: URI splitting into namespace and name, the
 * entity types with their rendered sizes and port offsets, and the library lookup
 * by type URI.
 */
module Model {
  import opened Wrappers
  import opened Strings

  const BRICK: string := "https://brickschema.org/schema/Brick#"
  const REC_DOC: string := "https://doc.realestatecore.io/4.0/#"

  /**
   * `split_uri`: the pieces of `u` between its '#' characters when it has one, otherwise
   * between its '/' characters; a string with neither is refused with a `ValueError`.
   */
  function SplitUri(u: string): (r: Result<seq<string>>)
    ensures r.Err? <==> '#' !in u && '/' !in u
    ensures r.Err? ==> r.error == ValueError
    ensures r.Ok? && '#' in u ==> Join(r.value, "#") == u && |r.value| >= 2
    ensures r.Ok? && '#' !in u ==> Join(r.value, "/") == u && |r.value| >= 2
    ensures r.Ok? ==> forall k :: 0 <= k < |r.value| ==> Separator(u) !in r.value[k]
  {
    if '#' in u then
      JoinSplit(u, '#');
      SplitHasTwoPieces(u, '#');
      Ok(Split(u, '#'))
    else if '/' in u then
      JoinSplit(u, '/');
      SplitHasTwoPieces(u, '/');
      Ok(Split(u, '/'))
    else Err(ValueError)
  }

  /** The separator `SplitUri` cuts on: '#' whenever one is present, otherwise '/'. */
  function Separator(u: string): char
  {
    if '#' in u then '#' else '/'
  }

  /** `get_name`: the last piece of the split, a suffix of the URI free of the separator. */
  function GetName(u: string): (r: Result<string>)
    ensures r.Err? <==> '#' !in u && '/' !in u
    ensures r.Ok? ==> |r.value| <= |u| && r.value == u[|u| - |r.value|..]
    ensures r.Ok? ==> Separator(u) !in r.value
  {
    match SplitUri(u)
    case Err(e) => Err(e)
    case Ok(pieces) =>
      var n := |pieces|;
      JoinLast(pieces, [Separator(u)]);
      Ok(pieces[n - 1])
  }

  /** `get_namespace`: every piece of the split but the last, joined with '/'. */
  function GetNamespace(u: string): (r: Result<string>)
    ensures r.Err? <==> '#' !in u && '/' !in u
  {
    match SplitUri(u)
    case Err(e) => Err(e)
    case Ok(pieces) => Ok(Join(pieces[..|pieces| - 1], "/"))
  }

  /** Without a '#', the namespace, a '/' and the name give back the URI. */
  lemma NamespaceSlashName(u: string)
    requires '#' !in u && '/' in u
    ensures GetNamespace(u).value + "/" + GetName(u).value == u
  {
    var pieces := SplitUri(u).value;
    JoinLast(pieces, "/");
  }

  /** With exactly one '#', the namespace, the '#' and the name give back the URI. */
  lemma NamespaceHashName(u: string, i: nat)
    requires i < |u| && u[i] == '#'
    requires '#' !in u[..i] && '#' !in u[i + 1..]
    ensures GetNamespace(u).value + "#" + GetName(u).value == u
  {
    SplitOnce(u, '#', i);
    assert SplitUri(u).value == [u[..i], u[i + 1..]];
    assert u == u[..i] + "#" + u[i + 1..];
  }

  /**
   * An entity type of the library: its type URI, the width and height of its SVG
   * drawing, the offset of its connection port, its category path, and whether it is
   * one of the `Point` types.
   */
  datatype EntityType = EntityType(
    uri: string,
    width: real,
    height: real,
    portX: real,
    portY: real,
    category: seq<string>,
    isPoint: bool)
  {
    /** `Entity.name`: the local name of the type URI. */
    function Name(): (r: Result<string>)
      ensures r.Ok? ==> |r.value| <= |uri| && r.value == uri[|uri| - |r.value|..]
    {
      GetName(uri)
    }
  }

  /** An ordinary entity with the default port offset (25, 25). */
  function Equipment(uri: string, width: real, height: real, category: seq<string>): EntityType
  {
    EntityType(uri, width, height, 25.0, 25.0, category, false)
  }

  /** A `Point` type: a 25 by 50 box whose port sits at (12.5, 25), whatever its URI. */
  function PointType(uri: string, category: seq<string>): (t: EntityType)
    ensures t.isPoint && t.uri == uri && t.category == category
    ensures t.width == 25.0 && t.height == 50.0 && t.portX == 12.5 && t.portY == 25.0
  {
    EntityType(uri, 25.0, 50.0, 25.0 / 2.0, 25.0, category, true)
  }

  /** `get_all_entities`: the library entries in declaration order. */
  const ALL: seq<EntityType> := [
    Equipment(BRICK + "Valve", 50.0, 50.0, ["BRICK", "Equipment"]),
    Equipment(BRICK + "Bypass_Valve", 50.0, 50.0, ["BRICK", "Equipment", "Valve"]),
    Equipment(BRICK + "Pump", 50.0, 50.0, ["BRICK", "Equipment", "HVAC"]),
    Equipment(BRICK + "Fan", 50.0, 50.0, ["BRICK", "Equipment", "HVAC"]),
    Equipment(BRICK + "Radiator", 50.0, 50.0, ["BRICK", "Equipment", "HVAC", "Terminal Unit"]),
    EntityType(BRICK + "Boiler", 50.0, 80.0, 25.0, 80.0, ["BRICK", "Equipment", "HVAC"], false),
    EntityType(BRICK + "Heating_Coil", 50.0, 100.0, 25.0, 50.0, ["BRICK", "Equipment", "HVAC", "HX", "Coil"], false),
    EntityType(BRICK + "Cooling_Coil", 50.0, 100.0, 25.0, 50.0, ["BRICK", "Equipment", "HVAC", "HX", "Coil"], false),
    EntityType(BRICK + "Heat_Exchanger", 50.0, 100.0, 25.0, 50.0, ["BRICK", "Equipment", "HVAC"], false),
    EntityType(BRICK + "Damper", 50.0, 100.0, 25.0, 50.0, ["BRICK", "Equipment", "HVAC"], false),
    PointType(BRICK + "Point", ["BRICK"]),
    PointType(BRICK + "Temperature_Sensor", ["BRICK", "Point", "Sensor"]),
    PointType(BRICK + "Temperature_Setpoint", ["BRICK", "Point", "Setpoint"]),
    PointType(BRICK + "Position_Sensor", ["BRICK", "Point", "Sensor"]),
    PointType(BRICK + "Position_Setpoint", ["BRICK", "Point", "Setpoint"]),
    Equipment(REC_DOC + "Room", 50.0, 50.0, ["REC", "Space", "Room"]),
    Equipment(REC_DOC + "Zone", 50.0, 50.0, ["REC", "Space", "Zones"]),
    EntityType(REC_DOC + "HVAC_Zone", 50.0, 100.0, 25.0, 50.0, ["REC", "Space", "Zones"], false),
    EntityType(REC_DOC + "Level", 200.0, 50.0, 100.0, 25.0, ["REC", "Space", "Levels"], false)
  ]

  /** The first library entry, in `ALL` order, whose URI string is `uri`. */
  function Lookup(uri: string): (r: Result<EntityType>)
    ensures r.Ok? ==> r.value.uri == uri
    ensures r.Err? ==> r.error == AttributeError
  {
    FirstWithUri(ALL, uri, 0)
  }

  /** The first entry of `table` at or after index `i` whose URI is `uri`. */
  function FirstWithUri(table: seq<EntityType>, uri: string, i: nat): (r: Result<EntityType>)
    requires i <= |table|
    ensures r.Ok? ==> r.value.uri == uri
    ensures r.Err? ==> r.error == AttributeError
    decreases |table| - i
  {
    if i == |table| then Err(AttributeError)
    else if table[i].uri == uri then Ok(table[i])
    else FirstWithUri(table, uri, i + 1)
  }

  /** The search finds an entry exactly when one has the URI, and then the first such one. */
  lemma {:induction false} FirstWithUriSpec(table: seq<EntityType>, uri: string, i: nat)
    requires i <= |table|
    ensures FirstWithUri(table, uri, i).Ok? <==> exists k :: i <= k < |table| && table[k].uri == uri
    ensures FirstWithUri(table, uri, i).Ok? ==>
      exists k :: i <= k < |table| && table[k] == FirstWithUri(table, uri, i).value
        && table[k].uri == uri && forall j :: i <= j < k ==> table[j].uri != uri
    decreases |table| - i
  {
    if i < |table| && table[i].uri != uri {
      FirstWithUriSpec(table, uri, i + 1);
    }
  }

  /**
   * `find_entity_by_uri`: scans the library in order and returns the first entry whose
   * URI string equals the query, or raises `AttributeError` when none does.
   */
  method FindEntityByUri(uri: string) returns (r: Result<EntityType>)
    ensures r.Ok? <==> exists k :: 0 <= k < |ALL| && ALL[k].uri == uri
    ensures r.Ok? ==> (r.value.uri == uri
      && exists k :: 0 <= k < |ALL| && ALL[k] == r.value && forall j :: 0 <= j < k ==> ALL[j].uri != uri)
    ensures r.Err? ==> r.error == AttributeError
    ensures r == Lookup(uri)
  {
    var table := ALL;
    FirstWithUriSpec(table, uri, 0);
    var i := 0;
    while i < |table|
      invariant 0 <= i <= |table|
      invariant forall j :: 0 <= j < i ==> table[j].uri != uri
      invariant FirstWithUri(table, uri, i) == Lookup(uri)
    {
      if table[i].uri == uri {
        return Ok(table[i]);
      }
      i := i + 1;
    }
    return Err(AttributeError);
  }

  /** Every library entry has a name: its URI contains a '#'. */
  lemma EntryNames(k: nat)
    requires k < |ALL|
    ensures ALL[k].Name().Ok?
  {
    var u := ALL[k].uri;
    if k < 15 {
      assert BRICK <= u;
      assert u[|BRICK| - 1] == '#';
    } else {
      assert REC_DOC <= u;
      assert u[|REC_DOC| - 1] == '#';
    }
  }

  /** The name of the library valve is "Valve". */
  lemma ValveName()
    ensures ALL[0].Name() == Ok("Valve")
  {
    var u := ALL[0].uri;
    assert u == BRICK + "Valve";
    assert u[|BRICK| - 1] == '#';
    assert '#' !in u[..|BRICK| - 1];
    assert '#' !in u[|BRICK|..];
    NamespaceHashName(u, |BRICK| - 1);
    SplitOnce(u, '#', |BRICK| - 1);
    assert u[|BRICK|..] == "Valve";
  }
}

=== FILE: namespaces.dfy ===
/**
 * The namespace utilities: prefix bindings, URI splitting at the last separator,
 * abbreviation and labelling of URIs, and the two graph rewrites that replace a
 * namespace and keep only the triples touching one.
 */
module Namespaces {
  import opened Wrappers
  import opened Strings
  import opened Rdf

  const BLDG: string := "http://example.org/building#"
  const S223: string := "http://data.ashrae.org/standard223#"
  const REC: string := "https://w3id.org/rec#"
  const VISU: string := "http://example.org/visualization#"
  const BRICK_TAG: string := "https://brickschema.org/schema/BrickTag#"
  const BRICK_REF: string := "https://brickschema.org/schema/Brick/ref#"
  const QUDT: string := "http://qudt.org/schema/qudt/"
  const QUDTU: string := "http://qudt.org/vocab/unit/"
  const QUDTQK: string := "http://qudt.org/vocab/quantitykind/"
  const RDF_NS: string := "http://www.w3.org/1999/02/22-rdf-syntax-ns#"
  const RDFS_NS: string := "http://www.w3.org/2000/01/rdf-schema#"

  /** A namespace and its prefix. */
  datatype Binding = Binding(ns: string, prefix: string)

  /** The `bindings` table, in its declaration order. */
  const BINDINGS: seq<Binding> := [
    Binding(RDF_NS, "rdf"),
    Binding(RDFS_NS, "rdfs"),
    Binding(XSD, "xsd"),
    Binding(S223, "s223"),
    Binding(BRICK, "brick"),
    Binding(BRICK_REF, "ref"),
    Binding(BRICK_TAG, "tag"),
    Binding(REC, "rec"),
    Binding(BLDG, "bldg"),
    Binding(VISU, "visu"),
    Binding(QUDT, "qudt"),
    Binding(QUDTQK, "qudtqk"),
    Binding(QUDTU, "qudtu")
  ]

  /**
   * `replace_last_backslash`: the last '/' becomes '#'; everything else, and the length,
   * stay as they were, and a string without '/' is returned unchanged.
   */
  function ReplaceLastSlash(u: string): (r: string)
    ensures |r| == |u|
    ensures '/' !in u ==> r == u
    ensures '/' in u ==>
      exists i :: 0 <= i < |u| && u[i] == '/' && r[i] == '#' &&
        (forall j :: i < j < |u| ==> u[j] != '/') &&
        (forall j :: 0 <= j < |u| && j != i ==> r[j] == u[j])
  {
    var i := RFind(u, '/');
    if i != -1 then u[..i] + "#" + u[i + 1..] else u
  }

  /** The Python values `to_uri` distinguishes: a URIRef, any other `str`, `None`, anything else. */
  datatype PyValue = PyUriRef(s: string) | PyStr(s: string) | PyNone | PyOther

  /** `to_uri`: a URIRef passes, a string is wrapped, `None` stays `None`, anything else is a `TypeError`. */
  function ToUri(v: PyValue): (r: Result<Option<string>>)
    ensures v.PyUriRef? || v.PyStr? ==> r == Ok(Some(v.s))
    ensures v.PyNone? <==> r == Ok(None)
    ensures v.PyOther? <==> r == Err(TypeError)
  {
    match v
    case PyUriRef(s) => Ok(Some(s))
    case PyStr(s) => Ok(Some(s))
    case PyNone => Ok(None)
    case PyOther => Err(TypeError)
  }

  /** The separator `SplitUri` cuts at: the first of '#', '/', ':' that occurs anywhere in `u`. */
  function SeparatorOf(u: string): Option<char>
  {
    if '#' in u then Some('#') else if '/' in u then Some('/') else if ':' in u then Some(':') else None
  }

  /**
   * The cut `split_uri` makes in a string: the namespace up to and including the last
   * occurrence of the separator, and the term after it; `ValueError` without a separator.
   */
  function SplitAtSeparator(u: string): (r: Result<(string, string)>)
    ensures SeparatorOf(u).None? <==> r == Err(ValueError)
    ensures r.Ok? ==> r.value.0 + r.value.1 == u
    ensures r.Ok? ==> |r.value.0| > 0 && r.value.0[|r.value.0| - 1] == SeparatorOf(u).value
    ensures r.Ok? ==> SeparatorOf(u).value !in r.value.1
  {
    match SeparatorOf(u)
    case None => Err(ValueError)
    case Some(sep) =>
      var i := RFind(u, sep);
      CutAfter(u, sep, i);
      Ok((u[..i + 1], u[i + 1..]))
  }

  /** Cutting just after the last occurrence of `c` leaves `c` at the end of the head only. */
  lemma CutAfter(u: string, c: char, i: int)
    requires 0 <= i < |u| && u[i] == c
    requires forall j :: i < j < |u| ==> u[j] != c
    ensures u[..i + 1] + u[i + 1..] == u
    ensures u[..i + 1][i] == c && c !in u[i + 1..]
  {
    assert u == u[..i + 1] + u[i + 1..];
  }

  /**
   * `split_uri`: `None` gives `None`, a value that is not a string raises `TypeError`, and a
   * string is cut at the last occurrence of its separator.
   */
  function SplitUri(v: PyValue): (r: Result<Option<(string, string)>>)
    ensures v.PyNone? ==> r == Ok(None)
    ensures v.PyOther? ==> r == Err(TypeError)
    ensures v.PyUriRef? || v.PyStr? ==>
      (r.Err? <==> SplitAtSeparator(v.s).Err?) && (r.Ok? ==> r.value == Some(SplitAtSeparator(v.s).value))
  {
    match ToUri(v)
    case Err(e) => Err(e)
    case Ok(None) => Ok(None)
    case Ok(Some(u)) =>
      match SplitAtSeparator(u)
      case Err(e) => Err(e)
      case Ok(parts) => Ok(Some(parts))
  }

  /** The prefix of the first binding from index `i` on whose namespace starts `u`. */
  function FirstPrefix(table: seq<Binding>, u: string, i: nat): (r: Option<string>)
    requires i <= |table|
    ensures r.None? <==> forall k :: i <= k < |table| ==> !(table[k].ns <= u)
    ensures r.Some? ==>
      exists k :: i <= k < |table| && table[k].prefix == r.value &&
        table[k].ns <= u && forall j :: i <= j < k ==> !(table[j].ns <= u)
    decreases |table| - i
  {
    if i == |table| then None
    else if table[i].ns <= u then Some(table[i].prefix)
    else FirstPrefix(table, u, i + 1)
  }

  /** `find_abbreviation`: the prefix of the first binding, in table order, that is a prefix of `u`. */
  function FindAbbreviation(u: string): (r: Option<string>)
    ensures r.None? <==> forall k :: 0 <= k < |BINDINGS| ==> !(BINDINGS[k].ns <= u)
    ensures r.Some? ==>
      exists k :: 0 <= k < |BINDINGS| && BINDINGS[k].prefix == r.value &&
        BINDINGS[k].ns <= u && forall j :: 0 <= j < k ==> !(BINDINGS[j].ns <= u)
  {
    FirstPrefix(BINDINGS, u, 0)
  }

  /**
   * `to_label`: the abbreviation of the URI's namespace, or failing that the namespace
   * itself, then '.', then the term. `None` gives `None`; errors of `split_uri` propagate.
   */
  function ToLabel(v: PyValue): (r: Result<Option<string>>)
    ensures v.PyNone? ==> r == Ok(None)
    ensures r.Err? <==> SplitUri(v).Err?
    ensures r.Ok? && r.value.Some? ==>
      var (ns, term) := SplitUri(v).value.value;
      exists head :: r.value.value == head + "." + term
        && head == (if FindAbbreviation(v.s).Some? then FindAbbreviation(v.s).value else ns)
  {
    match SplitUri(v)
    case Err(e) => Err(e)
    case Ok(None) => Ok(None)
    case Ok(Some((ns, term))) =>
      var abbreviation := FindAbbreviation(v.s);
      var head := if abbreviation.Some? then abbreviation.value else ns;
      Ok(Some(head + "." + term))
  }

  /** A Brick class is labelled with the `brick` prefix and its local name. */
  lemma BrickLabel(name: string)
    requires '#' !in name
    ensures ToLabel(PyUriRef(BRICK + name)) == Ok(Some("brick." + name))
  {
    var u := BRICK + name;
    BrickSplit(name);
    assert SplitUri(PyUriRef(u)) == Ok(Some((BRICK, name)));
    BrickAbbreviation(u);
    assert ToLabel(PyUriRef(u)) == Ok(Some("brick" + "." + name));
    assert "brick" + "." + name == "brick." + name;
  }

  /** A Brick class URI is cut after the '#' that ends the Brick namespace. */
  lemma BrickSplit(name: string)
    requires '#' !in name
    ensures SplitAtSeparator(BRICK + name) == Ok((BRICK, name))
  {
    var u := BRICK + name;
    var h := |BRICK| - 1;
    assert u[h] == '#';
    assert SeparatorOf(u) == Some('#');
    var i := RFind(u, '#');
    assert u[|BRICK|..] == name;
    assert i == h;
    assert u[..h + 1] == BRICK;
  }

  /** A URI in the Brick namespace is abbreviated `brick`. */
  lemma BrickAbbreviation(u: string)
    requires BRICK <= u
    ensures FindAbbreviation(u) == Some("brick")
  {
    assert u[4] == 's';
    forall k | 0 <= k < 4
      ensures !(BINDINGS[k].ns <= u)
    {
      assert BINDINGS[k].ns[4] == ':';
    }
    PrefixSkip(BINDINGS, u, 4);
  }

  /** When no binding before `i` matches, the first match from the start is the first from `i`. */
  lemma {:induction false} PrefixSkip(table: seq<Binding>, u: string, i: nat)
    requires i <= |table|
    requires forall k :: 0 <= k < i ==> !(table[k].ns <= u)
    ensures FirstPrefix(table, u, 0) == FirstPrefix(table, u, i)
    decreases i
  {
    if i > 0 {
      PrefixSkip(table, u, i - 1);
    }
  }

  /** `replace_namespace` on one term: a URI reference starting with `oldns` has it replaced. */
  function ReplaceTerm(t: Term, oldns: string, newns: string): (r: Term)
    ensures !(t.Iri? && oldns <= t.iri) ==> r == t
    ensures t.Iri? && oldns <= t.iri && |oldns| > 0 ==> r.Iri? && newns <= r.iri
  {
    if t.Iri? && oldns <= t.iri then
      if |oldns| > 0 then
        assert t.iri == oldns + t.iri[|oldns|..];
        ReplacePrefix(oldns, t.iri[|oldns|..], newns);
        Iri(Replace(t.iri, oldns, newns))
      else Iri(Replace(t.iri, oldns, newns))
    else t
  }

  function ReplaceTriple(t: Triple, oldns: string, newns: string): Triple
  {
    Triple(ReplaceTerm(t.s, oldns, newns), ReplaceTerm(t.p, oldns, newns), ReplaceTerm(t.o, oldns, newns))
  }

  /**
   * `replace_namespace`: a new graph holding every triple of `g` with its URI references
   * that start with `oldns` rewritten; nothing else about a triple changes. Triples that
   * become equal merge, so the new graph is never larger.
   */
  method ReplaceNamespace(g: Graph, oldns: string, newns: string) returns (r: Graph)
    ensures r == set t | t in g :: ReplaceTriple(t, oldns, newns)
    ensures |r| <= |g|
  {
    r := {};
    var rest := g;
    while rest != {}
      invariant rest <= g
      invariant r == set t | t in g - rest :: ReplaceTriple(t, oldns, newns)
      invariant |r| <= |g - rest|
      decreases |rest|
    {
      var t :| t in rest;
      ghost var before := g - rest;
      r := r + {ReplaceTriple(t, oldns, newns)};
      rest := rest - {t};
      assert g - rest == before + {t} && t !in before;
      ImageStep(before, t, oldns, newns);
    }
  }

  /** The rewritten image of a set with one more triple gains that triple's rewrite. */
  lemma ImageStep(a: set<Triple>, x: Triple, oldns: string, newns: string)
    ensures (set t | t in a + {x} :: ReplaceTriple(t, oldns, newns))
      == (set t | t in a :: ReplaceTriple(t, oldns, newns)) + {ReplaceTriple(x, oldns, newns)}
  {
  }

  /** Replacing a namespace by itself gives back the same graph. */
  lemma ReplaceNamespaceSelf(g: Graph, ns: string)
    ensures (set t | t in g :: ReplaceTriple(t, ns, ns)) == g
  {
    forall t | t in g
      ensures ReplaceTriple(t, ns, ns) == t
    {
      ReplaceTermSelf(t.s, ns);
      ReplaceTermSelf(t.p, ns);
      ReplaceTermSelf(t.o, ns);
    }
  }

  lemma ReplaceTermSelf(t: Term, ns: string)
    ensures ReplaceTerm(t, ns, ns) == t
  {
    if t.Iri? && ns <= t.iri {
      ReplaceSame(t.iri, ns);
    }
  }

  /** Some term of the triple, as a string, starts with `ns`. */
  predicate TouchesNamespace(t: Triple, ns: string)
  {
    ns <= Str(t.s) || ns <= Str(t.p) || ns <= Str(t.o)
  }

  /** `filter_by_namespace`: exactly the triples of `g` one of whose terms starts with `ns`. */
  method FilterByNamespace(g: Graph, ns: string) returns (r: Graph)
    ensures r <= g
    ensures forall t :: t in r <==> t in g && TouchesNamespace(t, ns)
  {
    r := {};
    var rest := g;
    while rest != {}
      invariant rest <= g
      invariant forall t :: t in r <==> t in g - rest && TouchesNamespace(t, ns)
      decreases |rest|
    {
      var t :| t in rest;
      if TouchesNamespace(t, ns) {
        r := r + {t};
      }
      rest := rest - {t};
    }
  }
}

=== FILE: numtext.dfy ===
/**
 * What Python's `int()` and `float()` read back from the text `str()` writes for a
 * number: its sign, its digits and, for a float, its '.' and fraction digits.
 */
module NumberText {
  import opened Wrappers
  import opened Strings
  import opened PyNumbers

  /** A sign and plain digits read as `float()` reads them: `v`, negated after '-'. */
  lemma {:induction false} ParseFloatDigits(neg: bool, w: string, v: real)
    requires |w| > 0 && AllDigits(w) && v == DigitsToNat(w) as real
    ensures ParseFloat(SignText(neg) + w) == Ok(if neg then -v else v)
  {
    assert ParseFloat(SignText(neg) + w) == ApplySign((neg, w)) by {
      assert '0' <= w[0] <= '9' && '0' <= w[|w| - 1] <= '9';
      ParseFloatSigned(neg, w);
    }
    assert ApplySign((neg, w)) == Ok(if neg then -v else v) by {
      UnsignedDigits(w);
      ApplySignOk((neg, w), v);
    }
  }

  /** `w`, '.', `f` is a decimal number with a digit before the point, and `v` is its value. */
  ghost predicate DecimalValue(w: string, f: string, v: real)
  {
    |w| > 0 && AllDigits(w) && AllDigits(f) && v == DigitsToNat(w) as real + FractionValue(f)
  }

  /** A sign, digits, '.', digits, read as `float()` reads them: `v`, negated after '-'. */
  lemma {:induction false} ParseFloatDecimal(neg: bool, w: string, f: string, v: real, s: string, r: real)
    requires DecimalValue(w, f, v) && s == DecimalText(neg, w, f)
    requires r == if neg then -v else v
    ensures ParseFloat(s) == Ok(r)
  {
    var body := w + "." + f;
    assert s == SignText(neg) + body;
    assert ParseFloat(SignText(neg) + body) == ApplySign((neg, body)) by {
      assert '0' <= body[0] <= '9' && !IsSpace(body[|body| - 1]);
      ParseFloatSigned(neg, body);
    }
    assert ApplySign((neg, body)) == Ok(if neg then -v else v) by {
      UnsignedDecimal(w, f, v);
      ApplySignOk((neg, body), v);
    }
  }

  /** `int(str(i)) == i`. */
  lemma {:induction false} ParseIntOfString(i: int)
    ensures ParseInt(IntToString(i)) == Ok(i)
  {
    var n: nat := if i < 0 then -i else i;
    var w := NatToString(n);
    assert IntToString(i) == SignText(i < 0) + w by { IntToStringParts(i); }
    assert DigitsToNat(w) == n by { NatToStringRoundTrip(n); }
    assert ParseInt(SignText(i < 0) + w) == Ok(Signed(i < 0, DigitsToNat(w))) by { ParseIntDigits(i < 0, w); }
  }

  /** `float(str(i)) == i` for an integer. */
  lemma {:induction false} ParseFloatOfString(i: int)
    ensures ParseFloat(IntToString(i)) == Ok(i as real)
  {
    var n: nat := if i < 0 then -i else i;
    var w := NatToString(n);
    var v := n as real;
    assert IntToString(i) == SignText(i < 0) + w by { IntToStringParts(i); }
    assert ParseFloat(SignText(i < 0) + w) == Ok(if i < 0 then -v else v) by {
      NatToStringRoundTrip(n);
      ParseFloatDigits(i < 0, w, v);
    }
    assert (if i < 0 then -v else v) == i as real;
  }

  /**
   * Python `str(x)` of a float, written in decimal: '-' when it is negative, the digits
   * of its integer part, '.', then up to 17 digits of its fraction.
   */
  function RealToString(d: real): string
  {
    var mag := if d < 0.0 then -d else d;
    var whole: nat := mag.Floor;
    DecimalText(d < 0.0, NatToString(whole), FractionDigits(mag - whole as real, 17))
  }

  /** A sign, the digits `w` of an integer part, '.', and the fraction digits `f`. */
  function DecimalText(neg: bool, w: string, f: string): string
  {
    SignText(neg) + (w + "." + f)
  }

  /** Up to `n` decimal digits of a fraction in [0, 1); always at least one. */
  function FractionDigits(frac: real, n: nat): (r: string)
    requires 0.0 <= frac < 1.0
    ensures |r| >= 1
    decreases n
  {
    var scaled := frac * 10.0;
    var digit := scaled.Floor;
    var rest := scaled - digit as real;
    if n <= 1 || rest == 0.0 then [Digit(digit)]
    else [Digit(digit)] + FractionDigits(rest, n - 1)
  }

  /** A negative float is written as '-' and the text of its magnitude: -2.5 is "-2.5". */
  lemma NegativeFloatText()
    ensures RealToString(-2.5) == "-2.5"
  {
    assert FractionDigits(0.5, 17) == "5";
    assert NatToString(2) == "2";
  }

  /** The '.' in the text of a float comes just after the sign and the integer digits. */
  lemma PointInText(neg: bool, w: string, f: string)
    ensures |SignText(neg)| + |w| < |DecimalText(neg, w, f)|
    ensures DecimalText(neg, w, f)[|SignText(neg)| + |w|] == '.'
  {
    var rest := w + "." + f;
    assert rest[|w|] == '.';
  }

  /** The text of a float holds a '.', so `int()` refuses it. */
  lemma RealToStringHasPoint(d: real)
    ensures ParseInt(RealToString(d)).Err?
  {
    var mag := if d < 0.0 then -d else d;
    var whole: nat := mag.Floor;
    var neg, w := d < 0.0, NatToString(whole);
    var k := |SignText(neg)| + |w|;
    assert k < |RealToString(d)| && RealToString(d)[k] == '.' by {
      PointInText(neg, w, FractionDigits(mag - whole as real, 17));
    }
    ParseIntRejectsPoint(RealToString(d), k);
  }

  /** One tenth to the power `n`. */
  function Pow10Inverse(n: nat): (r: real)
    ensures r > 0.0
  {
    if n == 0 then 1.0 else Pow10Inverse(n - 1) / 10.0
  }

  /** The character `Digit(d)` stands for `d`. */
  lemma DigitChar(d: nat)
    requires d < 10
    ensures '0' <= Digit(d) <= '9' && (Digit(d) as int - '0' as int) == d
  {
  }

  /** Digits after a point stand for a value in [0, 1): at most one unit of their last place below 1. */
  lemma {:induction false} FractionValueRange(f: string)
    requires AllDigits(f)
    ensures 0.0 <= FractionValue(f) <= 1.0 - Pow10Inverse(|f|)
    decreases |f|
  {
    if f != [] {
      assert AllDigits(f[1..]);
      FractionValueRange(f[1..]);
    }
  }

  /**
   * The digits of a fraction are the fraction truncated to their number of places, and
   * they are the exact fraction when they stop before `n` places.
   */
  lemma {:induction false} FractionDigitsValue(frac: real, n: nat, f: string)
    requires 0.0 <= frac < 1.0 && n >= 1 && f == FractionDigits(frac, n)
    ensures AllDigits(f) && 1 <= |f| <= n
    ensures FractionValue(f) <= frac < FractionValue(f) + Pow10Inverse(|f|)
    ensures |f| < n ==> FractionValue(f) == frac
    decreases n
  {
    var digit := (frac * 10.0).Floor;
    var rest := frac * 10.0 - digit as real;
    FractionDigitsHead(frac, n, digit, rest);
    var t := f[1..];
    if n > 1 && rest != 0.0 {
      FractionDigitsValue(rest, n - 1, t);
    } else {
      assert t == [];
    }
    assert AllDigits(f) && FractionValue(f) == (digit as real + FractionValue(t)) / 10.0 by {
      assert forall k :: 1 <= k < |f| ==> f[k] == t[k - 1];
    }
    assert Pow10Inverse(|f|) == Pow10Inverse(|t|) / 10.0;
  }

  /** Ten times the value of fraction digits: the first digit, plus the value of the rest. */
  lemma FirstFractionDigit(g: string)
    requires AllDigits(g) && g != []
    ensures AllDigits(g[1..])
    ensures var g0 := g[0] as int - '0' as int;
      0 <= g0 < 10 && (FractionValue(g) * 10.0).Floor == g0
      && FractionValue(g) * 10.0 - g0 as real == FractionValue(g[1..])
  {
    assert AllDigits(g[1..]);
    FractionValueRange(g[1..]);
  }

  /** The first digit `FractionDigits` writes, and what it writes after it. */
  lemma FractionDigitsHead(frac: real, n: nat, digit: int, rest: real)
    requires 0.0 <= frac < 1.0 && digit == (frac * 10.0).Floor && rest == frac * 10.0 - digit as real
    ensures var f := FractionDigits(frac, n);
      0 <= digit < 10 && '0' <= f[0] <= '9' && f[0] as int - '0' as int == digit
      && 0.0 <= rest < 1.0
      && f[1..] == (if n <= 1 || rest == 0.0 then [] else FractionDigits(rest, n - 1))
  {
    DigitChar(digit);
  }

  /** Digits that stop within `n` places are exactly what `FractionDigits` writes for their value. */
  lemma {:induction false} FractionDigitsExact(n: nat, g: string)
    requires AllDigits(g) && |g| <= n && n >= 1
    ensures 0.0 <= FractionValue(g) < 1.0
    ensures AllDigits(FractionDigits(FractionValue(g), n))
    ensures FractionValue(FractionDigits(FractionValue(g), n)) == FractionValue(g)
    decreases n, 1
  {
    FractionValueRange(g);
    var frac := FractionValue(g);
    var digit := (frac * 10.0).Floor;
    var rest := frac * 10.0 - digit as real;
    FractionDigitsHead(frac, n, digit, rest);
    ExactTail(n, g, frac, digit, rest);
    FractionRecombine(frac, FractionDigits(frac, n), digit, rest);
  }

  /** After the first digit of exact fraction digits, `FractionDigits` writes the rest of them. */
  lemma {:induction false} ExactTail(n: nat, g: string, frac: real, digit: int, rest: real)
    requires AllDigits(g) && |g| <= n && n >= 1 && frac == FractionValue(g) && 0.0 <= frac < 1.0
    requires digit == (frac * 10.0).Floor && rest == frac * 10.0 - digit as real
    ensures 0.0 <= rest < 1.0
    ensures var t := if n <= 1 || rest == 0.0 then [] else FractionDigits(rest, n - 1);
      AllDigits(t) && FractionValue(t) == rest
    decreases n, 0
  {
    if g == [] {
      assert digit == 0 && rest == 0.0;
    } else {
      FirstFractionDigit(g);
      var g' := g[1..];
      assert rest == FractionValue(g');
      if n > 1 && rest != 0.0 {
        FractionDigitsExact(n - 1, g');
        assert FractionDigits(rest, n - 1) == FractionDigits(FractionValue(g'), n - 1);
      } else if n <= 1 {
        assert g' == [];
      }
    }
  }

  /** Fraction digits whose first digit and remaining value match `frac` have the value `frac`. */
  lemma FractionRecombine(frac: real, f: string, digit: int, rest: real)
    requires f != [] && '0' <= f[0] <= '9' && f[0] as int - '0' as int == digit
    requires AllDigits(f[1..]) && FractionValue(f[1..]) == rest
    requires rest == frac * 10.0 - digit as real
    ensures AllDigits(f) && FractionValue(f) == frac
  {
    assert forall k :: 1 <= k < |f| ==> f[k] == f[1..][k - 1];
  }

  /** The text of a float reads back as its integer part plus the value of its fraction digits. */
  lemma FloatTextValue(d: real, f: string, x: real, v: real)
    requires var mag := if d < 0.0 then -d else d;
      f == FractionDigits(mag - mag.Floor as real, 17) && AllDigits(f) && x == mag.Floor as real + FractionValue(f)
    requires v == if d < 0.0 then -x else x
    ensures ParseFloat(RealToString(d)) == Ok(v)
  {
    var mag := if d < 0.0 then -d else d;
    var w := NatToString(mag.Floor);
    FloatTextParts(d, w, f);
    WholeAndFraction(mag.Floor, w, f, x);
    ParseFloatDecimal(d < 0.0, w, f, x, RealToString(d), v);
  }

  /** The text of a float is its sign, the digits of its integer part, '.', and its fraction digits. */
  lemma FloatTextParts(d: real, w: string, f: string)
    requires var mag := if d < 0.0 then -d else d;
      w == NatToString(mag.Floor) && f == FractionDigits(mag - mag.Floor as real, 17)
    ensures RealToString(d) == DecimalText(d < 0.0, w, f)
  {
  }

  /** The digits of a whole number, '.', and fraction digits have the value of the number plus the fraction. */
  lemma WholeAndFraction(whole: nat, w: string, f: string, x: real)
    requires w == NatToString(whole) && AllDigits(f) && x == whole as real + FractionValue(f)
    ensures DecimalValue(w, f, x)
  {
    NatToStringRoundTrip(whole);
  }

  /**
   * `float(str(x))` for a float `x`: the text reads back as `x` truncated toward zero,
   * less than one unit of the 17th decimal place away.
   */
  lemma FloatTextReadsBack(d: real)
    ensures ParseFloat(RealToString(d)).Ok?
    ensures var v := ParseFloat(RealToString(d)).value;
      (d >= 0.0 ==> 0.0 <= d - v < Pow10Inverse(17)) && (d < 0.0 ==> 0.0 <= v - d < Pow10Inverse(17))
  {
    var mag := if d < 0.0 then -d else d;
    var frac := mag - mag.Floor as real;
    var f := FractionDigits(frac, 17);
    FractionDigitsValue(frac, 17, f);
    var x := mag.Floor as real + FractionValue(f);
    FloatTextValue(d, f, x, if d < 0.0 then -x else x);
    assert 0.0 <= mag - x < Pow10Inverse(17) by {
      if |f| < 17 {
        assert FractionValue(f) == frac;
      }
    }
  }

  /** A float whose fraction is written by at most 17 digits reads back exactly. */
  lemma FloatTextExact(d: real, g: string)
    requires AllDigits(g) && |g| <= 17
    requires var mag := if d < 0.0 then -d else d; mag - mag.Floor as real == FractionValue(g)
    ensures ParseFloat(RealToString(d)) == Ok(d)
  {
    var mag := if d < 0.0 then -d else d;
    var frac := mag - mag.Floor as real;
    var f := FractionDigits(frac, 17);
    ExactFractionDigits(frac, g, f);
    FloatTextValue(d, f, mag, d);
  }

  /** The 17 fraction digits of a fraction written by at most 17 digits give it back. */
  lemma ExactFractionDigits(frac: real, g: string, f: string)
    requires AllDigits(g) && |g| <= 17 && frac == FractionValue(g) && 0.0 <= frac < 1.0
    requires f == FractionDigits(frac, 17)
    ensures AllDigits(f) && FractionValue(f) == frac
  {
    FractionDigitsExact(17, g);
  }
}

=== FILE: persistence.dfy ===
/**
 * Saving the scene as RDF triples (`save_to_turtle`) and loading a design back from a
 * graph (`import_from_graph`).
 *
 * The graph is the set of triples before serialisation; writing and parsing Turtle text
 * are not part of this model. A blank node, to which rdflib gives a random identifier,
 * here gets one derived from the item it describes. Where the source iterates over a
 * graph or asks `g.value` for one object of several, the model picks any of them, so
 * every contract holds whatever order rdflib uses.
 */
module Persistence {
  import opened Wrappers
  import opened Strings
  import opened Rdf
  import opened Items
  import Model
  import Config

  // ---------------------------------------------------------------------------
  // The layout vocabulary

  const CONNECTION: Term := Design("Connection")
  const HAS_POSITION: Term := Design("hasPosition")
  const X: Term := Design("x")
  const Y: Term := Design("y")
  const ROTATION: Term := Design("rotation")
  const SOURCE_ENTITY: Term := Design("sourceEntity")
  const TARGET_ENTITY: Term := Design("targetEntity")
  const RELATIONSHIP_TYPE: Term := Design("relationshipType")
  const COLOR: Term := Design("color")
  const RED: Term := Design("red")
  const GREEN: Term := Design("green")
  const BLUE: Term := Design("blue")
  const LINE_STYLE: Term := Design("lineStyle")
  const LINE_WIDTH: Term := Design("lineWidth")
  const HAS_JOINT: Term := Design("hasJoint")
  const JOINT_INDEX: Term := Design("jointIndex")

  /** A term of the layout vocabulary keeps its local name after the namespace. */
  lemma DesignLocal(a: string)
    ensures Design(a).Iri? && Design(a).iri[|Config.DESIGN_NS|..] == a
  {
  }

  /** The predicates of a `Connection` record are none of the other predicates the export writes. */
  lemma RecordPredicates(p: Term)
    requires p == SOURCE_ENTITY || p == TARGET_ENTITY || p == RELATIONSHIP_TYPE
    ensures p !in {RDF_TYPE, HAS_POSITION, X, Y, ROTATION, RDFS_LABEL, COLOR, RED, GREEN, BLUE, LINE_STYLE, LINE_WIDTH, HAS_JOINT, JOINT_INDEX}
    ensures p !in RELATIONSHIPS
  {
    DesignLocal("sourceEntity");
    DesignLocal("targetEntity");
    DesignLocal("relationshipType");
    DesignLocal("jointIndex");
    DesignLocal("hasPosition");
    DesignLocal("rotation");
    DesignLocal("color");
    DesignLocal("lineStyle");
    DesignLocal("lineWidth");
    DesignLocal("hasJoint");
    assert RDFS_LABEL.iri[7] == 'w' && RELATIONSHIP_TYPE.iri[7] == 'e';
  }

  /** `jointIndex` is none of the other predicates the export writes. */
  lemma JointIndexPredicate()
    ensures JOINT_INDEX !in {RDF_TYPE, HAS_POSITION, X, Y, ROTATION, RDFS_LABEL, SOURCE_ENTITY, TARGET_ENTITY, RELATIONSHIP_TYPE,
      COLOR, RED, GREEN, BLUE, LINE_STYLE, LINE_WIDTH, HAS_JOINT}
    ensures JOINT_INDEX !in RELATIONSHIPS
  {
    DesignLocal("jointIndex");
    DesignLocal("hasPosition");
    DesignLocal("lineStyle");
    DesignLocal("lineWidth");
  }

  /** `rdfs:label` is none of the other predicates the export writes. */
  lemma LabelPredicate()
    ensures RDFS_LABEL !in {RDF_TYPE, SOURCE_ENTITY, TARGET_ENTITY, RELATIONSHIP_TYPE, COLOR, RED, GREEN, BLUE, LINE_STYLE, LINE_WIDTH,
      HAS_JOINT, JOINT_INDEX, X, Y}
    ensures RDFS_LABEL !in RELATIONSHIPS
  {
    assert RDFS_LABEL.iri[7] == 'w' && RELATIONSHIP_TYPE.iri[7] == 'e';
  }

  /** `Literal(float(v))`: rdflib types a Python float as `xsd:double`. */
  function DoubleLit(v: real): Term
  {
    Lit(Double(v), XSD_DOUBLE)
  }

  /** `Literal(float(v), datatype=XSD.float)`. */
  function FloatLit(v: real): Term
  {
    Lit(Double(v), XSD_FLOAT)
  }

  /** `Literal(s, datatype=XSD.string)`. */
  function StringLit(s: string): Term
  {
    Lit(Text(s), XSD_STRING)
  }

  /** The blank node holding the position of entity `e`. */
  function PositionNode(e: nat): Term
  {
    Blank("p" + NatToString(e))
  }

  /** The blank node holding the colour of connection `c`. */
  function ColorNode(c: nat): Term
  {
    Blank("c" + NatToString(c))
  }

  /** The blank node of joint `i` of connection `c`. */
  function JointNode(c: nat, i: nat): Term
  {
    Blank("j" + NatToString(c) + "_" + NatToString(i))
  }

  // ---------------------------------------------------------------------------
  // Export

  /**
   * The triples of an entity in the scene: its type, a position node with x and y, its
   * rotation as an `xsd:integer`, and its label only when the label is not empty.
   */
  function EntityTriples(x: Entity, e: nat): set<Triple>
  {
    {Triple(x.uri, RDF_TYPE, Iri(x.etype.uri)),
     Triple(x.uri, HAS_POSITION, PositionNode(e)),
     Triple(PositionNode(e), X, DoubleLit(x.pos.x)),
     Triple(PositionNode(e), Y, DoubleLit(x.pos.y)),
     Triple(x.uri, ROTATION, IntLit(x.rotation))}
    + (if x.labelText != "" then {Triple(x.uri, RDFS_LABEL, StringLit(x.labelText))} else {})
  }

  /** The node of joint `i`, `j`, of a connection with URI `u`: linked from `u`, holding index `i` and `j`'s position. */
  function JointNodeTriples(u: Term, c: nat, i: nat, j: Joint): set<Triple>
  {
    {Triple(u, HAS_JOINT, JointNode(c, i)),
     Triple(JointNode(c, i), JOINT_INDEX, IntLit(i)),
     Triple(JointNode(c, i), X, FloatLit(j.pos.x)),
     Triple(JointNode(c, i), Y, FloatLit(j.pos.y))}
  }

  /** The joint nodes of a connection with URI `u`, numbered in list order. */
  function JointTriples(u: Term, c: nat, js: seq<Joint>): set<Triple>
  {
    set i, t | 0 <= i < |js| && t in JointNodeTriples(u, c, i, js[i]) :: t
  }

  /** The `Connection` record of a connection from `su` to `tu`: its type, its ends and its relationship type as a plain literal. */
  function RecordTriples(x: Connection, su: Term, tu: Term): set<Triple>
  {
    {Triple(x.uri, RDF_TYPE, CONNECTION),
     Triple(x.uri, SOURCE_ENTITY, su),
     Triple(x.uri, TARGET_ENTITY, tu),
     Triple(x.uri, RELATIONSHIP_TYPE, Lit(Text(Str(x.relType)), ""))}
  }

  /** The pen of a connection: a colour node with red, green and blue, the line style and the line width. */
  function PenTriples(x: Connection, c: nat): set<Triple>
  {
    {Triple(x.uri, COLOR, ColorNode(c)),
     Triple(ColorNode(c), RED, IntLit(x.pen.color.red)),
     Triple(ColorNode(c), GREEN, IntLit(x.pen.color.green)),
     Triple(ColorNode(c), BLUE, IntLit(x.pen.color.blue)),
     Triple(x.uri, LINE_STYLE, IntLit(x.pen.style)),
     Triple(x.uri, LINE_WIDTH, IntLit(x.pen.width))}
  }

  /**
   * The triples of a connection from the entity with URI `su` to the one with URI `tu`:
   * the relationship itself, then the `Connection` record, the pen and the joints.
   */
  function ConnectionTriples(x: Connection, c: nat, su: Term, tu: Term): set<Triple>
  {
    {Triple(su, x.relType, tu)} + RecordTriples(x, su, tu) + PenTriples(x, c) + JointTriples(x.uri, c, x.joints)
  }

  /**
   * A connection `save_to_turtle` writes: it is in the scene, has both ports, and the
   * instance URIs of both end entities are true.
   */
  predicate Exports(es: map<nat, Entity>, x: Connection)
  {
    x.inScene && x.source.Some? && x.target.Some? && x.source.value in es && x.target.value in es
    && Truthy(es[x.source.value].uri) && Truthy(es[x.target.value].uri)
  }

  /** The triples of the written connection `c`. */
  function ExportOf(es: map<nat, Entity>, cs: map<nat, Connection>, c: nat): set<Triple>
    requires c in cs && Exports(es, cs[c])
  {
    ConnectionTriples(cs[c], c, es[cs[c].source.value].uri, es[cs[c].target.value].uri)
  }

  /** The triples of the entities among `ids` that are in the scene. */
  function EntityPart(es: map<nat, Entity>, ids: set<nat>): set<Triple>
  {
    set e, t | e in ids && e in es && es[e].inScene && t in EntityTriples(es[e], e) :: t
  }

  /** The triples of the written connections among `ids`. */
  function ConnectionPart(es: map<nat, Entity>, cs: map<nat, Connection>, ids: set<nat>): set<Triple>
  {
    set c, t | c in ids && c in cs && Exports(es, cs[c]) && t in ExportOf(es, cs, c) :: t
  }

  /** The graph `save_to_turtle` writes for a scene. */
  function Exported(es: map<nat, Entity>, cs: map<nat, Connection>): set<Triple>
  {
    EntityPart(es, es.Keys) + ConnectionPart(es, cs, cs.Keys)
  }

  lemma EntityPartStep(es: map<nat, Entity>, ids: set<nat>, e: nat)
    requires e in es
    ensures EntityPart(es, ids + {e}) == EntityPart(es, ids) + (if es[e].inScene then EntityTriples(es[e], e) else {})
  {
  }

  lemma ConnectionPartStep(es: map<nat, Entity>, cs: map<nat, Connection>, ids: set<nat>, c: nat)
    requires c in cs
    ensures ConnectionPart(es, cs, ids + {c}) == ConnectionPart(es, cs, ids) + (if Exports(es, cs[c]) then ExportOf(es, cs, c) else {})
  {
  }

  /** The joint loop of `save_to_turtle`: one node per joint, numbered in list order. */
  method ExportJoints(g: set<Triple>, u: Term, c: nat, js: seq<Joint>) returns (r: set<Triple>)
    ensures r == g + JointTriples(u, c, js)
  {
    r := g;
    var i := 0;
    while i < |js|
      invariant 0 <= i <= |js|
      invariant r == g + JointTriples(u, c, js[..i])
    {
      var n := JointNode(c, i);
      r := r + {Triple(u, HAS_JOINT, n), Triple(n, JOINT_INDEX, IntLit(i)),
                Triple(n, X, FloatLit(js[i].pos.x)), Triple(n, Y, FloatLit(js[i].pos.y))};
      JointTriplesStep(u, c, js, i);
      i := i + 1;
    }
    assert js[..i] == js;
  }

  lemma JointTriplesStep(u: Term, c: nat, js: seq<Joint>, i: nat)
    requires i < |js|
    ensures JointTriples(u, c, js[..i + 1]) == JointTriples(u, c, js[..i]) + JointNodeTriples(u, c, i, js[i])
  {
    var a := js[..i + 1];
    var b := js[..i];
    forall t | t in JointTriples(u, c, a)
      ensures t in JointTriples(u, c, b) + JointNodeTriples(u, c, i, js[i])
    {
      var k :| 0 <= k < |a| && t in JointNodeTriples(u, c, k, a[k]);
      if k < i {
        assert a[k] == b[k];
      }
    }
    forall t | t in JointTriples(u, c, b) + JointNodeTriples(u, c, i, js[i])
      ensures t in JointTriples(u, c, a)
    {
      if t in JointTriples(u, c, b) {
        var k :| 0 <= k < |b| && t in JointNodeTriples(u, c, k, b[k]);
        assert a[k] == b[k];
      } else {
        assert a[i] == js[i];
      }
    }
  }

  /** The triples `save_to_turtle` adds for one written connection. */
  method ExportConnection(g: set<Triple>, x: Connection, c: nat, su: Term, tu: Term) returns (r: set<Triple>)
    ensures r == g + ConnectionTriples(x, c, su, tu)
  {
    r := g + {Triple(su, x.relType, tu)};
    r := r + {Triple(x.uri, RDF_TYPE, CONNECTION),
              Triple(x.uri, SOURCE_ENTITY, su),
              Triple(x.uri, TARGET_ENTITY, tu),
              Triple(x.uri, RELATIONSHIP_TYPE, Lit(Text(Str(x.relType)), ""))};
    r := r + {Triple(x.uri, COLOR, ColorNode(c)),
              Triple(ColorNode(c), RED, IntLit(x.pen.color.red)),
              Triple(ColorNode(c), GREEN, IntLit(x.pen.color.green)),
              Triple(ColorNode(c), BLUE, IntLit(x.pen.color.blue)),
              Triple(x.uri, LINE_STYLE, IntLit(x.pen.style)),
              Triple(x.uri, LINE_WIDTH, IntLit(x.pen.width))};
    r := ExportJoints(r, x.uri, c, x.joints);
  }

  /** The entity loop of `save_to_turtle`. */
  method ExportEntities(es: map<nat, Entity>) returns (g: set<Triple>)
    ensures g == EntityPart(es, es.Keys)
  {
    g := {};
    var todo := es.Keys;
    ghost var done := {};
    while todo != {}
      invariant done + todo == es.Keys
      invariant g == EntityPart(es, done)
      decreases |todo|
    {
      var e :| e in todo;
      EntityPartStep(es, done, e);
      if es[e].inScene {
        g := g + EntityTriples(es[e], e);
      }
      done := done + {e};
      todo := todo - {e};
    }
  }

  /** One turn of the connection loop of `save_to_turtle`: connection `c` is written if it qualifies. */
  method ExportConnectionStep(r: set<Triple>, ghost g: set<Triple>, es: map<nat, Entity>, cs: map<nat, Connection>,
                              ghost done: set<nat>, c: nat) returns (r': set<Triple>)
    requires c in cs && r == g + ConnectionPart(es, cs, done)
    ensures r' == g + ConnectionPart(es, cs, done + {c})
  {
    ConnectionPartStep(es, cs, done, c);
    var x := cs[c];
    r' := r;
    if Exports(es, x) {
      r' := ExportConnection(r, x, c, es[x.source.value].uri, es[x.target.value].uri);
    }
  }

  /** The connection loop of `save_to_turtle`: only the connections it writes contribute. */
  method ExportConnections(g: set<Triple>, es: map<nat, Entity>, cs: map<nat, Connection>) returns (r: set<Triple>)
    ensures r == g + ConnectionPart(es, cs, cs.Keys)
  {
    r := g;
    var todo := cs.Keys;
    ghost var done := {};
    while todo != {}
      invariant done + todo == cs.Keys
      invariant r == g + ConnectionPart(es, cs, done)
      decreases |todo|
    {
      var c :| c in todo;
      r := ExportConnectionStep(r, g, es, cs, done, c);
      done := done + {c};
      todo := todo - {c};
    }
  }

  /** `save_to_turtle`: the triples of every entity in the scene, then of every written connection. */
  method SaveToTurtle(scene: Scene) returns (g: set<Triple>)
    ensures g == Exported(scene.entities, scene.conns)
  {
    g := ExportEntities(scene.entities);
    g := ExportConnections(g, scene.entities, scene.conns);
  }

  // ---------------------------------------------------------------------------
  // What the written graph holds

  /** Every connection's relationship type is one of the relationship table's. */
  predicate TypedFromTable(cs: map<nat, Connection>)
  {
    forall c :: c in cs ==> cs[c].relType in RELATIONSHIPS
  }

  /** No two written connections share an instance URI. */
  predicate DistinctConnectionUris(es: map<nat, Entity>, cs: map<nat, Connection>)
  {
    forall c, d :: c in cs && d in cs && Exports(es, cs[c]) && Exports(es, cs[d]) && cs[c].uri == cs[d].uri ==> c == d
  }

  /**
   * A written connection puts both its records in the graph: the relationship triple between
   * the URIs of its ends, and the `Connection` record naming the same ends and type; and for
   * each joint `i` a node linked from the connection with index `i` and the joint's position.
   */
  lemma ExportWritesBothRecords(es: map<nat, Entity>, cs: map<nat, Connection>, c: nat)
    requires c in cs && Exports(es, cs[c])
    ensures var x := cs[c];
      var su := es[x.source.value].uri;
      var tu := es[x.target.value].uri;
      var g := Exported(es, cs);
      && Triple(su, x.relType, tu) in g
      && RecordTriples(x, su, tu) <= g
      && forall i :: 0 <= i < |x.joints| ==> JointNodeTriples(x.uri, c, i, x.joints[i]) <= g
  {
    var x := cs[c];
    assert ExportOf(es, cs, c) <= ConnectionPart(es, cs, cs.Keys);
    forall i | 0 <= i < |x.joints|
      ensures JointNodeTriples(x.uri, c, i, x.joints[i]) <= JointTriples(x.uri, c, x.joints)
    {
    }
  }

  /** The `Connection` record of a written connection. */
  function RecordOf(es: map<nat, Entity>, x: Connection): set<Triple>
    requires Exports(es, x)
  {
    RecordTriples(x, es[x.source.value].uri, es[x.target.value].uri)
  }

  /** Every triple of the written graph comes from an entity in the scene or from a written connection. */
  lemma ExportedFrom(es: map<nat, Entity>, cs: map<nat, Connection>, t: Triple)
    requires t in Exported(es, cs)
    ensures || (exists e :: e in es && es[e].inScene && t in EntityTriples(es[e], e))
            || (exists c :: c in cs && Exports(es, cs[c]) && t in ExportOf(es, cs, c))
  {
  }

  /** The predicates of an entity's triples. */
  lemma EntityTriplePredicate(x: Entity, e: nat, t: Triple)
    requires t in EntityTriples(x, e)
    ensures t.p in {RDF_TYPE, HAS_POSITION, X, Y, ROTATION, RDFS_LABEL}
    ensures t.p == RDFS_LABEL ==> t == Triple(x.uri, RDFS_LABEL, StringLit(x.labelText)) && x.labelText != ""
  {
    LabelPredicate();
  }

  /** The predicates of a joint node's triples; its `jointIndex` is its own position. */
  lemma JointTriplePredicate(u: Term, c: nat, js: seq<Joint>, t: Triple)
    requires t in JointTriples(u, c, js)
    ensures t.p in {HAS_JOINT, JOINT_INDEX, X, Y}
    ensures t.p == JOINT_INDEX ==> exists i :: 0 <= i < |js| && t == Triple(JointNode(c, i), JOINT_INDEX, IntLit(i))
  {
    var i :| 0 <= i < |js| && t in JointNodeTriples(u, c, i, js[i]);
    JointIndexPredicate();
  }

  /** Each triple of a connection is its relationship triple, a record triple, a pen triple or a joint triple. */
  lemma ConnectionTriplePart(x: Connection, c: nat, su: Term, tu: Term, t: Triple)
    requires t in ConnectionTriples(x, c, su, tu)
    ensures || t == Triple(su, x.relType, tu)
            || t in RecordTriples(x, su, tu)
            || t.p in {COLOR, RED, GREEN, BLUE, LINE_STYLE, LINE_WIDTH}
            || t in JointTriples(x.uri, c, x.joints)
  {
  }

  /** Each predicate of a `Connection` record has one object: the source, the target, the relationship type. */
  lemma RecordTripleObject(x: Connection, su: Term, tu: Term, t: Triple)
    requires t in RecordTriples(x, su, tu)
    ensures t.s == x.uri
    ensures t.p == SOURCE_ENTITY ==> t.o == su
    ensures t.p == TARGET_ENTITY ==> t.o == tu
    ensures t.p == RELATIONSHIP_TYPE ==> t.o == Lit(Text(Str(x.relType)), "")
  {
    RecordPredicates(SOURCE_ENTITY);
    RecordPredicates(TARGET_ENTITY);
    DesignLocal("sourceEntity");
    DesignLocal("targetEntity");
  }

  /** A triple whose predicate belongs to the record is a triple of a written connection's record. */
  lemma RecordTripleFrom(es: map<nat, Entity>, cs: map<nat, Connection>, t: Triple)
    requires TypedFromTable(cs) && t in Exported(es, cs)
    requires t.p == SOURCE_ENTITY || t.p == TARGET_ENTITY || t.p == RELATIONSHIP_TYPE
    ensures exists c :: c in cs && Exports(es, cs[c]) && t.s == cs[c].uri && t in RecordOf(es, cs[c])
  {
    RecordPredicates(t.p);
    ConnectionTripleFrom(es, cs, t);
    var c :| c in cs && Exports(es, cs[c]) && t in ExportOf(es, cs, c);
    var x := cs[c];
    ConnectionRecordTriple(x, c, es[x.source.value].uri, es[x.target.value].uri, t);
    RecordTripleObject(x, es[x.source.value].uri, es[x.target.value].uri, t);
  }

  /** A triple of a connection whose predicate belongs to the record is one of its record's. */
  lemma ConnectionRecordTriple(x: Connection, c: nat, su: Term, tu: Term, t: Triple)
    requires t in ConnectionTriples(x, c, su, tu) && x.relType in RELATIONSHIPS
    requires t.p == SOURCE_ENTITY || t.p == TARGET_ENTITY || t.p == RELATIONSHIP_TYPE
    ensures t in RecordTriples(x, su, tu)
  {
    RecordPredicates(t.p);
    ConnectionTriplePart(x, c, su, tu, t);
    if t in JointTriples(x.uri, c, x.joints) {
      JointTriplePredicate(x.uri, c, x.joints, t);
      assert false;
    }
  }

  /**
   * Both records together: a `Connection` record in the written graph belongs to a written
   * connection, and the relationship triple between the same ends is in the graph too.
   */
  lemma ExportedRecordHasRelationship(es: map<nat, Entity>, cs: map<nat, Connection>, u: Term, s: Term)
    requires TypedFromTable(cs) && Triple(u, SOURCE_ENTITY, s) in Exported(es, cs)
    ensures exists c ::
              (c in cs && Exports(es, cs[c]) && cs[c].uri == u && es[cs[c].source.value].uri == s
               && Triple(s, cs[c].relType, es[cs[c].target.value].uri) in Exported(es, cs))
  {
    RecordTripleFrom(es, cs, Triple(u, SOURCE_ENTITY, s));
    var c :| c in cs && Exports(es, cs[c]) && u == cs[c].uri && Triple(u, SOURCE_ENTITY, s) in RecordOf(es, cs[c]);
    var x := cs[c];
    RecordTripleObject(x, es[x.source.value].uri, es[x.target.value].uri, Triple(u, SOURCE_ENTITY, s));
    ExportWritesBothRecords(es, cs, c);
    assert Triple(s, x.relType, es[x.target.value].uri) in Exported(es, cs);
  }

  /** A triple of the written graph whose predicate no entity uses comes from a written connection. */
  lemma ConnectionTripleFrom(es: map<nat, Entity>, cs: map<nat, Connection>, t: Triple)
    requires t in Exported(es, cs) && t.p !in {RDF_TYPE, HAS_POSITION, X, Y, ROTATION, RDFS_LABEL}
    ensures exists c :: c in cs && Exports(es, cs[c]) && t in ExportOf(es, cs, c)
  {
    ExportedFrom(es, cs, t);
    if e :| e in es && es[e].inScene && t in EntityTriples(es[e], e) {
      EntityTriplePredicate(es[e], e, t);
      assert false;
    }
  }

  /** A `jointIndex` triple of a connection with a relationship type from the table is the index triple of one of its joints. */
  lemma ConnectionJointIndex(x: Connection, c: nat, su: Term, tu: Term, t: Triple)
    requires t in ConnectionTriples(x, c, su, tu) && x.relType in RELATIONSHIPS && t.p == JOINT_INDEX
    ensures exists i :: 0 <= i < |x.joints| && t == Triple(JointNode(c, i), JOINT_INDEX, IntLit(i))
  {
    JointIndexPredicate();
    ConnectionTriplePart(x, c, su, tu, t);
    assert t !in RecordTriples(x, su, tu);
    JointTriplePredicate(x.uri, c, x.joints, t);
  }

  /** A `jointIndex` triple of the written graph is the index triple of a joint of a written connection. */
  lemma JointIndexFrom(es: map<nat, Entity>, cs: map<nat, Connection>, t: Triple)
    requires TypedFromTable(cs) && t in Exported(es, cs) && t.p == JOINT_INDEX
    ensures exists c, i :: c in cs && Exports(es, cs[c]) && 0 <= i < |cs[c].joints| && t == Triple(JointNode(c, i), JOINT_INDEX, IntLit(i))
  {
    JointIndexPredicate();
    ConnectionTripleFrom(es, cs, t);
    var c :| c in cs && Exports(es, cs[c]) && t in ExportOf(es, cs, c);
    var x := cs[c];
    ConnectionJointIndex(x, c, es[x.source.value].uri, es[x.target.value].uri, t);
    var i :| 0 <= i < |x.joints| && t == Triple(JointNode(c, i), JOINT_INDEX, IntLit(i));
    assert c in cs && Exports(es, cs[c]) && 0 <= i < |cs[c].joints| && t == Triple(JointNode(c, i), JOINT_INDEX, IntLit(i));
  }

  /** Every `jointIndex` in the written graph is the position `i` of joint `i` of a written connection, and that connection links its node. */
  lemma ExportedJointIndexes(es: map<nat, Entity>, cs: map<nat, Connection>, n: Term, v: Term)
    requires TypedFromTable(cs) && Triple(n, JOINT_INDEX, v) in Exported(es, cs)
    ensures exists c, i ::
              (c in cs && Exports(es, cs[c]) && 0 <= i < |cs[c].joints|
               && n == JointNode(c, i) && v == IntLit(i) && Triple(cs[c].uri, HAS_JOINT, n) in Exported(es, cs))
  {
    JointIndexFrom(es, cs, Triple(n, JOINT_INDEX, v));
    var c, i :| c in cs && Exports(es, cs[c]) && 0 <= i < |cs[c].joints| && Triple(n, JOINT_INDEX, v) == Triple(JointNode(c, i), JOINT_INDEX, IntLit(i));
    var x := cs[c];
    ExportWritesBothRecords(es, cs, c);
    assert Triple(x.uri, HAS_JOINT, n) in JointNodeTriples(x.uri, c, i, x.joints[i]);
  }

  /** No triple of a connection whose relationship type comes from the table is a label. */
  lemma ConnectionTriplesUnlabelled(x: Connection, c: nat, su: Term, tu: Term, t: Triple)
    requires t in ConnectionTriples(x, c, su, tu) && x.relType in RELATIONSHIPS
    ensures t.p != RDFS_LABEL
  {
    LabelPredicate();
    ConnectionTriplePart(x, c, su, tu, t);
    if t in JointTriples(x.uri, c, x.joints) {
      JointTriplePredicate(x.uri, c, x.joints, t);
    }
  }

  /** A label triple is written exactly for an entity in the scene whose label is not empty. */
  lemma ExportedLabels(es: map<nat, Entity>, cs: map<nat, Connection>, s: Term, l: Term)
    requires TypedFromTable(cs)
    ensures Triple(s, RDFS_LABEL, l) in Exported(es, cs)
      <==> (exists e :: e in es && es[e].inScene && es[e].uri == s && es[e].labelText != "" && l == StringLit(es[e].labelText))
  {
    var t := Triple(s, RDFS_LABEL, l);
    if t in Exported(es, cs) {
      LabelPredicate();
      ExportedFrom(es, cs, t);
      if c :| c in cs && Exports(es, cs[c]) && t in ExportOf(es, cs, c) {
        var x := cs[c];
        ConnectionTriplesUnlabelled(x, c, es[x.source.value].uri, es[x.target.value].uri, t);
        assert false;
      }
      var e :| e in es && es[e].inScene && t in EntityTriples(es[e], e);
      EntityTriplePredicate(es[e], e, t);
    }
    if e :| e in es && es[e].inScene && es[e].uri == s && es[e].labelText != "" && l == StringLit(es[e].labelText) {
      assert t in EntityTriples(es[e], e);
    }
  }

  /** With distinct connection URIs, a record triple about a written connection's URI is a triple of its own record. */
  lemma RecordTripleOfOwn(es: map<nat, Entity>, cs: map<nat, Connection>, c: nat, t: Triple)
    requires TypedFromTable(cs) && DistinctConnectionUris(es, cs)
    requires c in cs && Exports(es, cs[c])
    requires t in Exported(es, cs) && t.s == cs[c].uri
    requires t.p == SOURCE_ENTITY || t.p == TARGET_ENTITY || t.p == RELATIONSHIP_TYPE
    ensures t in RecordOf(es, cs[c])
  {
    RecordTripleFrom(es, cs, t);
    var d :| d in cs && Exports(es, cs[d]) && t.s == cs[d].uri && t in RecordOf(es, cs[d]);
    assert d == c;
  }

  /** The objects under one record predicate of a written connection's URI. */
  lemma RecordObjects(es: map<nat, Entity>, cs: map<nat, Connection>, c: nat, p: Term, o: Term)
    requires TypedFromTable(cs) && DistinctConnectionUris(es, cs)
    requires c in cs && Exports(es, cs[c])
    requires p == SOURCE_ENTITY || p == TARGET_ENTITY || p == RELATIONSHIP_TYPE
    ensures var x := cs[c];
      var su := es[x.source.value].uri;
      var tu := es[x.target.value].uri;
      Triple(x.uri, p, o) in Exported(es, cs) <==> Triple(x.uri, p, o) in RecordTriples(x, su, tu)
  {
    var x := cs[c];
    var t := Triple(x.uri, p, o);
    if t in Exported(es, cs) {
      RecordTripleOfOwn(es, cs, c, t);
    }
    ExportWritesBothRecords(es, cs, c);
  }

  /** With distinct connection URIs, a record predicate of a written connection has one object in the written graph. */
  lemma RecordPredicateReadsBack(es: map<nat, Entity>, cs: map<nat, Connection>, c: nat, p: Term, v: Term)
    requires TypedFromTable(cs) && DistinctConnectionUris(es, cs)
    requires c in cs && Exports(es, cs[c])
    requires p == SOURCE_ENTITY || p == TARGET_ENTITY || p == RELATIONSHIP_TYPE
    requires Triple(cs[c].uri, p, v) in RecordOf(es, cs[c])
    ensures Objects(Exported(es, cs), cs[c].uri, p) == {v}
  {
    var x := cs[c];
    var su := es[x.source.value].uri;
    var tu := es[x.target.value].uri;
    RecordTripleObject(x, su, tu, Triple(x.uri, p, v));
    forall o ensures o in Objects(Exported(es, cs), x.uri, p) <==> o == v {
      RecordObjects(es, cs, c, p, o);
      if Triple(x.uri, p, o) in RecordTriples(x, su, tu) {
        RecordTripleObject(x, su, tu, Triple(x.uri, p, o));
      }
    }
  }

  /**
   * With distinct connection URIs, the record of a written connection reads back as written:
   * its subject is typed `Connection`, and it has exactly one source, one target and one
   * relationship type, those of the connection.
   */
  lemma ExportedRecordReadsBack(es: map<nat, Entity>, cs: map<nat, Connection>, c: nat)
    requires TypedFromTable(cs) && DistinctConnectionUris(es, cs)
    requires c in cs && Exports(es, cs[c])
    ensures var x := cs[c];
      var g := Exported(es, cs);
      && x.uri in Subjects(g, RDF_TYPE, CONNECTION)
      && Objects(g, x.uri, SOURCE_ENTITY) == {es[x.source.value].uri}
      && Objects(g, x.uri, TARGET_ENTITY) == {es[x.target.value].uri}
      && Objects(g, x.uri, RELATIONSHIP_TYPE) == {Lit(Text(Str(x.relType)), "")}
  {
    var x := cs[c];
    ExportWritesBothRecords(es, cs, c);
    RecordPredicateReadsBack(es, cs, c, SOURCE_ENTITY, es[x.source.value].uri);
    RecordPredicateReadsBack(es, cs, c, TARGET_ENTITY, es[x.target.value].uri);
    RecordPredicateReadsBack(es, cs, c, RELATIONSHIP_TYPE, Lit(Text(Str(x.relType)), ""));
  }
}

=== FILE: pymath.dfy ===
/** Python's built-in `round` on a number, returning an integer. */
module PyMath {

  /**
   * Python `round(r)`: the nearest integer, and the even one of the two when `r`
   * lies exactly half-way between them.
   */
  function Round(r: real): (n: int)
    ensures -1.0 / 2.0 <= r - n as real <= 1.0 / 2.0
    ensures (r - n as real == 1.0 / 2.0 || n as real - r == 1.0 / 2.0) ==> n % 2 == 0
  {
    var f := r.Floor;
    var d := r - f as real;
    if d < 1.0 / 2.0 then f
    else if d > 1.0 / 2.0 then f + 1
    else if f % 2 == 0 then f
    else f + 1
  }

  /** An integer is its own rounding. */
  lemma RoundOfInt(k: int)
    ensures Round(k as real) == k
  {
  }

  /**
   * `Round` is the only integer within one half of `r` that breaks ties toward even:
   * any integer closer than one half, or at one half and even, is the result.
   */
  lemma RoundUnique(r: real, k: int)
    requires -1.0 / 2.0 <= r - k as real <= 1.0 / 2.0
    requires (r - k as real == 1.0 / 2.0 || k as real - r == 1.0 / 2.0) ==> k % 2 == 0
    ensures Round(r) == k
  {
  }

  /** Adding a whole number shifts the rounding by that number when the shift is even. */
  lemma RoundShiftEven(r: real, k: int)
    requires k % 2 == 0
    ensures Round(r + k as real) == Round(r) + k
  {
    var n := Round(r);
    var tie := r - n as real == 1.0 / 2.0 || n as real - r == 1.0 / 2.0;
    if tie {
      assert n == 2 * (n / 2) && k == 2 * (k / 2);
      assert n + k == 2 * (n / 2 + k / 2);
    }
    RoundUnique(r + k as real, n + k);
  }
}

=== FILE: pynumbers.dfy ===
/**
 * Python's `int(s)` and `float(s)` on a string, in base 10: white space around the
 * number is ignored, one sign may lead, and any other text raises `ValueError`.
 */
module PyNumbers {
  import opened Wrappers
  import opened Strings

  predicate AllDigits(s: string)
  {
    forall k :: 0 <= k < |s| ==> '0' <= s[k] <= '9'
  }

  /** A leading '+' or '-' split off: whether it was '-', and the text after it. */
  function SplitSign(s: string): (r: (bool, string))
    ensures r.0 <==> |s| > 0 && s[0] == '-'
    ensures r.1 == s || (|s| > 0 && (s[0] == '-' || s[0] == '+') && r.1 == s[1..])
  {
    if |s| > 0 && (s[0] == '-' || s[0] == '+') then (s[0] == '-', s[1..]) else (false, s)
  }

  /** `n` with the sign read. */
  function Signed(neg: bool, n: nat): int
  {
    if neg then -(n as int) else n
  }

  /** `x` times ten to the power `e`. */
  function Scaled(x: real, e: int): real
    decreases if e >= 0 then e else -e
  {
    if e == 0 then x
    else if e > 0 then 10.0 * Scaled(x, e - 1)
    else Scaled(x, e + 1) / 10.0
  }

  /** The value of the digits after a decimal point: the first is tenths, the next hundredths. */
  function FractionValue(f: string): real
    requires AllDigits(f)
  {
    if f == [] then 0.0 else ((f[0] as int - '0' as int) as real + FractionValue(f[1..])) / 10.0
  }

  /** Python `int(s)`. */
  function ParseInt(s: string): (r: Result<int>)
    ensures r.Err? ==> r.error == ValueError
  {
    var (neg, body) := SplitSign(Strip(s));
    if |body| > 0 && AllDigits(body) then
      Ok(Signed(neg, DigitsToNat(body)))
    else Err(ValueError)
  }

  /** The index of the first 'e' or 'E', or -1 when there is none. */
  function FindExponent(s: string): (i: int)
    ensures -1 <= i < |s|
    ensures i == -1 <==> forall k :: 0 <= k < |s| ==> s[k] != 'e' && s[k] != 'E'
    ensures i >= 0 ==> s[i] == 'e' || s[i] == 'E'
  {
    if |s| == 0 then -1
    else if s[0] == 'e' || s[0] == 'E' then 0
    else
      var k := FindExponent(s[1..]);
      if k == -1 then -1 else k + 1
  }

  /** The exponent after 'e': an optional sign and at least one digit. */
  function ParseExponent(s: string): (r: Result<int>)
    ensures r.Err? ==> r.error == ValueError
  {
    var (neg, body) := SplitSign(s);
    if |body| > 0 && AllDigits(body) then
      Ok(Signed(neg, DigitsToNat(body)))
    else Err(ValueError)
  }

  /** Digits with at most one '.', and at least one digit in all, times ten to `exp`. */
  function ParseMantissa(mant: string, exp: int): (r: Result<real>)
    ensures r.Err? ==> r.error == ValueError
  {
    var dot := Find(mant, '.');
    var whole := if dot < 0 then mant else mant[..dot];
    var frac := if dot < 0 then "" else mant[dot + 1..];
    if AllDigits(whole) && AllDigits(frac) && |whole| + |frac| > 0 then
      Ok(Scaled(DigitsToNat(whole) as real + FractionValue(frac), exp))
    else Err(ValueError)
  }

  /** An unsigned decimal number with an optional exponent. */
  function ParseUnsigned(body: string): (r: Result<real>)
    ensures r.Err? ==> r.error == ValueError
  {
    var e := FindExponent(body);
    if e < 0 then ParseMantissa(body, 0)
    else
      match ParseExponent(body[e + 1..])
      case Ok(x) => ParseMantissa(body[..e], x)
      case Err(err) => Err(err)
  }

  /** The value read after a sign, negated when the sign was '-'. */
  function ApplySign(sign: (bool, string)): (r: Result<real>)
    ensures r.Err? ==> r.error == ValueError
  {
    match ParseUnsigned(sign.1)
    case Ok(v) => Ok(if sign.0 then -v else v)
    case Err(err) => Err(err)
  }

  /** Python `float(s)` on a decimal number, with an optional sign and exponent. */
  function ParseFloat(s: string): (r: Result<real>)
    ensures r.Err? ==> r.error == ValueError
  {
    ApplySign(SplitSign(Strip(s)))
  }

  /** A string that neither starts nor ends with white space is its own `strip()`. */
  lemma {:induction false} StripUnspaced(s: string)
    requires |s| > 0 && !IsSpace(s[0]) && !IsSpace(s[|s| - 1])
    ensures Strip(s) == s
  {
  }

  /** The text `str(i)` writes: an optional '-' and then the digits of the magnitude. */
  function SignText(neg: bool): string
  {
    if neg then "-" else ""
  }

  lemma IntToStringParts(i: int)
    ensures IntToString(i) == SignText(i < 0) + NatToString(if i < 0 then -i else i)
  {
  }

  /** A sign and plain digits, with nothing around them, read as `int()` reads them. */
  lemma {:induction false} ParseIntDigits(neg: bool, w: string)
    requires |w| > 0 && AllDigits(w)
    ensures ParseInt(SignText(neg) + w) == Ok(Signed(neg, DigitsToNat(w)))
  {
    var s := SignText(neg) + w;
    assert Strip(s) == s by {
      assert !IsSpace(s[0]) && !IsSpace(s[|s| - 1]);
      StripUnspaced(s);
    }
    assert SplitSign(s) == (neg, w) by {
      if neg {
        assert s[1..] == w;
      } else {
        assert s == w;
      }
    }
  }

  /** No exponent mark in text made of digits and '.'. */
  lemma {:induction false} NoExponent(s: string)
    requires forall k :: 0 <= k < |s| ==> s[k] == '.' || '0' <= s[k] <= '9'
    ensures FindExponent(s) == -1
  {
  }

  /** A sign, with nothing around it, is read as `float()` reads it. */
  lemma {:induction false} ParseFloatSigned(neg: bool, body: string)
    requires |body| > 0 && !IsSpace(body[|body| - 1]) && body[0] != '-' && body[0] != '+' && !IsSpace(body[0])
    ensures ParseFloat(SignText(neg) + body) == ApplySign((neg, body))
  {
    var s := SignText(neg) + body;
    assert Strip(s) == s by {
      assert !IsSpace(s[0]) && !IsSpace(s[|s| - 1]);
      StripUnspaced(s);
    }
    assert SplitSign(s) == (neg, body) by {
      if neg {
        assert s[1..] == body;
      } else {
        assert s == body;
      }
    }
  }

  /** A value read after the sign comes out negated exactly when the sign was '-'. */
  lemma ApplySignOk(sign: (bool, string), v: real)
    requires ParseUnsigned(sign.1) == Ok(v)
    ensures ApplySign(sign) == Ok(if sign.0 then -v else v)
  {
  }

  /** Digits alone, with no '.' and no exponent, read as their value. */
  lemma {:induction false} UnsignedDigits(w: string)
    requires |w| > 0 && AllDigits(w)
    ensures ParseUnsigned(w) == Ok(DigitsToNat(w) as real)
  {
    NoExponent(w);
    assert Find(w, '.') == -1;
    assert Scaled(DigitsToNat(w) as real + FractionValue(""), 0) == DigitsToNat(w) as real;
  }

  /** Digits, '.', digits, with no exponent, read as their value. */
  lemma {:induction false} UnsignedDecimal(w: string, f: string, v: real)
    requires |w| > 0 && AllDigits(w) && AllDigits(f)
    requires v == DigitsToNat(w) as real + FractionValue(f)
    ensures ParseUnsigned(w + "." + f) == Ok(v)
  {
    var body := w + "." + f;
    NoExponent(body);
    assert body[|w|] == '.' && '.' !in body[..|w|];
    assert Find(body, '.') == |w|;
    assert body[..|w|] == w && body[|w| + 1..] == f;
    assert Scaled(v, 0) == v;
  }

  /** `int()` refuses any text holding a '.', such as the `str` of a float. */
  lemma {:induction false} ParseIntRejectsPoint(s: string, k: nat)
    requires k < |s| && s[k] == '.'
    ensures ParseInt(s).Err?
  {
    var l := LStrip(s);
    LStripSpec(s);
    RStripSpec(l);
    var t := Strip(s);
    assert !IsSpace(s[k]);
    var a := |s| - |l|;
    assert k >= a;
    assert l[k - a] == '.';
    assert k - a < |t|;
    assert t[k - a] == '.';
    var body := SplitSign(t).1;
    var j := if body == t then k - a else k - a - 1;
    assert 0 <= j < |body| && body[j] == '.';
  }
}

=== FILE: rdf.dfy ===
/**
 * The part of rdflib the editor relies on: URI references, blank nodes and literals,
 * a graph as a finite set of triples, Python's `str()`, truth value and numeric
 * conversions of a term, and the vocabulary the diagram files use.
 */
module Rdf {
  import opened Wrappers
  import opened Strings
  import opened PyNumbers
  import opened NumberText
  import Config

  /** The Python value a literal carries. */
  datatype LitValue = Text(s: string) | Integer(i: int) | Double(d: real)

  /** An RDF term; a literal's `dtype` (its datatype IRI) is the empty string when it has none. */
  datatype Term = Iri(iri: string) | Blank(id: string) | Lit(value: LitValue, dtype: string)

  datatype Triple = Triple(s: Term, p: Term, o: Term)

  type Graph = set<Triple>

  const XSD: string := "http://www.w3.org/2001/XMLSchema#"
  const XSD_INTEGER: string := XSD + "integer"
  const XSD_STRING: string := XSD + "string"
  const XSD_FLOAT: string := XSD + "float"
  const XSD_DOUBLE: string := XSD + "double"

  const RDF_TYPE: Term := Iri("http://www.w3.org/1999/02/22-rdf-syntax-ns#type")
  const RDFS_LABEL: Term := Iri("http://www.w3.org/2000/01/rdf-schema#label")

  /** A term of the layout vocabulary, such as `design:hasPosition`. */
  function Design(local: string): Term
  {
    Iri(Config.DESIGN_NS + local)
  }

  const BRICK: string := "https://brickschema.org/schema/Brick#"
  const FEEDS: Term := Iri(BRICK + "feeds")
  const HAS_POINT: Term := Iri(BRICK + "hasPoint")
  const IS_POINT_OF: Term := Iri(BRICK + "isPointOf")

  /** The relationships the editor offers, in the order of its relationship table. */
  const RELATIONSHIPS: seq<Term> := [
    Iri(BRICK + "hasLocation"),
    Iri(BRICK + "isLocationOf"),
    FEEDS,
    Iri(BRICK + "isFedBy"),
    HAS_POINT,
    IS_POINT_OF,
    Iri(BRICK + "hasPart"),
    Iri(BRICK + "isPartOf")
  ]

  /** A literal of type `xsd:integer`. */
  function IntLit(i: int): Term
  {
    Lit(Integer(i), XSD_INTEGER)
  }

  /** Python `str(term)`: the IRI, the blank node's identifier, or the literal's text. */
  function Str(t: Term): string
  {
    match t
    case Iri(s) => s
    case Blank(id) => id
    case Lit(Text(s), _) => s
    case Lit(Integer(i), _) => IntToString(i)
    case Lit(Double(d), _) => RealToString(d)
  }

  /** Python truth value of a term: empty text, the number zero and an empty IRI are false. */
  predicate Truthy(t: Term)
  {
    match t
    case Iri(s) => s != ""
    case Blank(id) => id != ""
    case Lit(Text(s), _) => s != ""
    case Lit(Integer(i), _) => i != 0
    case Lit(Double(d), _) => d != 0.0
  }

  /**
   * Python `float(term)`: every rdflib term is a `str`, so `float` reads its text. The
   * text an integer literal writes reads back as that integer, and the text a float
   * literal writes reads back as a float.
   */
  function ToFloat(t: Term): (r: Result<real>)
    ensures r.Err? ==> r.error == ValueError
    ensures t.Lit? && t.value.Integer? ==> r == Ok(t.value.i as real)
    ensures t.Lit? && t.value.Double? ==> r.Ok?
  {
    if t.Lit? && t.value.Integer? then
      ParseFloatOfString(t.value.i);
      ParseFloat(Str(t))
    else if t.Lit? && t.value.Double? then
      FloatTextReadsBack(t.value.d);
      ParseFloat(Str(t))
    else ParseFloat(Str(t))
  }

  /**
   * Python `int(term)`: `int` reads the term's text, so an integer literal reads back as
   * itself and a float literal, whose text holds a '.', raises `ValueError`.
   */
  function ToInt(t: Term): (r: Result<int>)
    ensures r.Err? ==> r.error == ValueError
    ensures t.Lit? && t.value.Integer? ==> r == Ok(t.value.i)
    ensures t.Lit? && t.value.Double? ==> r.Err?
  {
    if t.Lit? && t.value.Integer? then
      ParseIntOfString(t.value.i);
      ParseInt(Str(t))
    else if t.Lit? && t.value.Double? then
      RealToStringHasPoint(t.value.d);
      ParseInt(Str(t))
    else ParseInt(Str(t))
  }

  /** `g.objects(s, p)`. */
  function Objects(g: Graph, s: Term, p: Term): (r: set<Term>)
    ensures forall o :: o in r <==> Triple(s, p, o) in g
  {
    set t | t in g && t.s == s && t.p == p :: t.o
  }

  /** `g.subjects(p, o)`. */
  function Subjects(g: Graph, p: Term, o: Term): (r: set<Term>)
    ensures forall s :: s in r <==> Triple(s, p, o) in g
  {
    set t | t in g && t.p == p && t.o == o :: t.s
  }
}

=== FILE: relimport.dfy ===
/**
 * Pass 3 of `BuildingCanvas.import_from_graph` (src/app/widgets.py): a straight connection
 * for every Brick relationship between loaded entities that no record of pass 2 drew, and
 * the import as a whole.
 */
module RelationshipImport {
  import Config
  import opened Wrappers
  import opened Strings
  import opened Rdf
  import opened Items
  import opened Persistence
  import opened GraphImport
  import opened ConnectionImport

  /** The key of `processed_relationships` for the relationship triple `t`. */
  function TripleKey(t: Triple): (string, string, string)
  {
    RelationshipKey(t.s, t.p, t.o)
  }

  /** `g.triples((None, p, None))`. */
  function WithPredicate(g: Graph, p: Term): (r: set<Triple>)
    ensures forall t :: t in r <==> t in g && t.p == p
  {
    set t | t in g && t.p == p
  }

  /** A relationship triple of the table between two loaded entities: one pass 3 must see drawn. */
  predicate Candidate(g: Graph, loaded: map<string, nat>, t: Triple)
  {
    t in g && t.p in RELATIONSHIPS && Str(t.s) in loaded && Str(t.o) in loaded
  }

  /** The instance URI pass 3 gives the connection it draws when `n` relationships are processed. */
  function StraightUri(n: nat): Term
  {
    Design("Connection_" + NatToString(n))
  }

  /**
   * The connection pass 3 draws: between the ports of `src` and `tgt`, typed `rel`, with
   * the URI `uri`, the default pen (solid, whatever the relationship), no joints, in the
   * scene, shown, and with the one arrow of its single segment.
   */
  function StraightConnection(src: nat, tgt: nat, rel: Term, uri: Term, c: nat): (r: Connection)
    ensures r.pen.style == SOLID_LINE && r.inScene && r.visible
    ensures Drawn(r)
  {
    Connection(Some(src), Some(tgt), rel, DEFAULT_PEN, [], [Arrow(DEFAULT_PEN, BLACK, true, true)], uri, None, true, true)
  }

  /**
   * The straight connection is what the steps of pass 3 make of a new connection with id
   * `c`: `set_relationship_type` (whose dashed style for the point relationships the default
   * pen then overwrites), the URI, the default pen, `addItem` and `update_position`.
   */
  lemma StraightConnectionSteps(src: nat, tgt: nat, rel: Term, uri: Term, c: nat)
    ensures StraightConnection(src, tgt, rel, uri, c)
      == Redraw(Shown(WithRelationshipType(Redraw(NewRecord(Some(src), Some(tgt), None, c)), rel).(uri := uri), Some(DEFAULT_PEN)))
  {
    var y := Shown(WithRelationshipType(Redraw(NewRecord(Some(src), Some(tgt), None, c)), rel).(uri := uri), Some(DEFAULT_PEN));
    assert ArrowCount(y) == 1;
    assert Redraw(y).arrows == [Arrow(DEFAULT_PEN, BLACK, true, true)];
  }

  /**
   * A straight connection joins the two entities, has the relationship's type, the URI
   * given, the default black, solid pen of width 2, no joints, is in the scene, shown and drawn.
   */
  lemma StraightConnectionSpec(src: nat, tgt: nat, rel: Term, uri: Term, c: nat)
    ensures var r := StraightConnection(src, tgt, rel, uri, c);
      && r.source == Some(src) && r.target == Some(tgt) && r.relType == rel && r.uri == uri
      && r.pen == DEFAULT_PEN && r.pen.style == SOLID_LINE && r.joints == []
      && r.inScene && r.visible && r.endPos.None?
      && Drawn(r)
  {
    var r := StraightConnection(src, tgt, rel, uri, c);
    assert Redraw(r).arrows == r.arrows;
  }

  /**
   * One connection of pass 3: created between the ports of `src` and `tgt`, typed `rel`,
   * given `uri` and the default pen, added to the scene and redrawn.
   */
  method DrawStraight(scene: Scene, src: nat, tgt: nat, rel: Term, uri: Term) returns (c: nat)
    requires scene.Valid()
    modifies scene
    ensures scene.Valid()
    ensures c == old(scene.nextId) && c !in old(scene.conns) && scene.nextId == c + 1
    ensures scene.conns == old(scene.conns)[c := StraightConnection(src, tgt, rel, uri, c)]
    ensures scene.ports == Register(Register(old(scene.ports), Some(src), c), Some(tgt), c)
    ensures scene.entities == old(scene.entities)
  {
    c := scene.NewConnection(Some(src), Some(tgt), None);
    ghost var x0 := Redraw(NewRecord(Some(src), Some(tgt), None, c));
    scene.SetRelationshipType(c, rel);
    UpdateTwice(old(scene.conns), c, x0, WithRelationshipType(x0, rel));
    ghost var x1 := WithRelationshipType(x0, rel);
    scene.SetConnectionUri(c, uri);
    UpdateTwice(old(scene.conns), c, x1, x1.(uri := uri));
    ghost var x2 := x1.(uri := uri);
    ShowConnection(scene, c, Some(DEFAULT_PEN));
    UpdateTwice(old(scene.conns), c, x2, Shown(x2, Some(DEFAULT_PEN)));
    ghost var x3 := Shown(x2, Some(DEFAULT_PEN));
    scene.UpdatePosition(c);
    StraightConnectionSteps(src, tgt, rel, uri, c);
    UpdateTwice(old(scene.conns), c, x3, StraightConnection(src, tgt, rel, uri, c));
  }

  // ---------------------------------------------------------------------------
  // The bookkeeping of pass 3

  /** The keys of the triples of `made`. */
  ghost function KeysOf(made: map<nat, Triple>): set<(string, string, string)>
  {
    set c | c in made :: TripleKey(made[c])
  }

  /**
   * `done` is `processed` (the keys of pass 2) and the key of each triple drawn in pass 3,
   * in `made`; no key of pass 2 is drawn again and no key twice.
   */
  ghost predicate KeysDrawn(processed: set<(string, string, string)>, done: set<(string, string, string)>, made: map<nat, Triple>)
  {
    && done == processed + KeysOf(made)
    && (forall c :: c in made ==> TripleKey(made[c]) !in processed)
    && (forall c, d :: c in made && d in made && c != d ==> TripleKey(made[c]) != TripleKey(made[d]))
  }

  /** The ids of `made` are `n0` up to `next`; the scene holds those and the ids of `c0`, whose entries are unchanged. */
  ghost predicate IdRange<V>(conns: map<nat, V>, c0: map<nat, V>, n0: nat, next: nat, made: map<nat, Triple>)
  {
    && (forall c :: c in made <==> n0 <= c < next)
    && conns.Keys == c0.Keys + made.Keys
    && (forall c :: c in c0 ==> c in conns && conns[c] == c0[c])
  }

  /**
   * Each connection of `made` is the straight connection of its triple, which is a
   * candidate, named after the number of keys processed before it: `base` and one for each
   * connection drawn since `n0`.
   */
  ghost predicate StraightDrawn(conns: map<nat, Connection>, g: Graph, loaded: map<string, nat>, base: nat, n0: nat, made: map<nat, Triple>)
  {
    forall c :: c in made ==>
      && Candidate(g, loaded, made[c]) && n0 <= c && c in conns
      && conns[c] == StraightConnection(loaded[Str(made[c].s)], loaded[Str(made[c].o)], made[c].p, StraightUri(base + c - n0), c)
  }

  /** The state of pass 3 once the connections of `made` are drawn. */
  ghost predicate Pass3(conns: map<nat, Connection>, next: nat, g: Graph, loaded: map<string, nat>,
                        processed: set<(string, string, string)>, done: set<(string, string, string)>, made: map<nat, Triple>,
                        c0: map<nat, Connection>, n0: nat)
  {
    && n0 <= next && (forall c :: c in c0 ==> c < n0)
    && |done| == |processed| + (next - n0)
    && KeysDrawn(processed, done, made)
    && IdRange(conns, c0, n0, next, made)
    && StraightDrawn(conns, g, loaded, |processed|, n0, made)
  }

  lemma KeysDrawnStep(processed: set<(string, string, string)>, done: set<(string, string, string)>, made: map<nat, Triple>, c: nat, t: Triple)
    requires KeysDrawn(processed, done, made) && c !in made && TripleKey(t) !in done
    ensures KeysDrawn(processed, done + {TripleKey(t)}, made[c := t])
  {
    var made' := made[c := t];
    var keys, keys' := KeysOf(made), KeysOf(made');
    forall k | k in keys'
      ensures k in keys + {TripleKey(t)}
    {
      var d :| d in made' && TripleKey(made'[d]) == k;
      if d != c {
        assert d in made && made'[d] == made[d];
      }
    }
    forall k | k in keys
      ensures k in keys'
    {
      var d :| d in made && TripleKey(made[d]) == k;
      assert d in made' && made'[d] == made[d];
    }
    assert TripleKey(made'[c]) in keys';
    forall d, e | d in made' && e in made' && d != e
      ensures TripleKey(made'[d]) != TripleKey(made'[e])
    {
      if d == c {
        assert TripleKey(made[e]) in keys;
      } else if e == c {
        assert TripleKey(made[d]) in keys;
      }
    }
  }

  lemma IdRangeStep<V>(conns: map<nat, V>, c0: map<nat, V>, n0: nat, next: nat, made: map<nat, Triple>, t: Triple, v: V)
    requires IdRange(conns, c0, n0, next, made) && (forall c :: c in c0 ==> c < n0) && n0 <= next
    ensures next !in conns && next !in made
    ensures IdRange(conns[next := v], c0, n0, next + 1, made[next := t])
  {
    assert next !in c0.Keys + made.Keys;
  }

  lemma StraightDrawnStep(conns: map<nat, Connection>, g: Graph, loaded: map<string, nat>, base: nat, n0: nat, made: map<nat, Triple>,
                          next: nat, t: Triple)
    requires StraightDrawn(conns, g, loaded, base, n0, made) && (forall c :: c in made ==> c < next) && n0 <= next
    requires Candidate(g, loaded, t)
    ensures StraightDrawn(conns[next := StraightConnection(loaded[Str(t.s)], loaded[Str(t.o)], t.p, StraightUri(base + next - n0), next)],
                          g, loaded, base, n0, made[next := t])
  {
    var conns' := conns[next := StraightConnection(loaded[Str(t.s)], loaded[Str(t.o)], t.p, StraightUri(base + next - n0), next)];
    var made' := made[next := t];
    forall c | c in made'
      ensures Candidate(g, loaded, made'[c]) && n0 <= c && c in conns'
      ensures conns'[c] == StraightConnection(loaded[Str(made'[c].s)], loaded[Str(made'[c].o)], made'[c].p, StraightUri(base + c - n0), c)
    {
      if c == next {
        assert made'[c] == t;
      } else {
        assert made'[c] == made[c] && conns'[c] == conns[c];
        assert conns[c] == StraightConnection(loaded[Str(made[c].s)], loaded[Str(made[c].o)], made[c].p, StraightUri(base + c - n0), c);
      }
    }
  }

  /** Drawing the triple `t`, a candidate with a new key, keeps the state of pass 3. */
  lemma Pass3Step(conns: map<nat, Connection>, next: nat, g: Graph, loaded: map<string, nat>,
                  processed: set<(string, string, string)>, done: set<(string, string, string)>, made: map<nat, Triple>,
                  c0: map<nat, Connection>, n0: nat, t: Triple)
    requires Pass3(conns, next, g, loaded, processed, done, made, c0, n0)
    requires Candidate(g, loaded, t) && TripleKey(t) !in done
    ensures Pass3(conns[next := StraightConnection(loaded[Str(t.s)], loaded[Str(t.o)], t.p, StraightUri(|done|), next)], next + 1,
                  g, loaded, processed, done + {TripleKey(t)}, made[next := t], c0, n0)
  {
    assert |done + {TripleKey(t)}| == |done| + 1;
    IdRangeStep(conns, c0, n0, next, made, t, StraightConnection(loaded[Str(t.s)], loaded[Str(t.o)], t.p, StraightUri(|done|), next));
    KeysDrawnStep(processed, done, made, next, t);
    assert |done| == |processed| + next - n0;
    StraightDrawnStep(conns, g, loaded, |processed|, n0, made, next, t);
    assert StraightConnection(loaded[Str(t.s)], loaded[Str(t.o)], t.p, StraightUri(|done|), next)
      == StraightConnection(loaded[Str(t.s)], loaded[Str(t.o)], t.p, StraightUri(|processed| + next - n0), next);
  }

  /**
   * The connections of pass 3 have different URIs: each is named after a different number
   * of processed relationships.
   */
  lemma StraightUrisDistinct(conns: map<nat, Connection>, g: Graph, loaded: map<string, nat>, base: nat, n0: nat,
                             made: map<nat, Triple>, c: nat, d: nat)
    requires StraightDrawn(conns, g, loaded, base, n0, made) && c in made && d in made && c != d
    ensures conns[c].uri != conns[d].uri
  {
    var tc, td := made[c], made[d];
    StraightConnectionSpec(loaded[Str(tc.s)], loaded[Str(tc.o)], tc.p, StraightUri(base + c - n0), c);
    StraightConnectionSpec(loaded[Str(td.s)], loaded[Str(td.o)], td.p, StraightUri(base + d - n0), d);
    StraightUriInjective(base + c - n0, base + d - n0);
  }

  /** Different counts give different URIs. */
  lemma StraightUriInjective(m: nat, n: nat)
    ensures StraightUri(m) == StraightUri(n) ==> m == n
  {
    if StraightUri(m) == StraightUri(n) {
      var p := Config.DESIGN_NS + "Connection_";
      assert Config.DESIGN_NS + ("Connection_" + NatToString(m)) == p + NatToString(m);
      assert Config.DESIGN_NS + ("Connection_" + NatToString(n)) == p + NatToString(n);
      assert NatToString(m) == (p + NatToString(m))[|p|..];
      assert NatToString(n) == (p + NatToString(n))[|p|..];
      NatToStringInjective(m, n);
    }
  }

  // ---------------------------------------------------------------------------
  // Pass 3

  /**
   * Pass 3 for the triple `t` of a relationship of the table: skipped unless both ends are
   * loaded and its key is new; otherwise a straight connection named after the number of
   * keys so far, and its key joins `done`.
   */
  method DrawRelationshipStep(scene: Scene, g: Graph, loaded: map<string, nat>, t: Triple,
                              ghost processed: set<(string, string, string)>, done: set<(string, string, string)>,
                              ghost made: map<nat, Triple>, ghost c0: map<nat, Connection>, ghost n0: nat)
    returns (done': set<(string, string, string)>, ghost made': map<nat, Triple>)
    requires scene.Valid() && t in g && t.p in RELATIONSHIPS
    requires Pass3(scene.conns, scene.nextId, g, loaded, processed, done, made, c0, n0)
    modifies scene
    ensures scene.Valid() && scene.entities == old(scene.entities)
    ensures Pass3(scene.conns, scene.nextId, g, loaded, processed, done', made', c0, n0)
    ensures done <= done'
    ensures Candidate(g, loaded, t) ==> TripleKey(t) in done'
  {
    if Str(t.s) !in loaded || Str(t.o) !in loaded {
      return done, made;
    }
    var key := TripleKey(t);
    if key in done {
      return done, made;
    }
    ghost var conns, next := scene.conns, scene.nextId;
    var c := DrawStraight(scene, loaded[Str(t.s)], loaded[Str(t.o)], t.p, StraightUri(|done|));
    done', made' := done + {key}, made[c := t];
    Pass3Step(conns, next, g, loaded, processed, done, made, c0, n0, t);
  }

  /** Pass 3 for one relationship of the table: each of its triples in turn. */
  method DrawRelationshipsOf(scene: Scene, g: Graph, loaded: map<string, nat>, rel: Term,
                             ghost processed: set<(string, string, string)>, done: set<(string, string, string)>,
                             ghost made: map<nat, Triple>, ghost c0: map<nat, Connection>, ghost n0: nat)
    returns (done': set<(string, string, string)>, ghost made': map<nat, Triple>)
    requires scene.Valid() && rel in RELATIONSHIPS
    requires Pass3(scene.conns, scene.nextId, g, loaded, processed, done, made, c0, n0)
    modifies scene
    ensures scene.Valid() && scene.entities == old(scene.entities)
    ensures Pass3(scene.conns, scene.nextId, g, loaded, processed, done', made', c0, n0)
    ensures done <= done'
    ensures forall t :: Candidate(g, loaded, t) && t.p == rel ==> TripleKey(t) in done'
  {
    done', made' := done, made;
    var todo := WithPredicate(g, rel);
    ghost var seen: set<Triple> := {};
    while todo != {}
      invariant scene.Valid() && scene.entities == old(scene.entities)
      invariant forall t :: t in todo ==> t in g && t.p == rel && t !in seen
      invariant forall t :: t in g && t.p == rel ==> t in todo || t in seen
      invariant Pass3(scene.conns, scene.nextId, g, loaded, processed, done', made', c0, n0)
      invariant done <= done'
      invariant forall t :: t in seen && Candidate(g, loaded, t) ==> TripleKey(t) in done'
      decreases |todo|
    {
      var t :| t in todo;
      done', made' := DrawRelationshipStep(scene, g, loaded, t, processed, done', made', c0, n0);
      todo := todo - {t};
      seen := seen + {t};
    }
  }

  /**
   * Pass 3 of `import_from_graph`: for each relationship of the table in order, for each of
   * its triples, a straight connection when both ends are loaded entities and the key is not
   * yet processed. Afterwards every relationship between loaded entities has its key in the
   * result, each key at most once: the ones of pass 2 are not drawn again, and the new ones
   * are drawn once each, with ids from the scene's next id on and a URI apiece.
   */
  method DrawRelationships(scene: Scene, g: Graph, loaded: map<string, nat>, processed: set<(string, string, string)>)
    returns (done: set<(string, string, string)>, ghost made: map<nat, Triple>)
    requires scene.Valid()
    modifies scene
    ensures scene.Valid() && scene.entities == old(scene.entities)
    ensures Pass3(scene.conns, scene.nextId, g, loaded, processed, done, made, old(scene.conns), old(scene.nextId))
    ensures forall t :: Candidate(g, loaded, t) ==> TripleKey(t) in done
  {
    done, made := processed, map[];
    ghost var c0, n0 := scene.conns, scene.nextId;
    assert forall c :: c in c0 ==> c < n0;
    assert KeysOf(made) == {};
    ghost var rels: set<Term> := {};
    for i := 0 to |RELATIONSHIPS|
      invariant scene.Valid() && scene.entities == old(scene.entities)
      invariant Pass3(scene.conns, scene.nextId, g, loaded, processed, done, made, c0, n0)
      invariant forall j :: 0 <= j < i ==> RELATIONSHIPS[j] in rels
      invariant forall t :: Candidate(g, loaded, t) && t.p in rels ==> TripleKey(t) in done
    {
      done, made := DrawRelationshipsOf(scene, g, loaded, RELATIONSHIPS[i], processed, done, made, c0, n0);
      rels := rels + {RELATIONSHIPS[i]};
    }
    forall t | Candidate(g, loaded, t)
      ensures TripleKey(t) in done
    {
      var j :| 0 <= j < |RELATIONSHIPS| && RELATIONSHIPS[j] == t.p;
    }
  }

  // ---------------------------------------------------------------------------
  // The import

  /** Connections that stay as they were keep the connections of pass 2 what their records made them. */
  lemma DrawnFromKept(conns: map<nat, Connection>, conns': map<nat, Connection>, loaded: map<string, nat>,
                      records: map<Term, Reading>, made: map<Term, nat>)
    requires DrawnFrom(conns, loaded, records, made)
    requires forall c :: c in conns ==> c in conns' && conns'[c] == conns[c]
    ensures DrawnFrom(conns', loaded, records, made)
  {
    forall cu | cu in made
      ensures made[cu] in conns' && conns'[made[cu]] == conns[made[cu]]
    {
    }
  }

  /**
   * Pass 1 and the properties pass: a distinct entity for each subject typed by the library,
   * keyed by `str` of the subject, with the subject as its URI, each placed, rotated and
   * labelled from the graph; the entities already in the scene stay as they were.
   */
  method LoadGraphEntities(scene: Scene, g: Graph)
    returns (r: Result<()>, loaded: map<string, nat>, ghost made: map<nat, Triple>,
             ghost rots: map<string, Term>, ghost labs: map<string, Option<Term>>)
    requires scene.Valid()
    modifies scene
    ensures scene.Valid()
    ensures r.Err? ==> r.error == ValueError
    ensures (forall k :: k in LoadedKeys(g) ==> ReadableProperties(g, Iri(k))) ==> r.Ok?
    ensures loaded.Keys == LoadedKeys(g) && Distinct(loaded)
    ensures forall k :: k in loaded ==> loaded[k] in scene.entities && loaded[k] !in old(scene.entities)
    ensures forall e :: e in old(scene.entities) ==> e in scene.entities && scene.entities[e] == old(scene.entities)[e]
    ensures r.Ok? ==> EntitiesImported(g, old(scene.entities), scene.entities, made, loaded, rots, labs)
    ensures scene.conns == old(scene.conns)
  {
    ghost var e0, p0 := scene.entities, scene.ports;
    loaded, made := LoadEntities(scene, g);
    ghost var es1 := scene.entities;
    ReadyAfterLoad(e0, p0, made, loaded);
    r, rots, labs := SetProperties(scene, g, loaded);
    EntitiesImportedAfter(g, e0, es1, scene.entities, made, loaded, rots, labs, r.Ok?);
  }

  /**
   * Passes 2 and 3: the recorded connections between loaded entities, then a straight
   * connection, with ids from `first` on, for each relationship between loaded entities no
   * record drew. Every relationship of the table between loaded entities ends up with its
   * key in `keys`, no key twice, the connections already in the scene stay, and no other
   * connection is added.
   */
  method DrawGraphConnections(scene: Scene, g: Graph, loaded: map<string, nat>)
    returns (r: Result<()>, ghost records: map<Term, Reading>, ghost made: map<Term, nat>,
             ghost keys: set<(string, string, string)>, ghost straight: map<nat, Triple>, ghost first: nat)
    requires scene.Valid()
    modifies scene
    ensures scene.Valid() && scene.entities == old(scene.entities)
    ensures r.Err? ==> r.error == ValueError
    ensures (forall cu :: cu in Subjects(g, RDF_TYPE, CONNECTION) ==> ReadableRecord(g, cu)) ==> r.Ok?
    ensures r.Ok? ==>
      && (forall c :: c in old(scene.conns) ==> c in scene.conns && scene.conns[c] == old(scene.conns)[c])
      && scene.conns.Keys == old(scene.conns).Keys + made.Values + straight.Keys
      && RecordsSeen(g, loaded, records, made, Subjects(g, RDF_TYPE, CONNECTION))
      && DrawnFrom(scene.conns, loaded, records, made)
      && KeysDrawn(ProcessedKeys(records, made), keys, straight)
      && StraightDrawn(scene.conns, g, loaded, |ProcessedKeys(records, made)|, first, straight)
      && (forall t :: Candidate(g, loaded, t) ==> TripleKey(t) in keys)
  {
    keys, straight, first := {}, map[], 0;
    var drawn;
    drawn, records, made := ImportConnections(scene, g, loaded);
    if drawn.Err? {
      return Err(ValueError), records, made, keys, straight, first;
    }
    ghost var c2 := scene.conns;
    first := scene.nextId;
    var processed;
    processed, straight := DrawRelationships(scene, g, loaded, drawn.value);
    keys := processed;
    DrawnFromKept(c2, scene.conns, loaded, records, made);
    r := Ok(());
  }

  /**
   * `import_from_graph`: pass 1 loads an entity for each subject typed by the library, the
   * properties pass places, rotates and labels them, pass 2 draws the recorded connections
   * between loaded entities and pass 3 a straight connection for each relationship between
   * loaded entities no record drew; the result is `True`. Afterwards the entities are as
   * `EntitiesImported` says, every relationship of the table between loaded entities has its
   * key processed, no key twice, what was in the scene before is still there as it was, and
   * the only connections added are those of passes 2 and 3. A number that does not convert
   * raises `ValueError`; a graph whose numbers all convert imports.
   */
  method ImportFromGraph(scene: Scene, g: Graph)
    returns (r: Result<bool>, ghost loaded: map<string, nat>, ghost made: map<nat, Triple>,
             ghost rots: map<string, Term>, ghost labs: map<string, Option<Term>>,
             ghost records: map<Term, Reading>, ghost drawn: map<Term, nat>,
             ghost keys: set<(string, string, string)>, ghost straight: map<nat, Triple>, ghost first: nat)
    requires scene.Valid()
    modifies scene
    ensures scene.Valid()
    ensures r.Err? ==> r.error == ValueError
    ensures ((forall k :: k in LoadedKeys(g) ==> ReadableProperties(g, Iri(k)))
             && (forall cu :: cu in Subjects(g, RDF_TYPE, CONNECTION) ==> ReadableRecord(g, cu)))
      ==> r.Ok?
    ensures loaded.Keys == LoadedKeys(g) && Distinct(loaded)
    ensures forall e :: e in old(scene.entities) ==> e in scene.entities && scene.entities[e] == old(scene.entities)[e]
    ensures r.Ok? ==>
      && r.value
      && EntitiesImported(g, old(scene.entities), scene.entities, made, loaded, rots, labs)
      && (forall c :: c in old(scene.conns) ==> c in scene.conns && scene.conns[c] == old(scene.conns)[c])
      && scene.conns.Keys == old(scene.conns).Keys + drawn.Values + straight.Keys
      && RecordsSeen(g, loaded, records, drawn, Subjects(g, RDF_TYPE, CONNECTION))
      && DrawnFrom(scene.conns, loaded, records, drawn)
      && KeysDrawn(ProcessedKeys(records, drawn), keys, straight)
      && StraightDrawn(scene.conns, g, loaded, |ProcessedKeys(records, drawn)|, first, straight)
      && (forall t :: Candidate(g, loaded, t) ==> TripleKey(t) in keys)
  {
    records, drawn, keys, straight, first := map[], map[], {}, map[], 0;
    var entities, ids;
    entities, ids, made, rots, labs := LoadGraphEntities(scene, g);
    loaded := ids;
    if entities.Err? {
      return Err(ValueError), loaded, made, rots, labs, records, drawn, keys, straight, first;
    }
    var connections;
    connections, records, drawn, keys, straight, first := DrawGraphConnections(scene, g, ids);
    if connections.Err? {
      return Err(ValueError), loaded, made, rots, labs, records, drawn, keys, straight, first;
    }
    r := Ok(true);
  }

}

=== FILE: strings.dfy ===
/**
 * The few Python `str` operations the editor relies on, over `string` (a `seq<char>`):
 * `find`/`rfind` of one character, `split` on one character, `join`, `replace`,
 * `startswith` (Dafny's prefix operator `<=`), `strip`, and `str()` of an integer.
 */
module Strings {

  /** Python `s.find(c)`: the first index of `c`, or -1. */
  function Find(s: string, c: char): (i: int)
    ensures -1 <= i < |s|
    ensures i == -1 <==> c !in s
    ensures i >= 0 ==> s[i] == c && c !in s[..i]
  {
    if |s| == 0 then -1
    else if s[0] == c then 0
    else
      var k := Find(s[1..], c);
      if k == -1 then -1
      else
        assert s[..k + 1] == [s[0]] + s[1..][..k];
        k + 1
  }

  /** Python `s.rfind(c)`: the last index of `c`, or -1. */
  function RFind(s: string, c: char): (i: int)
    ensures -1 <= i < |s|
    ensures i == -1 <==> c !in s
    ensures i >= 0 ==> s[i] == c && forall j :: i < j < |s| ==> s[j] != c
  {
    RFindBelow(s, c, |s|)
  }

  /** The last index below `n` holding `c`, or -1. */
  function RFindBelow(s: string, c: char, n: nat): (i: int)
    requires n <= |s|
    ensures -1 <= i < n
    ensures i == -1 <==> forall j :: 0 <= j < n ==> s[j] != c
    ensures i >= 0 ==> s[i] == c && forall j :: i < j < n ==> s[j] != c
  {
    if n == 0 then -1
    else if s[n - 1] == c then n - 1
    else RFindBelow(s, c, n - 1)
  }

  /** Python `s.split(c)` for a one-character separator: the pieces between the separators. */
  function Split(s: string, c: char): (r: seq<string>)
    ensures |r| >= 1
    ensures forall k :: 0 <= k < |r| ==> c !in r[k]
    decreases |s|
  {
    var i := Find(s, c);
    if i == -1 then [s] else [s[..i]] + Split(s[i + 1..], c)
  }

  /** Python `sep.join(pieces)`. */
  function Join(pieces: seq<string>, sep: string): string
  {
    if |pieces| == 0 then ""
    else if |pieces| == 1 then pieces[0]
    else pieces[0] + sep + Join(pieces[1..], sep)
  }

  /** Joining the pieces of a split with the same separator gives back the string. */
  lemma {:induction false} JoinSplit(s: string, c: char)
    ensures Join(Split(s, c), [c]) == s
    decreases |s|
  {
    var i := Find(s, c);
    if i != -1 {
      var rest := s[i + 1..];
      JoinSplit(rest, c);
      JoinCons(s[..i], Split(rest, c), [c]);
      Around(s, i);
    }
  }

  /** A sequence is what lies before index `i`, the element at `i`, and what lies after it. */
  lemma Around<T>(s: seq<T>, i: nat)
    requires i < |s|
    ensures s == s[..i] + [s[i]] + s[i + 1..]
  {
    assert s == s[..i] + s[i..];
  }

  /** Joining a piece in front of a non-empty list puts one separator between them. */
  lemma JoinCons(p: string, tail: seq<string>, sep: string)
    requires |tail| >= 1
    ensures Join([p] + tail, sep) == p + sep + Join(tail, sep)
  {
    assert ([p] + tail)[1..] == tail;
  }

  /** A split has at least two pieces exactly when the separator occurs. */
  lemma {:induction false} SplitHasTwoPieces(s: string, c: char)
    ensures |Split(s, c)| >= 2 <==> c in s
  {
  }

  /** A separator that occurs exactly once splits the string into the parts before and after it. */
  lemma SplitOnce(s: string, c: char, i: nat)
    requires i < |s| && s[i] == c
    requires c !in s[..i] && c !in s[i + 1..]
    ensures Split(s, c) == [s[..i], s[i + 1..]]
  {
    assert Find(s, c) == i;
    assert Find(s[i + 1..], c) == -1;
  }

  /** The last piece of a join is separated from the join of the others by one separator. */
  lemma {:induction false} JoinLast(pieces: seq<string>, sep: string)
    requires |pieces| >= 2
    ensures Join(pieces, sep) == Join(pieces[..|pieces| - 1], sep) + sep + pieces[|pieces| - 1]
    decreases |pieces|
  {
    if |pieces| > 2 {
      var rest := pieces[1..];
      JoinLast(rest, sep);
      assert rest[..|rest| - 1] == pieces[..|pieces| - 1][1..];
      assert rest[|rest| - 1] == pieces[|pieces| - 1];
    }
  }

  /**
   * Python `s.replace(pat, repl)`: every non-overlapping occurrence of `pat`, scanned from
   * the left, becomes `repl`; an empty `pat` inserts `repl` before every character and at the end.
   */
  function Replace(s: string, pat: string, repl: string): string
    decreases |s|
  {
    if |pat| == 0 then ReplaceEmpty(s, repl)
    else if pat <= s then repl + Replace(s[|pat|..], pat, repl)
    else if |s| == 0 then s
    else [s[0]] + Replace(s[1..], pat, repl)
  }

  function ReplaceEmpty(s: string, repl: string): string
  {
    if |s| == 0 then repl else repl + [s[0]] + ReplaceEmpty(s[1..], repl)
  }

  /** `pat` occurs in `s` starting at index `i`. */
  predicate OccursAt(s: string, pat: string, i: nat)
  {
    i + |pat| <= |s| && s[i..i + |pat|] == pat
  }

  /** A string in which a non-empty `pat` never occurs is left as it is by `replace`. */
  lemma {:induction false} ReplaceAbsent(s: string, pat: string, repl: string)
    requires |pat| > 0
    requires forall i: nat :: i <= |s| ==> !OccursAt(s, pat, i)
    ensures Replace(s, pat, repl) == s
    decreases |s|
  {
    assert pat <= s ==> OccursAt(s, pat, 0);
    if |s| > 0 {
      AbsentInTail(s, pat);
      ReplaceAbsent(s[1..], pat, repl);
      assert s == [s[0]] + s[1..];
    }
  }

  /** A `pat` that never occurs in `s` never occurs in what follows its first character. */
  lemma AbsentInTail(s: string, pat: string)
    requires |s| > 0
    requires forall i: nat :: i <= |s| ==> !OccursAt(s, pat, i)
    ensures forall i: nat :: i <= |s[1..]| ==> !OccursAt(s[1..], pat, i)
  {
    forall i: nat | i <= |s[1..]|
      ensures !OccursAt(s[1..], pat, i)
    {
      assert !OccursAt(s, pat, i + 1);
      if i + |pat| <= |s[1..]| {
        assert s[1..][i..i + |pat|] == s[i + 1..i + 1 + |pat|];
      }
    }
  }

  /** A string that starts with a non-empty `pat` has that prefix replaced by `repl`. */
  lemma ReplacePrefix(pat: string, rest: string, repl: string)
    requires |pat| > 0
    ensures Replace(pat + rest, pat, repl) == repl + Replace(rest, pat, repl)
  {
    assert pat <= pat + rest;
    assert (pat + rest)[|pat|..] == rest;
  }

  /** Replacing a string by itself changes nothing. */
  lemma {:induction false} ReplaceSame(s: string, pat: string)
    ensures Replace(s, pat, pat) == s
    decreases |s|
  {
    if |pat| == 0 {
      ReplaceEmptyNothing(s);
    } else if pat <= s {
      ReplaceSame(s[|pat|..], pat);
      assert s == pat + s[|pat|..];
    } else if |s| > 0 {
      ReplaceSame(s[1..], pat);
      assert s == [s[0]] + s[1..];
    }
  }

  lemma {:induction false} ReplaceEmptyNothing(s: string)
    ensures ReplaceEmpty(s, "") == s
    decreases |s|
  {
    if |s| > 0 {
      ReplaceEmptyNothing(s[1..]);
      assert s == [s[0]] + s[1..];
    }
  }

  /** Python `str.isspace()` for one character. */
  predicate IsSpace(ch: char)
  {
    ch == ' ' || '\t' <= ch <= '\r' || '\U{001C}' <= ch <= '\U{001F}' || ch == '\U{0085}' || ch == '\U{00A0}'
    || ch == '\U{1680}' || '\U{2000}' <= ch <= '\U{200A}' || ch == '\U{2028}' || ch == '\U{2029}'
    || ch == '\U{202F}' || ch == '\U{205F}' || ch == '\U{3000}'
  }

  /** Python `s.lstrip()`: leading white space removed. */
  function LStrip(s: string): (r: string)
    ensures |r| <= |s|
  {
    if |s| > 0 && IsSpace(s[0]) then LStrip(s[1..]) else s
  }

  /** Python `s.rstrip()`: trailing white space removed. */
  function RStrip(s: string): (r: string)
    ensures |r| <= |s|
  {
    if |s| > 0 && IsSpace(s[|s| - 1]) then RStrip(s[..|s| - 1]) else s
  }

  /** Python `s.strip()`: leading and trailing white space removed. */
  function Strip(s: string): (r: string)
    ensures |r| <= |s|
  {
    RStrip(LStrip(s))
  }

  /** `lstrip` drops a prefix made only of white space and stops at the first other character. */
  lemma {:induction false} LStripSpec(s: string)
    ensures LStrip(s) == s[|s| - |LStrip(s)|..]
    ensures LStrip(s) == "" || !IsSpace(LStrip(s)[0])
    ensures forall k :: 0 <= k < |s| - |LStrip(s)| ==> IsSpace(s[k])
    decreases |s|
  {
    if |s| > 0 && IsSpace(s[0]) {
      LStripSpec(s[1..]);
      assert s[1..][|s| - 1 - |LStrip(s)|..] == s[|s| - |LStrip(s)|..];
      forall k | 0 <= k < |s| - |LStrip(s)|
        ensures IsSpace(s[k])
      {
        if k > 0 {
          assert s[k] == s[1..][k - 1];
        }
      }
    }
  }

  /** `rstrip` drops a suffix made only of white space and stops at the last other character. */
  lemma {:induction false} RStripSpec(s: string)
    ensures RStrip(s) == s[..|RStrip(s)|]
    ensures RStrip(s) == "" || !IsSpace(RStrip(s)[|RStrip(s)| - 1])
    ensures forall k :: |RStrip(s)| <= k < |s| ==> IsSpace(s[k])
    decreases |s|
  {
    if |s| > 0 && IsSpace(s[|s| - 1]) {
      var t := s[..|s| - 1];
      RStripSpec(t);
      assert t[..|RStrip(s)|] == s[..|RStrip(s)|];
      forall k | |RStrip(s)| <= k < |s|
        ensures IsSpace(s[k])
      {
        if k < |s| - 1 {
          assert s[k] == t[k];
        }
      }
    }
  }

  /**
   * `strip` leaves a string that neither starts nor ends with white space, and leaves
   * nothing exactly when the string is all white space.
   */
  lemma StripSpec(s: string)
    ensures Strip(s) == "" || (!IsSpace(Strip(s)[0]) && !IsSpace(Strip(s)[|Strip(s)| - 1]))
    ensures Strip(s) == "" <==> forall k :: 0 <= k < |s| ==> IsSpace(s[k])
  {
    var l := LStrip(s);
    var r := Strip(s);
    LStripSpec(s);
    RStripSpec(l);
    if r != "" {
      assert r[0] == l[0];
    }
    if r == "" {
      assert l == "";
    } else {
      assert !IsSpace(s[|s| - |l|]);
    }
  }

  function Digit(d: nat): char
    requires d < 10
  {
    "0123456789"[d]
  }

  /** Python `str(n)` for a natural number. */
  function NatToString(n: nat): (r: string)
    ensures |r| >= 1
    ensures forall k :: 0 <= k < |r| ==> '0' <= r[k] <= '9'
  {
    if n < 10 then [Digit(n)] else NatToString(n / 10) + [Digit(n % 10)]
  }

  /** Python `int(s)` for a string of decimal digits. */
  function DigitsToNat(s: string): nat
    requires forall k :: 0 <= k < |s| ==> '0' <= s[k] <= '9'
  {
    if s == [] then 0 else DigitsToNat(s[..|s| - 1]) * 10 + (s[|s| - 1] as int - '0' as int)
  }

  /** `int(str(n)) == n`: reading back the digits of `n` gives `n`. */
  lemma {:induction false} NatToStringRoundTrip(n: nat)
    ensures DigitsToNat(NatToString(n)) == n
  {
    if n >= 10 {
      var s := NatToString(n / 10);
      var r := NatToString(n);
      assert r == s + [Digit(n % 10)];
      assert r[..|r| - 1] == s;
      NatToStringRoundTrip(n / 10);
    }
  }

  /** Different numbers have different decimal strings. */
  lemma NatToStringInjective(a: nat, b: nat)
    ensures NatToString(a) == NatToString(b) ==> a == b
  {
    NatToStringRoundTrip(a);
    NatToStringRoundTrip(b);
  }

  /** Python `str(i)` for an integer. */
  function IntToString(i: int): string
  {
    if i < 0 then "-" + NatToString(-i) else NatToString(i)
  }
}

=== FILE: wrappers.dfy ===
/** Option and Result values standing in for Python's `None` and for raised exceptions. */
module Wrappers {

  datatype Option<+T> = None | Some(value: T)

  /** The Python exception classes the modelled code raises. */
  datatype PyError = ValueError | TypeError | AttributeError

  /** A value, or the exception that the Python code raises instead of returning one. */
  datatype Result<+T> = Ok(value: T) | Err(error: PyError)
}
